=== FILE: README.md ===
# Financial voucher system: ledger engine, validators and admin rules

This project is a Dafny model of the core of a small double-entry bookkeeping
application. Its vouchers are Voucher Payables (VP) and Check Vouchers (CV).
The model covers three parts.

- **The ledger engine.** It has five parts:
  - the chart of accounts (`AccountRegistry`);
  - transaction headers with their per-type, per-year numbering
    (`LedgerHeaders`, `Numbering`);
  - debit/credit lines (`EntryLines`);
  - subsidiary-code lines (`SubLines`);
  - the accounting service that creates, voids, reads and searches whole
    transactions (`Accounting`).

  A second creation path over the same tables, with its own `VP-2025-001`
  numbering and VP settlement, is `Vouchers`.
- **Pure validators and calculators.** These are `Security` (salted hashing
  and password strength) and `Helpers` (truncation, masking, pagination, the
  financial-year label, phone and file-name rules, and the helper number
  generator).
- **Admin rules.** `Users` covers user creation, login with its lockout
  counter, update/delete permissions, and the availability of usernames and
  emails. `Companies` covers the company create/update/delete guards.

The database is one immutable value, `Books.Db`. It holds four tables, each a
`seq` in row-id order: accounts, headers, entry lines and subsidiary lines.

- Every SQL query is a filter, fold, group or sort over that value
  (`Tables`, `Order`).
- Every write is a function returning the new value or an error.
- Amounts are integers in ten-thousandths of the currency unit
  (`FinePerCent = 100`). Rounding to cents with ROUND_HALF_UP is
  `Money.Quantize`.
- Dates are plain values (`Dates`). The wall clock is a parameter.

Where a source bug was found, the model keeps both versions behind
`Accounting.Policy`: `AsWritten` behaves like the code, `Corrected` behaves
as evidently intended (see "## Findings").

The source compares money as floats: `abs(a - b) < 0.01`. The model does not
fix one float reading. It takes the comparison as a parameter `close` of type
`Money.Tolerance`. Any such reading must pass every gap under a cent and
refuse every gap over a cent; a gap of exactly one cent may go either way,
because in floats `abs(10.01 - 10.0)` is just under 0.01 while
`abs(0.02 - 0.01)` is not. The as-written checks use `close`; the corrected
ones compare whole cents exactly.

## Model

| member | source | states |
|---|---|---|
| Money.Quantize | services/accounting_service.py:59 | The result is a whole number of cents within half a cent of the input; an exact half-cent tie rounds away from zero (ROUND_HALF_UP) |
| Money.QuantizeUnique | services/accounting_service.py:530-532 | Any whole-cent value within half a cent of the input, with ties away from zero, is the quantised value: rounding is fully determined |
| Money.QuantizeIdempotent | services/accounting_service.py:530-532 | Quantising an already quantised amount changes nothing |
| Money.QuantizeNegate | services/accounting_service.py:530-532 | ROUND_HALF_UP is symmetric: quantising the negation is the negated quantisation |
| Money.WithinCentOfWholeCents | services/accounting_service.py:535-539 | Read exactly, `abs(a - b) < 0.01` between whole-cent amounts is equality; the corrected checks use this reading |
| Money.ToleranceNearExact | services/accounting_service.py:535-539 | Every admissible float reading of `abs(a - b) < 0.01` passes gaps under a cent and agrees with the exact reading everywhere except at a gap of exactly one cent |
| Money.ToleranceOfWholeCents | services/accounting_service.py:535-539 | Between whole-cent amounts every admissible reading passes equal amounts, and passes unequal ones only when they are exactly one cent apart |
| Money.OneCentReadingAdmitted | services/accounting_service.py:535-539 | Passing a one-cent gap, as the float `abs(10.01 - 10.0)` does, is an admissible reading |
| AccountRegistry.Create | models/account_definition.py:18-52 | Insert succeeds iff no row (active or not) already has the code (UNIQUE); the new active account is appended and nothing else changes |
| AccountRegistry.GetByCode | models/account_definition.py:54-62 | Returns an account iff an active row has the code; the row returned is that active row |
| AccountRegistry.GetAll | models/account_definition.py:74-97 | Exactly the accounts of the requested type, inactive ones only when asked, each as often as the table holds it, ordered by (type, code) |
| AccountRegistry.GetPayees | models/account_definition.py:307-315 | Exactly the active Company/Customer/Employee accounts, each as often as the table holds it, ordered by description |
| AccountRegistry.Update | models/account_definition.py:121-144 | An update with no allowed field fails; otherwise only the row with that id changes, only in description/type/prefix/active, and its code never changes |
| AccountRegistry.UpdateByCode | models/account_definition.py:146-169 | Same allow-list as `update`, applied to the rows with that code; other rows and tables are unchanged |
| AccountRegistry.SoftDelete | models/account_definition.py:171-181 | Only the active flag of the row with that id is cleared; every row stays |
| AccountRegistry.SoftDeleteByCode | models/account_definition.py:183-193 | Only the active flag of rows with that code is cleared; every row stays |
| AccountRegistry.IsCodeAvailable | models/account_definition.py:213-223 | True iff every row holding the code (active or not) is the excluded id |
| AccountRegistry.ValidateAccountCode | models/account_definition.py:293-305 | Valid iff non-empty, at most 50 characters and not taken; the messages come in the order required, too long, already exists |
| AccountRegistry.GetAccountsByCategory | models/account_definition.py:247-258 | Buckets have distinct types; each holds exactly the listed accounts of its type, and every listed account lands in a bucket |
| AccountRegistry.CreateThenGetByCode | models/account_definition.py:34-62 | A created account is exactly what the lookup by its code returns |
| AccountRegistry.CreateKeepsCodesUnique | models/account_definition.py:18-52 | Creation keeps account codes unique |
| AccountRegistry.SoftDeleteHidesButKeepsCode | models/account_definition.py:171-223 | After a soft delete the code is invisible to lookup but still unavailable, and creating it again fails |
| AccountRegistry.UpdateKeepsCodesUnique | models/account_definition.py:121-144 | An update never breaks code uniqueness |
| AccountRegistry.ValidCodeCanBeCreated | models/account_definition.py:293-305 | A code that validates can always be inserted |
| Numbering.SplitLedgerNumber | models/ledger.py:68-69 | A `1-{seq:03d}-{year}` number splits on `-` into "1", the padded sequence and the year |
| Numbering.LedgerNumberShape | models/ledger.py:60-69 | A generated number ends in `-{year}`, has three parts, and its middle part parses back to the sequence |
| Numbering.NextSequence | models/ledger.py:47-66 | The next sequence is at least 1, and exactly 1 when no header of that type and year exists |
| Numbering.GenerateNumber | models/ledger.py:41-69 | The generated number is `1-{seq:03d}-{year}`, and its middle part parses back to `NextSequence` |
| Numbering.NextSequenceIsMaxPlusOne | models/ledger.py:47-66 | When the rows of that type and year hold well-formed numbers, the next sequence exceeds every one of their middle values, and is 1 or one more than one of them |
| Numbering.FreshWithinKind | models/ledger.py:48-56 | When the rows of that type and year hold well-formed numbers, a generated number differs from every existing number of the same type |
| Numbering.CrossKindCollision | models/ledger.py:24 | With only the first VP of 2025 present, the first CV of 2025 gets the same number, which the global UNIQUE constraint refuses |
| Numbering.SharedSequence | models/ledger.py:47-66 | The corrected sequence exceeds the middle value of every header of that year, whatever its type |
| Numbering.SharedNumber | models/ledger.py:60-69 | The corrected number has the `1-{seq:03d}-{year}` shape and parses back to the shared sequence |
| Numbering.SharedNumberFresh | models/ledger.py:24 | The corrected number differs from every existing number, of either type |
| Numbering.SplitVoucherNumber | services/voucher_service.py:347-351 | A `{type}-{year}-{seq:03d}` number splits into type, year and padded sequence |
| Numbering.TextTop | services/voucher_service.py:335-345 | `ORDER BY number DESC LIMIT 1`: the chosen row has the textually greatest number |
| Numbering.TextTopNumber | services/voucher_service.py:335-345 | Any row whose number is textually greatest has the number the query picks |
| Numbering.YearRows | services/voucher_service.py:335-345 | Exactly the headers of that type whose date is in that year |
| Numbering.VoucherNextSequence | services/voucher_service.py:329-351 | The next sequence is at least 1, and 1 when no header of that type and year exists |
| Numbering.VoucherGenerate | services/voucher_service.py:329-351 | The voucher number is `{type}-{year}-{seq:03d}` and its last part parses back to the next sequence |
| Numbering.VoucherGenerateAfter | services/voucher_service.py:346-349 | When the textually greatest number of the year is sequence k, the next number is sequence k + 1 |
| Numbering.TextOrderRepeatsNumber | services/voucher_service.py:335-345 | With `-999` and `-1000` stored, text order picks `-999` and the generator returns the existing `-1000` |
| Numbering.VoucherSequence | services/voucher_service.py:329-351 | The corrected sequence exceeds the numeric last part of every voucher-shaped number of that type and year, and is 1 or one more than one of them |
| Numbering.CorrectedVoucherNumber | utils/helpers.py:37-49 | The corrected voucher number has the `{type}-{year}-{seq:03d}` shape and parses back to the corrected sequence |
| Numbering.CorrectedVoucherNumberFresh | services/voucher_service.py:329-351 | The corrected voucher number differs from every existing number |
| Numbering.HelperNumber | utils/helpers.py:17-54 | With no header of that type and year the helper returns sequence 1; whenever the helper's sequence is not negative, the number is `{type}-{year}-{seq:03d}` of that sequence |
| Numbering.HelperSequence | utils/helpers.py:37-47 | `COALESCE(MAX(...), 0) + 1`: 1 with no row of that type and year; otherwise above the value read from every such row, and one more than one of them |
| Numbering.HelperSequenceIsOneMinusLeast | utils/helpers.py:37-47 | When every row of that type and year holds a generated number, the helper's sequence is 1 minus the least stored sequence, so it never exceeds 1 |
| Numbering.HelperReadsNegatedSequence | utils/helpers.py:37-41 | `SUBSTR(number, LENGTH(type)+6)` starts at the `-` before the sequence, so CAST reads sequence k as -k |
| Numbering.HelperReadsSignedSuffix | utils/helpers.py:37-49 | After `VP-2025-001` the helper returns `VP-2025-000`, while the corrected generator returns `VP-2025-002` |
| Text.ContainsThenLike | models/ledger.py:301-303 | Whenever the term occurs in the text (ignoring ASCII case), `LIKE '%term%'` matches, whatever wildcards the term holds |
| Text.LikeIsContains | models/ledger.py:301-303 | For a term without `%` or `_`, `LIKE '%term%'` holds exactly when the term occurs in the text, ignoring ASCII case |
| Text.UnderscoreMatchesAnyCharacter | models/ledger.py:301-303 | `_` in a term stands for any one character: `1_001` finds `1-001-2025`, which does not contain `1_001` |
| Text.LikeSelf | models/ledger.py:301-303 | Every text is `LIKE '%' || itself || '%'`, whatever its case and wildcards |
| Text.SqlCastInteger | utils/helpers.py:39-41 | SQLite `CAST(... AS INTEGER)`: an optional sign followed by the leading digits; 0 when there are none |
| LedgerHeaders.AssignedNumber | models/ledger.py:81-83 | A given number is kept; otherwise a generated `…-{year}` number is used |
| LedgerHeaders.Create | models/ledger.py:75-104 | Insert succeeds iff the assigned number is not taken; the new header is appended and the other tables are unchanged |
| LedgerHeaders.CreateKeepsHeadersWellKept | models/ledger.py:75-104 | Creation keeps numbers unique and header ids below the next id |
| LedgerHeaders.CreateGeneratedFreshWithinKind | models/ledger.py:75-104 | When all headers are of the new header's type, a generated number can always be inserted |
| LedgerHeaders.CreateGeneratedKeepsWellFormed | models/ledger.py:75-104 | Creating with a generated number keeps every stored number well formed, so the freshness lemmas' requirement holds for tables filled that way |
| LedgerHeaders.GetByNumber | models/ledger.py:116-124 | Some iff a header has the number, and the header returned has it |
| LedgerHeaders.GetByNumberUnique | models/ledger.py:116-124 | With unique numbers, the lookup returns exactly the header holding the number |
| LedgerHeaders.CreateThenGetByNumber | models/ledger.py:75-124 | A created header is what the lookup by its assigned number returns |
| LedgerHeaders.HeaderById | models/ledger.py:106-114 | Some iff a header has the id, and the header returned has it |
| LedgerHeaders.NewestFirstOrder | models/ledger.py:155 | `ORDER BY date DESC, number DESC`: an earlier row is never older, and on the same date its number is not smaller |
| LedgerHeaders.Listing | models/ledger.py:130-155 | Exactly the headers passing the type/status/date filters, each as often as the table holds it, by date then number, both descending |
| LedgerHeaders.GetAll | models/ledger.py:126-165 | With a non-zero limit, exactly the rows at positions `[offset, offset+limit)` of the listing (no upper bound for a negative limit, offset 0 for a negative one); with neither, the whole listing; an offset without a limit gives no rows |
| LedgerHeaders.GetOverdue | models/ledger.py:197-209 | Exactly the active headers due before the date, each as often as the table holds it, sorted by due date |
| LedgerHeaders.GetOverdueEarliestFirst | models/ledger.py:197-209 | In the overdue list, due dates never decrease |
| LedgerHeaders.IsNumberAvailable | models/ledger.py:413-423 | True iff every header with the number is the excluded id; without exclusion, iff the number is not taken |
| LedgerHeaders.AvailableNumberCanBeCreated | models/ledger.py:75-104 | An available non-empty number can always be inserted |
| LedgerHeaders.Update | models/ledger.py:211-235 | An update with no allowed field fails; otherwise only the header with that id changes, and only in payee code, payee, total, description, due date and status |
| LedgerHeaders.UpdateByNumber | models/ledger.py:237-261 | Same allow-list as `update`, applied to the header with that number |
| LedgerHeaders.UpdateKeepsNumbers | models/ledger.py:211-235 | An update never changes which numbers exist, and keeps the headers well kept |
| LedgerHeaders.UpdateCanReactivate | models/ledger.py:211-235 | Because status is on the allow-list, a void header can be set back to active |
| LedgerHeaders.VoidById | models/ledger.py:283-293 | Only the status of the header with that id becomes void; lines, subsidiary lines and accounts are untouched |
| LedgerHeaders.VoidIdempotent | models/ledger.py:283-293 | Voiding twice is the same as voiding once |
| LedgerHeaders.Delete | models/ledger.py:263-281 | Removes the header with that id and every line and subsidiary line of its number; nothing changes for an unknown id |
| LedgerHeaders.DeleteLeavesNoOrphans | models/ledger.py:263-281 | After a delete no line or subsidiary line refers to the deleted number, and the number is free again |
| LedgerHeaders.GetTotalByPayee | models/ledger.py:440-466 | Each row totals the active headers of one payee in the window; every such payee appears, exactly once per (payee code, payee); rows by total descending |
| LedgerHeaders.GetTotalByPayeeSum | models/ledger.py:440-466 | The per-payee totals add up to the total of all active headers in the window |
| LedgerHeaders.Search | models/ledger.py:295-311 | Exactly the headers whose number, payee or description is `LIKE '%term%'` (with `%` and `_` in the term acting as wildcards) and that pass the type filter, each as often as the table holds it, newest first |
| LedgerHeaders.SearchFindsOwnNumber | models/ledger.py:295-311 | A header is found by its own number iff it passes the type filter |
| EntryLines.Create | models/ledger_credit_debit.py:36-65 | Insert succeeds iff the side is `D` or `C`; the new line is appended and nothing else changes |
| EntryLines.CreateMultiple | models/ledger_credit_debit.py:67-101 | Succeeds iff the list is non-empty and every side is valid; then every entry is appended in order, otherwise nothing is written |
| EntryLines.InsertedSigned | models/ledger_credit_debit.py:67-101 | Inserted lines carry the same signed sum as the entries they came from |
| EntryLines.Update | models/ledger_credit_debit.py:219-247 | Fails when empty or when the new side is invalid; otherwise only code, description, amount and side of that line change |
| EntryLines.GetByNumber | models/ledger_credit_debit.py:110-117 | Exactly the lines of the number, each as often as the table holds it, ordered by side then account code |
| EntryLines.CreditsBeforeDebits | models/ledger_credit_debit.py:110-117 | `ORDER BY acct_type` puts every credit line before every debit line |
| EntryLines.DebitsMinusCredits | models/ledger_credit_debit.py:265-294 | Debits minus credits is the signed sum of the lines |
| EntryLines.LinesOf | models/ledger_credit_debit.py:265-294 | Exactly the lines of the number, each as often as the table holds it |
| EntryLines.ValidateEntryBalance | models/ledger_credit_debit.py:265-294 | Reports the debit and credit sums of the number and their distance; `balanced` is the float test `difference < 0.01`: true when the sums are under a cent apart, false when over a cent |
| EntryLines.NoLinesReadsBalanced | models/ledger_credit_debit.py:265-294 | A number with no lines at all is reported balanced with zero totals |
| EntryLines.AccountLines | models/ledger_credit_debit.py:296-323 | Exactly the lines of the account dated on or before the cut-off, each as often as the table holds it |
| EntryLines.GetAccountBalance | models/ledger_credit_debit.py:296-332 | Balance is debits minus credits over the account's lines up to the date, whatever the header status |
| EntryLines.GetByAccount | models/ledger_credit_debit.py:119-140 | Exactly the account's lines in the window joined with their header, newest first; a line without a header is dropped by the join |
| EntryLines.LinesUpTo | models/ledger_credit_debit.py:334-352 | Exactly the lines dated on or before the cut-off, each as often as the table holds it |
| EntryLines.TrialGroups | models/ledger_credit_debit.py:334-352 | One aggregate row per (code, description), no two rows sharing a pair, each summing exactly its group |
| EntryLines.GetTrialBalance | models/ledger_credit_debit.py:334-372 | Every row aggregates its (code, description) group and has activity; every active group appears, and no (code, description) has two rows; rows ordered by code |
| EntryLines.TrialBalanceTotals | models/ledger_credit_debit.py:334-372 | The rows' debit and credit columns add up to all debits and credits up to the date |
| EntryLines.VoidInvisibleToBalances | models/ledger_credit_debit.py:298-343 | Changing only headers (for example voiding) leaves the trial balance and every account balance unchanged |
| SubLines.CreateMultiple | models/ledger_subcodes.py:63-92 | Succeeds iff the list is non-empty; then every entry is appended in order |
| SubLines.Update | models/ledger_subcodes.py:202-226 | An empty update fails; otherwise only the allowed fields of that row change |
| SubLines.DeleteByNumber | models/ledger_subcodes.py:236-242 | Removes exactly the subsidiary lines of the number and keeps all others |
| SubLines.GetByNumber | models/ledger_subcodes.py:101-108 | Exactly the subsidiary lines of the number, each as often as the table holds it, ordered by account code then subsidiary code |
| SubLines.DeleteByNumberScope | models/ledger_subcodes.py:236-242 | After the delete that number has no subsidiary lines and every other number's lines are unchanged |
| SubLines.Scoped | models/ledger_subcodes.py:255-268 | Exactly the subsidiary lines passing the optional account and date filters, each as often as the table holds it |
| SubLines.GetSubsidiaryTotals | models/ledger_subcodes.py:244-285 | Exactly one row per (subsidiary code, description) of the filtered lines, no pair repeated, with its count and sum; largest total first |
| SubLines.SubsidiaryTotalsPartition | models/ledger_subcodes.py:244-285 | The groups partition the filtered lines: counts add up to the number of lines, totals to their sum |
| SubLines.GetAccountSubsidiaryBreakdown | models/ledger_subcodes.py:287-290 | The same grouping as the totals, restricted to the account: one row per (subsidiary code, description) |
| SubLines.ValidateSubsidiaryTotal | models/ledger_subcodes.py:323-350 | Compares the line total of (number, account) with its subsidiary total by the float test: under a cent apart passes, over a cent fails; for whole cents equal totals pass, and a pass means equal or exactly one cent apart |
| SubLines.SideBlind | models/ledger_subcodes.py:323-350 | The comparison ignores the debit/credit side of the lines |
| SubLines.NothingReadsBalanced | models/ledger_subcodes.py:332-341 | With neither lines nor subsidiary lines for the pair, both totals count as 0 and it reads balanced |
| SubLines.Search | models/ledger_subcodes.py:392-406 | Exactly the subsidiary lines whose subsidiary code, subsidiary description, account code or account description is `LIKE '%term%'` (with `%` and `_` in the term acting as wildcards), joined with their header, newest first |
| Accounting.LineInputs | services/accounting_service.py:92-107 | One line input per requested line, with the amount rounded to cents and every other field copied |
| Accounting.SubInputs | services/accounting_service.py:135-152 | One subsidiary input per requested line, with the amount rounded to cents |
| Accounting.RoundedSumsWhole | services/accounting_service.py:92-107 | Sums of per-line rounded amounts are whole cents |
| Accounting.ValidateCreditDebitBalance | services/accounting_service.py:516-545 | On the quantised sums: as written, exactly balanced sums always pass and a pass means debits and credits, and one of them and the total, are at most a cent apart; corrected, true iff debits equal credits and one of them equals the total |
| Accounting.LineInputsSigned | services/accounting_service.py:92-107 | The stored signed sum is rounded debits minus rounded credits |
| Accounting.DefaultsBalanced | services/accounting_service.py:109-129 | The default VP pair (Dr 5000 / Cr 2000) and CV pair (Dr 2000 / Cr bank, default 1010) have valid sides and net to zero |
| Accounting.NextNumber | services/accounting_service.py:62 | The number as written is `generate_number`; the corrected one is never taken |
| Accounting.Post | services/accounting_service.py:70-176 | Header, lines and subsidiary lines are written together iff the number is free, there are lines and every side is valid; otherwise nothing is written and the error names the failed step |
| Accounting.PostPayable | services/accounting_service.py:70-176 | A VP post appends the VP header, its lines and its subsidiary lines, and leaves accounts unchanged |
| Accounting.CreateVoucherPayable | services/accounting_service.py:31-180 | Fails for an unknown payee, then for supplied lines that do not balance; with the corrected numbering it never fails on the insert; on success gives the number, the message and the audit event |
| Accounting.PayableStored | services/accounting_service.py:70-152 | A created VP appended exactly its header, lines and subsidiary lines |
| Accounting.PayableDefaultPair | services/accounting_service.py:109-129 | With no lines given, exactly two lines are written: Debit 5000 and Credit 2000, both for the rounded total |
| Accounting.CheckDescription | services/accounting_service.py:231-236 | The description starts from the given one or "Check payment to …", then gets " - Check #…" or " - Payment for …" |
| Accounting.PayableReference | services/accounting_service.py:219-224 | No error iff no VP is linked or the linked number is a VP header; "not found" iff the linked number does not exist |
| Accounting.PostCheck | services/accounting_service.py:238-349 | A CV post appends the CV header, its lines and its subsidiary lines, and leaves accounts unchanged |
| Accounting.CreateCheckVoucher | services/accounting_service.py:182-352 | Fails for an unknown payee, then an unknown or non-VP link, then lines the validator refuses; `NotAPayable` exactly when the payee exists and the linked number holds a non-VP header, `Unbalanced` exactly when payee and link pass and the non-empty lines fail the validator; never marks the VP paid; on success gives the number, the message and the audit event |
| Accounting.CheckStoredHeader | services/accounting_service.py:238-257 | A created CV appended its header and left earlier headers, including a linked VP, unchanged |
| Accounting.CheckStoredLines | services/accounting_service.py:259-304 | A created CV appended exactly its lines |
| Accounting.CheckStoredSubs | services/accounting_service.py:306-323 | A created CV appended exactly its subsidiary lines |
| Accounting.CheckIsPostCheck | services/accounting_service.py:182-352 | A successful CV is the post with the payee and the next number |
| Accounting.SampleBooks | models/ledger.py:41-69 | Sample books holding only `1-001-2025`, a VP |
| Accounting.CheckNumberTakenFails | services/accounting_service.py:243-257 | As written, a CV whose generated number is already taken fails with "Failed to create ledger entry" |
| Accounting.CheckStoredWhenCorrected | services/accounting_service.py:182-352 | With corrected numbering, a CV that passes its checks and has valid sides is always stored |
| Accounting.FirstCheckCollides | services/accounting_service.py:182-352 | On books holding only the first VP of 2025, the first CV fails as written and succeeds when corrected |
| Accounting.AppendKeepsBalanced | services/accounting_service.py:70-176 | Appending a same-date group of lines that nets to zero keeps the books balanced |
| Accounting.PostKeepsBalanced | services/accounting_service.py:70-176 | Posting entries that net to zero keeps the books balanced |
| Accounting.PayableEntriesNetZero | services/accounting_service.py:64-129 | Lines that passed the corrected check, or the default pair, net to zero |
| Accounting.CheckEntriesNetZero | services/accounting_service.py:226-300 | Same for CV entries |
| Accounting.PayableKeepsBalanced | services/accounting_service.py:31-180 | With the corrected validator, creating a VP keeps balanced books balanced |
| Accounting.CheckKeepsBalanced | services/accounting_service.py:182-352 | With the corrected validator, creating a CV keeps balanced books balanced |
| Accounting.RawSumValidatorAccepts | services/accounting_service.py:520-541 | The half-cent request passes the as-written validator, fails the corrected one, and its rounded lines differ by one cent |
| Accounting.NoLinesBalanced | services/accounting_service.py:460-476 | Books with no lines are balanced |
| Accounting.PayableStoredWhenFree | services/accounting_service.py:31-180 | Known payee, lines that pass the check, valid sides and a free number mean the VP is stored |
| Accounting.PayableNet | services/accounting_service.py:92-133 | A created VP changes the signed line total by rounded debits minus rounded credits |
| Accounting.RawSumStored | services/accounting_service.py:31-180 | The half-cent request is accepted as written |
| Accounting.RawSumValidatorUnbalancesBooks | services/accounting_service.py:516-541 | As written, the half-cent request turns balanced books into unbalanced ones |
| Accounting.RawSumRefusedWhenCorrected | services/accounting_service.py:64-67 | With the corrected validator the half-cent request is refused as unbalanced |
| Accounting.OneCentRefusedByCorrected | services/accounting_service.py:530-539 | The 10.01 / 10.00 lines quantise to sums one cent apart, so the corrected validator refuses them |
| Accounting.OneCentValidatorAccepts | services/accounting_service.py:530-539 | Under a float reading that passes the one-cent gap, the as-written validator accepts the 10.01 / 10.00 lines and the VP is created |
| Accounting.OneCentGapStored | services/accounting_service.py:31-180 | As written, that VP turns balanced books into unbalanced ones, while the transaction and the trial balance still read balanced with a one-cent difference |
| Accounting.OneCentGapRefusedWhenCorrected | services/accounting_service.py:64-67 | With the corrected validator the same VP is refused as unbalanced, whatever the float reading |
| Accounting.GetTransaction | services/accounting_service.py:354-381 | Some iff the number exists; it holds that header, its lines and subsidiary lines exactly as their own `get_by_number` lists them (every stored row, in order), the whole balance check of those lines, and `is_balanced` is the lines' float test: true under a cent apart, false over a cent |
| Accounting.PayableReadsBack | services/accounting_service.py:354-381 | A VP created with the corrected validator reads back as an existing, balanced transaction |
| Accounting.CheckReadsBack | services/accounting_service.py:354-381 | A CV created with the corrected validator reads back as an existing, balanced transaction |
| Accounting.PostedReadsBack | services/accounting_service.py:354-381 | A freshly posted number whose entries net to zero reads back as balanced |
| Accounting.FreshNumberHasNoLines | services/accounting_service.py:354-381 | When every line has a header, a number not taken has no lines |
| Accounting.PostedLinesNetZero | services/accounting_service.py:354-381 | The lines of a freshly posted number are exactly its entries and net to zero |
| Accounting.AppendedLinesOf | services/accounting_service.py:354-381 | The lines of a fresh number after an append are exactly the appended ones |
| Accounting.VoidTransaction | services/accounting_service.py:383-419 | "Not found" iff the number is unknown, "already voided" iff its status is void; otherwise only that header's status becomes void, with message and audit event |
| Accounting.VoidThenVoid | services/accounting_service.py:383-419 | After a void the header reads as void and a second void fails with "already voided" |
| Accounting.VoidKeepsBalanced | services/accounting_service.py:383-419 | Voiding never removes lines, so balanced books stay balanced |
| Accounting.GetAccountLedger | services/accounting_service.py:421-458 | Errors iff the account is unknown; otherwise the account's rows, its balance, the period end and (when asked) a running balance where entry i is the signed sum of rows 0..i |
| Accounting.RunningBalances | services/accounting_service.py:434-441 | Entry i of the running balance is the signed sum of the first i+1 rows |
| Accounting.RunningBalanceSteps | services/accounting_service.py:434-441 | The running balance starts at the first signed amount, adds each row's signed amount, and ends at the total |
| Accounting.GetTrialBalance | services/accounting_service.py:460-483 | Totals are all debits and credits up to the date; difference is their distance; `balanced` is the float test: true under a cent apart, false over a cent |
| Accounting.BalancedBooksBalancedReport | services/accounting_service.py:460-483 | On balanced books the report is balanced with difference 0 and equal totals |
| Accounting.LineHitNumbers | services/accounting_service.py:555 | The numbers of lines whose account code or account description matches the term, and no other numbers |
| Accounting.SubHitNumbers | services/accounting_service.py:558 | The numbers of matching subsidiary lines that have a header, and no other numbers |
| Accounting.HeadersOf | services/accounting_service.py:569-575 | Headers for the numbers found, each existing number present |
| Accounting.AddDistinct | services/accounting_service.py:561-575 | Deduplication by number: the result has unique numbers, keeps all earlier rows, and covers every added number |
| Accounting.Combined | services/accounting_service.py:552-575 | The combined result has unique numbers, contains only headers found by some search, and covers every found header |
| Accounting.SearchTransactions | services/accounting_service.py:547-592 | As written always empty; corrected: unique numbers, each a found header inside the date window |
| Accounting.SearchComplete | services/accounting_service.py:547-592 | Corrected: every found header inside the window is returned |
| Accounting.SubsidiaryHitIgnoresType | services/accounting_service.py:557-575 | Corrected: a subsidiary match is returned even when the type filter excludes its header |
| Accounting.SearchMissesOwnNumber | services/accounting_service.py:555 | As written, searching for an existing number finds nothing; corrected, it finds the header |
| Vouchers.NextVoucherNumber | services/voucher_service.py:39 | The number as written is `_generate_voucher_number`; the corrected one is never taken |
| Vouchers.DebitInputs | services/voucher_service.py:74-82 | One Debit line per item, with the item's unrounded amount |
| Vouchers.SubsOfItem | services/voucher_service.py:84-94 | One subsidiary line per subcode of an item, on the item's account |
| Vouchers.ItemSubs | services/voucher_service.py:84-94 | Every subsidiary line written belongs to the VP and to one of its items' accounts |
| Vouchers.PayableEntriesNet | services/voucher_service.py:66-82 | The written lines net to the items' total minus the voucher total |
| Vouchers.PostPayable | services/voucher_service.py:55-96 | Stored iff the number is free; the header, the Credit line on the payee, one Debit per item and the subcodes are appended |
| Vouchers.CreateVoucherPayable | services/voucher_service.py:19-119 | Errors in order: missing fields, no items, items not summing to the total, insert failure (never when corrected); on success gives the number, the message and the audit event |
| Vouchers.PayableIsPost | services/voucher_service.py:19-119 | A successful VP is the post with the next voucher number |
| Vouchers.PayableStored | services/voucher_service.py:55-96 | A created VP appended its header and exactly its lines |
| Vouchers.PayableLines | services/voucher_service.py:66-82 | The first appended line is the Credit on the payee for the total; the rest are Debits |
| Vouchers.PayableKeepsBalanced | services/voucher_service.py:49-82 | Because the items sum to the total, creating a VP keeps balanced books balanced |
| Vouchers.PayableRefusedAfterNumber999 | services/voucher_service.py:335-345 | With `VP-2025-999` and `VP-2025-1000` stored, the as-written VP is refused on the insert |
| Vouchers.ResolveParty | services/voucher_service.py:136-145 | A linked VP number must exist; payee code and name then come from it, and the amount defaults to its total |
| Vouchers.CheckEntriesNet | services/voucher_service.py:162-176 | The CV's Debit on the payee and Credit on the bank net to zero |
| Vouchers.Settle | services/voucher_service.py:179-182 | Exactly the headers with the linked number become paid; every other header is unchanged |
| Vouchers.PostCheck | services/voucher_service.py:150-184 | Stored iff the number is free; appends header and two lines and settles the linked number |
| Vouchers.CreateCheckVoucher | services/voucher_service.py:121-191 | Unknown link, then missing fields, then insert failure (never when corrected); success emits no audit event |
| Vouchers.CheckIsPost | services/voucher_service.py:121-191 | A successful CV is the post with the resolved party and the next voucher number |
| Vouchers.CheckSettles | services/voucher_service.py:179-182 | After a CV the linked header is paid whatever its type or status; all others are unchanged and one header is added |
| Vouchers.CheckLines | services/voucher_service.py:162-176 | Exactly two lines are appended: Debit on the payee, Credit on the bank account (default 1010), same amount |
| Vouchers.CheckKeepsBalanced | services/voucher_service.py:162-176 | Creating a CV keeps balanced books balanced |
| Vouchers.CheckDateIgnored | services/voucher_service.py:121-191 | The `check_date` argument has no effect on the result |
| Helpers.TruncateText | utils/helpers.py:187-202 | Short text is unchanged; longer text ends in the suffix, and when the limit covers the suffix it has exactly the limit's length and keeps the text's prefix |
| Helpers.TruncateIdempotent | utils/helpers.py:187-202 | Truncating twice is truncating once |
| Helpers.TruncateShortLimit | utils/helpers.py:202 | A limit shorter than the suffix slices from the end: `("hello", 2, "...")` gives `"hell..."` |
| Helpers.MaskAsWritten | utils/helpers.py:342-358 | Empty data, or data no longer than the visible count, is returned unchanged |
| Helpers.MaskZeroVisibleShowsAll | utils/helpers.py:357-358 | With zero visible characters the output is the mask followed by the whole data, twice as long |
| Helpers.MaskSensitiveData | utils/helpers.py:342-358 | Corrected: same length, the last `visible` characters kept and every earlier one masked |
| Helpers.MaskAgreesWhenVisible | utils/helpers.py:342-358 | For one or more visible characters the code and the corrected mask agree |
| Helpers.Paginate | utils/helpers.py:288-319 | None iff per-page is 0 (division by zero); otherwise the slice `[(page-1)*pp, page*pp)`, the total, and the prev/next flags and numbers |
| Helpers.PageCount | utils/helpers.py:314 | `pages` is the ceiling of total over per-page |
| Helpers.HasNextBeforeLast | utils/helpers.py:300-316 | `has_next` holds iff the page is before the last one |
| Helpers.PagesCoverAll | utils/helpers.py:288-319 | Concatenating pages 1 to `pages` gives back all items |
| Helpers.YearLabelParts | utils/helpers.py:284 | `f"{start}-{str(end)[2:]}"` splits at its one dash into the start year and digits, which for a four-digit end year are that year modulo 100 |
| Helpers.FinancialYear | utils/helpers.py:277-284 | The label's first part is the date's year from April on and the year before in January to March; for four-digit years its second part is the two-digit year after the first |
| Helpers.ParseDate | utils/helpers.py:274-275 | `strptime(text, '%Y-%m-%d')`: a date only when the text is four digits, a month field and a day field joined by dashes, naming a day that exists |
| Helpers.ParseDateText | utils/helpers.py:274-275 | Every date Python can hold parses back from its `YYYY-MM-DD` text |
| Helpers.ParseDateUnpadded | utils/helpers.py:274-275 | Months and days without a leading zero parse too |
| Helpers.ParseDateRefusesMissingDay | utils/helpers.py:274-275 | A day the month does not have, such as `2025-02-30`, raises |
| Helpers.CalendarYearLabel | utils/helpers.py:285-286 | `strftime("%Y-%y")`: the current year in four digits, a dash, and its last two digits |
| Helpers.GetFinancialYear | utils/helpers.py:261-286 | Today's label with no argument, the label of the given or parsed date otherwise, each starting with its start year; text that does not parse gives the current year and its last two digits |
| Helpers.TextAndDateAgree | utils/helpers.py:271-284 | A date and its stored text get the same label |
| Helpers.FallbackIsNoYearLabel | utils/helpers.py:285-286 | The fallback is never a financial-year label: its second part repeats the year instead of naming the next one |
| Helpers.MarchBeforeApril | utils/helpers.py:277-284 | March belongs to the previous financial year; April starts a new one |
| Helpers.DigitsOnly | utils/helpers.py:183 | Keeps exactly the digits, in order |
| Helpers.ValidatePhone | utils/helpers.py:172-185 | For a digit string, valid iff it has 10 to 15 characters |
| Helpers.PhoneIgnoresSeparator | utils/helpers.py:183-185 | Inserting a non-digit separator never changes the verdict |
| Helpers.ReplaceUnsafe | utils/helpers.py:137-138 | Each of `<>:"/\|?*` becomes `_`; other characters stay; no unsafe character remains |
| Helpers.Strip | utils/helpers.py:140 | The result is a slice of the input with no space or dot at either end |
| Helpers.SanitizeFilename | utils/helpers.py:127-146 | No unsafe character and no leading or trailing space or dot; None exactly on the over-255 branch |
| Helpers.SanitizeIdempotent | utils/helpers.py:127-146 | Sanitising a sanitised name changes nothing |
| Security.HashPassword | core/security.py:10-19 | Returns the digest of password plus salt, with the given salt unchanged, or the random one |
| Security.VerifyPassword | core/security.py:22-25 | True iff the digest of password plus salt equals the stored hash |
| Security.HashThenVerify | core/security.py:10-25 | A password verifies against its own hash and salt, for any digest |
| Security.OtherPasswordRejected | core/security.py:10-25 | With an injective digest, a different password does not verify |
| Security.FailedFrom | core/security.py:32-45 | From each checking position on: exactly the failed rules, each once, in checking order, at most one per remaining rule |
| Security.Messages | core/security.py:33-45 | One message per failed rule, the rule's own message, in the same order |
| Security.FailedRules | core/security.py:30-45 | Exactly the failed rules, each once, in checking order |
| Security.ValidatePasswordStrength | core/security.py:28-47 | Strong iff no rule fails iff the list is empty; one message per failed rule, at most five, in the order length, upper, lower, digit, special |
| Security.StrongExample | core/security.py:28-47 | `Passw0rd!` is strong |
| Security.AllFromFail | core/security.py:32-45 | When every rule from a position on fails, all of them are listed, in checking order |
| Security.EmptyFailsAll | core/security.py:28-47 | The empty password gets all five messages, in the order length, upper, lower, digit, special |
| Users.FirstIndex | models/user.py:70-78 | The first row satisfying the condition, or none when no row does |
| Users.GetById | models/user.py:60-68 | Returns a user iff an active row has the id |
| Users.GetByUsername | models/user.py:70-78 | Returns a user, active or not, iff a row has the username |
| Users.IsUsernameAvailable | models/user.py:255-265 | True iff no user other than the excluded id holds the username |
| Users.IsEmailAvailable | models/user.py:267-277 | True iff no user other than the excluded id holds the email |
| Users.Create | models/user.py:20-58 | Insert succeeds iff username and email are both free (UNIQUE); the new user is appended |
| Users.UpdateLastLogin | models/user.py:155-162 | The user's counter becomes 0, the lock is cleared and the login time is set; other users are unchanged |
| Users.IncrementFailedAttempts | models/user.py:164-175 | Adds 1 to the counter and sets the lock iff the counter before was at least 4; other users are unchanged |
| Users.FailuresLockOnFifth | models/user.py:164-175 | From a clean counter, after k failures the counter is k and the lock is set iff k is at least 5 |
| Users.LoginResetsCount | models/user.py:155-175 | After a successful login, four more failures do not lock |
| Users.Update | models/user.py:118-141 | Fails when empty or when the new name or email is held by another user; only username, email, role, company and active change, and password data never does |
| Users.SoftDelete | models/user.py:177-187 | Only the active flag of that user is cleared |
| Users.SoftDeleteHides | models/user.py:60-68 | After a soft delete `get_by_id` no longer returns the user; other ids are unaffected |
| Users.SoftDeleteKeepsNamesTaken | models/user.py:177-187 | A deleted user's username and email stay taken |
| Users.UsernamePattern | services/user_service.py:359-364 | Word characters only, with the `$` anchor also accepting one trailing newline |
| Users.ValidateUsername | services/user_service.py:359-364 | Valid iff 3 to 50 characters and the pattern matches |
| Users.UsernameRule | services/user_service.py:359-364 | Without a newline, valid iff 3 to 50 characters, all in `[A-Za-z0-9_]` |
| Users.TrailingNewlineAccepted | services/user_service.py:359-364 | `"abc\n"` and even `"ab\n"` are accepted, while `"ab"` is not |
| Users.JoinWith | services/user_service.py:347-351 | Joining one part gives that part; the result starts with the first part |
| Users.ValidateUserInput | services/user_service.py:336-357 | Valid iff every check passes; otherwise the first failure's message, in the order username, email, password, role |
| Users.CreateUser | services/user_service.py:24-69 | Validation first, then taken username, then taken email; on success a new active user whose password verifies, and a CREATE_USER event |
| Users.Authenticate | services/user_service.py:71-133 | Unknown, then disabled, then locked, each changing nothing; a wrong password increments the counter; success resets it |
| Users.UnknownAndWrongPasswordAlike | services/user_service.py:79-110 | An unknown user and a wrong password give the same message |
| Users.GetByUsernameAfterPatch | models/user.py:70-78 | A patch that keeps usernames keeps the lookup's row position |
| Users.SqliteBeforeIsoSameDay | services/user_service.py:91 | On the same day the SQLite timestamp text is never greater than the ISO text, because ' ' < 'T' |
| Users.SameDayLockIgnored | services/user_service.py:91-93 | As written, after the fifth failure a retry before the lock ends on the same day logs in |
| Users.FifthFailureLocksOut | services/user_service.py:91-93 | Corrected, after the fifth failure a retry before the lock ends is refused as locked |
| Users.UpdateFieldsCheck | services/user_service.py:167-194 | No error iff every given field is allowed, in the order username, email, role, active |
| Users.UpdateUser | services/user_service.py:147-216 | Not found, then permission denied, then field errors, then "No valid updates provided"; role or active needs an admin; success applies the patch |
| Users.DeleteUser | services/user_service.py:218-253 | Non-admins, then unknown users, then self-deletion are refused; success only soft-deletes |
| Companies.GetCompanyById | services/company_service.py:69-76 | Returns a company iff an active row has the id |
| Companies.CreateCompany | services/company_service.py:20-67 | Id and name required, type B2B/B2C, no active company with the id; an id kept by an inactive row makes the insert fail |
| Companies.UpdateCompany | services/company_service.py:92-136 | Unknown company, bad type and "No updates provided" are refused; only name and type of rows with that id change |
| Companies.ActiveUserCount | services/company_service.py:149-153 | Zero iff no active user belongs to the company |
| Companies.DeleteCompany | services/company_service.py:138-176 | Refused for an unknown company or while active users remain; otherwise only the active flag is cleared |
| Companies.CreateThenGet | services/company_service.py:32-76 | A created company is what the lookup returns |
| Companies.InactiveIdReserved | services/company_service.py:47-63 | An id held only by inactive rows is invisible to lookup, but creating it fails on the insert |
| Companies.DeletedIdStaysReserved | services/company_service.py:138-176 | After a delete the id cannot be created again |
| Companies.DeleteLastUserThenCompany | services/company_service.py:149-172 | Deleting the company's last active user lets the company be deleted |

## Left out

- SQLite plumbing. Connections, DDL other than the UNIQUE constraints, and `core/database.py` are not part of this model.
- Each model method commits on its own connection, so a failure after the header insert can leave a header behind. The model makes every creation a single all-or-nothing step.
- Concurrency. The read-max-then-insert race of number generation is not modelled; freshness is proved against one sequential state.
- `generate_number`'s fallback to `1-001-{year}` when the lookup raises cannot happen in a pure model, so it is not modelled.
- Floating-point money (`format_currency`, `parse_currency`, `calculate_tax`) is left out. All amounts are integers in hundredths of a cent.
- Money.Tolerance: the float test is pinned down only away from a gap of exactly one cent. This assumes the rounding error of the float sums stays below a hundredth of a cent, which holds for the amounts of everyday vouchers; the float sums themselves are not modelled.
- The wall clock is not modelled: `datetime.now()` and SQL `date('now')` become date parameters. `calculate_days_between` and `get_next_working_day` are left out.
- SQL `datetime('now')` is UTC while Python `datetime.now()` is local time. The model uses one clock, which leaves out that offset.
- `created_at` and `updated_at` timestamps are not modelled.
- The SHA-256 digest and the `secrets` salt are parameters. `generate_secure_token` is left out.
- The email regex (`_validate_email`, `validate_email`) is an opaque predicate parameter.
- Audit persistence is left out. Audit is an event returned next to the new state and never changes the books.
- Statistics, dashboards and monthly reports are left out, as are routes, decorators, scripts and migrations.
- User operations not modelled: `change_password`, `get_all_users`, `get_users_by_company`, `search_users`, `get_user_stats`, `hard_delete`, `update_password`.
- Company operations not modelled: `search_companies` and `get_company_statistics`.
- Helpers.SanitizeFilename: the over-255-character branch calls an `os` that is never imported, so it raises. The model returns None there instead of a shortened name.
- Helpers.DigitsOnly: Python's `\D` is Unicode-aware; the model counts only ASCII digits.
- Security.ValidatePasswordStrength: Python's `\d` also matches non-ASCII digits; the model's digit rule counts only `0`-`9`.
- Helpers.Paginate: `per_page` 0 raises a division error; the model returns None.
- Helpers.ParseDate: Python's `\d` in the `strptime` patterns also matches non-ASCII digits; the model takes ASCII digits only.
- Helpers.GetFinancialYear: an argument that is neither a date nor text (an `int`, say) raises and takes the fallback; the model's argument is always one of nothing, a date or text.
- Helpers.CalendarYearLabel: `%Y` for years below 1000 is padded differently by different C libraries; the model pads to four digits.
- Numbering.HelperNumber: the fallback to `{type}-{year}-001` when the lookup raises is not modelled, because the pure model has no failing lookup.
- Numbering.NextSequence: Python's `int()` also accepts a sign, surrounding blanks and `_` separators in the middle part; the model parses ASCII digits only and reads any other middle part as sequence 1.
- Numbering.VoucherNextSequence: the same `int()` leniency on the last part is not modelled; only ASCII digits parse, and any other last part reads as sequence 1, as the handler's `-001` fallback gives.
- Text.SqlCastInteger: SQLite's `CAST` also skips leading blanks; the model reads the sign and digits from the first character, which covers every number the core generates.
- Users.ValidateUserInput: email validity is an opaque predicate, so the contract fixes only the position of the email check, not its meaning.
- Users.Authenticate: datetime parsing of the stored lock, and the timezone mismatch between the two clocks, are left out. The as-written comparison is modelled as plain text order.
- Accounting.GetAccountLedger: the period's start date is not recorded in the view, only its end. The running balance follows the query's newest-first order, as the code does.
- Accounting.CreateCheckVoucher: the source neither checks a linked VP for void nor marks it paid. The model keeps both gaps.
- Vouchers.CreateCheckVoucher: the linked header is marked paid whatever its type or status, and a CV creates no audit event. The model keeps both.
- Vouchers.CreateVoucherPayable: amounts are stored unrounded, as the code stores them.
- EntryLines.GetAccountBalance: voided headers' lines are included, because there is no status filter. `LedgerHeaders.GetTotalByPayee` does filter on status.
- LedgerHeaders.Update: an UPDATE that matches no row still reports success in the source. The model only refuses an empty update.
- Unreachable messages, such as "Failed to update user" once the checks passed, are proved unreachable rather than modelled.

## Findings

| source | as written | input that shows it | evidently intended | confidence | as-written member | corrected member |
|---|---|---|---|---|---|---|
| services/accounting_service.py:555 | `search_transactions` calls `self.credit_debit.search`, which does not exist; the AttributeError is caught and the result is `[]` | any search, e.g. an existing transaction's own number | the combined, deduplicated, date-filtered search over headers, lines and subsidiary lines | high, not executed | Accounting.SearchMissesOwnNumber | Accounting.SearchComplete |
| models/ledger.py:48-56 | `generate_number` counts per type, while `number` is UNIQUE across types (models/ledger.py:24) | books holding only `1-001-2025` (a VP); create the first CV of 2025 | a number fresh across all types | high, not executed | Accounting.FirstCheckCollides | Numbering.SharedNumberFresh |
| services/accounting_service.py:520-541 | the validator sums raw line amounts, but each line is stored rounded | debit lines of 0.005 and 0.005 against one credit of 0.01 with total 0.01 | validate the amounts that are stored | high, not executed | Accounting.RawSumValidatorUnbalancesBooks | Accounting.RawSumRefusedWhenCorrected |
| services/voucher_service.py:335-345 | `ORDER BY number DESC` on text picks `-999` over `-1000` | `VP-2025-999` and `VP-2025-1000` stored; create a VP | numeric maximum plus one | high, not executed | Vouchers.PayableRefusedAfterNumber999 | Numbering.CorrectedVoucherNumberFresh |
| services/user_service.py:91 | `locked_until > datetime.now().isoformat()` compares SQLite text `YYYY-MM-DD HH:MM:SS` with ISO text `YYYY-MM-DDTHH:…` | fifth wrong password, then the right one before the lock ends on the same day | the account stays locked until `locked_until` | high, not executed | Users.SameDayLockIgnored | Users.FifthFailureLocksOut |
| utils/helpers.py:357-358 | `data[-visible_chars:]` with 0 visible is the whole string | `mask_sensitive_data("abcd", "*", 0)` gives `"****abcd"` | all characters masked, length preserved | high, not executed | Helpers.MaskZeroVisibleShowsAll | Helpers.MaskSensitiveData |
| services/accounting_service.py:535-539 | the balance tests compare float sums with `abs(a - b) < 0.01`, and in floats `abs(10.01 - 10.0)` is 0.009999999999999787 | a VP of total 10.01 with a debit line of 10.01 and a credit line of 10.00 | debits equal credits to the cent | medium, not executed | Accounting.OneCentGapStored | Accounting.OneCentGapRefusedWhenCorrected |
| utils/helpers.py:39-41 | `SUBSTR(number, LENGTH(type)+6)` starts at the `-` before the sequence, so `CAST` reads `-001` as -1 | `VP-2025-001` stored; generate the next VP number | `VP-2025-002` | high, not executed | Numbering.HelperReadsSignedSuffix | Numbering.CorrectedVoucherNumber |

=== FILE: accounting.dfy ===
/**
  * The accounting service (`AccountingService`): posting a Voucher Payable
  * or a Check Voucher as one header, its debit/credit lines and its
  * subsidiary lines; reading a transaction back; voiding; the account ledger
  * with its running balance; the trial-balance report; and the cross-table
  * search.
  *
  * Three places of the service do not do what they evidently mean to do; the
  * model carries both readings of each and selects them with a `Policy`:
  *   - the balance validator sums raw amounts but the lines are stored
  *     rounded one by one, so a validated transaction can be stored unbalanced;
  *   - numbers are generated per type although the number column is unique
  *     across types, so the first CV of a year collides with the first VP;
  *   - the float test `abs(a - b) < 0.01` can pass two sums a whole cent apart.
  * `AsWritten` follows the code, with the float test as the `close` parameter;
  * `Corrected` validates the rounded lines to the cent and draws numbers from
  * one sequence per year.
  */
module Accounting {
  import opened Wrappers
  import opened Text
  import opened Tables
  import opened Money
  import opened Dates
  import opened Books
  import opened Numbering
  import AccountRegistry
  import LedgerHeaders
  import EntryLines
  import SubLines

  datatype Policy = AsWritten | Corrected

  /** Why a service call failed; `Message` gives the text the service returns. */
  datatype Failure =
    | PayeeNotFound(payeeCode: string)
    | PayableNotFound(vpNumber: string)
    | NotAPayable(vpNumber: string)
    | Unbalanced
    | LedgerEntryFailed
    | EntriesFailed
    | DefaultEntriesFailed
    | SubsidiaryFailed
    | TransactionNotFound
    | AlreadyVoided
    | AccountNotFound(acctCode: string)

  function Message(f: Failure): string {
    match f
    case PayeeNotFound(code) => "Payee account " + code + " not found"
    case PayableNotFound(vp) => "Voucher Payable " + vp + " not found"
    case NotAPayable(vp) => vp + " is not a Voucher Payable"
    case Unbalanced => "Credit/debit lines do not balance with total amount"
    case LedgerEntryFailed => "Failed to create ledger entry"
    case EntriesFailed => "Failed to create credit/debit entries"
    case DefaultEntriesFailed => "Failed to create default credit/debit entries"
    case SubsidiaryFailed => "Failed to create subsidiary entries"
    case TransactionNotFound => "Transaction not found"
    case AlreadyVoided => "Transaction already voided"
    case AccountNotFound(code) => "Account " + code + " not found"
  }

  /** The audit record a successful call emits; it never affects the ledger. */
  datatype AuditEvent = AuditEvent(userId: Option<nat>, action: string, recordId: string)

  // ----- requests -----

  /** A debit/credit line as the caller supplies it: amount in fine units, side as raw text. */
  datatype LineRequest = LineRequest(acctCode: string, acctDescription: string, amount: int, sideText: string)

  datatype SubRequest = SubRequest(
    acctCode: string,
    acctDescription: string,
    subCode: string,
    subDescription: string,
    amount: int)

  /** The stored form of the supplied lines: each amount rounded to the cent on its own. */
  function LineInputs(kind: Kind, number: string, date: Date, ls: seq<LineRequest>): (r: seq<EntryLines.LineInput>)
    ensures |r| == |ls|
    ensures forall i :: 0 <= i < |ls| ==>
      r[i] == EntryLines.LineInput(kind, number, date, ls[i].acctCode, ls[i].acctDescription, Quantize(ls[i].amount), ls[i].sideText)
  {
    seq(|ls|, i requires 0 <= i < |ls| =>
      EntryLines.LineInput(kind, number, date, ls[i].acctCode, ls[i].acctDescription, Quantize(ls[i].amount), ls[i].sideText))
  }

  function SubInputs(kind: Kind, number: string, date: Date, ss: seq<SubRequest>): (r: seq<SubLines.SubInput>)
    ensures |r| == |ss|
    ensures forall i :: 0 <= i < |ss| ==>
      r[i] == SubLines.SubInput(kind, number, date, ss[i].acctCode, ss[i].acctDescription, ss[i].subCode, ss[i].subDescription, Quantize(ss[i].amount))
  {
    seq(|ss|, i requires 0 <= i < |ss| =>
      SubLines.SubInput(kind, number, date, ss[i].acctCode, ss[i].acctDescription, ss[i].subCode, ss[i].subDescription, Quantize(ss[i].amount)))
  }

  // ----- the balance validator -----

  function RawDebit(l: LineRequest): int {
    if l.sideText == "D" then l.amount else 0
  }

  function RawCredit(l: LineRequest): int {
    if l.sideText == "C" then l.amount else 0
  }

  function RoundedDebit(l: LineRequest): int {
    if l.sideText == "D" then Quantize(l.amount) else 0
  }

  function RoundedCredit(l: LineRequest): int {
    if l.sideText == "C" then Quantize(l.amount) else 0
  }

  lemma {:induction false} RoundedSumsWhole(ls: seq<LineRequest>)
    ensures WholeCents(SumOf(ls, RoundedDebit)) && WholeCents(SumOf(ls, RoundedCredit))
    decreases |ls|
  {
    if |ls| > 0 {
      RoundedSumsWhole(ls[..|ls| - 1]);
    }
  }

  /**
    * The debit total the validator compares. As written: the raw amounts are
    * summed and the sum is rounded. Corrected: the rounded amounts, as they
    * are stored, are summed. Lines whose side is neither `D` nor `C` count
    * on neither side.
    */
  function TotalDebits(policy: Policy, ls: seq<LineRequest>): (d: int)
    ensures WholeCents(d)
  {
    RoundedSumsWhole(ls);
    match policy
    case AsWritten => Quantize(SumOf(ls, RawDebit))
    case Corrected => SumOf(ls, RoundedDebit)
  }

  function TotalCredits(policy: Policy, ls: seq<LineRequest>): (c: int)
    ensures WholeCents(c)
  {
    RoundedSumsWhole(ls);
    match policy
    case AsWritten => Quantize(SumOf(ls, RawCredit))
    case Corrected => SumOf(ls, RoundedCredit)
  }

  /**
    * `_validate_credit_debit_balance(lines, total)`: debits and credits agree
    * within a cent, and one of them agrees with the rounded total within a
    * cent. As written "within a cent" is the float test, as `close` reads
    * it, so amounts one cent apart can pass; corrected it is equality of the
    * whole-cent amounts, which is what the rounding before the test is for.
    */
  function ValidateCreditDebitBalance(policy: Policy, close: Tolerance, ls: seq<LineRequest>, total: int): (ok: bool)
    ensures policy == Corrected ==> (ok <==>
      && TotalDebits(policy, ls) == TotalCredits(policy, ls)
      && (TotalDebits(policy, ls) == Quantize(total) || TotalCredits(policy, ls) == Quantize(total)))
    ensures
      && TotalDebits(policy, ls) == TotalCredits(policy, ls)
      && (TotalDebits(policy, ls) == Quantize(total) || TotalCredits(policy, ls) == Quantize(total))
      ==> ok
    ensures ok ==>
      && Abs(TotalDebits(policy, ls) - TotalCredits(policy, ls)) <= FinePerCent
      && (Abs(TotalDebits(policy, ls) - Quantize(total)) <= FinePerCent || Abs(TotalCredits(policy, ls) - Quantize(total)) <= FinePerCent)
  {
    var d, c, t := TotalDebits(policy, ls), TotalCredits(policy, ls), Quantize(total);
    ToleranceOfWholeCents(close, d, c);
    ToleranceOfWholeCents(close, d, t);
    ToleranceOfWholeCents(close, c, t);
    match policy
    case AsWritten => close(d, c) && (close(d, t) || close(c, t))
    case Corrected => d == c && (d == t || c == t)
  }

  /** The stored lines net to the difference of the rounded debit and credit totals. */
  lemma {:induction false} LineInputsSigned(kind: Kind, number: string, date: Date, ls: seq<LineRequest>)
    ensures SumOf(LineInputs(kind, number, date, ls), EntryLines.InputSigned) == SumOf(ls, RoundedDebit) - SumOf(ls, RoundedCredit)
    decreases |ls|
  {
    if |ls| > 0 {
      var n := |ls| - 1;
      assert LineInputs(kind, number, date, ls)[..n] == LineInputs(kind, number, date, ls[..n]);
      LineInputsSigned(kind, number, date, ls[..n]);
    }
  }

  // ----- default lines -----

  /** The VP pair when no lines are given: debit General Expense, credit Accounts Payable. */
  function PayableDefaults(number: string, date: Date, total: int): seq<EntryLines.LineInput> {
    [ EntryLines.LineInput(VP, number, date, "5000", "General Expense", total, "D"),
      EntryLines.LineInput(VP, number, date, "2000", "Accounts Payable", total, "C") ]
  }

  /** The bank account credited by a CV: the one given, or the operating account `1010`. */
  function BankCode(bankAccount: string): string {
    if bankAccount != "" then bankAccount else "1010"
  }

  function BankDescription(bankAccount: string): string {
    if bankAccount != "" then "Bank - " + bankAccount else "Bank - Operating Account"
  }

  /** The CV pair when no lines are given: debit Accounts Payable, credit the bank. */
  function CheckDefaults(number: string, date: Date, total: int, bankAccount: string): seq<EntryLines.LineInput> {
    [ EntryLines.LineInput(CV, number, date, "2000", "Accounts Payable", total, "D"),
      EntryLines.LineInput(CV, number, date, BankCode(bankAccount), BankDescription(bankAccount), total, "C") ]
  }

  /** Both default pairs have valid sides and net to zero, whatever the total and bank. */
  lemma DefaultsBalanced(number: string, date: Date, total: int, bankAccount: string)
    ensures forall e :: e in PayableDefaults(number, date, total) ==> EntryLines.ValidSide(e)
    ensures forall e :: e in CheckDefaults(number, date, total, bankAccount) ==> EntryLines.ValidSide(e)
    ensures SumOf(PayableDefaults(number, date, total), EntryLines.InputSigned) == 0
    ensures SumOf(CheckDefaults(number, date, total, bankAccount), EntryLines.InputSigned) == 0
  {
    var p, c := PayableDefaults(number, date, total), CheckDefaults(number, date, total, bankAccount);
    assert p == [p[0]] + [p[1]] && c == [c[0]] + [c[1]];
    SumOfAppend([p[0]], [p[1]], EntryLines.InputSigned);
    SumOfAppend([c[0]], [c[1]], EntryLines.InputSigned);
    SumOfSingle(p[0], EntryLines.InputSigned);
    SumOfSingle(p[1], EntryLines.InputSigned);
    SumOfSingle(c[0], EntryLines.InputSigned);
    SumOfSingle(c[1], EntryLines.InputSigned);
  }

  // ----- numbers -----

  /** The number a new transaction is given. */
  function NextNumber(policy: Policy, headers: seq<Header>, kind: Kind, year: nat): (n: string)
    ensures n != ""
    ensures policy == AsWritten ==> n == GenerateNumber(headers, kind, year)
    ensures policy == Corrected ==> !NumberTaken(headers, n)
  {
    match policy
    case AsWritten => GenerateNumber(headers, kind, year)
    case Corrected =>
      SharedNumberFresh(headers, year);
      var n := SharedNumber(headers, year);
      assert forall i :: 0 <= i < |headers| ==> headers[i] in headers;
      n
  }

  // ----- posting -----

  /**
    * Header, then lines, then subsidiary lines, as one all-or-nothing step:
    * the header insert fails on a taken number, the line insert on an
    * invalid side, and subsidiary lines are only written when some are given.
    */
  function Post(db: Db, d: LedgerHeaders.Draft, number: string, entries: seq<EntryLines.LineInput>, defaulted: bool,
                subs: seq<SubLines.SubInput>): (r: Result<Db, Failure>)
    requires number != ""
    ensures r.Ok? <==> !NumberTaken(db.headers, number) && |entries| > 0 && forall i :: 0 <= i < |entries| ==> EntryLines.ValidSide(entries[i])
    ensures r.Err? ==> r.error == if NumberTaken(db.headers, number) then LedgerEntryFailed else if defaulted then DefaultEntriesFailed else EntriesFailed
    ensures r.Ok? ==> r.value.headers == db.headers + [LedgerHeaders.HeaderOf(db.nextHeaderId, d, number)]
    ensures r.Ok? ==> LinesAppended(db.lines, r.value.lines, entries)
    ensures r.Ok? ==> SubsAppended(db.subs, r.value.subs, subs)
    ensures r.Ok? ==> r.value.accounts == db.accounts
  {
    match LedgerHeaders.Create(db, d, number)
    case None => Err(LedgerEntryFailed)
    case Some(db1) =>
      match EntryLines.CreateMultiple(db1, entries)
      case None => Err(if defaulted then DefaultEntriesFailed else EntriesFailed)
      case Some(db2) =>
        if |subs| == 0 then
          assert db2.subs[..|db2.subs|] == db2.subs;
          Ok(db2)
        else
          match SubLines.CreateMultiple(db2, subs)
          case None => Err(SubsidiaryFailed)
          case Some(db3) => Ok(db3)
  }

  /** `after` is `before` followed by one stored line per input, in order. */
  predicate LinesAppended(before: seq<EntryLine>, after: seq<EntryLine>, entries: seq<EntryLines.LineInput>) {
    && |after| == |before| + |entries| && after[..|before|] == before
    && forall i :: 0 <= i < |entries| ==> EntryLines.Inserted(after[|before| + i], entries[i])
  }

  predicate SubsAppended(before: seq<SubLine>, after: seq<SubLine>, subs: seq<SubLines.SubInput>) {
    && |after| == |before| + |subs| && after[..|before|] == before
    && forall i :: 0 <= i < |subs| ==> SubLines.Inserted(after[|before| + i], subs[i])
  }

  /** The lines a successful post appended. */
  function NewLines(before: Db, after: Db): seq<EntryLine>
    requires |before.lines| <= |after.lines|
  {
    after.lines[|before.lines|..]
  }

  /** What a successful creation returns. */
  datatype Posted = Posted(db: Db, number: string, message: string, audit: AuditEvent)

  // ----- Voucher Payable -----

  datatype PayableRequest = PayableRequest(
    date: Date,
    payeeCode: string,
    total: int,
    description: Option<string>,
    dueDate: Option<Date>,
    lines: seq<LineRequest>,
    subs: seq<SubRequest>,
    createdBy: Option<nat>)

  function PayableDraft(q: PayableRequest, payee: Account): LedgerHeaders.Draft {
    LedgerHeaders.Draft(VP, q.date, q.payeeCode, payee.description, Quantize(q.total), q.description, q.dueDate, q.createdBy)
  }

  /** The lines a VP stores: the supplied ones rounded, or the default pair for the rounded total. */
  function PayableEntries(q: PayableRequest, number: string): seq<EntryLines.LineInput> {
    if |q.lines| > 0 then LineInputs(VP, number, q.date, q.lines) else PayableDefaults(number, q.date, Quantize(q.total))
  }

  /** The storing half of `create_voucher_payable`, once the payee and the lines have passed. */
  function PostPayable(db: Db, q: PayableRequest, payee: Account, number: string): (r: Result<Posted, Failure>)
    requires number != ""
    ensures r.Ok? ==> r.value.number == number
    ensures r.Ok? ==> r.value.db.headers == db.headers + [LedgerHeaders.HeaderOf(db.nextHeaderId, PayableDraft(q, payee), number)]
    ensures r.Ok? ==> LinesAppended(db.lines, r.value.db.lines, PayableEntries(q, number))
    ensures r.Ok? ==> SubsAppended(db.subs, r.value.db.subs, SubInputs(VP, number, q.date, q.subs))
    ensures r.Ok? ==> r.value.db.accounts == db.accounts
    ensures r.Err? ==> r.error == if NumberTaken(db.headers, number) then LedgerEntryFailed else EntriesFailed
  {
    match Post(db, PayableDraft(q, payee), number, PayableEntries(q, number), |q.lines| == 0, SubInputs(VP, number, q.date, q.subs))
    case Err(e) =>
      DefaultsBalanced(number, q.date, Quantize(q.total), "");
      Err(e)
    case Ok(posted) => Ok(Posted(posted, number, "Voucher Payable created successfully", AuditEvent(q.createdBy, "CREATE_VOUCHER_PAYABLE", number)))
  }

  /**
    * `create_voucher_payable`: the payee must be an active account; the
    * supplied lines, if any, must pass the validator; then header, lines and
    * subsidiary lines are stored together or not at all.
    */
  function CreateVoucherPayable(policy: Policy, close: Tolerance, db: Db, q: PayableRequest): (r: Result<Posted, Failure>)
    ensures r == Err(PayeeNotFound(q.payeeCode)) <==> AccountRegistry.GetByCode(db, q.payeeCode).None?
    ensures r == Err(Unbalanced) <==>
      AccountRegistry.GetByCode(db, q.payeeCode).Some? && |q.lines| > 0 && !ValidateCreditDebitBalance(policy, close, q.lines, Quantize(q.total))
    ensures policy == Corrected ==> r != Err(LedgerEntryFailed)
    ensures r.Ok? ==> && r.value.number == NextNumber(policy, db.headers, VP, q.date.year)
                      && r.value.message == "Voucher Payable created successfully"
                      && r.value.audit == AuditEvent(q.createdBy, "CREATE_VOUCHER_PAYABLE", r.value.number)
  {
    var payee := AccountRegistry.GetByCode(db, q.payeeCode);
    if payee.None? then Err(PayeeNotFound(q.payeeCode))
    else
      var total := Quantize(q.total);
      var number := NextNumber(policy, db.headers, VP, q.date.year);
      if |q.lines| > 0 && !ValidateCreditDebitBalance(policy, close, q.lines, total) then Err(Unbalanced)
      else
        PostPayable(db, q, payee.value, number)
  }

  /**
    * What a successful VP creation stores: one new `active` header for the
    * rounded total with the payee's description, the rounded or default lines
    * under the new number, the subsidiary lines, and no change to the accounts.
    */
  lemma PayableStored(policy: Policy, close: Tolerance, db: Db, q: PayableRequest)
    requires CreateVoucherPayable(policy, close, db, q).Ok?
    ensures var r := CreateVoucherPayable(policy, close, db, q).value;
      var payee := AccountRegistry.GetByCode(db, q.payeeCode);
      && payee.Some?
      && r.db.headers == db.headers + [LedgerHeaders.HeaderOf(db.nextHeaderId, PayableDraft(q, payee.value), r.number)]
    ensures var r := CreateVoucherPayable(policy, close, db, q).value;
      LinesAppended(db.lines, r.db.lines, PayableEntries(q, r.number))
    ensures var r := CreateVoucherPayable(policy, close, db, q).value;
      SubsAppended(db.subs, r.db.subs, SubInputs(VP, r.number, q.date, q.subs))
    ensures var r := CreateVoucherPayable(policy, close, db, q).value;
      r.db.accounts == db.accounts
  {
    var payee := AccountRegistry.GetByCode(db, q.payeeCode);
    assert payee.Some?;
    var number := NextNumber(policy, db.headers, VP, q.date.year);
    assert !(|q.lines| > 0 && !ValidateCreditDebitBalance(policy, close, q.lines, Quantize(q.total)));
    assert CreateVoucherPayable(policy, close, db, q) == PostPayable(db, q, payee.value, number);
  }

  /** With no lines given, exactly the default pair for the rounded total is stored. */
  lemma PayableDefaultPair(policy: Policy, close: Tolerance, db: Db, q: PayableRequest)
    requires |q.lines| == 0 && CreateVoucherPayable(policy, close, db, q).Ok?
    ensures var r := CreateVoucherPayable(policy, close, db, q).value;
      && |r.db.lines| == |db.lines| + 2
      && r.db.lines[|db.lines|].acctCode == "5000" && r.db.lines[|db.lines|].side == Debit
      && r.db.lines[|db.lines| + 1].acctCode == "2000" && r.db.lines[|db.lines| + 1].side == Credit
      && r.db.lines[|db.lines|].amount == r.db.lines[|db.lines| + 1].amount == Quantize(q.total)
  {
    var r := CreateVoucherPayable(policy, close, db, q).value;
    PayableStored(policy, close, db, q);
    var entries := PayableEntries(q, r.number);
    assert EntryLines.Inserted(r.db.lines[|db.lines| + 0], entries[0]);
    assert EntryLines.Inserted(r.db.lines[|db.lines| + 1], entries[1]);
  }

  // ----- Check Voucher -----

  /**
    * The arguments of `create_check_voucher`. An empty `vpNumber`,
    * `checkNumber` or `bankAccount` is one that was not given (Python falsy);
    * `checkDate` is not a parameter of this service.
    */
  datatype CheckRequest = CheckRequest(
    date: Date,
    payeeCode: string,
    total: int,
    vpNumber: string,
    checkNumber: string,
    bankAccount: string,
    description: Option<string>,
    lines: seq<LineRequest>,
    subs: seq<SubRequest>,
    createdBy: Option<nat>)

  /**
    * The stored description: the one given (when not empty) or "Check payment
    * to <payee>", then " - Check #<n>" when a check number is given, then
    * " - Payment for <vp>" when a VP is given.
    */
  function CheckDescription(q: CheckRequest, payee: Account): (s: string)
    ensures StartsWith(s, DescriptionBase(q, payee))
    ensures q.vpNumber != "" ==> EndsWith(s, " - Payment for " + q.vpNumber)
    ensures q.vpNumber == "" && q.checkNumber != "" ==> EndsWith(s, " - Check #" + q.checkNumber)
    ensures q.vpNumber == "" && q.checkNumber == "" ==> s == DescriptionBase(q, payee)
  {
    var base := DescriptionBase(q, payee);
    var checkPart := if q.checkNumber != "" then " - Check #" + q.checkNumber else "";
    var vpPart := if q.vpNumber != "" then " - Payment for " + q.vpNumber else "";
    ThreeParts(base, checkPart, vpPart);
    base + checkPart + vpPart
  }

  /** The description given when it is not empty, otherwise "Check payment to <payee>". */
  function DescriptionBase(q: CheckRequest, payee: Account): string {
    if q.description.Some? && q.description.value != "" then q.description.value else "Check payment to " + payee.description
  }

  function CheckDraft(q: CheckRequest, payee: Account): LedgerHeaders.Draft {
    LedgerHeaders.Draft(CV, q.date, q.payeeCode, payee.description, Quantize(q.total), Some(CheckDescription(q, payee)), None, q.createdBy)
  }

  /** The lines a CV stores: the supplied ones rounded, or the default pair against the bank. */
  function CheckEntries(q: CheckRequest, number: string): seq<EntryLines.LineInput> {
    if |q.lines| > 0 then LineInputs(CV, number, q.date, q.lines) else CheckDefaults(number, q.date, Quantize(q.total), q.bankAccount)
  }

  /** The failure of the VP reference, if any: it must name a stored header, and that header must be a VP. */
  function PayableReference(db: Db, vpNumber: string): (r: Option<Failure>)
    ensures r.None? <==> vpNumber == "" || (NumberTaken(db.headers, vpNumber) && LedgerHeaders.GetByNumber(db, vpNumber).value.kind == VP)
    ensures r == Some(PayableNotFound(vpNumber)) <==> vpNumber != "" && !NumberTaken(db.headers, vpNumber)
  {
    if vpNumber == "" then None
    else match LedgerHeaders.GetByNumber(db, vpNumber)
      case None => Some(PayableNotFound(vpNumber))
      case Some(h) => if h.kind != VP then Some(NotAPayable(vpNumber)) else None
  }

  /** The storing half of `create_check_voucher`. */
  function PostCheck(db: Db, q: CheckRequest, payee: Account, number: string): (r: Result<Posted, Failure>)
    requires number != ""
    ensures r.Ok? ==> r.value.number == number
    ensures r.Ok? ==> r.value.db.headers == db.headers + [LedgerHeaders.HeaderOf(db.nextHeaderId, CheckDraft(q, payee), number)]
    ensures r.Ok? ==> LinesAppended(db.lines, r.value.db.lines, CheckEntries(q, number))
    ensures r.Ok? ==> SubsAppended(db.subs, r.value.db.subs, SubInputs(CV, number, q.date, q.subs))
    ensures r.Ok? ==> r.value.db.accounts == db.accounts
    ensures r.Err? ==> r.error == if NumberTaken(db.headers, number) then LedgerEntryFailed else EntriesFailed
  {
    match Post(db, CheckDraft(q, payee), number, CheckEntries(q, number), |q.lines| == 0, SubInputs(CV, number, q.date, q.subs))
    case Err(e) =>
      DefaultsBalanced(number, q.date, Quantize(q.total), q.bankAccount);
      Err(e)
    case Ok(posted) => Ok(Posted(posted, number, "Check Voucher created successfully", AuditEvent(q.createdBy, "CREATE_CHECK_VOUCHER", number)))
  }

  /**
    * `create_check_voucher`: the payee must be an active account; a VP
    * reference, when given, must name a stored VP; supplied lines must pass
    * the validator; then header, lines and subsidiary lines are stored
    * together. The referenced VP is neither checked for `void` nor marked paid.
    */
  function CreateCheckVoucher(policy: Policy, close: Tolerance, db: Db, q: CheckRequest): (r: Result<Posted, Failure>)
    ensures r == Err(PayeeNotFound(q.payeeCode)) <==> AccountRegistry.GetByCode(db, q.payeeCode).None?
    ensures r == Err(PayableNotFound(q.vpNumber)) <==>
      AccountRegistry.GetByCode(db, q.payeeCode).Some? && q.vpNumber != "" && !NumberTaken(db.headers, q.vpNumber)
    ensures r == Err(NotAPayable(q.vpNumber)) <==>
      && AccountRegistry.GetByCode(db, q.payeeCode).Some? && q.vpNumber != "" && NumberTaken(db.headers, q.vpNumber)
      && LedgerHeaders.GetByNumber(db, q.vpNumber).value.kind != VP
    ensures r == Err(Unbalanced) <==>
      && AccountRegistry.GetByCode(db, q.payeeCode).Some? && PayableReference(db, q.vpNumber).None?
      && |q.lines| > 0 && !ValidateCreditDebitBalance(policy, close, q.lines, Quantize(q.total))
    ensures policy == Corrected ==> r != Err(LedgerEntryFailed)
    ensures r.Ok? ==> && r.value.number == NextNumber(policy, db.headers, CV, q.date.year)
                      && r.value.message == "Check Voucher created successfully"
                      && r.value.audit == AuditEvent(q.createdBy, "CREATE_CHECK_VOUCHER", r.value.number)
                      && PayableReference(db, q.vpNumber).None?
  {
    var payee := AccountRegistry.GetByCode(db, q.payeeCode);
    if payee.None? then Err(PayeeNotFound(q.payeeCode))
    else
      var total := Quantize(q.total);
      var number := NextNumber(policy, db.headers, CV, q.date.year);
      match PayableReference(db, q.vpNumber)
      case Some(f) => Err(f)
      case None =>
        if |q.lines| > 0 && !ValidateCreditDebitBalance(policy, close, q.lines, total) then Err(Unbalanced)
        else PostCheck(db, q, payee.value, number)
  }

  /**
    * The header a successful CV creation stores: one new `active` CV header
    * with the built description and no due date; every header already stored
    * (the referenced VP included) is left as it was, and so are the accounts.
    */
  lemma CheckStoredHeader(policy: Policy, close: Tolerance, db: Db, q: CheckRequest)
    requires CreateCheckVoucher(policy, close, db, q).Ok?
    ensures var r := CreateCheckVoucher(policy, close, db, q).value;
      var payee := AccountRegistry.GetByCode(db, q.payeeCode);
      && payee.Some?
      && r.db.headers == db.headers + [LedgerHeaders.HeaderOf(db.nextHeaderId, CheckDraft(q, payee.value), r.number)]
    ensures var r := CreateCheckVoucher(policy, close, db, q).value;
      r.db.accounts == db.accounts && r.db.headers[..|db.headers|] == db.headers
  {
    CheckIsPostCheck(policy, close, db, q);
  }

  /** The debit/credit lines a successful CV creation stores: the rounded supplied lines or the default pair. */
  lemma CheckStoredLines(policy: Policy, close: Tolerance, db: Db, q: CheckRequest)
    requires CreateCheckVoucher(policy, close, db, q).Ok?
    ensures var r := CreateCheckVoucher(policy, close, db, q).value;
      LinesAppended(db.lines, r.db.lines, CheckEntries(q, r.number))
  {
    var payee := AccountRegistry.GetByCode(db, q.payeeCode);
    assert payee.Some?;
    var number := NextNumber(policy, db.headers, CV, q.date.year);
    assert PayableReference(db, q.vpNumber).None?;
    assert !(|q.lines| > 0 && !ValidateCreditDebitBalance(policy, close, q.lines, Quantize(q.total)));
    var p := PostCheck(db, q, payee.value, number);
    assert CreateCheckVoucher(policy, close, db, q) == p;
    assert p.Ok? && p.value.number == number;
  }

  /** The subsidiary lines a successful CV creation appends, one per supplied line. */
  lemma CheckStoredSubs(policy: Policy, close: Tolerance, db: Db, q: CheckRequest)
    requires CreateCheckVoucher(policy, close, db, q).Ok?
    ensures var r := CreateCheckVoucher(policy, close, db, q).value;
      SubsAppended(db.subs, r.db.subs, SubInputs(CV, r.number, q.date, q.subs))
  {
    CheckIsPostCheck(policy, close, db, q);
  }

  /** Past the checks, creation is the storing half under the generated number. */
  lemma CheckIsPostCheck(policy: Policy, close: Tolerance, db: Db, q: CheckRequest)
    requires CreateCheckVoucher(policy, close, db, q).Ok?
    ensures AccountRegistry.GetByCode(db, q.payeeCode).Some?
    ensures CreateCheckVoucher(policy, close, db, q)
      == PostCheck(db, q, AccountRegistry.GetByCode(db, q.payeeCode).value, NextNumber(policy, db.headers, CV, q.date.year))
  {
  }

  /** A small database: the vendor `VEND001` and the first VP of 2025, `1-001-2025`. */
  function SampleBooks(): (db: Db)
    ensures |db.headers| == 1 && db.headers[0].kind == VP && db.headers[0].number == "1-001-2025"
  {
    var vendor := Account(1, "VEND001", "Office Supply Co.", "Liability", None, true);
    var vp := Header(1, VP, LedgerNumber(1, 2025), Date(2025, 1, 15), "VEND001", "Office Supply Co.", 10000, None, None, Active, None);
    FirstLedgerNumberOf2025();
    Db([vendor], [vp], [], [], 2, 2, 1, 1)
  }

  /** The checks `create_check_voucher` makes before it writes anything. */
  predicate CheckPassesChecks(policy: Policy, close: Tolerance, db: Db, q: CheckRequest) {
    && AccountRegistry.GetByCode(db, q.payeeCode).Some?
    && PayableReference(db, q.vpNumber).None?
    && (|q.lines| == 0 || ValidateCreditDebitBalance(policy, close, q.lines, Quantize(q.total)))
  }

  /**
    * As written, a CV that passes the checks but whose generated number is
    * already held (by a VP: the generator only looks at CVs) fails at the
    * header insert.
    */
  lemma CheckNumberTakenFails(close: Tolerance, db: Db, q: CheckRequest)
    requires CheckPassesChecks(AsWritten, close, db, q)
    requires NumberTaken(db.headers, GenerateNumber(db.headers, CV, q.date.year))
    ensures CreateCheckVoucher(AsWritten, close, db, q) == Err(LedgerEntryFailed)
  {
    var payee := AccountRegistry.GetByCode(db, q.payeeCode);
    assert CreateCheckVoucher(AsWritten, close, db, q) == PostCheck(db, q, payee.value, NextNumber(AsWritten, db.headers, CV, q.date.year));
  }

  /** Corrected, a CV that passes the checks and whose lines all have a valid side is always stored. */
  lemma CheckStoredWhenCorrected(close: Tolerance, db: Db, q: CheckRequest)
    requires CheckPassesChecks(Corrected, close, db, q)
    requires forall i :: 0 <= i < |q.lines| ==> q.lines[i].sideText in {"D", "C"}
    ensures CreateCheckVoucher(Corrected, close, db, q).Ok?
  {
    var payee := AccountRegistry.GetByCode(db, q.payeeCode);
    var fixed := NextNumber(Corrected, db.headers, CV, q.date.year);
    DefaultsBalanced(fixed, q.date, Quantize(q.total), q.bankAccount);
    var entries := CheckEntries(q, fixed);
    assert forall i :: 0 <= i < |entries| ==> EntryLines.ValidSide(entries[i]) by {
      if |q.lines| == 0 {
        assert forall i :: 0 <= i < |entries| ==> entries[i] in entries;
      }
    }
    assert CreateCheckVoucher(Corrected, close, db, q) == PostCheck(db, q, payee.value, fixed);
  }

  /** The first CV of 2025, after the first VP of 2025, is as written given `1-001-2025` again. */
  lemma FirstCheckCollides(close: Tolerance, q: CheckRequest)
    requires q.date.year == 2025 && q.payeeCode == "VEND001" && q.vpNumber == "" && |q.lines| == 0
    ensures CreateCheckVoucher(AsWritten, close, SampleBooks(), q) == Err(LedgerEntryFailed)
    ensures CreateCheckVoucher(Corrected, close, SampleBooks(), q).Ok?
  {
    var db := SampleBooks();
    assert db.accounts[0] in db.accounts;
    CrossKindCollision();
    assert NumberTaken(db.headers, GenerateNumber(db.headers, CV, 2025));
    CheckNumberTakenFails(close, db, q);
    CheckStoredWhenCorrected(close, db, q);
  }

  // ----- the books stay balanced -----

  /** Every trial balance, at every cut-off date, nets to zero: debits equal credits. */
  ghost predicate Balanced(db: Db) {
    forall asOf :: SumOf(EntryLines.LinesUpTo(db, asOf), Signed) == 0
  }

  /** A batch of lines of one date that nets to zero, appended to balanced books, keeps them balanced. */
  lemma AppendKeepsBalanced(db: Db, after: Db, added: seq<EntryLine>, date: Date)
    requires Balanced(db)
    requires after.lines == db.lines + added
    requires forall i :: 0 <= i < |added| ==> added[i].date == date
    requires SumOf(added, Signed) == 0
    ensures Balanced(after)
  {
    forall asOf: Option<Date>
      ensures SumOf(EntryLines.LinesUpTo(after, asOf), Signed) == 0
    {
      AppendedUpTo(db, after, added, date, asOf);
    }
  }

  lemma AppendedUpTo(db: Db, after: Db, added: seq<EntryLine>, date: Date, asOf: Option<Date>)
    requires SumOf(EntryLines.LinesUpTo(db, asOf), Signed) == 0
    requires after.lines == db.lines + added
    requires forall i :: 0 <= i < |added| ==> added[i].date == date
    requires SumOf(added, Signed) == 0
    ensures SumOf(EntryLines.LinesUpTo(after, asOf), Signed) == 0
  {
    var p := EntryLines.UpToFilter(asOf);
    SelectAppend(db.lines, added, p);
    SumOfAppend(Select(db.lines, p), Select(added, p), Signed);
    OneDateUpTo(added, date, asOf);
  }

  /** Lines of a single date are either all inside the `as_of` bound or all outside it. */
  lemma OneDateUpTo(added: seq<EntryLine>, date: Date, asOf: Option<Date>)
    requires forall i :: 0 <= i < |added| ==> added[i].date == date
    ensures asOf.None? || DateLe(date, asOf.value) ==> Select(added, EntryLines.UpToFilter(asOf)) == added
    ensures !(asOf.None? || DateLe(date, asOf.value)) ==> Select(added, EntryLines.UpToFilter(asOf)) == []
  {
    var p := EntryLines.UpToFilter(asOf);
    if asOf.None? || DateLe(date, asOf.value) {
      forall i | 0 <= i < |added| ensures p(added[i]) {
        assert added[i].date == date;
      }
      SelectAll(added, p);
    } else {
      forall x | x in added ensures !p(x) {
        var i :| 0 <= i < |added| && added[i] == x;
      }
      SelectNone(added, p);
    }
  }

  /** A post that appends zero-net inputs of one date keeps balanced books balanced. */
  lemma PostKeepsBalanced(db: Db, after: Db, entries: seq<EntryLines.LineInput>, date: Date)
    requires Balanced(db)
    requires LinesAppended(db.lines, after.lines, entries)
    requires forall i :: 0 <= i < |entries| ==> entries[i].date == date
    requires SumOf(entries, EntryLines.InputSigned) == 0
    ensures Balanced(after)
  {
    var added := after.lines[|db.lines|..];
    assert after.lines == db.lines + added;
    EntryLines.InsertedSigned(added, entries);
    AppendKeepsBalanced(db, after, added, date);
  }

  /** The lines a VP stores carry its date, and, once the corrected validator passed, net to zero. */
  lemma PayableEntriesNetZero(close: Tolerance, q: PayableRequest, number: string)
    requires |q.lines| == 0 || ValidateCreditDebitBalance(Corrected, close, q.lines, Quantize(q.total))
    ensures forall i :: 0 <= i < |PayableEntries(q, number)| ==>
      PayableEntries(q, number)[i].date == q.date && PayableEntries(q, number)[i].number == number
    ensures SumOf(PayableEntries(q, number), EntryLines.InputSigned) == 0
  {
    if |q.lines| > 0 {
      LineInputsSigned(VP, number, q.date, q.lines);
    } else {
      DefaultsBalanced(number, q.date, Quantize(q.total), "");
    }
  }

  lemma CheckEntriesNetZero(close: Tolerance, q: CheckRequest, number: string)
    requires |q.lines| == 0 || ValidateCreditDebitBalance(Corrected, close, q.lines, Quantize(q.total))
    ensures forall i :: 0 <= i < |CheckEntries(q, number)| ==>
      CheckEntries(q, number)[i].date == q.date && CheckEntries(q, number)[i].number == number
    ensures SumOf(CheckEntries(q, number), EntryLines.InputSigned) == 0
  {
    if |q.lines| > 0 {
      LineInputsSigned(CV, number, q.date, q.lines);
    } else {
      DefaultsBalanced(number, q.date, Quantize(q.total), q.bankAccount);
    }
  }

  /** With the corrected validator, creating a VP keeps the books balanced. */
  lemma PayableKeepsBalanced(close: Tolerance, db: Db, q: PayableRequest)
    requires Balanced(db) && CreateVoucherPayable(Corrected, close, db, q).Ok?
    ensures Balanced(CreateVoucherPayable(Corrected, close, db, q).value.db)
  {
    var r := CreateVoucherPayable(Corrected, close, db, q).value;
    PayableStored(Corrected, close, db, q);
    PayableEntriesNetZero(close, q, r.number);
    PostKeepsBalanced(db, r.db, PayableEntries(q, r.number), q.date);
  }

  /** With the corrected validator, creating a CV keeps the books balanced. */
  lemma CheckKeepsBalanced(close: Tolerance, db: Db, q: CheckRequest)
    requires Balanced(db) && CreateCheckVoucher(Corrected, close, db, q).Ok?
    ensures Balanced(CreateCheckVoucher(Corrected, close, db, q).value.db)
  {
    var r := CreateCheckVoucher(Corrected, close, db, q).value;
    CheckStoredLines(Corrected, close, db, q);
    CheckEntriesNetZero(close, q, r.number);
    PostKeepsBalanced(db, r.db, CheckEntries(q, r.number), q.date);
  }

  // ----- the raw-sum validator stores unbalanced lines -----

  /** Books holding only the vendor `VEND001`. */
  function VendorOnly(): Db {
    Db([Account(1, "VEND001", "Office Supply Co.", "Liability", None, true)], [], [], [], 2, 1, 1, 1)
  }

  /** A VP of 0.01 whose lines are two debits of 0.005 and one credit of 0.01. */
  function HalfCentRequest(): PayableRequest {
    PayableRequest(Date(2025, 1, 15), "VEND001", 100, None, None,
      [ LineRequest("5000", "General Expense", 50, "D"),
        LineRequest("5000", "General Expense", 50, "D"),
        LineRequest("2000", "Accounts Payable", 100, "C") ],
      [], None)
  }

  /**
    * The raw sums are 0.01 against 0.01, so the validator as written accepts
    * the lines; each debit is then stored rounded up to 0.01, so the stored
    * lines net to +0.01. The corrected validator compares the rounded lines
    * and refuses the request.
    */
  lemma RawSumValidatorAccepts(close: Tolerance)
    ensures ValidateCreditDebitBalance(AsWritten, close, HalfCentRequest().lines, Quantize(HalfCentRequest().total))
    ensures !ValidateCreditDebitBalance(Corrected, close, HalfCentRequest().lines, Quantize(HalfCentRequest().total))
    ensures SumOf(HalfCentRequest().lines, RoundedDebit) - SumOf(HalfCentRequest().lines, RoundedCredit) == 100
  {
    var ls := HalfCentRequest().lines;
    assert ls == [ls[0], ls[1], ls[2]];
    assert Quantize(50) == 100 && Quantize(100) == 100;
    SumOfThree(ls[0], ls[1], ls[2], RawDebit);
    SumOfThree(ls[0], ls[1], ls[2], RawCredit);
    SumOfThree(ls[0], ls[1], ls[2], RoundedDebit);
    SumOfThree(ls[0], ls[1], ls[2], RoundedCredit);
  }

  /** Books without lines are balanced. */
  lemma NoLinesBalanced(db: Db)
    requires db.lines == []
    ensures Balanced(db)
  {
    forall asOf: Option<Date>
      ensures SumOf(EntryLines.LinesUpTo(db, asOf), Signed) == 0
    {
      assert EntryLines.LinesUpTo(db, asOf) == [];
    }
  }

  /**
    * A VP whose payee exists, whose lines pass the validator and carry valid
    * sides, and whose generated number is free, is stored.
    */
  lemma PayableStoredWhenFree(policy: Policy, close: Tolerance, db: Db, q: PayableRequest)
    requires AccountRegistry.GetByCode(db, q.payeeCode).Some?
    requires |q.lines| == 0 || ValidateCreditDebitBalance(policy, close, q.lines, Quantize(q.total))
    requires forall i :: 0 <= i < |q.lines| ==> q.lines[i].sideText in {"D", "C"}
    requires !NumberTaken(db.headers, NextNumber(policy, db.headers, VP, q.date.year))
    ensures CreateVoucherPayable(policy, close, db, q).Ok?
  {
    var number := NextNumber(policy, db.headers, VP, q.date.year);
    PayableEntriesValid(q, number);
    assert CreateVoucherPayable(policy, close, db, q) == PostPayable(db, q, AccountRegistry.GetByCode(db, q.payeeCode).value, number);
  }

  /** Supplied lines with `D` or `C` sides, or the default pair, all carry a valid side. */
  lemma PayableEntriesValid(q: PayableRequest, number: string)
    requires forall i :: 0 <= i < |q.lines| ==> q.lines[i].sideText in {"D", "C"}
    ensures |PayableEntries(q, number)| > 0
    ensures forall i :: 0 <= i < |PayableEntries(q, number)| ==> EntryLines.ValidSide(PayableEntries(q, number)[i])
  {
    var entries := PayableEntries(q, number);
    if |q.lines| == 0 {
      DefaultsBalanced(number, q.date, Quantize(q.total), "");
      forall i | 0 <= i < |entries| ensures EntryLines.ValidSide(entries[i]) {
        assert entries[i] in entries;
      }
    } else {
      forall i | 0 <= i < |entries| ensures EntryLines.ValidSide(entries[i]) {
        assert entries[i].sideText == q.lines[i].sideText;
      }
    }
  }

  /**
    * What a stored VP adds to the net of all lines: the rounded debits minus
    * the rounded credits of the supplied lines (the default pair adds nothing).
    */
  lemma PayableNet(policy: Policy, close: Tolerance, db: Db, q: PayableRequest)
    requires CreateVoucherPayable(policy, close, db, q).Ok?
    ensures SumOf(CreateVoucherPayable(policy, close, db, q).value.db.lines, Signed)
      == SumOf(db.lines, Signed) + SumOf(q.lines, RoundedDebit) - SumOf(q.lines, RoundedCredit)
  {
    var r := CreateVoucherPayable(policy, close, db, q).value;
    PayableStored(policy, close, db, q);
    AppendedNet(db.lines, r.db.lines, PayableEntries(q, r.number));
    PayableEntriesNet(q, r.number);
  }

  /** Appending stored lines adds what their inputs net to. */
  lemma AppendedNet(before: seq<EntryLine>, after: seq<EntryLine>, entries: seq<EntryLines.LineInput>)
    requires LinesAppended(before, after, entries)
    ensures SumOf(after, Signed) == SumOf(before, Signed) + SumOf(entries, EntryLines.InputSigned)
  {
    var added := after[|before|..];
    assert after == before + added;
    EntryLines.InsertedSigned(added, entries);
    SumOfAppend(before, added, Signed);
  }

  /** A VP's stored inputs net to the rounded debits minus the rounded credits of the supplied lines. */
  lemma PayableEntriesNet(q: PayableRequest, number: string)
    ensures SumOf(PayableEntries(q, number), EntryLines.InputSigned) == SumOf(q.lines, RoundedDebit) - SumOf(q.lines, RoundedCredit)
  {
    if |q.lines| > 0 {
      LineInputsSigned(VP, number, q.date, q.lines);
    } else {
      DefaultsBalanced(number, q.date, Quantize(q.total), "");
    }
  }

  /** As written, the validator lets the half-cent VP through and it is stored. */
  lemma RawSumStored(close: Tolerance)
    ensures CreateVoucherPayable(AsWritten, close, VendorOnly(), HalfCentRequest()).Ok?
  {
    var db, q := VendorOnly(), HalfCentRequest();
    RawSumValidatorAccepts(close);
    assert AccountRegistry.GetByCode(db, q.payeeCode).Some? by {
      assert db.accounts[0] in db.accounts;
    }
    PayableStoredWhenFree(AsWritten, close, db, q);
  }

  /** The stored half-cent VP turns books with no lines, which are balanced, into books that are not. */
  lemma RawSumValidatorUnbalancesBooks(close: Tolerance)
    ensures Balanced(VendorOnly())
    ensures CreateVoucherPayable(AsWritten, close, VendorOnly(), HalfCentRequest()).Ok?
    ensures !Balanced(CreateVoucherPayable(AsWritten, close, VendorOnly(), HalfCentRequest()).value.db)
  {
    NoLinesBalanced(VendorOnly());
    RawSumStored(close);
    RawSumValidatorAccepts(close);
    PayableOutOfBalance(AsWritten, close, VendorOnly(), HalfCentRequest());
  }

  /** A VP stored into books without lines, whose rounded lines do not net to zero, leaves the books out of balance. */
  lemma PayableOutOfBalance(policy: Policy, close: Tolerance, db: Db, q: PayableRequest)
    requires db.lines == []
    requires CreateVoucherPayable(policy, close, db, q).Ok?
    requires SumOf(q.lines, RoundedDebit) - SumOf(q.lines, RoundedCredit) != 0
    ensures !Balanced(CreateVoucherPayable(policy, close, db, q).value.db)
  {
    PayableNet(policy, close, db, q);
    NoBoundKeepsAll(CreateVoucherPayable(policy, close, db, q).value.db);
  }

  /** Without an `as_of` bound every line counts. */
  lemma NoBoundKeepsAll(db: Db)
    ensures EntryLines.LinesUpTo(db, None) == db.lines
  {
    SelectAll(db.lines, EntryLines.UpToFilter(None));
  }

  /** The same call with the corrected validator is refused before anything is written. */
  lemma RawSumRefusedWhenCorrected(close: Tolerance)
    ensures CreateVoucherPayable(Corrected, close, VendorOnly(), HalfCentRequest()) == Err(Unbalanced)
  {
    var db, q := VendorOnly(), HalfCentRequest();
    RawSumValidatorAccepts(close);
    assert db.accounts[0] in db.accounts;
  }

  // ----- reading a transaction back -----

  /** What `get_transaction` returns: the header, its lines, its subsidiary lines and the balance check. */
  datatype TransactionView = TransactionView(
    header: Header,
    lines: seq<EntryLine>,
    subs: seq<SubLine>,
    check: EntryLines.BalanceCheck,
    isBalanced: bool)

  /**
    * `get_transaction(number)`: nothing when no header holds the number;
    * otherwise the header, the number's lines and subsidiary lines as their
    * own `get_by_number` lists them (each row as often as stored, in their
    * order), the whole balance check, and whether its debits and credits
    * pass the float test as `close` reads it.
    */
  function GetTransaction(close: Tolerance, db: Db, number: string): (r: Option<TransactionView>)
    ensures r.Some? <==> NumberTaken(db.headers, number)
    ensures r.Some? ==> r.value.header in db.headers && r.value.header.number == number
    ensures r.Some? ==> forall l :: l in r.value.lines <==> l in db.lines && l.number == number
    ensures r.Some? ==> forall s :: s in r.value.subs <==> s in db.subs && s.number == number
    ensures r.Some? ==> r.value.lines == EntryLines.GetByNumber(db, number) && r.value.subs == SubLines.GetByNumber(db, number)
    ensures r.Some? ==> r.value.check == EntryLines.ValidateEntryBalance(close, db, number)
    ensures r.Some? ==> r.value.isBalanced == r.value.check.balanced
    ensures r.Some? && Abs(SumOf(EntryLines.LinesOf(db, number), Signed)) < FinePerCent ==> r.value.isBalanced
    ensures r.Some? && r.value.isBalanced ==> Abs(SumOf(EntryLines.LinesOf(db, number), Signed)) <= FinePerCent
  {
    match LedgerHeaders.GetByNumber(db, number)
    case None => None
    case Some(h) =>
      var check := EntryLines.ValidateEntryBalance(close, db, number);
      Some(TransactionView(h, EntryLines.GetByNumber(db, number), SubLines.GetByNumber(db, number), check, check.balanced))
  }

  /** Every line belongs to a stored header (the delete cascade keeps this). */
  predicate LinesHaveHeaders(db: Db) {
    forall l :: l in db.lines ==> NumberTaken(db.headers, l.number)
  }

  /**
    * With the corrected validator and numbering, a VP reads back right after
    * it is created: its header, and lines that balance.
    */
  lemma PayableReadsBack(close: Tolerance, db: Db, q: PayableRequest)
    requires LinesHaveHeaders(db) && CreateVoucherPayable(Corrected, close, db, q).Ok?
    ensures var r := CreateVoucherPayable(Corrected, close, db, q).value;
      && GetTransaction(close, r.db, r.number).Some?
      && GetTransaction(close, r.db, r.number).value.isBalanced
  {
    var r := CreateVoucherPayable(Corrected, close, db, q).value;
    PayableStored(Corrected, close, db, q);
    PayableEntriesNetZero(close, q, r.number);
    assert r.db.headers[|db.headers|].number == r.number;
    PostedReadsBack(close, db, r.db, r.number, PayableEntries(q, r.number));
  }

  /** The CV counterpart of `PayableReadsBack`. */
  lemma CheckReadsBack(close: Tolerance, db: Db, q: CheckRequest)
    requires LinesHaveHeaders(db) && CreateCheckVoucher(Corrected, close, db, q).Ok?
    ensures var r := CreateCheckVoucher(Corrected, close, db, q).value;
      && GetTransaction(close, r.db, r.number).Some?
      && GetTransaction(close, r.db, r.number).value.isBalanced
  {
    var r := CreateCheckVoucher(Corrected, close, db, q).value;
    CheckStoredHeader(Corrected, close, db, q);
    CheckStoredLines(Corrected, close, db, q);
    CheckEntriesNetZero(close, q, r.number);
    assert r.db.headers[|db.headers|].number == r.number;
    PostedReadsBack(close, db, r.db, r.number, CheckEntries(q, r.number));
  }

  /** A post under a fresh number of zero-net inputs reads back as a balanced transaction. */
  lemma PostedReadsBack(close: Tolerance, db: Db, after: Db, number: string, entries: seq<EntryLines.LineInput>)
    requires LinesHaveHeaders(db) && !NumberTaken(db.headers, number) && NumberTaken(after.headers, number)
    requires LinesAppended(db.lines, after.lines, entries)
    requires forall i :: 0 <= i < |entries| ==> entries[i].number == number
    requires SumOf(entries, EntryLines.InputSigned) == 0
    ensures GetTransaction(close, after, number).Some? && GetTransaction(close, after, number).value.isBalanced
  {
    FreshNumberHasNoLines(db, number);
    PostedLinesNetZero(db, after, number, entries);
  }

  lemma FreshNumberHasNoLines(db: Db, number: string)
    requires LinesHaveHeaders(db) && !NumberTaken(db.headers, number)
    ensures forall l :: l in db.lines ==> l.number != number
  {
  }

  /** The lines of a number no earlier line held are the posted ones, so they net to what the inputs net to. */
  lemma PostedLinesNetZero(db: Db, after: Db, number: string, entries: seq<EntryLines.LineInput>)
    requires forall l :: l in db.lines ==> l.number != number
    requires LinesAppended(db.lines, after.lines, entries)
    requires forall i :: 0 <= i < |entries| ==> entries[i].number == number
    requires SumOf(entries, EntryLines.InputSigned) == 0
    ensures SumOf(EntryLines.LinesOf(after, number), Signed) == 0
  {
    var added := after.lines[|db.lines|..];
    AddedLines(db.lines, after.lines, entries, number);
    AppendedLinesOf(db, after, added, number);
    EntryLines.InsertedSigned(added, entries);
  }

  /** The appended tail of the lines is the inserted entries, one line per entry, all under the entries' number. */
  lemma AddedLines(before: seq<EntryLine>, after: seq<EntryLine>, entries: seq<EntryLines.LineInput>, number: string)
    requires LinesAppended(before, after, entries)
    requires forall i :: 0 <= i < |entries| ==> entries[i].number == number
    ensures after == before + after[|before|..]
    ensures |after[|before|..]| == |entries|
    ensures forall i :: 0 <= i < |entries| ==>
      EntryLines.Inserted(after[|before|..][i], entries[i]) && after[|before|..][i].number == number
  {
    var added := after[|before|..];
    assert after == before + added;
    forall i | 0 <= i < |added|
      ensures EntryLines.Inserted(added[i], entries[i]) && added[i].number == number
    {
      assert added[i] == after[|before| + i];
    }
  }

  /** When no earlier line holds the number, the number's lines are exactly the appended ones. */
  lemma AppendedLinesOf(db: Db, after: Db, added: seq<EntryLine>, number: string)
    requires after.lines == db.lines + added
    requires forall l :: l in db.lines ==> l.number != number
    requires forall i :: 0 <= i < |added| ==> added[i].number == number
    ensures EntryLines.LinesOf(after, number) == added
  {
    var p := EntryLines.HasNumber(number);
    SelectAppend(db.lines, added, p);
    SelectNone(db.lines, p);
    SelectAll(added, p);
  }

  // ----- voiding -----

  /** What a successful void returns. */
  datatype Voided = Voided(db: Db, message: string, audit: AuditEvent)

  /**
    * `void_transaction(number)`: the number must be stored and not already
    * `void`; then the header with that id becomes `void`. No line is touched.
    * Of the transaction it reads back only the header is used, so the
    * header lookup stands for it.
    */
  function VoidTransaction(db: Db, number: string, voidedBy: Option<nat>): (r: Result<Voided, Failure>)
    ensures r == Err(TransactionNotFound) <==> !NumberTaken(db.headers, number)
    ensures r == Err(AlreadyVoided) <==> NumberTaken(db.headers, number) && LedgerHeaders.GetByNumber(db, number).value.status == Void
    ensures r.Err? ==> r.error in {TransactionNotFound, AlreadyVoided}
    ensures r.Ok? ==> var id := LedgerHeaders.GetByNumber(db, number).value.id;
      && |r.value.db.headers| == |db.headers|
      && (forall i :: 0 <= i < |db.headers| ==>
            r.value.db.headers[i] == if db.headers[i].id == id then db.headers[i].(status := Void) else db.headers[i])
      && r.value.db.(headers := db.headers) == db
    ensures r.Ok? ==> r.value.message == "Transaction voided successfully" && r.value.audit == AuditEvent(voidedBy, "VOID_TRANSACTION", number)
  {
    match LedgerHeaders.GetByNumber(db, number)
    case None => Err(TransactionNotFound)
    case Some(h) =>
      if h.status == Void then Err(AlreadyVoided)
      else Ok(Voided(LedgerHeaders.VoidById(db, h.id), "Transaction voided successfully", AuditEvent(voidedBy, "VOID_TRANSACTION", number)))
  }

  /** Once voided, a transaction reads back `void` and cannot be voided again. */
  lemma VoidThenVoid(db: Db, number: string, voidedBy: Option<nat>, again: Option<nat>)
    requires UniqueNumbers(db.headers) && VoidTransaction(db, number, voidedBy).Ok?
    ensures var after := VoidTransaction(db, number, voidedBy).value.db;
      && LedgerHeaders.GetByNumber(after, number).Some?
      && LedgerHeaders.GetByNumber(after, number).value.status == Void
      && VoidTransaction(after, number, again) == Err(AlreadyVoided)
  {
    var after := VoidTransaction(db, number, voidedBy).value.db;
    var h := LedgerHeaders.GetByNumber(db, number).value;
    var i :| 0 <= i < |db.headers| && db.headers[i] == h;
    VoidedAt(db, after, i);
  }

  /** When the header at `i` and those sharing its id are voided, its number reads back the voided header. */
  lemma VoidedAt(db: Db, after: Db, i: nat)
    requires UniqueNumbers(db.headers) && i < |db.headers| && |after.headers| == |db.headers|
    requires forall k :: 0 <= k < |db.headers| ==>
      after.headers[k] == if db.headers[k].id == db.headers[i].id then db.headers[k].(status := Void) else db.headers[k]
    ensures LedgerHeaders.GetByNumber(after, db.headers[i].number) == Some(db.headers[i].(status := Void))
  {
    SameNumbersUnique(db.headers, after.headers);
    LedgerHeaders.GetByNumberUnique(after, i);
  }

  /** Headers renumbered in no position keep their numbers unique. */
  lemma SameNumbersUnique(before: seq<Header>, after: seq<Header>)
    requires UniqueNumbers(before) && |after| == |before|
    requires forall k :: 0 <= k < |before| ==> after[k].number == before[k].number
    ensures UniqueNumbers(after)
  {
  }

  /** Voiding changes no line, so balanced books stay balanced. */
  lemma VoidKeepsBalanced(db: Db, number: string, voidedBy: Option<nat>)
    requires Balanced(db) && VoidTransaction(db, number, voidedBy).Ok?
    ensures Balanced(VoidTransaction(db, number, voidedBy).value.db)
  {
    var after := VoidTransaction(db, number, voidedBy).value.db;
    assert after.lines == db.lines;
    forall asOf: Option<Date>
      ensures SumOf(EntryLines.LinesUpTo(after, asOf), Signed) == 0
    {
      assert EntryLines.LinesUpTo(after, asOf) == EntryLines.LinesUpTo(db, asOf);
    }
  }

  // ----- the account ledger -----

  /** What `get_account_ledger` returns; `running` is empty when no balance was asked for. */
  datatype LedgerView = LedgerView(
    account: Account,
    rows: seq<EntryLines.AccountRow>,
    running: seq<int>,
    balance: EntryLines.AccountBalance,
    periodEnd: Date)

  function RowSigned(a: EntryLines.AccountRow): int {
    Signed(a.line)
  }

  /**
    * `get_account_ledger(code, start, end, include_balance)`: the account's
    * rows in the window, newest first, each with the running balance
    * accumulated in that order (a debit adds, anything else subtracts); the
    * balance up to `end`; and the period's end, today when none is given.
    */
  method GetAccountLedger(db: Db, code: string, start: Option<Date>, end: Option<Date>, includeBalance: bool, today: Date)
    returns (r: Result<LedgerView, Failure>)
    ensures r.Err? <==> AccountRegistry.GetByCode(db, code).None?
    ensures r.Err? ==> r.error == AccountNotFound(code)
    ensures r.Ok? ==> && r.value.account == AccountRegistry.GetByCode(db, code).value
                      && r.value.rows == EntryLines.GetByAccount(db, code, start, end)
                      && r.value.balance == EntryLines.GetAccountBalance(db, code, end)
                      && r.value.periodEnd == (if end.Some? then end.value else today)
    ensures r.Ok? && !includeBalance ==> r.value.running == []
    ensures r.Ok? && includeBalance ==> |r.value.running| == |r.value.rows|
    ensures r.Ok? && includeBalance ==>
      forall i :: 0 <= i < |r.value.rows| ==> r.value.running[i] == SumOf(r.value.rows[..i + 1], RowSigned)
  {
    var account := AccountRegistry.GetByCode(db, code);
    if account.None? {
      return Err(AccountNotFound(code));
    }
    var rows := EntryLines.GetByAccount(db, code, start, end);
    var running: seq<int> := [];
    if includeBalance {
      running := RunningBalances(rows);
    }
    var periodEnd := if end.Some? then end.value else today;
    r := Ok(LedgerView(account.value, rows, running, EntryLines.GetAccountBalance(db, code, end), periodEnd));
  }

  /** The loop of `get_account_ledger`: the balance after each row, accumulated in the given order. */
  method RunningBalances(rows: seq<EntryLines.AccountRow>) returns (running: seq<int>)
    ensures |running| == |rows|
    ensures forall i :: 0 <= i < |rows| ==> running[i] == SumOf(rows[..i + 1], RowSigned)
  {
    running := [];
    var acc := 0;
    var i := 0;
    while i < |rows|
      invariant 0 <= i <= |rows|
      invariant |running| == i
      invariant acc == SumOf(rows[..i], RowSigned)
      invariant forall k :: 0 <= k < i ==> running[k] == SumOf(rows[..k + 1], RowSigned)
    {
      assert rows[..i + 1][..i] == rows[..i];
      acc := acc + RowSigned(rows[i]);
      running := running + [acc];
      i := i + 1;
    }
  }

  /** Consecutive running balances differ by the later row's signed amount; the last one is the rows' net. */
  lemma RunningBalanceSteps(rows: seq<EntryLines.AccountRow>, running: seq<int>)
    requires |running| == |rows|
    requires forall i :: 0 <= i < |rows| ==> running[i] == SumOf(rows[..i + 1], RowSigned)
    ensures |rows| > 0 ==> running[0] == RowSigned(rows[0])
    ensures forall i :: 0 < i < |rows| ==> running[i] == running[i - 1] + RowSigned(rows[i])
    ensures |rows| > 0 ==> running[|rows| - 1] == SumOf(rows, RowSigned)
  {
    if |rows| > 0 {
      assert rows[..1] == [rows[0]];
      SumOfSingle(rows[0], RowSigned);
      assert rows[..|rows|] == rows;
    }
    forall i | 0 < i < |rows|
      ensures running[i] == running[i - 1] + RowSigned(rows[i])
    {
      assert rows[..i + 1][..i] == rows[..i];
    }
  }

  // ----- the trial-balance report -----

  datatype TrialReport = TrialReport(
    rows: seq<EntryLines.TrialRow>,
    totalDebits: int,
    totalCredits: int,
    difference: nat,
    balanced: bool,
    asOf: Date)

  /**
    * `get_trial_balance(as_of)`: the per-account rows, their column totals,
    * the absolute difference, balanced when the totals pass the float test
    * as `close` reads it, and the cut-off date, today when none is given.
    */
  function GetTrialBalance(close: Tolerance, db: Db, asOf: Option<Date>, today: Date): (r: TrialReport)
    ensures r.rows == EntryLines.GetTrialBalance(db, asOf)
    ensures r.totalDebits == EntryLines.Debits(EntryLines.LinesUpTo(db, asOf))
    ensures r.totalCredits == EntryLines.Credits(EntryLines.LinesUpTo(db, asOf))
    ensures r.difference == Abs(SumOf(EntryLines.LinesUpTo(db, asOf), Signed))
    ensures r.balanced == close(r.totalDebits, r.totalCredits)
    ensures r.difference < FinePerCent ==> r.balanced
    ensures r.balanced ==> r.difference <= FinePerCent
    ensures r.asOf == if asOf.Some? then asOf.value else today
  {
    var rows := EntryLines.GetTrialBalance(db, asOf);
    var d, c := SumOf(rows, EntryLines.RowDebits), SumOf(rows, EntryLines.RowCredits);
    ReportTotals(db, asOf);
    assert Abs(d - c) == Abs(SumOf(EntryLines.LinesUpTo(db, asOf), Signed));
    ToleranceBounds(close, d, c);
    TrialReport(rows, d, c, Abs(d - c), close(d, c), if asOf.Some? then asOf.value else today)
  }

  /** The report's column totals are the debits and credits of the lines up to the cut-off. */
  lemma ReportTotals(db: Db, asOf: Option<Date>)
    ensures var rows, ls := EntryLines.GetTrialBalance(db, asOf), EntryLines.LinesUpTo(db, asOf);
      && SumOf(rows, EntryLines.RowDebits) == EntryLines.Debits(ls)
      && SumOf(rows, EntryLines.RowCredits) == EntryLines.Credits(ls)
      && SumOf(rows, EntryLines.RowDebits) - SumOf(rows, EntryLines.RowCredits) == SumOf(ls, Signed)
  {
    EntryLines.TrialBalanceTotals(db, asOf);
    EntryLines.DebitsMinusCredits(EntryLines.LinesUpTo(db, asOf));
  }

  /** Balanced books give a balanced report with no difference, at every cut-off. */
  lemma BalancedBooksBalancedReport(close: Tolerance, db: Db, asOf: Option<Date>, today: Date)
    requires Balanced(db)
    ensures GetTrialBalance(close, db, asOf, today).balanced
    ensures GetTrialBalance(close, db, asOf, today).difference == 0
    ensures GetTrialBalance(close, db, asOf, today).totalDebits == GetTrialBalance(close, db, asOf, today).totalCredits
  {
    assert SumOf(EntryLines.LinesUpTo(db, asOf), Signed) == 0;
    EntryLines.DebitsMinusCredits(EntryLines.LinesUpTo(db, asOf));
  }

  // ----- the float test passes a one-cent gap -----

  /** A VP of 10.01 whose lines are a debit of 10.01 and a credit of 10.00. */
  function OneCentRequest(): PayableRequest {
    PayableRequest(Date(2025, 1, 15), "VEND001", 100100, None, None,
      [ LineRequest("5000", "General Expense", 100100, "D"),
        LineRequest("2000", "Accounts Payable", 100000, "C") ],
      [], None)
  }

  lemma SumOfTwo<T>(x: T, y: T, f: T -> int)
    ensures SumOf([x, y], f) == f(x) + f(y)
  {
    assert [x, y][..1] == [x];
    SumOfSingle(x, f);
  }

  /** Rounded, the one-cent VP's lines net to a cent, so the corrected validator refuses them. */
  lemma OneCentRefusedByCorrected(close: Tolerance)
    ensures !ValidateCreditDebitBalance(Corrected, close, OneCentRequest().lines, Quantize(OneCentRequest().total))
    ensures SumOf(OneCentRequest().lines, RoundedDebit) - SumOf(OneCentRequest().lines, RoundedCredit) == FinePerCent
  {
    var ls := OneCentRequest().lines;
    assert ls == [ls[0], ls[1]];
    assert Quantize(100100) == 100100 && Quantize(100000) == 100000;
    SumOfTwo(ls[0], ls[1], RoundedDebit);
    SumOfTwo(ls[0], ls[1], RoundedCredit);
  }

  /**
    * Python computes `abs(10.01 - 10.0)` as 0.009999999999999787, so a reading
    * `close` that passes that gap is the one the interpreter makes. Under it
    * the validator as written accepts debits of 10.01 against credits of
    * 10.00, and the VP is stored.
    */
  lemma OneCentValidatorAccepts(close: Tolerance)
    requires close(100100, 100000)
    ensures ValidateCreditDebitBalance(AsWritten, close, OneCentRequest().lines, Quantize(OneCentRequest().total))
    ensures CreateVoucherPayable(AsWritten, close, VendorOnly(), OneCentRequest()).Ok?
  {
    var db, q := VendorOnly(), OneCentRequest();
    var ls := q.lines;
    assert ls == [ls[0], ls[1]];
    assert Quantize(100100) == 100100;
    SumOfTwo(ls[0], ls[1], RawDebit);
    SumOfTwo(ls[0], ls[1], RawCredit);
    assert AccountRegistry.GetByCode(db, q.payeeCode).Some? by {
      assert db.accounts[0] in db.accounts;
    }
    PayableStoredWhenFree(AsWritten, close, db, q);
  }

  /** The two lines the one-cent VP stores into books without lines: 10.01 debit, 10.00 credit, both under its number. */
  lemma OneCentLines(close: Tolerance)
    requires close(100100, 100000)
    ensures CreateVoucherPayable(AsWritten, close, VendorOnly(), OneCentRequest()).Ok?
    ensures var r := CreateVoucherPayable(AsWritten, close, VendorOnly(), OneCentRequest()).value;
      && EntryLines.LinesOf(r.db, r.number) == r.db.lines
      && EntryLines.LinesUpTo(r.db, None) == r.db.lines
      && EntryLines.Debits(r.db.lines) == 100100 && EntryLines.Credits(r.db.lines) == 100000
  {
    var db, q := VendorOnly(), OneCentRequest();
    OneCentValidatorAccepts(close);
    var r := CreateVoucherPayable(AsWritten, close, db, q).value;
    PayableStored(AsWritten, close, db, q);
    StoredPair(r.db.lines, LineInputs(VP, r.number, q.date, q.lines), r.number);
    AppendedLinesOf(db, r.db, r.db.lines, r.number);
    NoBoundKeepsAll(r.db);
  }

  /** Two inputs, a debit and then a credit under one number, stored into an empty line table. */
  lemma StoredPair(ls: seq<EntryLine>, entries: seq<EntryLines.LineInput>, number: string)
    requires LinesAppended([], ls, entries)
    requires |entries| == 2 && entries[0].sideText == "D" && entries[1].sideText == "C"
    requires entries[0].number == number && entries[1].number == number
    ensures forall i :: 0 <= i < |ls| ==> ls[i].number == number
    ensures EntryLines.Debits(ls) == entries[0].amount && EntryLines.Credits(ls) == entries[1].amount
  {
    assert EntryLines.Inserted(ls[0 + 0], entries[0]);
    assert EntryLines.Inserted(ls[0 + 1], entries[1]);
    assert ls == [ls[0], ls[1]];
    assert ls[0].side == Debit && ls[1].side == Credit;
    SumOfTwo(ls[0], ls[1], DebitPart);
    SumOfTwo(ls[0], ls[1], CreditPart);
  }

  /**
    * As written, the one-cent VP is stored into balanced books and leaves
    * them one cent out of balance, yet `get_transaction` and the trial
    * balance both report it balanced.
    */
  lemma OneCentGapStored(close: Tolerance, today: Date)
    requires close(100100, 100000)
    ensures Balanced(VendorOnly())
    ensures CreateVoucherPayable(AsWritten, close, VendorOnly(), OneCentRequest()).Ok?
    ensures var r := CreateVoucherPayable(AsWritten, close, VendorOnly(), OneCentRequest()).value;
      && !Balanced(r.db)
      && GetTransaction(close, r.db, r.number).Some?
      && GetTransaction(close, r.db, r.number).value.isBalanced
      && GetTrialBalance(close, r.db, None, today).balanced
      && GetTrialBalance(close, r.db, None, today).difference == FinePerCent
  {
    NoLinesBalanced(VendorOnly());
    OneCentRefusedByCorrected(close);
    OneCentLines(close);
    var r := CreateVoucherPayable(AsWritten, close, VendorOnly(), OneCentRequest()).value;
    PayableOutOfBalance(AsWritten, close, VendorOnly(), OneCentRequest());
    assert r.db.headers[|VendorOnly().headers|].number == r.number by {
      PayableStored(AsWritten, close, VendorOnly(), OneCentRequest());
    }
  }

  /** Corrected, the same VP is refused before anything is written, whatever the float reading. */
  lemma OneCentGapRefusedWhenCorrected(close: Tolerance)
    ensures CreateVoucherPayable(Corrected, close, VendorOnly(), OneCentRequest()) == Err(Unbalanced)
  {
    var db, q := VendorOnly(), OneCentRequest();
    OneCentRefusedByCorrected(close);
    assert db.accounts[0] in db.accounts;
  }

  // ----- search -----

  /**
    * The line search the service calls but the line table does not provide:
    * lines whose account code or account description contains the term.
    */
  predicate LineMatchesTerm(l: EntryLine, term: string) {
    Like(l.acctCode, term) || Like(l.acctDescription, term)
  }

  function LineHitNumbers(db: Db, term: string): (ns: seq<string>)
    ensures forall n :: n in ns ==> exists l :: l in db.lines && LineMatchesTerm(l, term) && l.number == n
    ensures forall l :: l in db.lines && LineMatchesTerm(l, term) ==> l.number in ns
  {
    var hits := Select(db.lines, (l: EntryLine) => LineMatchesTerm(l, term));
    var ns := seq(|hits|, i requires 0 <= i < |hits| => hits[i].number);
    forall n | n in ns
      ensures exists l :: l in db.lines && LineMatchesTerm(l, term) && l.number == n
    {
      var i :| 0 <= i < |ns| && ns[i] == n;
      assert hits[i] in hits;
    }
    forall l | l in db.lines && LineMatchesTerm(l, term)
      ensures l.number in ns
    {
      assert l in hits;
      var i :| 0 <= i < |hits| && hits[i] == l;
      assert ns[i] == l.number;
    }
    ns
  }

  function SubHitNumbers(db: Db, term: string): (ns: seq<string>)
    ensures forall n :: n in ns ==> exists s :: s in db.subs && SubLines.MatchesTerm(s, term) && s.number == n
    ensures forall s :: s in db.subs && SubLines.MatchesTerm(s, term) && NumberTaken(db.headers, s.number) ==> s.number in ns
  {
    var hits := SubLines.Search(db, term);
    var ns := RowNumbers(hits);
    forall n | n in ns
      ensures exists s :: s in db.subs && SubLines.MatchesTerm(s, term) && s.number == n
    {
      var x :| x in hits && x.sub.number == n;
    }
    forall s | s in db.subs && SubLines.MatchesTerm(s, term) && NumberTaken(db.headers, s.number)
      ensures s.number in ns
    {
      var j :| 0 <= j < |db.headers| && db.headers[j].number == s.number;
      assert db.headers[j] in db.headers;
      assert SubLines.SubRowOf(s, db.headers[j]) in hits;
    }
    ns
  }

  /** The voucher number of each row, in order. */
  function RowNumbers(rows: seq<SubLines.SubRow>): (ns: seq<string>)
    ensures forall x :: x in rows ==> x.sub.number in ns
    ensures forall n :: n in ns ==> exists x :: x in rows && x.sub.number == n
  {
    var ns := seq(|rows|, i requires 0 <= i < |rows| => rows[i].sub.number);
    forall x | x in rows ensures x.sub.number in ns {
      var i :| 0 <= i < |rows| && rows[i] == x;
      assert ns[i] == x.sub.number;
    }
    forall n | n in ns ensures exists x :: x in rows && x.sub.number == n {
      var i :| 0 <= i < |ns| && ns[i] == n;
      assert rows[i] in rows;
    }
    ns
  }

  /** The header of each number that has one, in order; numbers without a header are skipped. */
  function HeadersOf(db: Db, ns: seq<string>): (r: seq<Header>)
    ensures forall h :: h in r ==> h in db.headers && h.number in ns
    ensures forall n :: n in ns && NumberTaken(db.headers, n) ==> NumberTaken(r, n)
    decreases |ns|
  {
    if |ns| == 0 then []
    else
      var rest := HeadersOf(db, ns[1..]);
      assert forall n :: n in ns ==> n == ns[0] || n in ns[1..];
      match LedgerHeaders.GetByNumber(db, ns[0])
      case None => rest
      case Some(h) =>
        TakenAfterPrefix([h], rest);
        assert ([h] + rest)[0] == h;
        [h] + rest
  }

  /** A number held in `b` is held in `a + b`. */
  lemma TakenAfterPrefix(a: seq<Header>, b: seq<Header>)
    ensures forall n :: NumberTaken(b, n) ==> NumberTaken(a + b, n)
  {
    forall n | NumberTaken(b, n)
      ensures NumberTaken(a + b, n)
    {
      var i :| 0 <= i < |b| && b[i].number == n;
      assert (a + b)[|a| + i] == b[i];
    }
  }

  /** A number held in `a` is held in every sequence that keeps `a`'s rows. */
  lemma TakenInSuperset(a: seq<Header>, b: seq<Header>, n: string)
    requires forall h :: h in a ==> h in b
    requires NumberTaken(a, n)
    ensures NumberTaken(b, n)
  {
    var i :| 0 <= i < |a| && a[i].number == n;
    assert a[i] in b;
    var j :| 0 <= j < |b| && b[j] == a[i];
  }

  /** The service's deduplication: each row is kept unless a kept row already holds its number. */
  function AddDistinct(acc: seq<Header>, hs: seq<Header>): (r: seq<Header>)
    requires UniqueNumbers(acc)
    ensures UniqueNumbers(r)
    ensures forall h :: h in r ==> h in acc || h in hs
    ensures forall h :: h in acc ==> h in r
    ensures forall h :: h in hs ==> NumberTaken(r, h.number)
    decreases |hs|
  {
    if |hs| == 0 then acc
    else
      var x := hs[0];
      assert forall h :: h in hs ==> h == x || h in hs[1..];
      if NumberTaken(acc, x.number) then
        var r := AddDistinct(acc, hs[1..]);
        TakenInSuperset(acc, r, x.number);
        r
      else
        var next := acc + [x];
        assert next[|acc|] == x;
        var r := AddDistinct(next, hs[1..]);
        assert NumberTaken(next, x.number);
        TakenInSuperset(next, r, x.number);
        r
  }

  predicate HeaderInWindow(h: Header, start: Option<Date>, end: Option<Date>) {
    (start.None? || DateLe(start.value, h.date)) && (end.None? || DateLe(h.date, end.value))
  }

  function WindowFilter(start: Option<Date>, end: Option<Date>): Header -> bool {
    (h: Header) => HeaderInWindow(h, start, end)
  }

  /** Why a header is a search hit: on its own columns (and type), or through one of its lines or subsidiary lines. */
  predicate Found(db: Db, term: string, kindText: string, h: Header) {
    || (LedgerHeaders.MatchesTerm(h, term) && LedgerHeaders.OfKindText(h, kindText))
    || (exists l :: l in db.lines && LineMatchesTerm(l, term) && l.number == h.number)
    || (exists s :: s in db.subs && SubLines.MatchesTerm(s, term) && s.number == h.number)
  }

  /** The candidate rows before the date window: header hits first, then the headers of the line and subsidiary hits. */
  function Combined(db: Db, term: string, kindText: string): (r: seq<Header>)
    ensures UniqueNumbers(r)
    ensures forall h :: h in r ==> h in db.headers && Found(db, term, kindText, h)
    ensures forall h :: h in db.headers && Found(db, term, kindText, h) ==> NumberTaken(r, h.number)
  {
    var ledgerHits := LedgerHeaders.Search(db, term, kindText);
    var extra := HeadersOf(db, LineHitNumbers(db, term) + SubHitNumbers(db, term));
    var first := AddDistinct([], ledgerHits);
    var combined := AddDistinct(first, extra);
    forall h | h in ledgerHits
      ensures NumberTaken(combined, h.number)
    {
      TakenInSuperset(first, combined, h.number);
    }
    CombinedSound(db, term, kindText, extra, combined);
    CombinedCovers(db, term, kindText, extra, combined);
    combined
  }

  lemma CombinedSound(db: Db, term: string, kindText: string, extra: seq<Header>, combined: seq<Header>)
    requires extra == HeadersOf(db, LineHitNumbers(db, term) + SubHitNumbers(db, term))
    requires forall h :: h in combined ==> h in LedgerHeaders.Search(db, term, kindText) || h in extra
    ensures forall h :: h in combined ==> h in db.headers && Found(db, term, kindText, h)
  {
    forall h | h in combined
      ensures h in db.headers && Found(db, term, kindText, h)
    {
      if h in extra {
        var ns := LineHitNumbers(db, term) + SubHitNumbers(db, term);
        assert h.number in ns;
        if h.number in LineHitNumbers(db, term) {
        } else {
          assert h.number in SubHitNumbers(db, term);
        }
      }
    }
  }

  lemma CombinedCovers(db: Db, term: string, kindText: string, extra: seq<Header>, combined: seq<Header>)
    requires extra == HeadersOf(db, LineHitNumbers(db, term) + SubHitNumbers(db, term))
    requires forall h :: h in LedgerHeaders.Search(db, term, kindText) ==> NumberTaken(combined, h.number)
    requires forall h :: h in extra ==> NumberTaken(combined, h.number)
    ensures forall h :: h in db.headers && Found(db, term, kindText, h) ==> NumberTaken(combined, h.number)
  {
    forall h | h in db.headers && Found(db, term, kindText, h)
      ensures NumberTaken(combined, h.number)
    {
      if !(LedgerHeaders.MatchesTerm(h, term) && LedgerHeaders.OfKindText(h, kindText)) {
        var ns := LineHitNumbers(db, term) + SubHitNumbers(db, term);
        var i :| 0 <= i < |db.headers| && db.headers[i] == h;
        assert NumberTaken(db.headers, h.number);
        assert h.number in ns;
        var k :| 0 <= k < |extra| && extra[k].number == h.number;
        assert extra[k] in extra;
      }
    }
  }

  /** Filtering keeps numbers distinct. */
  lemma {:induction false} SelectKeepsUnique(s: seq<Header>, p: Header -> bool)
    requires UniqueNumbers(s)
    ensures UniqueNumbers(Select(s, p))
    decreases |s|
  {
    if |s| > 0 {
      var t, x := s[..|s| - 1], s[|s| - 1];
      assert UniqueNumbers(t);
      SelectKeepsUnique(t, p);
      if p(x) {
        var u := Select(t, p);
        forall k | 0 <= k < |u|
          ensures u[k].number != x.number
        {
          assert u[k] in u;
          var j :| 0 <= j < |t| && t[j] == u[k];
        }
        assert Select(s, p) == u + [x];
      }
    }
  }

  /**
    * `search_transactions(term, type, start, end)`. As written the line
    * search it calls does not exist, the error is caught, and every search
    * returns nothing. Corrected: the header hits, then the headers of the
    * line and subsidiary hits, one row per number, within the date window.
    */
  function SearchTransactions(policy: Policy, db: Db, term: string, kindText: string, start: Option<Date>, end: Option<Date>): (r: seq<Header>)
    ensures policy == AsWritten ==> r == []
    ensures UniqueNumbers(r)
    ensures forall h :: h in r ==> h in db.headers && HeaderInWindow(h, start, end) && Found(db, term, kindText, h)
    ensures policy == Corrected ==> forall h :: h in Combined(db, term, kindText) && HeaderInWindow(h, start, end) ==> h in r
  {
    match policy
    case AsWritten => []
    case Corrected =>
      var c := Combined(db, term, kindText);
      SelectKeepsUnique(c, WindowFilter(start, end));
      var r := Select(c, WindowFilter(start, end));
      assert forall h :: h in c && HeaderInWindow(h, start, end) ==> WindowFilter(start, end)(h);
      r
  }

  /**
    * Corrected, with unique numbers, every header in the window that is
    * found on its own columns, or through one of its lines or subsidiary
    * lines, is returned.
    */
  lemma SearchComplete(db: Db, term: string, kindText: string, start: Option<Date>, end: Option<Date>, h: Header)
    requires UniqueNumbers(db.headers)
    requires h in db.headers && HeaderInWindow(h, start, end) && Found(db, term, kindText, h)
    ensures h in SearchTransactions(Corrected, db, term, kindText, start, end)
  {
    TakenMeansPresent(db.headers, Combined(db, term, kindText), h);
  }

  /**
    * The type filter only applies to header hits: a header found through a
    * subsidiary line is returned whatever type was asked for.
    */
  lemma SubsidiaryHitIgnoresType(db: Db, term: string, kindText: string, h: Header, s: SubLine)
    requires UniqueNumbers(db.headers) && h in db.headers
    requires s in db.subs && SubLines.MatchesTerm(s, term) && s.number == h.number
    ensures h in SearchTransactions(Corrected, db, term, kindText, None, None)
  {
    SearchComplete(db, term, kindText, None, None, h);
  }

  /** As written a header is not found even by its own full number; corrected, it is. */
  lemma SearchMissesOwnNumber(db: Db, i: nat)
    requires UniqueNumbers(db.headers) && i < |db.headers|
    ensures SearchTransactions(AsWritten, db, db.headers[i].number, "", None, None) == []
    ensures db.headers[i] in SearchTransactions(Corrected, db, db.headers[i].number, "", None, None)
  {
    LedgerHeaders.SearchFindsOwnNumber(db, i, "");
    assert db.headers[i] in db.headers;
    SearchComplete(db, db.headers[i].number, "", None, None, db.headers[i]);
  }
}

=== FILE: accounts.dfy ===
/**
  * The chart of accounts (`acct_definition`): account codes are unique across
  * active and inactive rows, lookups see only active rows, and deletion only
  * clears the active flag.
  */
module AccountRegistry {
  import opened Wrappers
  import opened Order
  import opened Tables
  import opened Books

  predicate CodeTaken(accounts: seq<Account>, code: string) {
    exists i :: 0 <= i < |accounts| && accounts[i].code == code
  }

  /** `INSERT INTO acct_definition`: fails on a code already present, active or not. */
  function Create(db: Db, code: string, description: string, acctType: string, prefix: Option<string>): (r: Option<Db>)
    ensures r.Some? <==> !CodeTaken(db.accounts, code)
    ensures r.Some? ==> r.value.accounts == db.accounts + [Account(db.nextAccountId, code, description, acctType, prefix, true)]
    ensures r.Some? ==> r.value.nextAccountId > db.nextAccountId
    ensures r.Some? ==> r.value.(accounts := db.accounts, nextAccountId := db.nextAccountId) == db
  {
    if CodeTaken(db.accounts, code) then None
    else Some(db.(accounts := db.accounts + [Account(db.nextAccountId, code, description, acctType, prefix, true)],
                  nextAccountId := db.nextAccountId + 1))
  }

  function IsActiveCode(code: string): Account -> bool {
    (a: Account) => a.code == code && a.active
  }

  /** `get_by_code`: the active account with this code, if any. */
  function GetByCode(db: Db, code: string): (r: Option<Account>)
    ensures r.Some? ==> r.value in db.accounts && r.value.code == code && r.value.active
    ensures r.None? <==> forall a :: a in db.accounts ==> !(a.code == code && a.active)
  {
    var hits := Select(db.accounts, IsActiveCode(code));
    if |hits| == 0 then None else Some(hits[0])
  }

  function TypeCodeKey(a: Account): Key {
    Pair(Str(a.acctType), Str(a.code))
  }

  predicate Listed(a: Account, acctType: string, includeInactive: bool) {
    (includeInactive || a.active) && (acctType == "" || a.acctType == acctType)
  }

  function ListedFilter(acctType: string, includeInactive: bool): Account -> bool {
    (a: Account) => Listed(a, acctType, includeInactive)
  }

  /** `get_all`: the listed accounts, each once per row, ordered by type, then code. An empty type filter is no filter. */
  function GetAll(db: Db, acctType: string, includeInactive: bool): (r: seq<Account>)
    ensures forall a :: a in r <==> a in db.accounts && Listed(a, acctType, includeInactive)
    ensures CountsOf(r, db.accounts, ListedFilter(acctType, includeInactive))
    ensures Sorted(r, TypeCodeKey)
  {
    var hits := Select(db.accounts, ListedFilter(acctType, includeInactive));
    SelectCounts(db.accounts, ListedFilter(acctType, includeInactive));
    var r := SortBy(hits, TypeCodeKey);
    assert forall a :: a in r <==> a in hits by {
      forall a ensures a in r <==> a in hits {
        assert a in r <==> a in multiset(r);
        assert a in hits <==> a in multiset(hits);
      }
    }
    r
  }

  predicate IsPayeeType(t: string) {
    t == "Company" || t == "Customer" || t == "Employee"
  }

  function DescriptionKey(a: Account): Key {
    Str(a.description)
  }

  function PayeeFilter(): Account -> bool {
    (a: Account) => a.active && IsPayeeType(a.acctType)
  }

  /** `get_payees`: active Company, Customer and Employee accounts, each once per row, ordered by description. */
  function GetPayees(db: Db): (r: seq<Account>)
    ensures forall a :: a in r <==> a in db.accounts && a.active && IsPayeeType(a.acctType)
    ensures CountsOf(r, db.accounts, PayeeFilter())
    ensures Sorted(r, DescriptionKey)
  {
    var hits := Select(db.accounts, PayeeFilter());
    SelectCounts(db.accounts, PayeeFilter());
    var r := SortBy(hits, DescriptionKey);
    assert forall a :: a in r <==> a in hits by {
      forall a ensures a in r <==> a in hits {
        assert a in r <==> a in multiset(r);
        assert a in hits <==> a in multiset(hits);
      }
    }
    r
  }

  /** The fields `update`/`update_by_code` accept; `None` means "not given". The code is not among them. */
  datatype AccountUpdate = AccountUpdate(
    description: Option<string>,
    acctType: Option<string>,
    prefix: Option<Option<string>>,
    active: Option<bool>)
  {
    predicate IsEmpty() {
      description.None? && acctType.None? && prefix.None? && active.None?
    }
  }

  function Patch(a: Account, u: AccountUpdate): Account {
    a.(description := u.description.GetOr(a.description),
       acctType := u.acctType.GetOr(a.acctType),
       prefix := u.prefix.GetOr(a.prefix),
       active := u.active.GetOr(a.active))
  }

  /** What an update may do to one row: keep its id and code, and take every field the update names. */
  predicate UpdatedRow(before: Account, after: Account, u: AccountUpdate) {
    && after.id == before.id && after.code == before.code
    && (u.description.Some? ==> after.description == u.description.value)
    && (u.description.None? ==> after.description == before.description)
    && (u.acctType.Some? ==> after.acctType == u.acctType.value)
    && (u.acctType.None? ==> after.acctType == before.acctType)
    && (u.prefix.Some? ==> after.prefix == u.prefix.value)
    && (u.prefix.None? ==> after.prefix == before.prefix)
    && (u.active.Some? ==> after.active == u.active.value)
    && (u.active.None? ==> after.active == before.active)
  }

  function UpdateWhere(db: Db, hit: Account -> bool, u: AccountUpdate): (r: Option<Db>)
    ensures r.None? <==> u.IsEmpty()
    ensures r.Some? ==> |r.value.accounts| == |db.accounts|
    ensures r.Some? ==> forall i :: 0 <= i < |db.accounts| ==>
      if hit(db.accounts[i]) then UpdatedRow(db.accounts[i], r.value.accounts[i], u) else r.value.accounts[i] == db.accounts[i]
    ensures r.Some? ==> r.value.(accounts := db.accounts) == db
  {
    if u.IsEmpty() then None
    else Some(db.(accounts := PatchWhere(db.accounts, hit, (a: Account) => Patch(a, u))))
  }

  /** `update(account_id, ...)`: an update naming no allowed field returns False and changes nothing. */
  function Update(db: Db, id: nat, u: AccountUpdate): (r: Option<Db>)
    ensures r.None? <==> u.IsEmpty()
    ensures r.Some? ==> |r.value.accounts| == |db.accounts|
    ensures r.Some? ==> forall i :: 0 <= i < |db.accounts| ==>
      if db.accounts[i].id == id then UpdatedRow(db.accounts[i], r.value.accounts[i], u) else r.value.accounts[i] == db.accounts[i]
    ensures r.Some? ==> r.value.(accounts := db.accounts) == db
  {
    UpdateWhere(db, (a: Account) => a.id == id, u)
  }

  /** `update_by_code(acct_code, ...)`: the same allow-list, rows matched by code. */
  function UpdateByCode(db: Db, code: string, u: AccountUpdate): (r: Option<Db>)
    ensures r.None? <==> u.IsEmpty()
    ensures r.Some? ==> |r.value.accounts| == |db.accounts|
    ensures r.Some? ==> forall i :: 0 <= i < |db.accounts| ==>
      if db.accounts[i].code == code then UpdatedRow(db.accounts[i], r.value.accounts[i], u) else r.value.accounts[i] == db.accounts[i]
    ensures r.Some? ==> r.value.(accounts := db.accounts) == db
  {
    UpdateWhere(db, (a: Account) => a.code == code, u)
  }

  /** Soft delete: every row stays; only the active flag of the matched rows is cleared. */
  function DeactivateWhere(db: Db, hit: Account -> bool): (r: Db)
    ensures |r.accounts| == |db.accounts|
    ensures forall i :: 0 <= i < |db.accounts| ==>
      r.accounts[i] == db.accounts[i].(active := r.accounts[i].active)
      && r.accounts[i].active == (db.accounts[i].active && !hit(db.accounts[i]))
    ensures r.(accounts := db.accounts) == db
  {
    db.(accounts := PatchWhere(db.accounts, hit, (a: Account) => a.(active := false)))
  }

  function SoftDelete(db: Db, id: nat): (r: Db)
    ensures |r.accounts| == |db.accounts|
    ensures forall i :: 0 <= i < |db.accounts| ==>
      r.accounts[i] == db.accounts[i].(active := r.accounts[i].active)
      && r.accounts[i].active == (db.accounts[i].active && db.accounts[i].id != id)
    ensures r.(accounts := db.accounts) == db
  {
    DeactivateWhere(db, (a: Account) => a.id == id)
  }

  function SoftDeleteByCode(db: Db, code: string): (r: Db)
    ensures |r.accounts| == |db.accounts|
    ensures forall i :: 0 <= i < |db.accounts| ==>
      r.accounts[i] == db.accounts[i].(active := r.accounts[i].active)
      && r.accounts[i].active == (db.accounts[i].active && db.accounts[i].code != code)
    ensures r.(accounts := db.accounts) == db
  {
    DeactivateWhere(db, (a: Account) => a.code == code)
  }

  /**
    * `is_code_available(code, exclude_id)`: no row other than `exclude_id`
    * holds the code. Inactive rows count; an id of 0 excludes nothing, as
    * Python treats it as false.
    */
  function IsCodeAvailable(db: Db, code: string, excludeId: nat): (r: bool)
    ensures r <==> forall i :: 0 <= i < |db.accounts| && db.accounts[i].code == code ==>
      excludeId != 0 && db.accounts[i].id == excludeId
  {
    forall i :: 0 <= i < |db.accounts| && db.accounts[i].code == code ==> excludeId != 0 && db.accounts[i].id == excludeId
  }

  /** `validate_account_code`: required, then at most 50 characters, then not taken. */
  function ValidateAccountCode(db: Db, code: string): (r: Verdict)
    ensures r.ok <==> code != "" && |code| <= 50 && !CodeTaken(db.accounts, code)
    ensures code == "" ==> r.message == "Account code is required"
    ensures code != "" && |code| > 50 ==> r.message == "Account code too long (max 50 characters)"
    ensures code != "" && |code| <= 50 && CodeTaken(db.accounts, code) ==> r.message == "Account code already exists"
    ensures r.ok ==> r.message == "Valid"
  {
    if code == "" then Verdict(false, "Account code is required")
    else if |code| > 50 then Verdict(false, "Account code too long (max 50 characters)")
    else if !IsCodeAvailable(db, code, 0) then Verdict(false, "Account code already exists")
    else Verdict(true, "Valid")
  }

  datatype Bucket = Bucket(acctType: string, accounts: seq<Account>)

  function TypeOf(a: Account): string {
    a.acctType
  }

  /**
    * `get_accounts_by_category`: the accounts of `get_all()` in one bucket per
    * type, buckets in order of first appearance.
    */
  function GetAccountsByCategory(db: Db): (r: seq<Bucket>)
    ensures forall i, j :: 0 <= i < j < |r| ==> r[i].acctType != r[j].acctType
    ensures forall i, a :: 0 <= i < |r| ==>
      (a in r[i].accounts <==> a in GetAll(db, "", false) && a.acctType == r[i].acctType)
    ensures forall a :: a in GetAll(db, "", false) ==> exists i :: 0 <= i < |r| && r[i].acctType == a.acctType
  {
    var all := GetAll(db, "", false);
    var ks := GroupKeys(all, TypeOf);
    TypesAreKeys(all);
    BucketsOf(all, ks)
  }

  /** Every account's type is one of the group keys by type. */
  lemma TypesAreKeys(all: seq<Account>)
    ensures var ks := GroupKeys(all, TypeOf);
      && (forall i, j :: 0 <= i < j < |ks| ==> ks[i] != ks[j])
      && (forall i :: 0 <= i < |all| ==> all[i].acctType in ks)
  {
    var ks := GroupKeys(all, TypeOf);
    assert forall i :: 0 <= i < |all| ==> TypeOf(all[i]) in ks;
  }

  function BucketsOf(all: seq<Account>, ks: seq<string>): (r: seq<Bucket>)
    requires forall i, j :: 0 <= i < j < |ks| ==> ks[i] != ks[j]
    requires forall i :: 0 <= i < |all| ==> all[i].acctType in ks
    ensures forall i, j :: 0 <= i < j < |r| ==> r[i].acctType != r[j].acctType
    ensures forall i, a :: 0 <= i < |r| ==> (a in r[i].accounts <==> a in all && a.acctType == r[i].acctType)
    ensures forall a :: a in all ==> exists i :: 0 <= i < |r| && r[i].acctType == a.acctType
  {
    var r := seq(|ks|, i requires 0 <= i < |ks| => Bucket(ks[i], Group(all, TypeOf, ks[i])));
    assert forall i :: 0 <= i < |r| ==> r[i].acctType == ks[i];
    assert forall a :: a in all ==> exists i :: 0 <= i < |r| && r[i].acctType == a.acctType by {
      forall a | a in all ensures exists i :: 0 <= i < |r| && r[i].acctType == a.acctType {
        var k :| 0 <= k < |all| && all[k] == a;
        var i :| 0 <= i < |ks| && ks[i] == a.acctType;
        assert r[i].acctType == a.acctType;
      }
    }
    r
  }

  // ----- Properties relating the operations -----

  /** A freshly created account is found by its code. */
  lemma CreateThenGetByCode(db: Db, code: string, description: string, acctType: string, prefix: Option<string>)
    requires Create(db, code, description, acctType, prefix).Some?
    ensures GetByCode(Create(db, code, description, acctType, prefix).value, code)
      == Some(Account(db.nextAccountId, code, description, acctType, prefix, true))
  {
    var after := Create(db, code, description, acctType, prefix).value;
    var a := Account(db.nextAccountId, code, description, acctType, prefix, true);
    var r := GetByCode(after, code);
    assert a in after.accounts;
    assert r.Some?;
    var k :| 0 <= k < |after.accounts| && after.accounts[k] == r.value;
    assert forall i :: 0 <= i < |db.accounts| ==> after.accounts[i].code != code;
  }

  lemma CreateKeepsCodesUnique(db: Db, code: string, description: string, acctType: string, prefix: Option<string>)
    requires UniqueCodes(db.accounts)
    requires Create(db, code, description, acctType, prefix).Some?
    ensures UniqueCodes(Create(db, code, description, acctType, prefix).value.accounts)
  {
  }

  /** After a soft delete by code the account is no longer found, yet its code stays taken. */
  lemma SoftDeleteHidesButKeepsCode(db: Db, code: string)
    requires CodeTaken(db.accounts, code)
    ensures GetByCode(SoftDeleteByCode(db, code), code).None?
    ensures !IsCodeAvailable(SoftDeleteByCode(db, code), code, 0)
    ensures Create(SoftDeleteByCode(db, code), code, "", "", None).None?
  {
    var after := SoftDeleteByCode(db, code);
    var k :| 0 <= k < |db.accounts| && db.accounts[k].code == code;
    assert after.accounts[k].code == code;
    forall a | a in after.accounts ensures !(a.code == code && a.active) {
      var i :| 0 <= i < |after.accounts| && after.accounts[i] == a;
    }
  }

  /** Updates never touch codes, so they keep codes unique. */
  lemma UpdateKeepsCodesUnique(db: Db, id: nat, u: AccountUpdate)
    requires UniqueCodes(db.accounts)
    requires !u.IsEmpty()
    ensures UniqueCodes(Update(db, id, u).value.accounts)
  {
  }

  /** A code that passes validation can be created. */
  lemma ValidCodeCanBeCreated(db: Db, code: string, description: string, acctType: string, prefix: Option<string>)
    requires ValidateAccountCode(db, code).ok
    ensures Create(db, code, description, acctType, prefix).Some?
  {
  }
}

=== FILE: books.dfy ===
/**
  * The records of the ledger database: chart-of-accounts rows, transaction
  * headers (`ledger`), debit/credit lines (`ledger_credit_debit`) and
  * subsidiary-code lines (`ledger_subcodes`). The whole database is one
  * immutable value; each table is a sequence of rows in insertion order and
  * carries its own AUTOINCREMENT counter.
  */
module Books {
  import opened Wrappers
  import opened Dates

  /** The two transaction types: Voucher Payable and Check Voucher. */
  datatype Kind = VP | CV

  function KindText(k: Kind): (s: string)
    ensures |s| == 2 && '-' !in s
  {
    match k
    case VP => "VP"
    case CV => "CV"
  }

  /** Header status. Written values are `active` (the default), `paid` and `void`. */
  datatype Status = Active | Paid | Void

  /** The `acct_type` column of a line: `D` for a debit, `C` for a credit. */
  datatype Side = Debit | Credit

  function SideText(s: Side): string {
    match s
    case Debit => "D"
    case Credit => "C"
  }

  /** The side check of the line model: only `D` and `C` are accepted. */
  function SideFromText(t: string): (r: Option<Side>)
    ensures r.Some? <==> t == "D" || t == "C"
    ensures r.Some? ==> SideText(r.value) == t
  {
    if t == "D" then Some(Debit) else if t == "C" then Some(Credit) else None
  }

  datatype Account = Account(
    id: nat,
    code: string,
    description: string,
    acctType: string,
    prefix: Option<string>,
    active: bool)

  datatype Header = Header(
    id: nat,
    kind: Kind,
    number: string,
    date: Date,
    payeeCode: string,
    payee: string,
    total: int,
    description: Option<string>,
    dueDate: Option<Date>,
    status: Status,
    createdBy: Option<nat>)

  datatype EntryLine = EntryLine(
    id: nat,
    kind: Kind,
    number: string,
    date: Date,
    acctCode: string,
    acctDescription: string,
    amount: int,
    side: Side)

  datatype SubLine = SubLine(
    id: nat,
    kind: Kind,
    number: string,
    date: Date,
    acctCode: string,
    acctDescription: string,
    subCode: string,
    subDescription: string,
    amount: int)

  datatype Db = Db(
    accounts: seq<Account>,
    headers: seq<Header>,
    lines: seq<EntryLine>,
    subs: seq<SubLine>,
    nextAccountId: nat,
    nextHeaderId: nat,
    nextLineId: nat,
    nextSubId: nat)

  /** A debit counts positively and a credit negatively. */
  function Signed(l: EntryLine): int {
    if l.side == Debit then l.amount else -l.amount
  }

  function DebitPart(l: EntryLine): int {
    if l.side == Debit then l.amount else 0
  }

  function CreditPart(l: EntryLine): int {
    if l.side == Credit then l.amount else 0
  }

  /** `UNIQUE` on `ledger.number`. */
  predicate UniqueNumbers(headers: seq<Header>) {
    forall i, j :: 0 <= i < j < |headers| ==> headers[i].number != headers[j].number
  }

  predicate NumberTaken(headers: seq<Header>, n: string) {
    exists i :: 0 <= i < |headers| && headers[i].number == n
  }

  /** Under `UNIQUE`, a number identifies its header. */
  lemma NumberIdentifies(headers: seq<Header>, x: Header, y: Header)
    requires UniqueNumbers(headers) && x in headers && y in headers && x.number == y.number
    ensures x == y
  {
    var a :| 0 <= a < |headers| && headers[a] == x;
    var b :| 0 <= b < |headers| && headers[b] == y;
    assert !(a < b) && !(b < a);
  }

  /** Under `UNIQUE`, a sub-table of the headers that has a header's number holds that header. */
  lemma TakenMeansPresent(headers: seq<Header>, c: seq<Header>, h: Header)
    requires UniqueNumbers(headers) && h in headers
    requires forall x :: x in c ==> x in headers
    requires NumberTaken(c, h.number)
    ensures h in c
  {
    var j :| 0 <= j < |c| && c[j].number == h.number;
    assert c[j] in c;
    NumberIdentifies(headers, c[j], h);
  }

  /** `UNIQUE` on `acct_definition.acct_code`. */
  predicate UniqueCodes(accounts: seq<Account>) {
    forall i, j :: 0 <= i < j < |accounts| ==> accounts[i].code != accounts[j].code
  }

  /** Rewrites every row that `hit` selects with `patch`, leaving the order and the other rows alone. */
  function PatchWhere<T>(s: seq<T>, hit: T -> bool, patch: T -> T): (r: seq<T>)
    ensures |r| == |s|
    ensures forall i :: 0 <= i < |s| ==> r[i] == if hit(s[i]) then patch(s[i]) else s[i]
  {
    seq(|s|, i requires 0 <= i < |s| => if hit(s[i]) then patch(s[i]) else s[i])
  }
}

=== FILE: companies.dfy ===
/**
  * The `companies` table and `CompanyService`: create, update and soft
  * delete, with their guards. Lookups by company id see only active rows,
  * while the UNIQUE constraint on the id covers inactive rows as well.
  */
module Companies {
  import opened Wrappers
  import opened Text
  import opened Tables
  import opened Books
  import Users

  datatype Company = Company(id: nat, companyId: string, name: string, businessType: string, active: bool)

  datatype CompanyTable = CompanyTable(rows: seq<Company>, nextId: nat)

  predicate IsBusinessType(b: string) {
    b == "B2B" || b == "B2C"
  }

  /** Any row, active or not, has this company id: an INSERT of it breaks the UNIQUE constraint. */
  predicate IdTaken(rows: seq<Company>, companyId: string) {
    exists i :: 0 <= i < |rows| && rows[i].companyId == companyId
  }

  function ActiveWithId(companyId: string): Company -> bool {
    (c: Company) => c.companyId == companyId && c.active
  }

  /** `get_company_by_id`: the active company with this id, if any. */
  function GetCompanyById(t: CompanyTable, companyId: string): (r: Option<Company>)
    ensures r.Some? ==> r.value in t.rows && r.value.companyId == companyId && r.value.active
    ensures r.None? <==> forall c :: c in t.rows ==> !(c.companyId == companyId && c.active)
  {
    var hits := Select(t.rows, ActiveWithId(companyId));
    if |hits| == 0 then
      assert forall c :: c in t.rows && ActiveWithId(companyId)(c) ==> c in hits;
      None
    else
      assert hits[0] in hits;
      Some(hits[0])
  }

  /**
    * `create_company`: id and name required, a known business type, no
    * active company with the id; the INSERT itself still fails on an id an
    * inactive row keeps.
    */
  function CreateCompany(t: CompanyTable, companyId: string, name: string, businessType: string): (r: Result<CompanyTable, string>)
    ensures companyId == "" || name == "" ==> r == Err("Company ID and name are required")
    ensures companyId != "" && name != "" && !IsBusinessType(businessType) ==>
      r == Err("Business type must be B2B or B2C")
    ensures (companyId != "" && name != "" && IsBusinessType(businessType)
             && GetCompanyById(t, companyId).Some?) ==> r == Err("Company ID already exists")
    ensures (companyId != "" && name != "" && IsBusinessType(businessType)
             && GetCompanyById(t, companyId).None? && IdTaken(t.rows, companyId)) ==> r == Err("Failed to create company")
    ensures r.Ok? <==> companyId != "" && name != "" && IsBusinessType(businessType) && !IdTaken(t.rows, companyId)
    ensures r.Ok? ==> (r.value.rows == t.rows + [Company(t.nextId, companyId, name, businessType, true)]
                       && r.value.nextId > t.nextId)
  {
    if companyId == "" || name == "" then Err("Company ID and name are required")
    else if !IsBusinessType(businessType) then Err("Business type must be B2B or B2C")
    else if GetCompanyById(t, companyId).Some? then
      assert IdTaken(t.rows, companyId) by {
        var c := GetCompanyById(t, companyId).value;
        var i :| 0 <= i < |t.rows| && t.rows[i] == c;
      }
      Err("Company ID already exists")
    else if IdTaken(t.rows, companyId) then Err("Failed to create company")
    else Ok(CompanyTable(t.rows + [Company(t.nextId, companyId, name, businessType, true)], t.nextId + 1))
  }

  function HasCompanyId(companyId: string): Company -> bool {
    (c: Company) => c.companyId == companyId
  }

  /**
    * `update_company`: the company must be active, a new business type
    * must be B2B or B2C, and at least one field must be given. The UPDATE
    * matches on the company id alone.
    */
  function UpdateCompany(t: CompanyTable, companyId: string, name: Option<string>, businessType: Option<string>): (r: Result<CompanyTable, string>)
    ensures GetCompanyById(t, companyId).None? ==> r == Err("Company not found")
    ensures GetCompanyById(t, companyId).Some? && businessType.Some? && !IsBusinessType(businessType.value) ==>
      r == Err("Business type must be B2B or B2C")
    ensures GetCompanyById(t, companyId).Some? && name.None? && businessType.None? ==> r == Err("No updates provided")
    ensures r.Ok? <==> GetCompanyById(t, companyId).Some? && (name.Some? || businessType.Some?)
                       && (businessType.Some? ==> IsBusinessType(businessType.value))
    ensures r.Ok? ==> |r.value.rows| == |t.rows| && r.value.nextId == t.nextId
    ensures r.Ok? ==> forall i :: 0 <= i < |t.rows| ==>
      var (a, b) := (t.rows[i], r.value.rows[i]);
      b.id == a.id && b.companyId == a.companyId && b.active == a.active
      && (a.companyId == companyId ==> b.name == name.GetOr(a.name) && b.businessType == businessType.GetOr(a.businessType))
      && (a.companyId != companyId ==> b == a)
  {
    if GetCompanyById(t, companyId).None? then Err("Company not found")
    else if businessType.Some? && !IsBusinessType(businessType.value) then Err("Business type must be B2B or B2C")
    else if name.None? && businessType.None? then Err("No updates provided")
    else
      Ok(t.(rows := PatchWhere(t.rows, HasCompanyId(companyId),
        (c: Company) => c.(name := name.GetOr(c.name), businessType := businessType.GetOr(c.businessType)))))
  }

  function ActiveMember(companyId: string): Users.User -> bool {
    (u: Users.User) => u.companyId == Some(companyId) && u.active
  }

  /** `COUNT(*)` of the active users of a company. */
  function ActiveUserCount(users: Users.UserTable, companyId: string): (n: nat)
    ensures n == 0 <==> forall u :: u in users.rows ==> !(u.companyId == Some(companyId) && u.active)
  {
    var hits := Select(users.rows, ActiveMember(companyId));
    assert |hits| > 0 ==> hits[0] in hits;
    |hits|
  }

  /**
    * `delete_company`: the company must be active and have no active users;
    * deletion only clears the active flag.
    */
  function DeleteCompany(t: CompanyTable, users: Users.UserTable, companyId: string): (r: Result<CompanyTable, string>)
    ensures GetCompanyById(t, companyId).None? ==> r == Err("Company not found")
    ensures GetCompanyById(t, companyId).Some? && ActiveUserCount(users, companyId) > 0 ==>
      r == Err("Cannot delete company with " + NatToString(ActiveUserCount(users, companyId)) + " active users")
    ensures r.Ok? <==> GetCompanyById(t, companyId).Some?
                       && forall u :: u in users.rows ==> !(u.companyId == Some(companyId) && u.active)
    ensures r.Ok? ==> |r.value.rows| == |t.rows| && r.value.nextId == t.nextId
    ensures r.Ok? ==> forall i :: 0 <= i < |t.rows| ==>
      (t.rows[i].companyId == companyId ==> r.value.rows[i] == t.rows[i].(active := false))
      && (t.rows[i].companyId != companyId ==> r.value.rows[i] == t.rows[i])
  {
    if GetCompanyById(t, companyId).None? then Err("Company not found")
    else
      var count := ActiveUserCount(users, companyId);
      if count > 0 then Err("Cannot delete company with " + NatToString(count) + " active users")
      else Ok(t.(rows := PatchWhere(t.rows, HasCompanyId(companyId), (c: Company) => c.(active := false))))
  }

  /** A created company is the one the lookup returns. */
  lemma CreateThenGet(t: CompanyTable, companyId: string, name: string, businessType: string)
    requires CreateCompany(t, companyId, name, businessType).Ok?
    ensures GetCompanyById(CreateCompany(t, companyId, name, businessType).value, companyId)
      == Some(Company(t.nextId, companyId, name, businessType, true))
  {
    var after := CreateCompany(t, companyId, name, businessType).value;
    var c := Company(t.nextId, companyId, name, businessType, true);
    var r := GetCompanyById(after, companyId);
    assert c in after.rows;
    assert r.Some?;
    var i :| 0 <= i < |after.rows| && after.rows[i] == r.value;
  }

  /** A company id that only inactive rows hold is reserved, but invisible to the lookup. */
  lemma InactiveIdReserved(t: CompanyTable, companyId: string, name: string)
    requires IdTaken(t.rows, companyId)
    requires forall c :: c in t.rows ==> !(c.companyId == companyId && c.active)
    requires companyId != "" && name != ""
    ensures GetCompanyById(t, companyId).None?
    ensures CreateCompany(t, companyId, name, "B2B") == Err("Failed to create company")
  {
  }

  /**
    * After a delete the company is gone for lookups, and its id stays
    * reserved: creating it again ends in the INSERT failure, not in
    * "Company ID already exists".
    */
  lemma DeletedIdStaysReserved(t: CompanyTable, users: Users.UserTable, companyId: string, name: string)
    requires DeleteCompany(t, users, companyId).Ok?
    requires companyId != "" && name != ""
    ensures GetCompanyById(DeleteCompany(t, users, companyId).value, companyId).None?
    ensures CreateCompany(DeleteCompany(t, users, companyId).value, companyId, name, "B2B")
      == Err("Failed to create company")
  {
    var after := DeleteCompany(t, users, companyId).value;
    var c := GetCompanyById(t, companyId).value;
    var i :| 0 <= i < |t.rows| && t.rows[i] == c;
    assert after.rows[i].companyId == companyId;
    forall x | x in after.rows ensures !(x.companyId == companyId && x.active) {
      var j :| 0 <= j < |after.rows| && after.rows[j] == x;
    }
    InactiveIdReserved(after, companyId, name);
  }

  /** Deleting a company's last active user through the user service lets the company be deleted. */
  lemma DeleteLastUserThenCompany(t: CompanyTable, users: Users.UserTable, companyId: string, userId: nat,
                                  admin: nat)
    requires GetCompanyById(t, companyId).Some?
    requires admin != userId
    requires forall u :: u in users.rows && u.companyId == Some(companyId) && u.active ==> u.id == userId
    requires Users.GetById(users, userId).Some?
    ensures Users.DeleteUser(users, userId, Some(admin), "admin").Ok?
    ensures DeleteCompany(t, Users.DeleteUser(users, userId, Some(admin), "admin").value.users, companyId).Ok?
  {
    var after := Users.SoftDelete(users, userId);
    forall u | u in after.rows ensures !(u.companyId == Some(companyId) && u.active) {
      var j :| 0 <= j < |after.rows| && after.rows[j] == u;
      assert users.rows[j] in users.rows;
    }
  }
}

=== FILE: dates.dfy ===
/**
  * Calendar dates and timestamps as plain values. Dates are stored as
  * ISO text (`YYYY-MM-DD`), whose text order is the calendar order, so the
  * model compares them as (year, month, day) triples.
  */
module Dates {
  import opened Text
  import opened Order

  datatype Date = Date(year: nat, month: nat, day: nat)

  /** `a <= b` on stored dates. */
  predicate DateLe(a: Date, b: Date) {
    a.year < b.year || (a.year == b.year && (a.month < b.month || (a.month == b.month && a.day <= b.day)))
  }

  predicate DateLt(a: Date, b: Date) {
    DateLe(a, b) && a != b
  }

  /** The sort key of a date column. */
  function DateKey(d: Date): Key {
    Pair(Num(d.year), Pair(Num(d.month), Num(d.day)))
  }

  /** Sorting by `DateKey` is sorting by date. */
  lemma DateKeyLe(a: Date, b: Date)
    ensures Le(DateKey(a), DateKey(b)) <==> DateLe(a, b)
  {
    assert Cmp(Num(a.month), Num(b.month)) == if a.month < b.month then -1 else if a.month == b.month then 0 else 1;
    assert Cmp(Num(a.day), Num(b.day)) == if a.day < b.day then -1 else if a.day == b.day then 0 else 1;
    var md := Cmp(Pair(Num(a.month), Num(a.day)), Pair(Num(b.month), Num(b.day)));
    assert md <= 0 <==> a.month < b.month || (a.month == b.month && a.day <= b.day);
    assert Cmp(DateKey(a), DateKey(b)) == if a.year != b.year then Cmp(Num(a.year), Num(b.year)) else md;
  }

  /** The Gregorian leap-year rule Python's `calendar.isleap` applies. */
  predicate LeapYear(y: nat) {
    y % 4 == 0 && (y % 100 != 0 || y % 400 == 0)
  }

  function DaysInMonth(y: nat, m: nat): (n: nat)
    requires 1 <= m <= 12
    ensures 28 <= n <= 31
    ensures n == 29 <==> m == 2 && LeapYear(y)
  {
    if m == 2 then (if LeapYear(y) then 29 else 28)
    else if m == 4 || m == 6 || m == 9 || m == 11 then 30
    else 31
  }

  /** The dates Python's `datetime.date` can hold: years 1 to 9999 and a real day of the month. */
  predicate ValidDate(d: Date) {
    1 <= d.year <= 9999 && 1 <= d.month <= 12 && 1 <= d.day <= DaysInMonth(d.year, d.month)
  }

  /** `strftime('%Y', date)`: the year as four digits. */
  function YearText(d: Date): (s: string)
    ensures IsNumeral(s) && |s| >= 4
  {
    ZeroPad(NatToString(d.year), 4)
  }

  /** The stored `YYYY-MM-DD` text of a date. */
  function DateText(d: Date): string {
    YearText(d) + "-" + ZeroPad(NatToString(d.month), 2) + "-" + ZeroPad(NatToString(d.day), 2)
  }

  /** A wall-clock timestamp: a date, a time of day and microseconds. */
  datatype Instant = Instant(date: Date, hour: nat, minute: nat, second: nat, micro: nat)

  predicate InstantLt(a: Instant, b: Instant) {
    DateLt(a.date, b.date)
    || (a.date == b.date
        && (a.hour < b.hour
            || (a.hour == b.hour
                && (a.minute < b.minute
                    || (a.minute == b.minute
                        && (a.second < b.second || (a.second == b.second && a.micro < b.micro)))))))
  }

  function Two(n: nat): string {
    ZeroPad(NatToString(n), 2)
  }

  function ClockText(t: Instant): string {
    Two(t.hour) + ":" + Two(t.minute) + ":" + Two(t.second)
  }

  /** SQLite's `datetime(...)` text: `YYYY-MM-DD HH:MM:SS`, a space between date and time. */
  function SqliteText(t: Instant): string {
    DateText(t.date) + " " + ClockText(t)
  }

  /** Python's `datetime.isoformat()`: `YYYY-MM-DDTHH:MM:SS[.ffffff]`, a `T` between date and time. */
  function IsoText(t: Instant): string {
    DateText(t.date) + "T" + ClockText(t) + (if t.micro == 0 then "" else "." + ZeroPad(NatToString(t.micro), 6))
  }
}

=== FILE: entries.dfy ===
/**
  * Debit/credit lines (`ledger_credit_debit`): side validation on insert and
  * update, per-transaction and per-account sums, the account listing joined
  * with its headers, and the trial balance.
  */
module EntryLines {
  import opened Wrappers
  import opened Order
  import opened Tables
  import opened Money
  import opened Dates
  import opened Books

  /** A line as handed to `create`/`create_multiple`, its side still the raw `acct_type` text. */
  datatype LineInput = LineInput(
    kind: Kind,
    number: string,
    date: Date,
    acctCode: string,
    acctDescription: string,
    amount: int,
    sideText: string)

  predicate ValidSide(e: LineInput) {
    SideFromText(e.sideText).Some?
  }

  /** The stored row is the input with its side text read back unchanged. */
  predicate Inserted(l: EntryLine, e: LineInput) {
    && l.kind == e.kind && l.number == e.number && l.date == e.date
    && l.acctCode == e.acctCode && l.acctDescription == e.acctDescription
    && l.amount == e.amount && SideText(l.side) == e.sideText
  }

  function LineOf(id: nat, e: LineInput): (l: EntryLine)
    requires ValidSide(e)
    ensures Inserted(l, e) && l.id == id
  {
    EntryLine(id, e.kind, e.number, e.date, e.acctCode, e.acctDescription, e.amount, SideFromText(e.sideText).value)
  }

  /** `create`: an `acct_type` other than `D` or `C` is refused before anything is written. */
  function Create(db: Db, e: LineInput): (r: Option<Db>)
    ensures r.Some? <==> e.sideText == "D" || e.sideText == "C"
    ensures r.Some? ==> |r.value.lines| == |db.lines| + 1 && r.value.lines[..|db.lines|] == db.lines
    ensures r.Some? ==> Inserted(r.value.lines[|db.lines|], e) && r.value.lines[|db.lines|].id == db.nextLineId
    ensures r.Some? ==> r.value.(lines := db.lines, nextLineId := db.nextLineId) == db
  {
    if !ValidSide(e) then None
    else
      var lines := db.lines + [LineOf(db.nextLineId, e)];
      assert lines[..|db.lines|] == db.lines;
      Some(db.(lines := lines, nextLineId := db.nextLineId + 1))
  }

  /** Appends every input, in order, with consecutive ids. */
  function AppendLines(db: Db, es: seq<LineInput>): (r: Db)
    requires forall i :: 0 <= i < |es| ==> ValidSide(es[i])
    ensures |r.lines| == |db.lines| + |es| && r.lines[..|db.lines|] == db.lines
    ensures forall i :: 0 <= i < |es| ==> Inserted(r.lines[|db.lines| + i], es[i])
    ensures r.nextLineId == db.nextLineId + |es|
    ensures r.(lines := db.lines, nextLineId := db.nextLineId) == db
    decreases |es|
  {
    if |es| == 0 then
      assert db.lines[..|db.lines|] == db.lines;
      db
    else
      var next := db.(lines := db.lines + [LineOf(db.nextLineId, es[0])], nextLineId := db.nextLineId + 1);
      var r := AppendLines(next, es[1..]);
      assert r.lines[..|db.lines|] == db.lines by {
        assert r.lines[..|next.lines|][..|db.lines|] == next.lines[..|db.lines|];
      }
      assert r.lines[|db.lines|] == next.lines[|db.lines|] by {
        assert r.lines[..|next.lines|] == next.lines;
      }
      forall i | 1 <= i < |es| ensures Inserted(r.lines[|db.lines| + i], es[i]) {
        assert es[1..][i - 1] == es[i];
        assert |db.lines| + i == |next.lines| + (i - 1);
      }
      r
  }

  /**
    * `create_multiple`: an empty list is refused, and one entry with an
    * invalid side rolls the whole batch back; otherwise every entry is
    * stored, in order.
    */
  function CreateMultiple(db: Db, es: seq<LineInput>): (r: Option<Db>)
    ensures r.Some? <==> |es| > 0 && forall i :: 0 <= i < |es| ==> es[i].sideText == "D" || es[i].sideText == "C"
    ensures r.Some? ==> |r.value.lines| == |db.lines| + |es| && r.value.lines[..|db.lines|] == db.lines
    ensures r.Some? ==> forall i :: 0 <= i < |es| ==> Inserted(r.value.lines[|db.lines| + i], es[i])
    ensures r.Some? ==> r.value.(lines := db.lines, nextLineId := db.nextLineId) == db
  {
    if |es| == 0 || exists i :: 0 <= i < |es| && !ValidSide(es[i]) then None
    else Some(AppendLines(db, es))
  }

  /** The signed amount an input contributes: a debit adds, a credit subtracts. */
  function InputSigned(e: LineInput): int {
    if e.sideText == "D" then e.amount else if e.sideText == "C" then -e.amount else 0
  }

  /** The stored batch nets to the same signed total as the inputs. */
  lemma {:induction false} InsertedSigned(ls: seq<EntryLine>, es: seq<LineInput>)
    requires |ls| == |es| && forall i :: 0 <= i < |es| ==> Inserted(ls[i], es[i])
    ensures SumOf(ls, Signed) == SumOf(es, InputSigned)
    decreases |es|
  {
    if |es| > 0 {
      var n := |es| - 1;
      assert Inserted(ls[n], es[n]);
      InsertedSigned(ls[..n], es[..n]);
    }
  }

  // ----- updates -----

  /** The fields `update` accepts; `None` means "not given". */
  datatype LineUpdate = LineUpdate(
    acctCode: Option<string>,
    acctDescription: Option<string>,
    amount: Option<int>,
    sideText: Option<string>)
  {
    predicate IsEmpty() {
      acctCode.None? && acctDescription.None? && amount.None? && sideText.None?
    }
  }

  /** `update`: refused when empty or when it names a side other than `D`/`C`. */
  function Update(db: Db, id: nat, u: LineUpdate): (r: Option<Db>)
    ensures r.None? <==> u.IsEmpty() || (u.sideText.Some? && u.sideText.value != "D" && u.sideText.value != "C")
    ensures r.Some? ==> |r.value.lines| == |db.lines|
    ensures r.Some? ==> forall i :: 0 <= i < |db.lines| ==>
      var before, after := db.lines[i], r.value.lines[i];
      if before.id != id then after == before
      else
        && after.id == before.id && after.kind == before.kind && after.number == before.number && after.date == before.date
        && after.acctCode == (if u.acctCode.Some? then u.acctCode.value else before.acctCode)
        && after.acctDescription == (if u.acctDescription.Some? then u.acctDescription.value else before.acctDescription)
        && after.amount == (if u.amount.Some? then u.amount.value else before.amount)
        && SideText(after.side) == (if u.sideText.Some? then u.sideText.value else SideText(before.side))
    ensures r.Some? ==> r.value.(lines := db.lines) == db
  {
    if u.IsEmpty() then None
    else if u.sideText.Some? && SideFromText(u.sideText.value).None? then None
    else
      var side := if u.sideText.Some? then SideFromText(u.sideText.value) else None;
      Some(db.(lines := PatchWhere(db.lines, (l: EntryLine) => l.id == id,
        (l: EntryLine) => l.(acctCode := u.acctCode.GetOr(l.acctCode),
                             acctDescription := u.acctDescription.GetOr(l.acctDescription),
                             amount := u.amount.GetOr(l.amount),
                             side := side.GetOr(l.side)))))
  }

  // ----- queries -----

  /** `ORDER BY acct_type, acct_code`: the side as its letter, so credits (`C`) come before debits (`D`). */
  function SideCodeKey(l: EntryLine): Key {
    Pair(Str(SideText(l.side)), Str(l.acctCode))
  }

  /** `get_by_number`: the lines of one transaction, credits first, then by account code. */
  function GetByNumber(db: Db, number: string): (r: seq<EntryLine>)
    ensures forall l :: l in r <==> l in db.lines && l.number == number
    ensures CountsOf(r, db.lines, HasNumber(number))
    ensures Sorted(r, SideCodeKey)
  {
    var hits := Select(db.lines, HasNumber(number));
    SelectCounts(db.lines, HasNumber(number));
    SortByMembers(hits, SideCodeKey);
    SortBy(hits, SideCodeKey)
  }

  /** In `get_by_number` order no credit follows a debit. */
  lemma CreditsBeforeDebits(db: Db, number: string, i: nat, j: nat)
    requires i < j < |GetByNumber(db, number)|
    ensures GetByNumber(db, number)[i].side == Debit ==> GetByNumber(db, number)[j].side == Debit
  {
    var r := GetByNumber(db, number);
    assert Le(SideCodeKey(r[i]), SideCodeKey(r[j]));
    PairLe(Str(SideText(r[i].side)), Str(r[i].acctCode), Str(SideText(r[j].side)), Str(r[j].acctCode));
    StrKeyLe(SideText(r[i].side), SideText(r[j].side));
  }

  /** `SUM(CASE WHEN acct_type = 'D' ...)` and its credit twin over some lines. */
  function Debits(ls: seq<EntryLine>): int {
    SumOf(ls, DebitPart)
  }

  function Credits(ls: seq<EntryLine>): int {
    SumOf(ls, CreditPart)
  }

  /** Debits minus credits is the signed sum. */
  lemma {:induction false} DebitsMinusCredits(ls: seq<EntryLine>)
    ensures Debits(ls) - Credits(ls) == SumOf(ls, Signed)
    decreases |ls|
  {
    if |ls| > 0 {
      DebitsMinusCredits(ls[..|ls| - 1]);
    }
  }

  function HasNumber(number: string): EntryLine -> bool {
    (l: EntryLine) => l.number == number
  }

  function LinesOf(db: Db, number: string): (r: seq<EntryLine>)
    ensures forall l :: l in r <==> l in db.lines && l.number == number
    ensures CountsOf(r, db.lines, HasNumber(number))
  {
    SelectCounts(db.lines, HasNumber(number));
    Select(db.lines, HasNumber(number))
  }

  /** The answer of `validate_entry_balance`. */
  datatype BalanceCheck = BalanceCheck(balanced: bool, debits: int, credits: int, difference: int)

  /**
    * `validate_entry_balance(number)`: debits and credits of the number's
    * lines, balanced when the float test `difference < 0.01` passes, as
    * `close` reads it. The aggregate always yields one row, so a number
    * without lines reads as 0 against 0.
    */
  function ValidateEntryBalance(close: Tolerance, db: Db, number: string): (r: BalanceCheck)
    ensures r.debits == Debits(LinesOf(db, number)) && r.credits == Credits(LinesOf(db, number))
    ensures r.difference == Abs(r.debits - r.credits)
    ensures r.balanced == close(r.debits, r.credits)
    ensures Abs(SumOf(LinesOf(db, number), Signed)) < FinePerCent ==> r.balanced
    ensures r.balanced ==> Abs(SumOf(LinesOf(db, number), Signed)) <= FinePerCent
  {
    var ls := LinesOf(db, number);
    DebitsMinusCredits(ls);
    var d, c := Debits(ls), Credits(ls);
    BalanceCheck(close(d, c), d, c, Abs(d - c))
  }

  /** A number with no lines at all is reported balanced. */
  lemma NoLinesReadsBalanced(close: Tolerance, db: Db, number: string)
    requires forall l :: l in db.lines ==> l.number != number
    ensures ValidateEntryBalance(close, db, number) == BalanceCheck(true, 0, 0, 0)
  {
    SelectNone(db.lines, HasNumber(number));
  }

  /** `as_of` bounds `date <= as_of` when it is given. */
  predicate UpTo(l: EntryLine, asOf: Option<Date>) {
    asOf.None? || DateLe(l.date, asOf.value)
  }

  datatype AccountBalance = AccountBalance(acctCode: string, debits: int, credits: int, balance: int)

  function AccountUpToFilter(code: string, asOf: Option<Date>): EntryLine -> bool {
    (l: EntryLine) => l.acctCode == code && UpTo(l, asOf)
  }

  function AccountLines(db: Db, code: string, asOf: Option<Date>): (r: seq<EntryLine>)
    ensures forall l :: l in r <==> l in db.lines && l.acctCode == code && UpTo(l, asOf)
    ensures CountsOf(r, db.lines, AccountUpToFilter(code, asOf))
  {
    SelectCounts(db.lines, AccountUpToFilter(code, asOf));
    Select(db.lines, AccountUpToFilter(code, asOf))
  }

  /**
    * `get_account_balance(code, as_of)`: debits minus credits over the
    * account's lines up to `as_of`. There is no status filter: lines of
    * voided transactions count.
    */
  function GetAccountBalance(db: Db, code: string, asOf: Option<Date>): (r: AccountBalance)
    ensures r.acctCode == code
    ensures r.debits == Debits(AccountLines(db, code, asOf)) && r.credits == Credits(AccountLines(db, code, asOf))
    ensures r.balance == SumOf(AccountLines(db, code, asOf), Signed)
  {
    var ls := AccountLines(db, code, asOf);
    DebitsMinusCredits(ls);
    AccountBalance(code, Debits(ls), Credits(ls), Debits(ls) - Credits(ls))
  }

  // ----- the account listing -----

  /** A row of `get_by_account`: the line with its header's payee and description. */
  datatype AccountRow = AccountRow(line: EntryLine, payee: string, ledgerDescription: Option<string>)

  /** `JOIN ledger l ON lcd.number = l.number`. */
  predicate SameNumber(l: EntryLine, h: Header) {
    l.number == h.number
  }

  function AccountRowOf(l: EntryLine, h: Header): AccountRow {
    AccountRow(l, h.payee, h.description)
  }

  predicate InWindow(l: EntryLine, start: Option<Date>, end: Option<Date>) {
    (start.None? || DateLe(start.value, l.date)) && (end.None? || DateLe(l.date, end.value))
  }

  /** `ORDER BY lcd.date DESC, lcd.number DESC`. */
  function LineNewestFirst(a: AccountRow): Key {
    Pair(Desc(DateKey(a.line.date)), Desc(Str(a.line.number)))
  }

  function AccountWindowFilter(code: string, start: Option<Date>, end: Option<Date>): EntryLine -> bool {
    (l: EntryLine) => l.acctCode == code && InWindow(l, start, end)
  }

  /** The inner join of some lines with the headers of their numbers. */
  function JoinHeaders(ls: seq<EntryLine>, headers: seq<Header>): (r: seq<AccountRow>)
    ensures forall a :: a in r ==> a.line in ls && NumberTaken(headers, a.line.number)
    ensures forall l, h :: l in ls && h in headers && h.number == l.number ==> AccountRow(l, h.payee, h.description) in r
  {
    var joined := Join(ls, headers, SameNumber, AccountRowOf);
    forall a | a in joined ensures a.line in ls && NumberTaken(headers, a.line.number) {
      var l, h :| l in ls && h in headers && SameNumber(l, h) && a == AccountRowOf(l, h);
      var i :| 0 <= i < |headers| && headers[i] == h;
    }
    forall l, h | l in ls && h in headers && h.number == l.number
      ensures AccountRow(l, h.payee, h.description) in joined
    {
      assert SameNumber(l, h) && AccountRowOf(l, h) == AccountRow(l, h.payee, h.description);
    }
    joined
  }

  /**
    * `get_by_account(code, start, end)`: the account's lines in the window
    * that have a header, each with that header's payee and description,
    * newest first. A line whose number has no header is dropped by the join.
    */
  function GetByAccount(db: Db, code: string, start: Option<Date>, end: Option<Date>): (r: seq<AccountRow>)
    ensures forall a :: a in r ==> a.line in db.lines && a.line.acctCode == code && InWindow(a.line, start, end)
    ensures forall a :: a in r ==> NumberTaken(db.headers, a.line.number)
    ensures forall l, h :: l in db.lines && l.acctCode == code && InWindow(l, start, end) && h in db.headers && h.number == l.number ==>
      AccountRow(l, h.payee, h.description) in r
    ensures Sorted(r, LineNewestFirst)
  {
    var ls := Select(db.lines, AccountWindowFilter(code, start, end));
    var joined := JoinHeaders(ls, db.headers);
    SortByMembers(joined, LineNewestFirst);
    SortBy(joined, LineNewestFirst)
  }

  // ----- the trial balance -----

  /** One row of `get_trial_balance`. */
  datatype TrialRow = TrialRow(acctCode: string, acctDescription: string, debits: int, credits: int, balance: int)

  function CodeAndDescription(l: EntryLine): (string, string) {
    (l.acctCode, l.acctDescription)
  }

  /** The (code, description) group a trial-balance row stands for. */
  function TrialKey(t: TrialRow): (string, string) {
    (t.acctCode, t.acctDescription)
  }

  function MakeTrialRow(k: (string, string), ls: seq<EntryLine>): TrialRow {
    TrialRow(k.0, k.1, Debits(ls), Credits(ls), Debits(ls) - Credits(ls))
  }

  function RowDebits(t: TrialRow): int {
    t.debits
  }

  function RowCredits(t: TrialRow): int {
    t.credits
  }

  /** `HAVING (total_debits != 0 OR total_credits != 0)`. */
  predicate HasActivity(t: TrialRow) {
    t.debits != 0 || t.credits != 0
  }

  function CodeKey(t: TrialRow): Key {
    Str(t.acctCode)
  }

  function UpToFilter(asOf: Option<Date>): EntryLine -> bool {
    (l: EntryLine) => UpTo(l, asOf)
  }

  function LinesUpTo(db: Db, asOf: Option<Date>): (r: seq<EntryLine>)
    ensures forall l :: l in r <==> l in db.lines && UpTo(l, asOf)
    ensures CountsOf(r, db.lines, UpToFilter(asOf))
  {
    SelectCounts(db.lines, UpToFilter(asOf));
    Select(db.lines, UpToFilter(asOf))
  }

  /** `t` is the aggregate of its (code, description) group among `ls`. */
  predicate Aggregates(t: TrialRow, ls: seq<EntryLine>) {
    var g := Group(ls, CodeAndDescription, (t.acctCode, t.acctDescription));
    |g| > 0 && t.debits == Debits(g) && t.credits == Credits(g) && t.balance == t.debits - t.credits
  }

  lemma TrialGroupSound(ls: seq<EntryLine>, k: (string, string))
    requires exists w :: 0 <= w < |ls| && CodeAndDescription(ls[w]) == k
    ensures Aggregates(MakeTrialRow(k, Group(ls, CodeAndDescription, k)), ls)
  {
    var w :| 0 <= w < |ls| && CodeAndDescription(ls[w]) == k;
    assert ls[w] in Group(ls, CodeAndDescription, k);
  }

  /** The grouped rows before `HAVING` and ordering. */
  function TrialGroups(ls: seq<EntryLine>): (r: seq<TrialRow>)
    ensures forall t :: t in r ==> Aggregates(t, ls)
    ensures forall l :: l in ls ==> MakeTrialRow(CodeAndDescription(l), Group(ls, CodeAndDescription, CodeAndDescription(l))) in r
    ensures DistinctBy(r, TrialKey)
  {
    var ks := GroupKeys(ls, CodeAndDescription);
    var r := GroupRows(ks, ls, CodeAndDescription, MakeTrialRow);
    GroupRowsDistinct(ks, ls, CodeAndDescription, MakeTrialRow, TrialKey);
    forall i | 0 <= i < |r| ensures Aggregates(r[i], ls) {
      assert ks[i] in ks;
      TrialGroupSound(ls, ks[i]);
    }
    forall l | l in ls
      ensures MakeTrialRow(CodeAndDescription(l), Group(ls, CodeAndDescription, CodeAndDescription(l))) in r
    {
      var w :| 0 <= w < |ls| && ls[w] == l;
      var i :| 0 <= i < |ks| && ks[i] == CodeAndDescription(l);
      assert r[i] in r;
    }
    r
  }

  /**
    * `get_trial_balance(as_of)`: per (code, description) the debit and credit
    * totals of the lines up to `as_of`, without groups whose totals are both
    * zero, ordered by code. No status filter: voided transactions count.
    */
  function GetTrialBalance(db: Db, asOf: Option<Date>): (r: seq<TrialRow>)
    ensures forall t :: t in r ==> Aggregates(t, LinesUpTo(db, asOf)) && HasActivity(t)
    ensures forall l :: l in LinesUpTo(db, asOf) ==>
      var t := MakeTrialRow(CodeAndDescription(l), Group(LinesUpTo(db, asOf), CodeAndDescription, CodeAndDescription(l)));
      HasActivity(t) ==> t in r
    ensures Sorted(r, CodeKey)
    ensures DistinctBy(r, TrialKey)
  {
    var grouped := TrialGroups(LinesUpTo(db, asOf));
    var active := Select(grouped, HasActivity);
    SelectDistinct(grouped, HasActivity, TrialKey);
    SortByDistinct(active, CodeKey, TrialKey);
    SortByMembers(active, CodeKey);
    SortBy(active, CodeKey)
  }

  /** Partition: the trial balance's columns add up to the debits and credits of all lines up to `as_of`. */
  lemma TrialBalanceTotals(db: Db, asOf: Option<Date>)
    ensures SumOf(GetTrialBalance(db, asOf), RowDebits) == Debits(LinesUpTo(db, asOf))
    ensures SumOf(GetTrialBalance(db, asOf), RowCredits) == Credits(LinesUpTo(db, asOf))
  {
    var ls := LinesUpTo(db, asOf);
    var ks := GroupKeys(ls, CodeAndDescription);
    var grouped := GroupRows(ks, ls, CodeAndDescription, MakeTrialRow);
    assert grouped == TrialGroups(ls);
    var active := Select(grouped, HasActivity);
    SortBySum(active, CodeKey, RowDebits);
    SortBySum(active, CodeKey, RowCredits);
    SelectSum(grouped, HasActivity, RowDebits);
    SelectSum(grouped, HasActivity, RowCredits);
    GroupRowsSum(ks, ls, CodeAndDescription, MakeTrialRow, RowDebits, DebitPart);
    GroupRowsSum(ks, ls, CodeAndDescription, MakeTrialRow, RowCredits, CreditPart);
    GroupSumsTotal(ks, ls, CodeAndDescription, DebitPart);
    GroupSumsTotal(ks, ls, CodeAndDescription, CreditPart);
  }

  /** Voiding changes no line, so the trial balance and every account balance ignore it. */
  lemma VoidInvisibleToBalances(db: Db, after: Db, code: string, asOf: Option<Date>)
    requires after.lines == db.lines
    ensures GetTrialBalance(after, asOf) == GetTrialBalance(db, asOf)
    ensures GetAccountBalance(after, code, asOf) == GetAccountBalance(db, code, asOf)
  {
    assert LinesUpTo(after, asOf) == LinesUpTo(db, asOf);
    assert AccountLines(after, code, asOf) == AccountLines(db, code, asOf);
  }
}

=== FILE: helpers.dfy ===
/**
  * The pure helpers of `utils/helpers.py`: text truncation, masking,
  * pagination, the April-to-March financial-year label, the phone digit
  * count and the filename character rule. The voucher-number helper of the
  * same file is `Numbering.HelperNumber`.
  */
module Helpers {
  import opened Wrappers
  import opened Text
  import opened Dates

  // ===== truncate_text =====

  /** The text itself when it fits; otherwise its first `max - |suffix|` characters (a Python slice) and the suffix. */
  function TruncateText(text: string, maxLength: int, suffix: string): (r: string)
    ensures |text| <= maxLength ==> r == text
    ensures |text| > maxLength ==> EndsWith(r, suffix)
    ensures |text| > maxLength && maxLength >= |suffix| ==>
      |r| == maxLength && r[..maxLength - |suffix|] == text[..maxLength - |suffix|]
  {
    if |text| <= maxLength then text
    else
      var head := PySlice(text, 0, maxLength - |suffix|);
      EndsWithAppended(head, suffix);
      head + suffix
  }

  /** Once the limit leaves room for the suffix, truncating twice is truncating once. */
  lemma TruncateIdempotent(text: string, maxLength: int, suffix: string)
    requires maxLength >= |suffix|
    ensures TruncateText(TruncateText(text, maxLength, suffix), maxLength, suffix) == TruncateText(text, maxLength, suffix)
  {
  }

  /**
    * A limit shorter than the suffix slices from the end instead: five
    * characters cut to 2 with `...` keep four of them, and the result is
    * longer than the limit.
    */
  lemma TruncateShortLimit()
    ensures TruncateText("hello", 2, "...") == "hell..."
  {
    assert PySlice("hello", 0, -1) == "hell";
  }

  // ===== mask_sensitive_data =====

  /** Python's `text * k`: `k` copies of `text` end to end. */
  function RepeatText(text: string, k: nat): (r: string)
    ensures |text| == 1 ==> |r| == k && forall i :: 0 <= i < k ==> r[i] == text[0]
  {
    if k == 0 then "" else RepeatText(text, k - 1) + text
  }

  /**
    * `mask_sensitive_data` as written: empty data and data no longer than
    * `visible` come back unchanged; otherwise `|data| - visible` mask
    * characters followed by `data[-visible:]`.
    */
  function MaskAsWritten(data: string, maskChar: string, visible: int): (r: string)
    ensures |data| == 0 || |data| <= visible ==> r == data
  {
    if |data| == 0 || |data| <= visible then data
    else RepeatText(maskChar, |data| - visible) + PySlice(data, -visible, |data|)
  }

  /**
    * With `visible = 0` the slice `data[-0:]` is the whole string, not the
    * empty tail, so the output is every character masked followed by the
    * data itself in clear: twice as long, and nothing hidden.
    */
  lemma MaskZeroVisibleShowsAll(data: string, maskChar: string)
    requires |data| > 0 && |maskChar| == 1
    ensures MaskAsWritten(data, maskChar, 0) == RepeatText(maskChar, |data|) + data
    ensures |MaskAsWritten(data, maskChar, 0)| == 2 * |data|
  {
    assert PySlice(data, 0, |data|) == data[0..|data|];
  }

  /** The evident intent: mask all but the last `visible` characters, so `visible = 0` masks everything. */
  function MaskSensitiveData(data: string, maskChar: string, visible: int): (r: string)
    ensures |data| == 0 || |data| <= visible ==> r == data
    ensures visible >= 0 && |maskChar| == 1 ==>
      && |r| == |data|
      && forall i :: 0 <= i < |data| ==> r[i] == if i < |data| - visible then maskChar[0] else data[i]
  {
    if |data| == 0 || |data| <= visible then data
    else RepeatText(maskChar, |data| - visible) + PySlice(data, |data| - visible, |data|)
  }

  /** Whenever at least one character stays visible, the code as written already does what is intended. */
  lemma MaskAgreesWhenVisible(data: string, maskChar: string, visible: int)
    requires visible >= 1
    ensures MaskAsWritten(data, maskChar, visible) == MaskSensitiveData(data, maskChar, visible)
  {
  }

  // ===== paginate_results =====

  /** Python's `a // b`: the quotient rounded toward negative infinity. */
  function FloorDiv(a: int, b: int): int
    requires b != 0
  {
    if b > 0 then a / b else (-a) / (-b)
  }

  datatype PageView<T> = PageView(
    items: seq<T>,
    total: nat,
    page: int,
    perPage: int,
    pages: int,
    hasPrev: bool,
    hasNext: bool,
    prevNum: Option<int>,
    nextNum: Option<int>)

  function PageStart(page: int, perPage: int): int {
    (page - 1) * perPage
  }

  /**
    * `paginate_results`: the slice `[(page-1)*per_page, page*per_page)`, the
    * page count `ceil(total / per_page)`, and the neighbour flags. A zero page
    * size makes the page count divide by zero (`None`).
    */
  function Paginate<T>(items: seq<T>, page: int, perPage: int): (r: Option<PageView<T>>)
    ensures r.None? <==> perPage == 0
    ensures r.Some? ==> r.value.total == |items| && r.value.page == page && r.value.perPage == perPage
    ensures r.Some? ==> r.value.hasPrev == (page > 1)
    ensures r.Some? ==> r.value.hasNext == (PageStart(page, perPage) + perPage < |items|)
    ensures r.Some? ==> r.value.prevNum == (if page > 1 then Some(page - 1) else None)
    ensures r.Some? ==> r.value.nextNum == (if r.value.hasNext then Some(page + 1) else None)
    ensures r.Some? && page >= 1 && perPage >= 1 ==>
      var start := PageStart(page, perPage);
      && |r.value.items| <= perPage
      && (start >= |items| ==> r.value.items == [])
      && (start < |items| ==> r.value.items == items[start..Min(start + perPage, |items|)])
  {
    if perPage == 0 then None
    else
      var total := |items|;
      var start := PageStart(page, perPage);
      var end := start + perPage;
      var hasPrev := page > 1;
      var hasNext := end < total;
      assert page >= 1 && perPage >= 1 ==> start >= 0 by {
        if page >= 1 && perPage >= 1 {
          assert (page - 1) * perPage >= 0;
        }
      }
      SliceWindow(items, start, perPage);
      Some(PageView(PySlice(items, start, end), total, page, perPage, FloorDiv(total + perPage - 1, perPage),
                    hasPrev, hasNext, if hasPrev then Some(page - 1) else None, if hasNext then Some(page + 1) else None))
  }

  /** Python's `s[start:start + n]` for a start from 0 on: at most `n` items, clipped to the list. */
  lemma SliceWindow<T>(items: seq<T>, start: int, n: int)
    ensures start >= 0 && n >= 1 ==>
      var w := PySlice(items, start, start + n);
      && |w| <= n
      && (start >= |items| ==> w == [])
      && (start < |items| ==> w == items[start..Min(start + n, |items|)])
  {
  }

  function Min(a: int, b: int): int {
    if a <= b then a else b
  }

  /** The page count is the ceiling of `total / per_page`: enough pages for every item, and no empty one. */
  lemma PageCount<T>(items: seq<T>, page: int, perPage: int)
    requires perPage >= 1
    ensures var v := Paginate(items, page, perPage).value;
      && v.pages >= 0
      && v.pages * perPage >= |items|
      && (v.pages > 0 ==> (v.pages - 1) * perPage < |items|)
  {
    var p := (|items| + perPage - 1) / perPage;
    assert Paginate(items, page, perPage).value.pages == p;
    DivBounds(|items| + perPage - 1, perPage);
  }

  /** Euclidean division puts its dividend between two consecutive multiples of the divisor. */
  lemma DivBounds(a: nat, b: int)
    requires b >= 1
    ensures a / b >= 0 && (a / b) * b <= a < (a / b) * b + b
    ensures (a / b - 1) * b == (a / b) * b - b
  {
  }

  /** For a page from 1 on, there is a next page exactly when the page is before the last one. */
  lemma HasNextBeforeLast<T>(items: seq<T>, page: int, perPage: int)
    requires perPage >= 1 && page >= 1
    ensures var v := Paginate(items, page, perPage).value;
      v.hasNext <==> page < v.pages
  {
    CeilingCompare(|items|, perPage, page);
  }

  /** `page * pp < t` exactly when `page` is below the ceiling of `t / pp`. */
  lemma CeilingCompare(t: nat, pp: int, page: int)
    requires pp >= 1 && page >= 1
    ensures page * pp < t <==> page < (t + pp - 1) / pp
  {
    var p := (t + pp - 1) / pp;
    DivBounds(t + pp - 1, pp);
    assert (p + 1) * pp == p * pp + pp && (page + 1) * pp == page * pp + pp;
    if page * pp < t {
      MulLtCancel(page + 1, p + 1, pp);
    } else {
      MulLtCancel(p, page + 1, pp);
    }
  }

  /** Multiplying by the same positive factor keeps a strict order, so it can be cancelled. */
  lemma MulLtCancel(a: int, b: int, m: int)
    requires m >= 1 && a * m < b * m
    ensures a < b
  {
  }

  /** The items of pages 1 to `k`, end to end. */
  function PagesUpTo<T>(items: seq<T>, perPage: int, k: nat): seq<T>
    requires perPage >= 1
  {
    if k == 0 then [] else PagesUpTo(items, perPage, k - 1) + Paginate(items, k, perPage).value.items
  }

  /** The first `k` pages are the first `k * per_page` items: pages neither overlap nor skip. */
  lemma {:induction false} PagesUpToPrefix<T>(items: seq<T>, perPage: int, k: nat)
    requires perPage >= 1
    ensures PagesUpTo(items, perPage, k) == items[..Min(k * perPage, |items|)]
  {
    if k > 0 {
      PagesUpToPrefix(items, perPage, k - 1);
      var start := PageStart(k, perPage);
      var prev, page := PagesUpTo(items, perPage, k - 1), Paginate(items, k, perPage).value.items;
      assert PagesUpTo(items, perPage, k) == prev + page;
      PageSlice(items, k, perPage);
      MulStep(k, perPage);
      assert start == (k - 1) * perPage && start + perPage == k * perPage;
      assert prev == items[..Min(start, |items|)];
      SliceJoin(items, start, start + perPage);
    }
  }

  /** One more page moves the end by one page length. */
  lemma MulStep(k: int, m: int)
    ensures k * m == (k - 1) * m + m
  {
  }

  /** Page `k` holds the items from its start to the next page's start, clipped to the list. */
  lemma PageSlice<T>(items: seq<T>, k: nat, perPage: int)
    requires perPage >= 1 && k >= 1
    ensures var start := PageStart(k, perPage);
      start >= 0
      && Paginate(items, k, perPage).value.items == items[Min(start, |items|)..Min(start + perPage, |items|)]
  {
    assert PageStart(k, perPage) == (k - 1) * perPage >= 0;
  }

  /** Two adjacent clipped slices make one clipped prefix. */
  lemma SliceJoin<T>(s: seq<T>, lo: nat, hi: nat)
    requires lo <= hi
    ensures s[..Min(lo, |s|)] + s[Min(lo, |s|)..Min(hi, |s|)] == s[..Min(hi, |s|)]
  {
  }

  /** Walking every page from 1 to `pages` visits each item once, in order. */
  lemma PagesCoverAll<T>(items: seq<T>, perPage: int)
    requires perPage >= 1
    ensures var pages := Paginate(items, 1, perPage).value.pages;
      pages >= 0 && PagesUpTo(items, perPage, pages) == items
  {
    PageCount(items, 1, perPage);
    var pages := Paginate(items, 1, perPage).value.pages;
    PagesUpToPrefix(items, perPage, pages);
  }

  // ===== get_financial_year =====

  /** The calendar year in which the financial year of `d` began: April starts a new one. */
  function StartYear(d: Date): nat
    requires d.year >= 1
  {
    if d.month >= 4 then d.year else d.year - 1
  }

  /** `f"{start}-{str(start + 1)[2:]}"`. */
  function YearLabel(start: nat): string {
    var end := NatToString(start + 1);
    NatToString(start) + "-" + PySlice(end, 2, |end|)
  }

  /** The last two digits of a four-digit year, as `str(y)[2:]` takes them. */
  lemma LastTwoDigits(y: nat)
    requires 1000 <= y <= 9999
    ensures var s := NatToString(y); |s| == 4 && IsNumeral(s[2..]) && |s[2..]| == 2 && ParseDigits(s[2..]) == y % 100
  {
    var s := NatToString(y);
    var hi := NatToString(y / 100);
    assert 10 <= y / 100 < 100;
    assert |NatToString(y / 100 / 10)| == 1;
    assert |hi| == 2;
    assert NatToString(y / 10) == NatToString(y / 10 / 10) + [DigitChar(y / 10 % 10)];
    assert y / 10 / 10 == y / 100;
    assert s == hi + [DigitChar(y / 10 % 10)] + [DigitChar(y % 10)];
    var t := s[2..];
    assert t == [DigitChar(y / 10 % 10), DigitChar(y % 10)];
    assert t[..1] == [DigitChar(y / 10 % 10)];
    assert t[..1][..0] == [];
    assert ParseDigits(t[..1]) == y / 10 % 10;
    assert y % 100 == (y / 10 % 10) * 10 + y % 10;
  }

  /**
    * A year label has one dash: before it the start year in full, after it
    * digits, which for a four-digit following year are that year modulo 100.
    */
  lemma YearLabelParts(start: nat)
    ensures var p := Split(YearLabel(start), '-');
      && |p| == 2 && IsNumeral(p[0]) && AllDigits(p[1]) && ParseDigits(p[0]) == start
      && (999 <= start <= 9998 ==> |p[1]| == 2 && ParseDigits(p[1]) == (start + 1) % 100)
  {
    var head := NatToString(start);
    var end := NatToString(start + 1);
    var tail := PySlice(end, 2, |end|);
    ParseNatToString(start);
    if |end| > 2 {
      assert tail == end[2..];
      assert forall i :: 0 <= i < |tail| ==> tail[i] == end[i + 2];
    } else {
      assert tail == [];
    }
    NoSeparatorInDigits(head, '-');
    NoSeparatorInDigits(tail, '-');
    assert YearLabel(start) == head + ['-'] + tail;
    SplitAtFirst(head, '-', tail);
    SplitNoSeparator(tail, '-');
    if 999 <= start <= 9998 {
      LastTwoDigits(start + 1);
    }
  }

  /**
    * The label of the April-to-March year holding `d`: it splits at its dash
    * into the start year (the year itself from April, the year before in
    * January to March) and, for four-digit years, the two-digit year after it.
    */
  function FinancialYear(d: Date): (r: string)
    requires d.year >= 1
    ensures var p := Split(r, '-');
      && |p| == 2 && IsNumeral(p[0]) && AllDigits(p[1])
      && ParseDigits(p[0]) == (if d.month >= 4 then d.year else d.year - 1)
    ensures 999 <= StartYear(d) <= 9998 ==> var p := Split(r, '-');
      |p[1]| == 2 && ParseDigits(p[1]) == (ParseDigits(p[0]) + 1) % 100
  {
    YearLabelParts(StartYear(d));
    YearLabel(StartYear(d))
  }

  /** January to March belong to the year that began the previous April; April opens the next one. */
  lemma MarchBeforeApril(y: nat, day: nat, day2: nat)
    requires y >= 2
    ensures FinancialYear(Date(y, 3, day)) == FinancialYear(Date(y - 1, 4, day2))
    ensures StartYear(Date(y, 4, day)) == StartYear(Date(y, 3, day2)) + 1
  {
  }

  // strptime(text, '%Y-%m-%d')

  /** `%Y`: exactly four digits. */
  predicate YearField(s: string) {
    |s| == 4 && AllDigits(s)
  }

  /** `%m`, the pattern `1[0-2]|0[1-9]|[1-9]`: one or two digits worth 1 to 12. */
  predicate MonthField(s: string) {
    1 <= |s| <= 2 && AllDigits(s) && 1 <= ParseDigits(s) <= 12
  }

  /** `%d`, the pattern `3[01]|[12]\d|0[1-9]|[1-9]| [1-9]`: one or two digits worth 1 to 31, or a blank and a digit. */
  predicate DayField(s: string) {
    || (1 <= |s| <= 2 && AllDigits(s) && 1 <= ParseDigits(s) <= 31)
    || (|s| == 2 && s[0] == ' ' && '1' <= s[1] <= '9')
  }

  function DayValue(s: string): nat
    requires DayField(s)
  {
    if s[0] == ' ' then DigitValue(s[1]) else ParseDigits(s)
  }

  /**
    * `datetime.strptime(text, '%Y-%m-%d')`: the three dash-separated fields
    * must each match in full and name a day that exists; otherwise it raises
    * `ValueError` (`None`).
    */
  function ParseDate(text: string): (r: Option<Date>)
    ensures r.Some? ==> ValidDate(r.value)
    ensures r.Some? ==> var p := Split(text, '-');
      && |p| == 3 && YearField(p[0]) && MonthField(p[1]) && DayField(p[2])
      && r.value == Date(ParseDigits(p[0]), ParseDigits(p[1]), DayValue(p[2]))
  {
    var p := Split(text, '-');
    if |p| == 3 && YearField(p[0]) && MonthField(p[1]) && DayField(p[2]) then
      var d := Date(ParseDigits(p[0]), ParseDigits(p[1]), DayValue(p[2]));
      if ValidDate(d) then Some(d) else None
    else None
  }

  lemma FourDigitYears(y: nat)
    requires y <= 9999
    ensures |NatToString(y)| <= 4
  {
    assert Pow10(4) == 10 * Pow10(3);
    assert Pow10(3) == 10 * Pow10(2);
    assert Pow10(2) == 10 * Pow10(1);
    NumeralFits(y, 4);
  }

  lemma TwoDigitNumbers(n: nat)
    requires n <= 99
    ensures |NatToString(n)| <= 2
  {
    assert Pow10(2) == 10 * Pow10(1);
    NumeralFits(n, 2);
  }

  /** Three digit strings joined by dashes split back into the three. */
  lemma SplitDigitFields(a: string, b: string, c: string)
    requires AllDigits(a) && AllDigits(b) && AllDigits(c)
    ensures Split(a + "-" + b + "-" + c, '-') == [a, b, c]
  {
    NoSeparatorInDigits(a, '-');
    NoSeparatorInDigits(b, '-');
    NoSeparatorInDigits(c, '-');
    SplitThree(a, b, c, '-');
  }

  /** Every date Python can hold reads back from its stored `YYYY-MM-DD` text. */
  lemma ParseDateText(d: Date)
    requires ValidDate(d)
    ensures ParseDate(DateText(d)) == Some(d)
  {
    FourDigitYears(d.year);
    ParsePadded(d.year, 4);
    TwoDigitNumbers(d.month);
    ParsePadded(d.month, 2);
    TwoDigitNumbers(d.day);
    ParsePadded(d.day, 2);
    var m := ZeroPad(NatToString(d.month), 2);
    var dd := ZeroPad(NatToString(d.day), 2);
    SplitDigitFields(YearText(d), m, dd);
    assert dd[0] != ' ';
  }

  /** The format also takes months and days without their leading zero. */
  lemma ParseDateUnpadded(d: Date)
    requires ValidDate(d) && d.year >= 1000
    ensures ParseDate(NatToString(d.year) + "-" + NatToString(d.month) + "-" + NatToString(d.day)) == Some(d)
  {
    LastTwoDigits(d.year);
    ParseNatToString(d.year);
    TwoDigitNumbers(d.month);
    ParseNatToString(d.month);
    TwoDigitNumbers(d.day);
    ParseNatToString(d.day);
    SplitDigitFields(NatToString(d.year), NatToString(d.month), NatToString(d.day));
    assert NatToString(d.day)[0] != ' ';
  }

  /** A day the fields allow but the month does not have (`2025-02-30`) raises. */
  lemma ParseDateRefusesMissingDay(y: nat, m: nat, day: nat)
    requires 1 <= y <= 9999 && 1 <= m <= 12 && DaysInMonth(y, m) < day <= 31
    ensures ParseDate(DateText(Date(y, m, day))) == None
  {
    var d := Date(y, m, day);
    FourDigitYears(y);
    ParsePadded(y, 4);
    TwoDigitNumbers(m);
    ParsePadded(m, 2);
    TwoDigitNumbers(day);
    ParsePadded(day, 2);
    var dd := ZeroPad(NatToString(day), 2);
    SplitDigitFields(YearText(d), ZeroPad(NatToString(m), 2), dd);
    assert dd[0] != ' ';
  }

  /** `datetime.now().strftime("%Y-%y")`: the answer when parsing raises. */
  function CalendarYearLabel(now: Date): (r: string)
    requires now.year <= 9999
    ensures var p := Split(r, '-');
      && |p| == 2 && YearField(p[0]) && |p[1]| == 2 && AllDigits(p[1])
      && ParseDigits(p[0]) == now.year && ParseDigits(p[1]) == now.year % 100
  {
    FourDigitYears(now.year);
    ParsePadded(now.year, 4);
    TwoDigitNumbers(now.year % 100);
    ParsePadded(now.year % 100, 2);
    NoSeparatorInDigits(YearText(now), '-');
    NoSeparatorInDigits(Two(now.year % 100), '-');
    SplitAtFirst(YearText(now), '-', Two(now.year % 100));
    SplitNoSeparator(Two(now.year % 100), '-');
    YearText(now) + "-" + Two(now.year % 100)
  }

  /** The argument of `get_financial_year`: nothing (today), a date, or text to parse. */
  datatype DateArg = Today | OnDate(date: Date) | AsText(text: string)

  /**
    * `get_financial_year`: today's label when no date is given, the label of
    * the date given or parsed, and `CalendarYearLabel(now)` when the text does
    * not parse. Each label's first part is the start year of the date it
    * stands for; the fallback's is the current calendar year.
    */
  function GetFinancialYear(arg: DateArg, now: Date): (r: string)
    requires ValidDate(now)
    requires arg.OnDate? ==> ValidDate(arg.date)
    ensures var p := Split(r, '-'); |p| == 2 && IsNumeral(p[0]) && AllDigits(p[1])
    ensures arg.Today? ==> ParseDigits(Split(r, '-')[0]) == StartYear(now)
    ensures arg.OnDate? ==> ParseDigits(Split(r, '-')[0]) == StartYear(arg.date)
    ensures arg.AsText? && ParseDate(arg.text).Some? ==>
      ParseDigits(Split(r, '-')[0]) == StartYear(ParseDate(arg.text).value)
    ensures arg.AsText? && ParseDate(arg.text).None? ==>
      ParseDigits(Split(r, '-')[0]) == now.year && ParseDigits(Split(r, '-')[1]) == now.year % 100
  {
    match arg
    case Today => FinancialYear(now)
    case OnDate(d) => FinancialYear(d)
    case AsText(t) =>
      match ParseDate(t)
      case Some(d) => FinancialYear(d)
      case None => CalendarYearLabel(now)
  }

  /** A date and its stored text give the same label. */
  lemma TextAndDateAgree(d: Date, now: Date)
    requires ValidDate(d) && ValidDate(now)
    ensures GetFinancialYear(AsText(DateText(d)), now) == GetFinancialYear(OnDate(d), now)
  {
    ParseDateText(d);
  }

  /**
    * The fallback is not the label of any financial year: its two-digit part
    * repeats the first year's last digits instead of naming the year after.
    */
  lemma FallbackIsNoYearLabel(now: Date, d: Date)
    requires ValidDate(now) && now.year >= 1000
    requires ValidDate(d) && d.year <= 9998
    ensures CalendarYearLabel(now) != FinancialYear(d)
  {
    var x, y := CalendarYearLabel(now), FinancialYear(d);
    if StartYear(d) == now.year {
      NextYearDigits(now.year);
      assert ParseDigits(Split(y, '-')[1]) != ParseDigits(Split(x, '-')[1]);
    }
    PartsDiffer(x, y);
  }

  /** Consecutive years never share their last two digits. */
  lemma NextYearDigits(y: nat)
    ensures (y + 1) % 100 != y % 100
  {
  }

  /** Two labels with a differing part are different labels. */
  lemma PartsDiffer(x: string, y: string)
    requires |Split(x, '-')| == 2 && |Split(y, '-')| == 2
    requires Split(x, '-')[0] != Split(y, '-')[0] || Split(x, '-')[1] != Split(y, '-')[1]
    ensures x != y
  {
  }

  // ===== validate_phone =====

  /** `re.sub(r'\D', '', phone)`: the digits, in order. */
  function DigitsOnly(s: string): (r: string)
    ensures AllDigits(r) && |r| <= |s|
    ensures AllDigits(s) ==> r == s
  {
    if |s| == 0 then ""
    else
      var rest := DigitsOnly(s[..|s| - 1]);
      if IsDigit(s[|s| - 1]) then
        assert AllDigits(s) ==> AllDigits(s[..|s| - 1]);
        assert s == s[..|s| - 1] + [s[|s| - 1]];
        rest + [s[|s| - 1]]
      else rest
  }

  lemma {:induction false} DigitsOnlyAppend(a: string, b: string)
    ensures DigitsOnly(a + b) == DigitsOnly(a) + DigitsOnly(b)
    decreases |b|
  {
    if |b| > 0 {
      var n := |b| - 1;
      assert (a + b)[..|a + b| - 1] == a + b[..n];
      DigitsOnlyAppend(a, b[..n]);
    } else {
      assert a + b == a;
    }
  }

  /** A phone number is valid when it holds 10 to 15 digits, whatever else it holds. */
  function ValidatePhone(phone: string): (ok: bool)
    ensures AllDigits(phone) ==> (ok <==> 10 <= |phone| <= 15)
  {
    10 <= |DigitsOnly(phone)| <= 15
  }

  /** Separators do not count: inserting a non-digit anywhere leaves the verdict unchanged. */
  lemma PhoneIgnoresSeparator(a: string, b: string, sep: char)
    requires !IsDigit(sep)
    ensures ValidatePhone(a + [sep] + b) == ValidatePhone(a + b)
  {
    DigitsOnlyAppend(a + [sep], b);
    DigitsOnlyAppend(a, [sep]);
    DigitsOnlyAppend(a, b);
    assert DigitsOnly([sep]) == DigitsOnly([]);
  }

  // ===== sanitize_filename =====

  /** The characters `re.sub(r'[<>:"/\\|?*]', '_', ...)` replaces. */
  predicate Unsafe(c: char) {
    c == '<' || c == '>' || c == ':' || c == '"' || c == '/' || c == '\\' || c == '|' || c == '?' || c == '*'
  }

  /** The characters `strip(' .')` removes from both ends. */
  predicate Strippable(c: char) {
    c == ' ' || c == '.'
  }

  function ReplaceUnsafe(s: string): (r: string)
    ensures |r| == |s|
    ensures forall i :: 0 <= i < |s| ==> r[i] == if Unsafe(s[i]) then '_' else s[i]
    ensures forall i :: 0 <= i < |r| ==> !Unsafe(r[i])
  {
    seq(|s|, i requires 0 <= i < |s| => if Unsafe(s[i]) then '_' else s[i])
  }

  /** Leading spaces and dots removed: a suffix of `s`. */
  function StripLeft(s: string): (r: string)
    ensures |r| <= |s| && r == s[|s| - |r|..]
    ensures |r| == 0 || !Strippable(r[0])
    decreases |s|
  {
    if |s| > 0 && Strippable(s[0]) then
      var r := StripLeft(s[1..]);
      assert s[1..][|s[1..]| - |r|..] == s[|s| - |r|..];
      r
    else s
  }

  /** Trailing spaces and dots removed: a prefix of `s`. */
  function StripRight(s: string): (r: string)
    ensures |r| <= |s| && r == s[..|r|]
    ensures |r| == 0 || !Strippable(r[|r| - 1])
    decreases |s|
  {
    if |s| > 0 && Strippable(s[|s| - 1]) then
      var r := StripRight(s[..|s| - 1]);
      assert s[..|s| - 1][..|r|] == s[..|r|];
      r
    else s
  }

  /** Where the stripped text starts inside `s`. */
  function StripOffset(s: string): nat {
    |s| - |StripLeft(s)|
  }

  /** `str.strip(' .')`: a middle slice with no space or dot at either end. */
  function Strip(s: string): (r: string)
    ensures StripOffset(s) + |r| <= |s| && r == s[StripOffset(s)..StripOffset(s) + |r|]
    ensures |r| == 0 || (!Strippable(r[0]) && !Strippable(r[|r| - 1]))
  {
    var left := StripLeft(s);
    var r := StripRight(left);
    assert |r| > 0 ==> r[0] == left[0];
    r
  }

  /**
    * `sanitize_filename`: unsafe characters become `_`, then spaces and dots
    * are stripped from both ends. A result longer than 255 characters reaches
    * a branch that names the unimported module `os` and raises (`None`).
    */
  function SanitizeFilename(name: string): (r: Option<string>)
    ensures r.Some? <==> |Strip(ReplaceUnsafe(name))| <= 255
    ensures r.Some? ==> forall i :: 0 <= i < |r.value| ==> !Unsafe(r.value[i])
    ensures r.Some? && |r.value| > 0 ==> !Strippable(r.value[0]) && !Strippable(r.value[|r.value| - 1])
  {
    var t := ReplaceUnsafe(name);
    var s := Strip(t);
    SliceSafe(t, StripOffset(t), s);
    if |s| > 255 then None else Some(s)
  }

  lemma SliceSafe(t: string, k: nat, s: string)
    requires forall i :: 0 <= i < |t| ==> !Unsafe(t[i])
    requires k + |s| <= |t| && s == t[k..k + |s|]
    ensures forall i :: 0 <= i < |s| ==> !Unsafe(s[i])
  {
    forall i | 0 <= i < |s| ensures !Unsafe(s[i]) {
      assert s[i] == t[k + i];
    }
  }

  lemma StripLeftIdle(s: string)
    requires |s| == 0 || !Strippable(s[0])
    ensures StripLeft(s) == s
  {
  }

  lemma StripRightIdle(s: string)
    requires |s| == 0 || !Strippable(s[|s| - 1])
    ensures StripRight(s) == s
  {
  }

  /** A sanitized name is a fixed point: sanitizing it again changes nothing. */
  lemma SanitizeIdempotent(name: string)
    requires SanitizeFilename(name).Some?
    ensures SanitizeFilename(SanitizeFilename(name).value) == SanitizeFilename(name)
  {
    var s := SanitizeFilename(name).value;
    assert ReplaceUnsafe(s) == s;
    StripLeftIdle(s);
    StripRightIdle(s);
  }
}

=== FILE: ledger.dfy ===
/**
  * Transaction headers (`ledger` table): creation with a generated or given
  * number under the table's `UNIQUE(number)` constraint, lookups, filtered
  * listings, the update allow-list, voiding, the hard delete that cascades to
  * both line tables, and the per-payee totals.
  */
module LedgerHeaders {
  import opened Wrappers
  import opened Text
  import opened Order
  import opened Tables
  import opened Dates
  import opened Books
  import opened Numbering

  /** The columns `create` is given; number, status and id are decided by the insert. */
  datatype Draft = Draft(
    kind: Kind,
    date: Date,
    payeeCode: string,
    payee: string,
    total: int,
    description: Option<string>,
    dueDate: Option<Date>,
    createdBy: Option<nat>)

  /** The number `create` stores: the one given, or the generated one when it is empty. */
  function AssignedNumber(db: Db, d: Draft, number: string): (n: string)
    ensures number != "" ==> n == number
    ensures number == "" ==> EndsWith(n, YearSuffix(d.date.year)) && WellFormedNumber(n)
  {
    if number != "" then number else GenerateNumber(db.headers, d.kind, d.date.year)
  }

  function HeaderOf(id: nat, d: Draft, number: string): Header {
    Header(id, d.kind, number, d.date, d.payeeCode, d.payee, d.total, d.description, d.dueDate, Active, d.createdBy)
  }

  /** `create`: appends an `active` header, or fails (returns None) when the number is already stored. */
  function Create(db: Db, d: Draft, number: string): (r: Option<Db>)
    ensures r.Some? <==> !NumberTaken(db.headers, AssignedNumber(db, d, number))
    ensures r.Some? ==> r.value.headers == db.headers + [HeaderOf(db.nextHeaderId, d, AssignedNumber(db, d, number))]
    ensures r.Some? ==> r.value.nextHeaderId == db.nextHeaderId + 1
    ensures r.Some? ==> r.value.(headers := db.headers, nextHeaderId := db.nextHeaderId) == db
  {
    var n := AssignedNumber(db, d, number);
    if NumberTaken(db.headers, n) then None
    else Some(db.(headers := db.headers + [HeaderOf(db.nextHeaderId, d, n)], nextHeaderId := db.nextHeaderId + 1))
  }

  /** The constraints every reachable database keeps: unique numbers and ids below the counter. */
  predicate HeadersWellKept(db: Db) {
    && UniqueNumbers(db.headers)
    && (forall i :: 0 <= i < |db.headers| ==> db.headers[i].id < db.nextHeaderId)
  }

  lemma CreateKeepsHeadersWellKept(db: Db, d: Draft, number: string)
    requires HeadersWellKept(db) && Create(db, d, number).Some?
    ensures HeadersWellKept(Create(db, d, number).value)
  {
    var n := AssignedNumber(db, d, number);
    assert forall i :: 0 <= i < |db.headers| ==> db.headers[i].number != n;
  }

  /** With no number given, a table whose candidates are well formed never makes the insert fail within its own type. */
  lemma CreateGeneratedFreshWithinKind(db: Db, d: Draft)
    requires CandidatesWellFormed(db.headers, d.kind, d.date.year)
    requires forall h :: h in db.headers ==> h.kind == d.kind
    ensures Create(db, d, "").Some?
  {
    FreshWithinKind(db.headers, d.kind, d.date.year);
    var n := AssignedNumber(db, d, "");
    forall i | 0 <= i < |db.headers| ensures db.headers[i].number != n {
      assert db.headers[i] in db.headers;
    }
  }

  /**
    * Creating with a generated number keeps every stored number well formed,
    * so a table filled only that way always meets the lookup's requirement.
    */
  lemma CreateGeneratedKeepsWellFormed(db: Db, d: Draft, kind: Kind, year: nat)
    requires WellFormedNumbers(db.headers) && Create(db, d, "").Some?
    ensures WellFormedNumbers(Create(db, d, "").value.headers)
    ensures CandidatesWellFormed(Create(db, d, "").value.headers, kind, year)
  {
    var n := AssignedNumber(db, d, "");
    var after := db.headers + [HeaderOf(db.nextHeaderId, d, n)];
    assert Create(db, d, "").value.headers == after;
    forall i | 0 <= i < |after| ensures WellFormedNumber(after[i].number) {
      if i < |db.headers| {
        assert after[i] == db.headers[i];
      }
    }
  }

  /** `get_by_number`: the header holding this number, if any. */
  function GetByNumber(db: Db, number: string): (r: Option<Header>)
    ensures r.Some? <==> NumberTaken(db.headers, number)
    ensures r.Some? ==> r.value in db.headers && r.value.number == number
  {
    var hits := Select(db.headers, (h: Header) => h.number == number);
    assert NumberTaken(db.headers, number) ==> |hits| > 0 by {
      if NumberTaken(db.headers, number) {
        var i :| 0 <= i < |db.headers| && db.headers[i].number == number;
        assert db.headers[i] in hits;
      }
    }
    assert |hits| > 0 ==> hits[0] in hits && hits[0] in db.headers;
    assert |hits| > 0 ==> exists i :: 0 <= i < |db.headers| && db.headers[i] == hits[0];
    if |hits| == 0 then None else Some(hits[0])
  }

  /** With unique numbers the lookup is determined: it is the one row with that number. */
  lemma GetByNumberUnique(db: Db, i: nat)
    requires UniqueNumbers(db.headers) && i < |db.headers|
    ensures GetByNumber(db, db.headers[i].number) == Some(db.headers[i])
  {
    var h := GetByNumber(db, db.headers[i].number).value;
    var j :| 0 <= j < |db.headers| && db.headers[j] == h;
    assert j == i;
  }

  lemma CreateThenGetByNumber(db: Db, d: Draft, number: string)
    requires HeadersWellKept(db) && Create(db, d, number).Some?
    ensures GetByNumber(Create(db, d, number).value, AssignedNumber(db, d, number))
      == Some(HeaderOf(db.nextHeaderId, d, AssignedNumber(db, d, number)))
  {
    CreateKeepsHeadersWellKept(db, d, number);
    GetByNumberUnique(Create(db, d, number).value, |db.headers|);
  }

  /** The row with this id (ids are unique, so it is the first). */
  function HeaderById(db: Db, id: nat): (r: Option<Header>)
    ensures r.Some? ==> r.value in db.headers && r.value.id == id
    ensures r.None? <==> forall h :: h in db.headers ==> h.id != id
  {
    var hits := Select(db.headers, (h: Header) => h.id == id);
    if |hits| == 0 then None else Some(hits[0])
  }

  // ----- listings -----

  /** The optional filters of `get_all`; `None` is a filter that was not given. */
  datatype Filter = Filter(kind: Option<Kind>, status: Option<Status>, start: Option<Date>, end: Option<Date>)

  predicate Matches(h: Header, f: Filter) {
    && (f.kind.None? || h.kind == f.kind.value)
    && (f.status.None? || h.status == f.status.value)
    && (f.start.None? || DateLe(f.start.value, h.date))
    && (f.end.None? || DateLe(h.date, f.end.value))
  }

  /** `ORDER BY date DESC, number DESC`. */
  function NewestFirst(h: Header): Key {
    Pair(Desc(DateKey(h.date)), Desc(Str(h.number)))
  }

  /** Rows sorted by `NewestFirst` go from the latest date back, and by falling number within a date. */
  lemma NewestFirstOrder(a: Header, b: Header)
    requires Le(NewestFirst(a), NewestFirst(b))
    ensures DateLe(b.date, a.date)
    ensures a.date == b.date ==> StrLe(b.number, a.number)
  {
    PairLe(Desc(DateKey(a.date)), Desc(Str(a.number)), Desc(DateKey(b.date)), Desc(Str(b.number)));
    DescLe(DateKey(a.date), DateKey(b.date));
    DateKeyLe(b.date, a.date);
    DescStrKeyLe(a.number, b.number);
  }

  function MatchesFilter(f: Filter): Header -> bool {
    (h: Header) => Matches(h, f)
  }

  /** A result sorted by `NewestFirst` runs from the latest date back, and by falling number within a date. */
  lemma NewestFirstDates(r: seq<Header>)
    requires Sorted(r, NewestFirst)
    ensures forall i, j :: 0 <= i < j < |r| ==> DateLe(r[j].date, r[i].date)
    ensures forall i, j :: 0 <= i < j < |r| && r[i].date == r[j].date ==> StrLe(r[j].number, r[i].number)
  {
    forall i, j | 0 <= i < j < |r|
      ensures DateLe(r[j].date, r[i].date) && (r[i].date == r[j].date ==> StrLe(r[j].number, r[i].number))
    {
      NewestFirstOrder(r[i], r[j]);
    }
  }

  /** Every header the filters admit, each once per row, newest first. */
  function Listing(db: Db, f: Filter): (r: seq<Header>)
    ensures forall h :: h in r <==> h in db.headers && Matches(h, f)
    ensures CountsOf(r, db.headers, MatchesFilter(f))
    ensures Sorted(r, NewestFirst)
    ensures forall i, j :: 0 <= i < j < |r| ==> DateLe(r[j].date, r[i].date)
    ensures forall i, j :: 0 <= i < j < |r| && r[i].date == r[j].date ==> StrLe(r[j].number, r[i].number)
  {
    var hits := Select(db.headers, MatchesFilter(f));
    SelectCounts(db.headers, MatchesFilter(f));
    SortByMembers(hits, NewestFirst);
    var r := SortBy(hits, NewestFirst);
    NewestFirstDates(r);
    r
  }

  /**
    * `get_all(type, status, start, end, limit, offset)`: the window
    * `[offset, offset + limit)` of the listing. A limit of 0 adds no `LIMIT`
    * clause and an offset of 0 no `OFFSET` clause; an offset without a limit
    * is not valid SQLite syntax, and the failed query reads as no rows.
    * SQLite reads a negative limit as no limit and a negative offset as 0.
    */
  function GetAll(db: Db, f: Filter, limit: int, offset: int): (r: seq<Header>)
    ensures limit == 0 && offset != 0 ==> r == []
    ensures limit == 0 && offset == 0 ==> r == Listing(db, f)
    ensures limit != 0 ==>
      var all, start := Listing(db, f), if offset < 0 then 0 else offset;
      && |r| == (if start >= |all| then 0 else if 0 < limit < |all| - start then limit else |all| - start)
      && forall i :: 0 <= i < |r| ==> r[i] == all[start + i]
    ensures forall h :: h in r ==> h in db.headers && Matches(h, f)
    ensures forall i, j :: 0 <= i < j < |r| ==> DateLe(r[j].date, r[i].date)
  {
    var all := Listing(db, f);
    var r := LimitOffset(all, limit, offset);
    if limit != 0 then
      WindowSorted(all, NewestFirst, limit, offset);
      NewestFirstDates(r);
      r
    else
      r
  }

  predicate Overdue(h: Header, asOf: Date) {
    h.status == Active && h.dueDate.Some? && DateLt(h.dueDate.value, asOf)
  }

  function DueKey(h: Header): Key {
    if h.dueDate.Some? then DateKey(h.dueDate.value) else Num(0)
  }

  function OverdueFilter(asOf: Date): Header -> bool {
    (h: Header) => Overdue(h, asOf)
  }

  /** `get_overdue(as_of)`: exactly the active headers due before `as_of`, each once per row, earliest due date first. */
  function GetOverdue(db: Db, asOf: Date): (r: seq<Header>)
    ensures forall h :: h in r <==> h in db.headers && Overdue(h, asOf)
    ensures CountsOf(r, db.headers, OverdueFilter(asOf))
    ensures Sorted(r, DueKey)
  {
    var hits := Select(db.headers, OverdueFilter(asOf));
    SelectCounts(db.headers, OverdueFilter(asOf));
    SortByMembers(hits, DueKey);
    SortBy(hits, DueKey)
  }

  /** The overdue list runs from the earliest due date to the latest. */
  lemma GetOverdueEarliestFirst(db: Db, asOf: Date, i: nat, j: nat)
    requires i < j < |GetOverdue(db, asOf)|
    ensures var r := GetOverdue(db, asOf);
      r[i].dueDate.Some? && r[j].dueDate.Some? && DateLe(r[i].dueDate.value, r[j].dueDate.value)
  {
    var r := GetOverdue(db, asOf);
    assert r[i] in r && r[j] in r;
    DueOrder(r[i], r[j]);
  }

  lemma DueOrder(a: Header, b: Header)
    requires a.dueDate.Some? && b.dueDate.Some? && Le(DueKey(a), DueKey(b))
    ensures DateLe(a.dueDate.value, b.dueDate.value)
  {
    DateKeyLe(a.dueDate.value, b.dueDate.value);
  }

  /**
    * `is_number_available(number, exclude_id)`: no header other than
    * `exclude_id` holds the number; an id of 0 excludes nothing.
    */
  function IsNumberAvailable(db: Db, number: string, excludeId: nat): (r: bool)
    ensures r <==> forall h :: h in db.headers && h.number == number ==> excludeId != 0 && h.id == excludeId
    ensures excludeId == 0 ==> (r <==> !NumberTaken(db.headers, number))
  {
    var hits := Select(db.headers, (h: Header) => h.number == number && (excludeId == 0 || h.id != excludeId));
    assert excludeId == 0 && NumberTaken(db.headers, number) ==> |hits| > 0 by {
      if excludeId == 0 && NumberTaken(db.headers, number) {
        var i :| 0 <= i < |db.headers| && db.headers[i].number == number;
        assert db.headers[i] in hits;
      }
    }
    assert |hits| > 0 ==> hits[0] in hits;
    |hits| == 0
  }

  /** An available number can be inserted. */
  lemma AvailableNumberCanBeCreated(db: Db, d: Draft, number: string)
    requires number != "" && IsNumberAvailable(db, number, 0)
    ensures Create(db, d, number).Some?
  {
    assert !NumberTaken(db.headers, number);
  }

  // ----- updates -----

  /** The fields `update`/`update_by_number` accept; `None` means "not given". */
  datatype HeaderUpdate = HeaderUpdate(
    payeeCode: Option<string>,
    payee: Option<string>,
    total: Option<int>,
    description: Option<Option<string>>,
    dueDate: Option<Option<Date>>,
    status: Option<Status>)
  {
    predicate IsEmpty() {
      payeeCode.None? && payee.None? && total.None? && description.None? && dueDate.None? && status.None?
    }
  }

  function Patch(h: Header, u: HeaderUpdate): Header {
    h.(payeeCode := u.payeeCode.GetOr(h.payeeCode),
       payee := u.payee.GetOr(h.payee),
       total := u.total.GetOr(h.total),
       description := u.description.GetOr(h.description),
       dueDate := u.dueDate.GetOr(h.dueDate),
       status := u.status.GetOr(h.status))
  }

  /** What an update does to one row: id, type, number, date and creator stay; each named field is taken. */
  predicate UpdatedRow(before: Header, after: Header, u: HeaderUpdate) {
    && after.id == before.id && after.kind == before.kind && after.number == before.number
    && after.date == before.date && after.createdBy == before.createdBy
    && after.payeeCode == (if u.payeeCode.Some? then u.payeeCode.value else before.payeeCode)
    && after.payee == (if u.payee.Some? then u.payee.value else before.payee)
    && after.total == (if u.total.Some? then u.total.value else before.total)
    && after.description == (if u.description.Some? then u.description.value else before.description)
    && after.dueDate == (if u.dueDate.Some? then u.dueDate.value else before.dueDate)
    && after.status == (if u.status.Some? then u.status.value else before.status)
  }

  /**
    * The shared body of both updates. `None` is the `False` returned for an
    * update naming no allowed field; an update that matches no row still
    * succeeds and changes nothing.
    */
  function UpdateWhere(db: Db, hit: Header -> bool, u: HeaderUpdate): (r: Option<Db>)
    ensures r.None? <==> u.IsEmpty()
    ensures r.Some? ==> |r.value.headers| == |db.headers|
    ensures r.Some? ==> forall i :: 0 <= i < |db.headers| ==>
      if hit(db.headers[i]) then UpdatedRow(db.headers[i], r.value.headers[i], u) else r.value.headers[i] == db.headers[i]
    ensures r.Some? ==> r.value.(headers := db.headers) == db
  {
    if u.IsEmpty() then None
    else Some(db.(headers := PatchWhere(db.headers, hit, (h: Header) => Patch(h, u))))
  }

  function Update(db: Db, id: nat, u: HeaderUpdate): (r: Option<Db>)
    ensures r.None? <==> u.IsEmpty()
    ensures r.Some? ==> |r.value.headers| == |db.headers|
    ensures r.Some? ==> forall i :: 0 <= i < |db.headers| ==>
      if db.headers[i].id == id then UpdatedRow(db.headers[i], r.value.headers[i], u) else r.value.headers[i] == db.headers[i]
    ensures r.Some? ==> r.value.(headers := db.headers) == db
  {
    UpdateWhere(db, (h: Header) => h.id == id, u)
  }

  function UpdateByNumber(db: Db, number: string, u: HeaderUpdate): (r: Option<Db>)
    ensures r.None? <==> u.IsEmpty()
    ensures r.Some? ==> |r.value.headers| == |db.headers|
    ensures r.Some? ==> forall i :: 0 <= i < |db.headers| ==>
      if db.headers[i].number == number then UpdatedRow(db.headers[i], r.value.headers[i], u) else r.value.headers[i] == db.headers[i]
    ensures r.Some? ==> r.value.(headers := db.headers) == db
  {
    UpdateWhere(db, (h: Header) => h.number == number, u)
  }

  /** Updates never touch numbers, so they keep the numbers unique and every line's header in place. */
  lemma UpdateKeepsNumbers(db: Db, id: nat, u: HeaderUpdate)
    requires HeadersWellKept(db) && Update(db, id, u).Some?
    ensures HeadersWellKept(Update(db, id, u).value)
    ensures forall n :: NumberTaken(Update(db, id, u).value.headers, n) <==> NumberTaken(db.headers, n)
  {
    var after := Update(db, id, u).value;
    assert forall i :: 0 <= i < |db.headers| ==> after.headers[i].number == db.headers[i].number && after.headers[i].id == db.headers[i].id;
  }

  /**
    * The allow-list includes `status`: an update can put a voided header back
    * to `active`, so status is not monotone through this path.
    */
  lemma UpdateCanReactivate(db: Db, i: nat)
    requires i < |db.headers| && db.headers[i].status == Void
    ensures var u := HeaderUpdate(None, None, None, None, None, Some(Active));
      Update(db, db.headers[i].id, u).value.headers[i].status == Active
  {
  }

  /** `void(id)`: the matched header becomes `void`; every other column, row and table is unchanged. */
  function VoidById(db: Db, id: nat): (r: Db)
    ensures |r.headers| == |db.headers|
    ensures forall i :: 0 <= i < |db.headers| ==>
      r.headers[i] == if db.headers[i].id == id then db.headers[i].(status := Void) else db.headers[i]
    ensures r.lines == db.lines && r.subs == db.subs && r.accounts == db.accounts
    ensures r.(headers := db.headers) == db
  {
    db.(headers := PatchWhere(db.headers, (h: Header) => h.id == id, (h: Header) => h.(status := Void)))
  }

  /** Voiding twice is voiding once. */
  lemma VoidIdempotent(db: Db, id: nat)
    ensures VoidById(VoidById(db, id), id) == VoidById(db, id)
  {
    var once := VoidById(db, id);
    var twice := VoidById(once, id);
    assert forall i :: 0 <= i < |db.headers| ==> twice.headers[i] == once.headers[i];
  }

  // ----- hard delete -----

  /**
    * `delete(id)`: when the id exists, the lines and subsidiary lines of its
    * number go first; then the header row itself. An unknown id deletes nothing.
    */
  function Delete(db: Db, id: nat): (r: Db)
    ensures forall h :: h in r.headers <==> h in db.headers && h.id != id
    ensures HeaderById(db, id).None? ==> r.lines == db.lines && r.subs == db.subs
    ensures HeaderById(db, id).Some? ==>
      && (forall l :: l in r.lines <==> l in db.lines && l.number != HeaderById(db, id).value.number)
      && (forall l :: l in r.subs <==> l in db.subs && l.number != HeaderById(db, id).value.number)
    ensures r.accounts == db.accounts
  {
    var kept := Select(db.headers, (h: Header) => h.id != id);
    match HeaderById(db, id)
    case None => db.(headers := kept)
    case Some(h) =>
      db.(headers := kept,
          lines := Select(db.lines, (l: EntryLine) => l.number != h.number),
          subs := Select(db.subs, (l: SubLine) => l.number != h.number))
  }

  /** After a delete no line refers to the deleted number (when the numbers were unique). */
  lemma DeleteLeavesNoOrphans(db: Db, i: nat)
    requires UniqueNumbers(db.headers) && i < |db.headers|
    requires forall j :: 0 <= j < |db.headers| && j != i ==> db.headers[j].id != db.headers[i].id
    ensures var r := Delete(db, db.headers[i].id);
      && !NumberTaken(r.headers, db.headers[i].number)
      && (forall l :: l in r.lines ==> l.number != db.headers[i].number)
      && (forall l :: l in r.subs ==> l.number != db.headers[i].number)
  {
    var h := db.headers[i];
    ByIdFindsRow(db, i);
    KeptNumbersDiffer(db.headers, Delete(db, h.id).headers, i);
  }

  /** With its id held by no other row, the lookup by id finds row `i`. */
  lemma ByIdFindsRow(db: Db, i: nat)
    requires i < |db.headers|
    requires forall j :: 0 <= j < |db.headers| && j != i ==> db.headers[j].id != db.headers[i].id
    ensures HeaderById(db, db.headers[i].id) == Some(db.headers[i])
  {
    var found := HeaderById(db, db.headers[i].id).value;
    var j :| 0 <= j < |db.headers| && db.headers[j] == found;
  }

  /** Rows kept from a table of unique numbers, minus every row with row `i`'s id, do not hold row `i`'s number. */
  lemma KeptNumbersDiffer(headers: seq<Header>, kept: seq<Header>, i: nat)
    requires UniqueNumbers(headers) && i < |headers|
    requires forall h :: h in kept ==> h in headers && h.id != headers[i].id
    ensures !NumberTaken(kept, headers[i].number)
  {
    forall k | 0 <= k < |kept| ensures kept[k].number != headers[i].number {
      assert kept[k] in kept;
      var m :| 0 <= m < |headers| && headers[m] == kept[k];
      assert m != i;
    }
  }

  // ----- per-payee totals -----

  /** One row of `get_total_by_payee`. */
  datatype PayeeTotal = PayeeTotal(payeeCode: string, payee: string, count: nat, total: int)

  function PayeeOf(h: Header): (string, string) {
    (h.payeeCode, h.payee)
  }

  function TotalOf(h: Header): int {
    h.total
  }

  function RowTotal(t: PayeeTotal): int {
    t.total
  }

  /** `WHERE status = 'active'` plus the optional date bounds. */
  predicate InPayeeWindow(h: Header, start: Option<Date>, end: Option<Date>) {
    && h.status == Active
    && (start.None? || DateLe(start.value, h.date))
    && (end.None? || DateLe(h.date, end.value))
  }

  function PayeeRows(db: Db, start: Option<Date>, end: Option<Date>): (s: seq<Header>)
    ensures forall h :: h in s <==> h in db.headers && InPayeeWindow(h, start, end)
  {
    Select(db.headers, (h: Header) => InPayeeWindow(h, start, end))
  }

  /** The (payee code, payee) group a totals row stands for. */
  function PayeeKey(t: PayeeTotal): (string, string) {
    (t.payeeCode, t.payee)
  }

  function MakePayeeTotal(k: (string, string), rows: seq<Header>): PayeeTotal {
    PayeeTotal(k.0, k.1, |rows|, SumOf(rows, TotalOf))
  }

  function LargestTotalFirst(t: PayeeTotal): Key {
    Desc(Num(t.total))
  }

  /** The `GROUP BY payee_code, payee` rows before ordering, one per payee in order of first appearance. */
  function PayeeGroups(rows: seq<Header>): (r: seq<PayeeTotal>)
    ensures forall t :: t in r ==> Summarises(t, rows)
    ensures forall h :: h in rows ==> exists t :: t in r && t.payeeCode == h.payeeCode && t.payee == h.payee
    ensures DistinctBy(r, PayeeKey)
  {
    var ks := GroupKeys(rows, PayeeOf);
    var r := GroupRows(ks, rows, PayeeOf, MakePayeeTotal);
    GroupRowsDistinct(ks, rows, PayeeOf, MakePayeeTotal, PayeeKey);
    PayeeGroupsSound(rows, ks);
    PayeeGroupsCover(rows, ks);
    r
  }

  /** `t` is the aggregate of its payee's group: a non-empty group, its size and its summed totals. */
  predicate Summarises(t: PayeeTotal, rows: seq<Header>) {
    var g := Group(rows, PayeeOf, (t.payeeCode, t.payee));
    |g| > 0 && t.count == |g| && t.total == SumOf(g, TotalOf)
  }

  lemma PayeeGroupsSound(rows: seq<Header>, ks: seq<(string, string)>)
    requires ks == GroupKeys(rows, PayeeOf)
    ensures forall t :: t in GroupRows(ks, rows, PayeeOf, MakePayeeTotal) ==> Summarises(t, rows)
  {
    var r := GroupRows(ks, rows, PayeeOf, MakePayeeTotal);
    forall i | 0 <= i < |r| ensures Summarises(r[i], rows) {
      assert ks[i] in ks;
      PayeeGroupSound(rows, ks[i]);
    }
  }

  lemma PayeeGroupSound(rows: seq<Header>, k: (string, string))
    requires exists w :: 0 <= w < |rows| && PayeeOf(rows[w]) == k
    ensures Summarises(MakePayeeTotal(k, Group(rows, PayeeOf, k)), rows)
  {
    var w :| 0 <= w < |rows| && PayeeOf(rows[w]) == k;
    assert rows[w] in Group(rows, PayeeOf, k);
  }

  lemma PayeeGroupsCover(rows: seq<Header>, ks: seq<(string, string)>)
    requires ks == GroupKeys(rows, PayeeOf)
    ensures forall h :: h in rows ==> exists t :: t in GroupRows(ks, rows, PayeeOf, MakePayeeTotal) && t.payeeCode == h.payeeCode && t.payee == h.payee
  {
    var r := GroupRows(ks, rows, PayeeOf, MakePayeeTotal);
    forall h | h in rows
      ensures exists t :: t in r && t.payeeCode == h.payeeCode && t.payee == h.payee
    {
      var w :| 0 <= w < |rows| && rows[w] == h;
      var i :| 0 <= i < |ks| && ks[i] == PayeeOf(h);
      assert r[i] in r;
    }
  }

  /**
    * `get_total_by_payee(start, end)`: one row per (payee code, payee name)
    * among the active headers in the window, with the number of headers and
    * their summed totals, largest total first.
    */
  function GetTotalByPayee(db: Db, start: Option<Date>, end: Option<Date>): (r: seq<PayeeTotal>)
    ensures forall t :: t in r ==> Summarises(t, PayeeRows(db, start, end))
    ensures forall h :: h in db.headers && InPayeeWindow(h, start, end) ==>
      exists t :: t in r && t.payeeCode == h.payeeCode && t.payee == h.payee
    ensures forall i, j :: 0 <= i < j < |r| ==> r[j].total <= r[i].total
    ensures DistinctBy(r, PayeeKey)
  {
    var grouped := PayeeGroups(PayeeRows(db, start, end));
    var r := SortBy(grouped, LargestTotalFirst);
    SortByDistinct(grouped, LargestTotalFirst, PayeeKey);
    SortByMembers(grouped, LargestTotalFirst);
    forall i, j | 0 <= i < j < |r| ensures r[j].total <= r[i].total {
      DescLe(Num(r[i].total), Num(r[j].total));
    }
    r
  }

  /** Partition: the per-payee totals add up to the total of all active headers in the window. */
  lemma GetTotalByPayeeSum(db: Db, start: Option<Date>, end: Option<Date>)
    ensures SumOf(GetTotalByPayee(db, start, end), RowTotal) == SumOf(PayeeRows(db, start, end), TotalOf)
  {
    var rows := PayeeRows(db, start, end);
    var ks := GroupKeys(rows, PayeeOf);
    var grouped := PayeeGroups(rows);
    SortBySum(grouped, LargestTotalFirst, RowTotal);
    GroupRowsSum(ks, rows, PayeeOf, MakePayeeTotal, RowTotal, TotalOf);
    GroupSumsTotal(ks, rows, PayeeOf, TotalOf);
  }

  // ----- search -----

  /** `number LIKE '%t%' OR payee LIKE '%t%' OR description LIKE '%t%'`; a NULL description matches nothing. */
  predicate MatchesTerm(h: Header, term: string) {
    Like(h.number, term) || Like(h.payee, term) || (h.description.Some? && Like(h.description.value, term))
  }

  /** The optional `AND type = ?`: empty text (Python falsy) filters nothing. */
  predicate OfKindText(h: Header, kindText: string) {
    kindText == "" || KindText(h.kind) == kindText
  }

  function DateDesc(h: Header): Key {
    Desc(DateKey(h.date))
  }

  function SearchFilter(term: string, kindText: string): Header -> bool {
    (h: Header) => MatchesTerm(h, term) && OfKindText(h, kindText)
  }

  /** `search(term, type)`: the headers matching the term (and the type, when given), each once per row, newest first. */
  function Search(db: Db, term: string, kindText: string): (r: seq<Header>)
    ensures forall h :: h in r <==> h in db.headers && MatchesTerm(h, term) && OfKindText(h, kindText)
    ensures CountsOf(r, db.headers, SearchFilter(term, kindText))
    ensures Sorted(r, DateDesc)
  {
    var hits := Select(db.headers, SearchFilter(term, kindText));
    SelectCounts(db.headers, SearchFilter(term, kindText));
    SortByMembers(hits, DateDesc);
    SortBy(hits, DateDesc)
  }

  /** A header's own number is always found, whatever its case; a type filter of another type hides it. */
  lemma SearchFindsOwnNumber(db: Db, i: nat, kindText: string)
    requires i < |db.headers|
    ensures db.headers[i] in Search(db, db.headers[i].number, kindText) <==> OfKindText(db.headers[i], kindText)
  {
    LikeSelf(db.headers[i].number);
  }
}

=== FILE: money.dfy ===
/**
  * Money. Amounts are integers in ten-thousandths of the currency unit
  * ("fine" units), so that both the exact decimal inputs the services receive
  * and their quantisation to cents (`Decimal.quantize(Decimal('0.01'),
  * ROUND_HALF_UP)`) are exact.
  */
module Money {

  /** Fine units per cent: one cent is 0.01, one fine unit is 0.0001. */
  const FinePerCent: nat := 100

  function Abs(x: int): nat {
    if x < 0 then -x else x
  }

  /** The amount is a whole number of cents, as every quantised amount is. */
  predicate WholeCents(x: int) {
    x % FinePerCent == 0
  }

  /**
    * ROUND_HALF_UP to two decimal places: the nearest whole-cent amount, with
    * a tie (exactly half a cent off) resolved away from zero.
    */
  function Quantize(x: int): (q: int)
    ensures WholeCents(q)
    ensures Abs(q - x) <= FinePerCent / 2
    ensures Abs(q - x) == FinePerCent / 2 ==> Abs(q) > Abs(x)
  {
    if x >= 0 then (x + 50) / 100 * 100 else -((-x + 50) / 100 * 100)
  }

  /** The three properties in `Quantize`'s contract pin its result down. */
  lemma QuantizeUnique(x: int, m: int)
    requires WholeCents(m)
    requires Abs(m - x) <= FinePerCent / 2
    requires Abs(m - x) == FinePerCent / 2 ==> Abs(m) > Abs(x)
    ensures m == Quantize(x)
  {
    var q := Quantize(x);
    var a, b := m / FinePerCent, q / FinePerCent;
    assert m == FinePerCent * a && q == FinePerCent * b;
    NearestCentUnique(x, a, b);
  }

  /** At most one whole-cent amount is the ROUND_HALF_UP neighbour of `x`. */
  lemma NearestCentUnique(x: int, a: int, b: int)
    requires Abs(FinePerCent * a - x) <= FinePerCent / 2
    requires Abs(FinePerCent * a - x) == FinePerCent / 2 ==> Abs(FinePerCent * a) > Abs(x)
    requires Abs(FinePerCent * b - x) <= FinePerCent / 2
    requires Abs(FinePerCent * b - x) == FinePerCent / 2 ==> Abs(FinePerCent * b) > Abs(x)
    ensures a == b
  {
  }

  /** Quantising a whole-cent amount gives it back, so quantisation is idempotent. */
  lemma QuantizeWholeCents(x: int)
    requires WholeCents(x)
    ensures Quantize(x) == x
  {
    QuantizeUnique(x, x);
  }

  lemma QuantizeIdempotent(x: int)
    ensures Quantize(Quantize(x)) == Quantize(x)
  {
    QuantizeWholeCents(Quantize(x));
  }

  /** Quantisation commutes with negation: rounding is symmetric about zero. */
  lemma QuantizeNegate(x: int)
    ensures Quantize(-x) == -Quantize(x)
  {
    QuantizeUnique(-x, -Quantize(x));
  }

  /** The exact reading of the tolerance `abs(a - b) < 0.01`: less than a cent apart. */
  predicate WithinCent(a: int, b: int) {
    Abs(a - b) < FinePerCent
  }

  /** Between whole-cent amounts the exact reading is equality. */
  lemma WithinCentOfWholeCents(a: int, b: int)
    requires WholeCents(a) && WholeCents(b)
    ensures WithinCent(a, b) <==> a == b
  {
    assert (a - b) % 100 == 0;
  }

  /**
    * How the repository's float test `abs(a - b) < 0.01` can read two
    * amounts. A gap under a cent always passes and a gap over a cent never
    * does; at a gap of exactly one cent the answer depends on the binary
    * values of the two floats: `abs(10.01 - 10.0)` is 0.009999999999999787
    * and passes, `abs(0.02 - 0.01)` is exactly 0.01 and does not.
    */
  ghost predicate FloatTolerance(close: (int, int) -> bool) {
    forall a: int, b: int :: (Abs(a - b) < FinePerCent ==> close(a, b)) && (close(a, b) ==> Abs(a - b) <= FinePerCent)
  }

  /** A reading of the float test that the representation of the amounts admits. */
  type Tolerance = close: (int, int) -> bool | FloatTolerance(close)
    witness WithinCent

  /** Any reading passes amounts under a cent apart and nothing more than a cent apart. */
  lemma ToleranceBounds(close: Tolerance, a: int, b: int)
    ensures Abs(a - b) < FinePerCent ==> close(a, b)
    ensures close(a, b) ==> Abs(a - b) <= FinePerCent
  {
  }

  /** Any reading agrees with the exact one except at a gap of exactly one cent. */
  lemma ToleranceNearExact(close: Tolerance, a: int, b: int)
    ensures WithinCent(a, b) ==> close(a, b)
    ensures Abs(a - b) != FinePerCent ==> (close(a, b) <==> WithinCent(a, b))
  {
  }

  /**
    * Between whole-cent amounts any reading passes equal amounts, may pass
    * amounts one cent apart, and passes nothing further apart.
    */
  lemma ToleranceOfWholeCents(close: Tolerance, a: int, b: int)
    requires WholeCents(a) && WholeCents(b)
    ensures a == b ==> close(a, b)
    ensures close(a, b) ==> a == b || Abs(a - b) == FinePerCent
  {
    assert (a - b) % 100 == 0;
  }

  /** A one-cent gap read as a pass is a reading the float test admits. */
  lemma OneCentReadingAdmitted()
    ensures FloatTolerance((a: int, b: int) => Abs(a - b) <= FinePerCent)
  {
  }
}

=== FILE: numbering.dfy ===
/**
  * Transaction numbers. Three generators exist in the repository:
  *  - the ledger model's `generate_number`, used by the accounting service:
  *    `1-{seq:03d}-{year}`, one sequence per type and year;
  *  - the voucher service's `_generate_voucher_number`: `{type}-{year}-{seq:03d}`,
  *    continuing from the text-largest number of the type dated in the year;
  *  - the helper `generate_voucher_number`: the same format, continuing from a
  *    `MAX(CAST(SUBSTR(...)))` over the same rows.
  * Each is modelled as written, next to a corrected generator whose numbers are
  * provably fresh in the whole `ledger` table, where `number` is `UNIQUE`.
  */
module Numbering {
  import opened Wrappers
  import opened Text
  import opened Order
  import opened Tables
  import opened Dates
  import opened Books

  // ===== models/ledger.py: generate_number =====

  function YearSuffix(year: nat): string {
    "-" + NatToString(year)
  }

  /** The `WHERE type = ? AND number LIKE '%-{year}'` filter. */
  predicate IsCandidate(h: Header, kind: Kind, year: nat) {
    h.kind == kind && EndsWith(h.number, YearSuffix(year))
  }

  /**
    * The `ORDER BY CAST(SUBSTR(number, INSTR(...) + 1, ...) AS INTEGER)`
    * expression: the integer value of the text between the first and the
    * second '-'; 0 when there is no second '-'.
    */
  function OrderKey(number: string): int {
    var p := Split(number, '-');
    if |p| >= 3 then SqlCastInteger(p[1]) else 0
  }

  function OrderKeyOf(h: Header): int {
    OrderKey(h.number)
  }

  /** `f"1-{sequence:03d}-{year}"`. */
  function LedgerNumber(seqNo: nat, year: nat): string {
    "1-" + Pad3(seqNo) + "-" + NatToString(year)
  }

  lemma SplitLedgerNumber(seqNo: nat, year: nat)
    ensures Split(LedgerNumber(seqNo, year), '-') == ["1", Pad3(seqNo), NatToString(year)]
  {
    NoSeparatorInDigits(Pad3(seqNo), '-');
    NoSeparatorInDigits(NatToString(year), '-');
    assert LedgerNumber(seqNo, year) == "1" + ['-'] + Pad3(seqNo) + ['-'] + NatToString(year);
    SplitThree("1", Pad3(seqNo), NatToString(year), '-');
  }

  lemma FirstLedgerNumberOf2025()
    ensures LedgerNumber(1, 2025) == "1-001-2025"
  {
    Numerals();
    assert LedgerNumber(1, 2025) == "1-" + "001" + "-" + "2025";
  }

  /** A formatted number ends with its year and parses back to its sequence. */
  lemma LedgerNumberShape(seqNo: nat, year: nat)
    ensures EndsWith(LedgerNumber(seqNo, year), YearSuffix(year))
    ensures var p := Split(LedgerNumber(seqNo, year), '-');
      |p| == 3 && p[0] == "1" && p[2] == NatToString(year) && IsNumeral(p[1]) && ParseDigits(p[1]) == seqNo
  {
    SplitLedgerNumber(seqNo, year);
    ParsePad3(seqNo);
    assert LedgerNumber(seqNo, year) == ("1-" + Pad3(seqNo)) + YearSuffix(year);
    EndsWithAppended("1-" + Pad3(seqNo), YearSuffix(year));
  }

  /** `ORDER BY ... DESC LIMIT 1`: a candidate with the largest order key (the first such row). */
  function TopCandidate(c: seq<Header>): (h: Header)
    requires |c| > 0
    ensures h in c
    ensures forall x :: x in c ==> OrderKey(x.number) <= OrderKey(h.number)
  {
    var m := MaxOf(c, OrderKeyOf, 0);
    var top := Select(c, (x: Header) => OrderKeyOf(x) == m);
    assert forall i :: 0 <= i < |c| && OrderKeyOf(c[i]) == m ==> c[i] in top;
    assert forall x :: x in c ==> OrderKeyOf(x) <= m by {
      forall x | x in c ensures OrderKeyOf(x) <= m {
        var i :| 0 <= i < |c| && c[i] == x;
      }
    }
    top[0]
  }

  function CandidatesOf(headers: seq<Header>, kind: Kind, year: nat): (c: seq<Header>)
    ensures forall h :: h in c <==> h in headers && IsCandidate(h, kind, year)
  {
    Select(headers, (h: Header) => IsCandidate(h, kind, year))
  }

  /**
    * The next sequence number: one more than the middle part of the top
    * candidate when it has three parts, 1 otherwise. A middle part that
    * `int()` rejects raises, and the handler then returns `1-001-{year}`,
    * which is sequence 1 as well.
    */
  function NextSequence(headers: seq<Header>, kind: Kind, year: nat): (s: nat)
    ensures s >= 1
    ensures (forall h :: h in headers ==> !IsCandidate(h, kind, year)) ==> s == 1
  {
    var c := CandidatesOf(headers, kind, year);
    if |c| == 0 then 1
    else
      assert c[0] in c;
      var p := Split(TopCandidate(c).number, '-');
      if |p| == 3 && IsNumeral(p[1]) then ParseDigits(p[1]) + 1 else 1
  }

  /** Round trip: the generated number splits into "1", a numeral that parses back to the sequence, and the year. */
  function GenerateNumber(headers: seq<Header>, kind: Kind, year: nat): (n: string)
    ensures EndsWith(n, YearSuffix(year))
    ensures var p := Split(n, '-');
      && |p| == 3 && p[0] == "1" && p[2] == NatToString(year)
      && IsNumeral(p[1]) && ParseDigits(p[1]) == NextSequence(headers, kind, year)
  {
    var s := NextSequence(headers, kind, year);
    LedgerNumberShape(s, year);
    LedgerNumber(s, year)
  }

  /** Every number has three '-'-separated parts with a numeral in the middle. */
  predicate WellFormedNumber(n: string) {
    var p := Split(n, '-');
    |p| == 3 && IsNumeral(p[1])
  }

  predicate WellFormedNumbers(headers: seq<Header>) {
    forall i :: 0 <= i < |headers| ==> WellFormedNumber(headers[i].number)
  }

  /** The rows the lookup for `kind` and `year` can see all hold well-formed numbers. */
  predicate CandidatesWellFormed(headers: seq<Header>, kind: Kind, year: nat) {
    forall i :: 0 <= i < |headers| && IsCandidate(headers[i], kind, year) ==> WellFormedNumber(headers[i].number)
  }

  lemma OrderKeyOfWellFormed(n: string)
    requires WellFormedNumber(n)
    ensures OrderKey(n) == ParseDigits(Split(n, '-')[1])
  {
  }

  lemma OrderKeyOfLedgerNumber(seqNo: nat, year: nat)
    ensures WellFormedNumber(LedgerNumber(seqNo, year))
    ensures OrderKey(LedgerNumber(seqNo, year)) == seqNo
  {
    SplitLedgerNumber(seqNo, year);
    ParsePad3(seqNo);
    OrderKeyOfWellFormed(LedgerNumber(seqNo, year));
  }

  /**
    * When every candidate number is well formed, the next sequence is one more
    * than the largest middle part among the candidates, or 1 without any.
    */
  lemma NextSequenceIsMaxPlusOne(headers: seq<Header>, kind: Kind, year: nat)
    requires CandidatesWellFormed(headers, kind, year)
    ensures forall h :: h in headers && IsCandidate(h, kind, year) ==> OrderKey(h.number) < NextSequence(headers, kind, year)
    ensures NextSequence(headers, kind, year) == 1
      || exists h :: h in headers && IsCandidate(h, kind, year) && OrderKey(h.number) + 1 == NextSequence(headers, kind, year)
  {
    var c := CandidatesOf(headers, kind, year);
    if |c| > 0 {
      var top := TopCandidate(c);
      var i :| 0 <= i < |headers| && headers[i] == top;
      OrderKeyOfWellFormed(top.number);
    }
  }

  /** Freshness within a type: no header of the same type already holds the generated number. */
  lemma FreshWithinKind(headers: seq<Header>, kind: Kind, year: nat)
    requires CandidatesWellFormed(headers, kind, year)
    ensures forall h :: h in headers && h.kind == kind ==> h.number != GenerateNumber(headers, kind, year)
  {
    var n := GenerateNumber(headers, kind, year);
    var s := NextSequence(headers, kind, year);
    NextSequenceIsMaxPlusOne(headers, kind, year);
    OrderKeyOfLedgerNumber(s, year);
    forall h | h in headers && h.kind == kind
      ensures h.number != n
    {
      if IsCandidate(h, kind, year) {
        assert OrderKey(h.number) < OrderKey(n);
      } else {
        assert !EndsWith(h.number, YearSuffix(year));
      }
    }
  }

  /**
    * The two types share one `number` column but not one sequence: with only a
    * VP `1-001-2025` stored, the first CV of 2025 is given the same number.
    */
  lemma CrossKindCollision()
    ensures var vp := Header(1, VP, LedgerNumber(1, 2025), Date(2025, 1, 15), "VEND001", "Office Supply Co.", 10000, None, None, Active, None);
      GenerateNumber([vp], CV, 2025) == vp.number
  {
  }

  // ----- corrected: one sequence per year shared by both types -----

  /** A stored number of the form `1-<numeral>-{year}`, whatever its type. */
  predicate SharedCandidate(h: Header, year: nat) {
    var p := Split(h.number, '-');
    |p| == 3 && p[0] == "1" && IsNumeral(p[1]) && p[2] == NatToString(year)
  }

  function MiddleValue(h: Header): int {
    var p := Split(h.number, '-');
    if |p| == 3 && IsNumeral(p[1]) then ParseDigits(p[1]) else 0
  }

  function SharedSequence(headers: seq<Header>, year: nat): (s: nat)
    ensures forall h :: h in headers && SharedCandidate(h, year) ==> MiddleValue(h) < s
  {
    var c := Select(headers, (h: Header) => SharedCandidate(h, year));
    var m := MaxOf(c, MiddleValue, 0);
    assert m >= 0 by {
      if |c| > 0 {
        assert MiddleValue(c[0]) >= 0;
      }
    }
    assert forall h :: h in headers && SharedCandidate(h, year) ==> MiddleValue(h) <= m by {
      forall h | h in headers && SharedCandidate(h, year) ensures MiddleValue(h) <= m {
        assert h in c;
        var i :| 0 <= i < |c| && c[i] == h;
      }
    }
    m + 1
  }

  /** The corrected generator: the next number after every `1-NNN-{year}` of either type. */
  function SharedNumber(headers: seq<Header>, year: nat): (n: string)
    ensures WellFormedNumber(n) && EndsWith(n, YearSuffix(year))
    ensures var p := Split(n, '-');
      |p| == 3 && p[0] == "1" && p[2] == NatToString(year)
      && ParseDigits(p[1]) == SharedSequence(headers, year)
  {
    var s := SharedSequence(headers, year);
    LedgerNumberShape(s, year);
    LedgerNumber(s, year)
  }

  /** The corrected number is held by no header at all, of either type, with no invariant needed. */
  lemma SharedNumberFresh(headers: seq<Header>, year: nat)
    ensures forall h :: h in headers ==> h.number != SharedNumber(headers, year)
  {
    var s := SharedSequence(headers, year);
    var n := SharedNumber(headers, year);
    SplitLedgerNumber(s, year);
    ParsePad3(s);
    forall h | h in headers
      ensures h.number != n
    {
      if SharedCandidate(h, year) {
        assert MiddleValue(h) < s;
      } else {
        assert !SharedCandidate(h, year);
      }
    }
  }

  // ===== services/voucher_service.py: _generate_voucher_number =====

  /** `WHERE type = ? AND strftime('%Y', date) = str(year)`. */
  predicate InYear(h: Header, kind: Kind, year: nat) {
    h.kind == kind && YearText(h.date) == NatToString(year)
  }

  function NumberDesc(h: Header): Key {
    Desc(Str(h.number))
  }

  /** `f"{type}-{year}-{sequence:03d}"`. */
  function VoucherNumber(kind: Kind, year: nat, seqNo: nat): string {
    KindText(kind) + "-" + NatToString(year) + "-" + Pad3(seqNo)
  }

  lemma SplitVoucherNumber(kind: Kind, year: nat, seqNo: nat)
    ensures Split(VoucherNumber(kind, year, seqNo), '-') == [KindText(kind), NatToString(year), Pad3(seqNo)]
    ensures WellFormedNumber(VoucherNumber(kind, year, seqNo))
  {
    NoSeparatorInDigits(Pad3(seqNo), '-');
    NoSeparatorInDigits(NatToString(year), '-');
    assert VoucherNumber(kind, year, seqNo) == KindText(kind) + ['-'] + NatToString(year) + ['-'] + Pad3(seqNo);
    SplitThree(KindText(kind), NatToString(year), Pad3(seqNo), '-');
  }

  /** `ORDER BY number DESC LIMIT 1`: the row whose number is largest as text. */
  function TextTop(c: seq<Header>): (h: Header)
    requires |c| > 0
    ensures h in c
    ensures forall x :: x in c ==> StrLe(x.number, h.number)
  {
    var sorted := SortBy(c, NumberDesc);
    assert sorted[0] in multiset(c);
    assert forall x :: x in c ==> StrLe(x.number, sorted[0].number) by {
      forall x | x in c ensures StrLe(x.number, sorted[0].number) {
        assert x in multiset(sorted);
        var j :| 0 <= j < |sorted| && sorted[j] == x;
        if j > 0 {
          assert Le(NumberDesc(sorted[0]), NumberDesc(sorted[j]));
        } else {
          LeReflexive(NumberDesc(x));
        }
        DescStrKeyLe(sorted[0].number, x.number);
      }
    }
    sorted[0]
  }

  lemma TextTopNumber(c: seq<Header>, x: Header)
    requires |c| > 0 && x in c
    requires forall y :: y in c ==> StrLe(y.number, x.number)
    ensures TextTop(c).number == x.number
  {
    StrLeAntisymmetric(TextTop(c).number, x.number);
  }

  function YearFilter(kind: Kind, year: nat): Header -> bool {
    (h: Header) => InYear(h, kind, year)
  }

  function YearRows(headers: seq<Header>, kind: Kind, year: nat): (c: seq<Header>)
    ensures forall h :: h in c <==> h in headers && InYear(h, kind, year)
  {
    Select(headers, YearFilter(kind, year))
  }

  /**
    * The last part of the text-largest number plus one, when that number has
    * three parts and its middle part is the year; 1 otherwise (a last part that
    * `int()` rejects lands in the handler, which returns sequence 1 too).
    */
  function VoucherNextSequence(headers: seq<Header>, kind: Kind, year: nat): (s: nat)
    ensures s >= 1
    ensures (forall h :: h in headers ==> !InYear(h, kind, year)) ==> s == 1
  {
    var c := YearRows(headers, kind, year);
    if |c| == 0 then 1
    else
      assert c[0] in c;
      var p := Split(TextTop(c).number, '-');
      if |p| == 3 && p[1] == NatToString(year) && IsNumeral(p[2]) then ParseDigits(p[2]) + 1 else 1
  }

  function VoucherGenerate(headers: seq<Header>, kind: Kind, year: nat): (n: string)
    ensures WellFormedNumber(n)
    ensures var p := Split(n, '-');
      |p| == 3 && p[0] == KindText(kind) && p[1] == NatToString(year)
      && IsNumeral(p[2]) && ParseDigits(p[2]) == VoucherNextSequence(headers, kind, year)
  {
    var s := VoucherNextSequence(headers, kind, year);
    SplitVoucherNumber(kind, year, s);
    ParsePad3(s);
    VoucherNumber(kind, year, s)
  }

  lemma Numerals()
    ensures NatToString(2025) == "2025" && NatToString(999) == "999" && NatToString(1000) == "1000"
    ensures Pad3(0) == "000" && Pad3(1) == "001" && Pad3(2) == "002" && Pad3(999) == "999" && Pad3(1000) == "1000"
  {
    assert NatToString(20) == "20";
    assert NatToString(202) == "202";
    assert NatToString(99) == "99";
    assert NatToString(10) == "10";
    assert NatToString(100) == "100";
    assert Repeat('0', 2) == "00";
  }

  /** When the text-largest row of the year holds sequence `k`, the generator proposes `k + 1`. */
  lemma VoucherGenerateAfter(headers: seq<Header>, kind: Kind, year: nat, top: Header, k: nat)
    requires top in headers && InYear(top, kind, year) && top.number == VoucherNumber(kind, year, k)
    requires forall h :: h in headers && InYear(h, kind, year) ==> StrLe(h.number, top.number)
    ensures VoucherGenerate(headers, kind, year) == VoucherNumber(kind, year, k + 1)
  {
    var c := YearRows(headers, kind, year);
    TextTopNumber(c, top);
    SplitVoucherNumber(kind, year, k);
    ParsePad3(k);
  }

  /** A VP dated in 2025 with the given id and number. */
  function SampleVoucher(id: nat, number: string): (h: Header)
    ensures h.kind == VP && h.number == number && h.date.year == 2025
  {
    Header(id, VP, number, Date(2025, 6, 1), "VEND001", "Office Supply Co.", 10000, None, None, Active, None)
  }

  lemma SampleInYear(id: nat, number: string)
    ensures InYear(SampleVoucher(id, number), VP, 2025)
  {
    Numerals();
  }

  /**
    * Text order is not numeric order: once `VP-2025-1000` exists, `VP-2025-999`
    * is still the text-largest number, so the generator hands out
    * `VP-2025-1000` again and every later insert hits the `UNIQUE` constraint.
    */
  lemma TextOrderRepeatsNumber()
    ensures var h1000 := SampleVoucher(2, VoucherNumber(VP, 2025, 1000));
      VoucherGenerate([SampleVoucher(1, VoucherNumber(VP, 2025, 999)), h1000], VP, 2025) == h1000.number
  {
    var h999 := SampleVoucher(1, VoucherNumber(VP, 2025, 999));
    var h1000 := SampleVoucher(2, VoucherNumber(VP, 2025, 1000));
    SampleInYear(1, h999.number);
    SampleInYear(2, h1000.number);
    ThousandSortsFirst(VP, 2025);
    GenerateRepeatsTop(h999, h1000, VP, 2025, 999);
  }

  /** As text, sequence 1000 of a type and year sorts before sequence 999. */
  lemma ThousandSortsFirst(kind: Kind, year: nat)
    ensures StrLe(VoucherNumber(kind, year, 1000), VoucherNumber(kind, year, 999))
  {
    var pre := KindText(kind) + "-" + NatToString(year) + "-";
    Numerals();
    assert VoucherNumber(kind, year, 1000) == pre + ['1'] + "000";
    assert VoucherNumber(kind, year, 999) == pre + ['9'] + "99";
    StrLtAtFirstDifference(pre, '1', '9', "000", "99");
  }

  /**
    * With rows holding sequences `k` and `k + 1` of a year, where `k + 1`
    * sorts first as text, the generator proposes `k + 1` again.
    */
  lemma GenerateRepeatsTop(a: Header, b: Header, kind: Kind, year: nat, k: nat)
    requires InYear(a, kind, year) && InYear(b, kind, year)
    requires a.number == VoucherNumber(kind, year, k) && b.number == VoucherNumber(kind, year, k + 1)
    requires StrLe(b.number, a.number)
    ensures VoucherGenerate([a, b], kind, year) == b.number
  {
    StrLeTotal(a.number, a.number);
    VoucherGenerateAfter([a, b], kind, year, a, k);
  }

  // ----- corrected: the numeric maximum over every number of the type and year -----

  /** A stored number of the form `{type}-{year}-<numeral>`, whatever its date. */
  predicate VoucherShaped(h: Header, kind: Kind, year: nat) {
    var p := Split(h.number, '-');
    |p| == 3 && p[0] == KindText(kind) && p[1] == NatToString(year) && IsNumeral(p[2])
  }

  function ShapedFilter(kind: Kind, year: nat): Header -> bool {
    (h: Header) => VoucherShaped(h, kind, year)
  }

  function LastValue(h: Header): int {
    var p := Split(h.number, '-');
    if |p| == 3 && IsNumeral(p[2]) then ParseDigits(p[2]) else 0
  }

  function VoucherSequence(headers: seq<Header>, kind: Kind, year: nat): (s: nat)
    ensures forall h :: h in headers && VoucherShaped(h, kind, year) ==> LastValue(h) < s
    ensures s >= 1
    ensures s == 1 || exists h :: h in headers && VoucherShaped(h, kind, year) && s == LastValue(h) + 1
  {
    MaxOfSelect(headers, ShapedFilter(kind, year), LastValue, 0);
    var m := MaxOf(Select(headers, ShapedFilter(kind, year)), LastValue, 0);
    m + 1
  }

  function CorrectedVoucherNumber(headers: seq<Header>, kind: Kind, year: nat): (n: string)
    ensures WellFormedNumber(n)
    ensures var p := Split(n, '-');
      |p| == 3 && p[0] == KindText(kind) && p[1] == NatToString(year)
      && IsNumeral(p[2]) && ParseDigits(p[2]) == VoucherSequence(headers, kind, year)
  {
    var s := VoucherSequence(headers, kind, year);
    SplitVoucherNumber(kind, year, s);
    ParsePad3(s);
    VoucherNumber(kind, year, s)
  }

  /** The corrected voucher number is held by no stored header. */
  lemma CorrectedVoucherNumberFresh(headers: seq<Header>, kind: Kind, year: nat)
    ensures forall h :: h in headers ==> h.number != CorrectedVoucherNumber(headers, kind, year)
  {
    var s := VoucherSequence(headers, kind, year);
    var n := CorrectedVoucherNumber(headers, kind, year);
    forall h | h in headers
      ensures h.number != n
    {
      if VoucherShaped(h, kind, year) {
        assert LastValue(h) < s;
      } else {
        assert !VoucherShaped(h, kind, year);
      }
    }
  }

  lemma VoucherSequenceSingle(h: Header, kind: Kind, year: nat)
    requires VoucherShaped(h, kind, year)
    ensures VoucherSequence([h], kind, year) == LastValue(h) + 1
  {
    var c := Select([h], ShapedFilter(kind, year));
    assert h in c;
    assert c == [h];
  }

  // ===== utils/helpers.py: generate_voucher_number =====

  /** `CAST(SUBSTR(number, LENGTH(type) + 6) AS INTEGER)`: starts one character early, on the second '-'. */
  function HelperValue(kind: Kind): Header -> int {
    (h: Header) => SqlCastInteger(SubstrFrom(h.number, |KindText(kind)| + 5))
  }

  /**
    * `next_num = COALESCE(MAX(...), 0) + 1` over the rows of the type dated in
    * the year: one more than the largest value read, or 1 over no rows.
    */
  function HelperSequence(headers: seq<Header>, kind: Kind, year: nat): (s: int)
    ensures (forall h :: h in headers ==> !InYear(h, kind, year)) ==> s == 1
    ensures forall h :: h in headers && InYear(h, kind, year) ==> HelperValue(kind)(h) < s
    ensures (exists h :: h in headers && InYear(h, kind, year)) ==>
      exists h :: h in headers && InYear(h, kind, year) && s == HelperValue(kind)(h) + 1
  {
    MaxOfSelect(headers, YearFilter(kind, year), HelperValue(kind), 0);
    var m := MaxOf(YearRows(headers, kind, year), HelperValue(kind), 0);
    m + 1
  }

  /** `f"{type}-{year}-{next_num:03d}"`. */
  function HelperNumber(headers: seq<Header>, kind: Kind, year: nat): (n: string)
    ensures (forall h :: h in headers ==> !InYear(h, kind, year)) ==> n == VoucherNumber(kind, year, 1)
    ensures HelperSequence(headers, kind, year) >= 0 ==> n == VoucherNumber(kind, year, HelperSequence(headers, kind, year))
  {
    KindText(kind) + "-" + NatToString(year) + "-" + Pad3Signed(HelperSequence(headers, kind, year))
  }

  /**
    * For a four-digit year, when every row of the type dated in the year
    * holds a number of the form `{type}-{year}-{k:03d}`, each row reads as
    * `-k`, so the helper's next sequence is one minus the smallest stored
    * sequence: it never passes 1, and any stored sequence above 0 makes it
    * propose 0 or a negative number.
    */
  lemma HelperSequenceIsOneMinusLeast(headers: seq<Header>, kind: Kind, year: nat)
    requires |NatToString(year)| == 4
    requires forall h :: h in headers && InYear(h, kind, year) ==> exists k: nat :: h.number == VoucherNumber(kind, year, k)
    ensures HelperSequence(headers, kind, year) <= 1
    ensures (exists h :: h in headers && InYear(h, kind, year)) ==>
      exists h :: && h in headers && InYear(h, kind, year)
                  && HelperSequence(headers, kind, year) == 1 - LastValue(h)
                  && forall g :: g in headers && InYear(g, kind, year) ==> LastValue(h) <= LastValue(g)
  {
    forall h | h in headers && InYear(h, kind, year)
      ensures HelperValue(kind)(h) == -LastValue(h) && LastValue(h) >= 0
    {
      var k: nat :| h.number == VoucherNumber(kind, year, k);
      HelperReadsGenerated(h, kind, year, k);
    }
  }

  /** A generated number `{type}-{year}-{k:03d}` with a four-digit year reads back `k` as its last part and `-k` in the helper. */
  lemma HelperReadsGenerated(h: Header, kind: Kind, year: nat, k: nat)
    requires |NatToString(year)| == 4 && h.number == VoucherNumber(kind, year, k)
    ensures LastValue(h) == k && HelperValue(kind)(h) == -(k as int)
  {
    HelperReadsNegatedSequence(h, kind, year, k);
    SplitVoucherNumber(kind, year, k);
    ParsePad3(k);
  }

  /**
    * For a four-digit year the helper's substring starts at the '-' before the
    * sequence, so a stored sequence `k` reads as `-k`.
    */
  lemma HelperReadsNegatedSequence(h: Header, kind: Kind, year: nat, k: nat)
    requires |NatToString(year)| == 4 && h.number == VoucherNumber(kind, year, k)
    ensures HelperValue(kind)(h) == -(k as int)
  {
    var pre, rest := KindText(kind) + "-" + NatToString(year), "-" + Pad3(k);
    assert h.number == pre + rest;
    assert |pre| == |KindText(kind)| + 5;
    SubstrAfterPrefix(pre, rest);
    CastOfNegatedPad3(k);
  }

  /** `CAST('-' || printf('%03d', k) AS INTEGER)` is `-k`. */
  lemma CastOfNegatedPad3(k: nat)
    ensures SqlCastInteger("-" + Pad3(k)) == -(k as int)
  {
    var rest := "-" + Pad3(k);
    assert rest[1..] == Pad3(k);
    SqlIntegerOfDigits(Pad3(k));
    ParsePad3(k);
  }

  lemma HelperSequenceSingle(h: Header, kind: Kind, year: nat)
    requires InYear(h, kind, year)
    ensures HelperSequence([h], kind, year) == HelperValue(kind)(h) + 1
  {
    assert h in [h];
  }

  /**
    * With `VP-2025-001` stored, the helper proposes `VP-2025-000` where the
    * corrected generator proposes `VP-2025-002`.
    */
  lemma HelperReadsSignedSuffix()
    ensures var h := SampleVoucher(1, VoucherNumber(VP, 2025, 1));
      && HelperNumber([h], VP, 2025) == VoucherNumber(VP, 2025, 0)
      && CorrectedVoucherNumber([h], VP, 2025) == VoucherNumber(VP, 2025, 2)
  {
    var h := SampleVoucher(1, VoucherNumber(VP, 2025, 1));
    Numerals();
    SampleInYear(1, h.number);
    HelperReadsNegatedSequence(h, VP, 2025, 1);
    HelperSequenceSingle(h, VP, 2025);
    SplitVoucherNumber(VP, 2025, 1);
    ParsePad3(1);
    VoucherSequenceSingle(h, VP, 2025);
  }
}

=== FILE: order.dfy ===
/**
  * Sort keys for the `ORDER BY` clauses of the repository's queries. A key is
  * a number, a text (compared byte-wise, as SQLite's BINARY collation does),
  * a pair compared lexicographically, or a key in descending direction.
  */
module Order {
  import opened Text

  datatype Key = Num(n: int) | Str(s: string) | Pair(first: Key, second: Key) | Desc(inner: Key)

  function Rank(k: Key): nat {
    match k
    case Num(_) => 0
    case Str(_) => 1
    case Pair(_, _) => 2
    case Desc(_) => 3
  }

  function Size(k: Key): nat {
    match k
    case Num(_) => 1
    case Str(_) => 1
    case Pair(a, b) => 1 + Size(a) + Size(b)
    case Desc(a) => 1 + Size(a)
  }

  /** Three-way comparison: negative, zero or positive as `a` sorts before, with or after `b`. */
  function Cmp(a: Key, b: Key): (c: int)
    ensures -1 <= c <= 1
    decreases a
  {
    if Rank(a) != Rank(b) then (if Rank(a) < Rank(b) then -1 else 1)
    else match a
      case Num(x) => (if x < b.n then -1 else if x == b.n then 0 else 1)
      case Str(x) => (if x == b.s then 0 else if StrLe(x, b.s) then -1 else 1)
      case Pair(x, y) =>
        var c := Cmp(x, b.first);
        if c != 0 then c else Cmp(y, b.second)
      case Desc(x) => -Cmp(x, b.inner)
  }

  predicate Le(a: Key, b: Key) {
    Cmp(a, b) <= 0
  }

  lemma {:induction false} CmpFlip(a: Key, b: Key)
    ensures Cmp(a, b) == -Cmp(b, a)
    decreases a
  {
    if Rank(a) == Rank(b) {
      match a
      case Num(_) =>
      case Str(x) =>
        if x != b.s {
          if StrLe(x, b.s) && StrLe(b.s, x) {
            StrLeAntisymmetric(x, b.s);
          }
          StrLeTotal(x, b.s);
        }
      case Pair(x, y) =>
        CmpFlip(x, b.first);
        CmpFlip(y, b.second);
      case Desc(x) =>
        CmpFlip(x, b.inner);
    }
  }

  lemma {:induction false} CmpZero(a: Key, b: Key)
    ensures Cmp(a, b) == 0 <==> a == b
    decreases a
  {
    if Rank(a) == Rank(b) {
      match a
      case Num(_) =>
      case Str(_) =>
      case Pair(x, y) =>
        CmpZero(x, b.first);
        CmpZero(y, b.second);
      case Desc(x) =>
        CmpZero(x, b.inner);
    }
  }

  lemma {:induction false} CmpTransitive(a: Key, b: Key, c: Key)
    requires Le(a, b) && Le(b, c)
    ensures Le(a, c)
    decreases Size(a) + Size(b) + Size(c)
  {
    if Rank(a) == Rank(b) == Rank(c) {
      match a
      case Num(_) =>
      case Str(x) =>
        if x != b.s && b.s != c.s {
          StrLeTransitive(x, b.s, c.s);
        }
      case Pair(x, y) =>
        CmpZero(x, b.first);
        CmpZero(b.first, c.first);
        CmpZero(x, c.first);
        if Cmp(x, b.first) == 0 && Cmp(b.first, c.first) == 0 {
          CmpTransitive(y, b.second, c.second);
        } else if Cmp(x, b.first) == 0 {
        } else if Cmp(b.first, c.first) == 0 {
        } else {
          CmpTransitive(x, b.first, c.first);
          CmpFlip(x, b.first);
        }
      case Desc(x) =>
        CmpFlip(x, b.inner);
        CmpFlip(b.inner, c.inner);
        CmpFlip(x, c.inner);
        CmpTransitive(c.inner, b.inner, x);
    }
  }

  /** Keys form a total order: every two are comparable. */
  lemma LeTotal(a: Key, b: Key)
    ensures Le(a, b) || Le(b, a)
  {
    CmpFlip(a, b);
  }

  lemma LeAntisymmetric(a: Key, b: Key)
    requires Le(a, b) && Le(b, a)
    ensures a == b
  {
    CmpFlip(a, b);
    CmpZero(a, b);
  }

  lemma LeReflexive(a: Key)
    ensures Le(a, a)
  {
    CmpZero(a, a);
  }

  /** On text keys the order is the byte-wise text order. */
  lemma StrKeyLe(a: string, b: string)
    ensures Le(Str(a), Str(b)) <==> StrLe(a, b)
  {
    StrLeTotal(a, a);
    if StrLe(b, a) && StrLe(a, b) {
      StrLeAntisymmetric(a, b);
    }
  }

  /** A descending text key reverses the byte-wise text order. */
  lemma DescStrKeyLe(a: string, b: string)
    ensures Le(Desc(Str(a)), Desc(Str(b))) <==> StrLe(b, a)
  {
    assert Cmp(Desc(Str(a)), Desc(Str(b))) == -Cmp(Str(a), Str(b));
    StrLeTotal(a, b);
    StrLeTotal(a, a);
    if StrLe(b, a) && StrLe(a, b) {
      StrLeAntisymmetric(a, b);
    }
  }

  /** A descending key reverses the order of the key it wraps. */
  lemma DescLe(a: Key, b: Key)
    ensures Le(Desc(a), Desc(b)) <==> Le(b, a)
  {
    assert Cmp(Desc(a), Desc(b)) == -Cmp(a, b);
    CmpFlip(a, b);
  }

  /** Pairs are ordered by their first keys, and by their second keys when the first ones are equal. */
  lemma PairLe(a1: Key, b1: Key, a2: Key, b2: Key)
    ensures Le(Pair(a1, b1), Pair(a2, b2)) ==> Le(a1, a2) && (a1 == a2 ==> Le(b1, b2))
  {
    CmpZero(a1, a2);
  }
}

=== FILE: security.dfy ===
/**
  * `SecurityManager`: salted password hashing and the password-strength
  * rules. The digest (SHA-256 over the UTF-8 bytes, as hex) and the random
  * salt source are parameters: the model only relies on the digest being a
  * function of its input.
  */
module Security {
  import opened Wrappers
  import opened Text

  // ===== hashing =====

  /**
    * `hash_password`: the digest of password followed by salt, and the salt.
    * Without a salt, `randomSalt` (the random hex token) is used.
    */
  function HashPassword(password: string, salt: Option<string>, digest: string -> string, randomSalt: string): (r: (string, string))
    ensures salt.Some? ==> r.1 == salt.value
    ensures salt.None? ==> r.1 == randomSalt
    ensures r.0 == digest(password + r.1)
  {
    var s := if salt.Some? then salt.value else randomSalt;
    (digest(password + s), s)
  }

  /** `verify_password`: re-hash with the stored salt and compare. */
  function VerifyPassword(password: string, hashed: string, salt: string, digest: string -> string): (ok: bool)
    ensures ok <==> digest(password + salt) == hashed
  {
    HashPassword(password, Some(salt), digest, "").0 == hashed
  }

  /** A password verifies against its own hash and the salt that came back with it, for any digest. */
  lemma HashThenVerify(password: string, salt: Option<string>, digest: string -> string, randomSalt: string)
    ensures var (hashed, s) := HashPassword(password, salt, digest, randomSalt);
      VerifyPassword(password, hashed, s, digest)
  {
  }

  /** With a digest that never collides, a different password does not verify. */
  lemma OtherPasswordRejected(password: string, other: string, salt: string, digest: string -> string)
    requires forall a, b :: digest(a) == digest(b) ==> a == b
    requires other != password
    ensures !VerifyPassword(other, HashPassword(password, Some(salt), digest, "").0, salt, digest)
  {
    assert other + salt != password + salt by {
      if |other| == |password| {
        assert other != password;
        var i :| 0 <= i < |other| && other[i] != password[i];
        assert (other + salt)[i] != (password + salt)[i];
      } else {
        assert |other + salt| != |password + salt|;
      }
    }
  }

  // ===== validate_password_strength =====

  predicate IsUpper(c: char) {
    'A' <= c <= 'Z'
  }

  predicate IsLower(c: char) {
    'a' <= c <= 'z'
  }

  /** The characters of the special-character class `[!@#$%^&*(),.?":{}|<>]`. */
  predicate IsSpecial(c: char) {
    c in "!@#$%^&*(),.?\":{}|<>"
  }

  predicate Has(p: string, charClass: char -> bool) {
    exists i :: 0 <= i < |p| && charClass(p[i])
  }

  /** The five rules in the order they are checked. */
  datatype Rule = MinLength | Upper | Lower | Digit | Special

  function RuleIndex(r: Rule): nat {
    match r
    case MinLength => 0
    case Upper => 1
    case Lower => 2
    case Digit => 3
    case Special => 4
  }

  function RuleMessage(r: Rule): string {
    match r
    case MinLength => "Password must be at least 8 characters long"
    case Upper => "Password must contain at least one uppercase letter"
    case Lower => "Password must contain at least one lowercase letter"
    case Digit => "Password must contain at least one number"
    case Special => "Password must contain at least one special character"
  }

  predicate Fails(p: string, r: Rule) {
    match r
    case MinLength => |p| < 8
    case Upper => !Has(p, IsUpper)
    case Lower => !Has(p, IsLower)
    case Digit => !Has(p, IsDigit)
    case Special => !Has(p, IsSpecial)
  }

  /** The rule checked in position `k`. */
  function RuleAt(k: nat): (r: Rule)
    requires k < 5
    ensures RuleIndex(r) == k
  {
    if k == 0 then MinLength else if k == 1 then Upper else if k == 2 then Lower else if k == 3 then Digit else Special
  }

  /** The rules from position `k` on are the rule at `k` and those after it. */
  lemma RulesFrom(k: nat)
    requires k < 5
    ensures forall x: Rule :: RuleIndex(x) >= k <==> x == RuleAt(k) || RuleIndex(x) >= k + 1
  {
    forall x: Rule ensures RuleIndex(x) >= k <==> x == RuleAt(k) || RuleIndex(x) >= k + 1 {
      if RuleIndex(x) == k {
        assert x == RuleAt(k);
      }
    }
  }

  /** The failed rules from position `k` on, each once, in checking order. */
  function FailedFrom(p: string, k: nat): (r: seq<Rule>)
    requires k <= 5
    ensures forall x :: x in r <==> RuleIndex(x) >= k && Fails(p, x)
    ensures forall i :: 0 <= i < |r| ==> RuleIndex(r[i]) >= k
    ensures forall i, j :: 0 <= i < j < |r| ==> RuleIndex(r[i]) < RuleIndex(r[j])
    ensures |r| <= 5 - k
    decreases 5 - k
  {
    if k == 5 then []
    else
      var rest := FailedFrom(p, k + 1);
      RulesFrom(k);
      if Fails(p, RuleAt(k)) then [RuleAt(k)] + rest else rest
  }

  /** The failed rules, each once, in checking order. */
  function FailedRules(p: string): (r: seq<Rule>)
    ensures forall x :: x in r <==> Fails(p, x)
    ensures forall i, j :: 0 <= i < j < |r| ==> RuleIndex(r[i]) < RuleIndex(r[j])
    ensures |r| <= 5
  {
    FailedFrom(p, 0)
  }

  /** One message per rule, in the same order. */
  function Messages(rs: seq<Rule>): (m: seq<string>)
    ensures |m| == |rs|
    ensures forall i :: 0 <= i < |rs| ==> m[i] == RuleMessage(rs[i])
  {
    if rs == [] then [] else [RuleMessage(rs[0])] + Messages(rs[1..])
  }

  /**
    * `validate_password_strength`: one message per failed rule, in the order
    * length, uppercase, lowercase, digit, special; strong exactly when no
    * rule fails.
    */
  function ValidatePasswordStrength(p: string): (r: (bool, seq<string>))
    ensures r.0 <==> |r.1| == 0
    ensures r.0 <==> forall x: Rule :: !Fails(p, x)
    ensures |r.1| == |FailedRules(p)| <= 5
    ensures forall i :: 0 <= i < |r.1| ==> r.1[i] == RuleMessage(FailedRules(p)[i])
  {
    var failed := FailedRules(p);
    assert (forall x: Rule :: !Fails(p, x)) ==> |failed| == 0 by {
      if |failed| > 0 {
        assert failed[0] in failed;
      }
    }
    var errors := Messages(failed);
    (|errors| == 0, errors)
  }

  /** A password with every class present and at least eight characters is strong. */
  lemma StrongExample()
    ensures ValidatePasswordStrength("Passw0rd!").0
  {
    var p := "Passw0rd!";
    assert Has(p, IsUpper) by { assert IsUpper(p[0]); }
    assert Has(p, IsLower) by { assert IsLower(p[1]); }
    assert Has(p, IsDigit) by { assert IsDigit(p[5]); }
    assert Has(p, IsSpecial) by { assert p[8] == '!'; assert IsSpecial(p[8]); }
    assert forall x: Rule :: !Fails(p, x);
  }

  /** When every rule from position `k` on fails, they are all listed, in position order. */
  lemma {:induction false} AllFromFail(p: string, k: nat)
    requires k <= 5
    requires forall j :: k <= j < 5 ==> Fails(p, RuleAt(j))
    ensures |FailedFrom(p, k)| == 5 - k
    ensures forall i :: 0 <= i < 5 - k ==> FailedFrom(p, k)[i] == RuleAt(k + i)
    decreases 5 - k
  {
    if k < 5 {
      AllFromFail(p, k + 1);
      FailedFromFailing(p, k);
      var r, rest := FailedFrom(p, k), FailedFrom(p, k + 1);
      forall i | 0 <= i < 5 - k ensures r[i] == RuleAt(k + i) {
        if i > 0 {
          assert r[i] == rest[i - 1];
        }
      }
    }
  }

  /** When the rule at `k` fails it heads the list of failures from `k` on. */
  lemma FailedFromFailing(p: string, k: nat)
    requires k < 5 && Fails(p, RuleAt(k))
    ensures FailedFrom(p, k) == [RuleAt(k)] + FailedFrom(p, k + 1)
  {
  }

  /**
    * The empty password fails all five rules, so it gets all five messages,
    * in checking order.
    */
  lemma EmptyFailsAll()
    ensures |ValidatePasswordStrength("").1| == 5
    ensures forall i :: 0 <= i < 5 ==> ValidatePasswordStrength("").1[i] == RuleMessage(RuleAt(i))
  {
    forall x: Rule ensures Fails("", x) {
      assert !Has("", IsUpper) && !Has("", IsLower) && !Has("", IsDigit) && !Has("", IsSpecial);
    }
    AllFromFail("", 0);
  }

}

=== FILE: subcodes.dfy ===
/**
  * Subsidiary-code lines (`ledger_subcodes`): the finer breakdown of an
  * account line by subsidiary code, its per-code totals and the check that
  * the breakdown adds up to the account lines it details.
  */
module SubLines {
  import opened Wrappers
  import opened Text
  import opened Order
  import opened Tables
  import opened Money
  import opened Dates
  import opened Books

  /** One entry of the list handed to `create_multiple`. */
  datatype SubInput = SubInput(
    kind: Kind,
    number: string,
    date: Date,
    acctCode: string,
    acctDescription: string,
    subCode: string,
    subDescription: string,
    amount: int)

  /** The stored row carries every field of its input. */
  predicate Inserted(s: SubLine, e: SubInput) {
    && s.kind == e.kind && s.number == e.number && s.date == e.date
    && s.acctCode == e.acctCode && s.acctDescription == e.acctDescription
    && s.subCode == e.subCode && s.subDescription == e.subDescription && s.amount == e.amount
  }

  function SubOf(id: nat, e: SubInput): (s: SubLine)
    ensures Inserted(s, e) && s.id == id
  {
    SubLine(id, e.kind, e.number, e.date, e.acctCode, e.acctDescription, e.subCode, e.subDescription, e.amount)
  }

  function AppendSubs(db: Db, es: seq<SubInput>): (r: Db)
    ensures |r.subs| == |db.subs| + |es| && r.subs[..|db.subs|] == db.subs
    ensures forall i :: 0 <= i < |es| ==> Inserted(r.subs[|db.subs| + i], es[i])
    ensures r.nextSubId == db.nextSubId + |es|
    ensures r.(subs := db.subs, nextSubId := db.nextSubId) == db
    decreases |es|
  {
    if |es| == 0 then
      assert db.subs[..|db.subs|] == db.subs;
      db
    else
      var next := db.(subs := db.subs + [SubOf(db.nextSubId, es[0])], nextSubId := db.nextSubId + 1);
      var r := AppendSubs(next, es[1..]);
      assert r.subs[..|db.subs|] == db.subs by {
        assert r.subs[..|next.subs|][..|db.subs|] == next.subs[..|db.subs|];
      }
      assert r.subs[|db.subs|] == next.subs[|db.subs|] by {
        assert r.subs[..|next.subs|] == next.subs;
      }
      forall i | 1 <= i < |es| ensures Inserted(r.subs[|db.subs| + i], es[i]) {
        assert es[1..][i - 1] == es[i];
        assert |db.subs| + i == |next.subs| + (i - 1);
      }
      r
  }

  /** `create_multiple`: an empty list is refused; otherwise every entry is stored, in order. */
  function CreateMultiple(db: Db, es: seq<SubInput>): (r: Option<Db>)
    ensures r.Some? <==> |es| > 0
    ensures r.Some? ==> |r.value.subs| == |db.subs| + |es| && r.value.subs[..|db.subs|] == db.subs
    ensures r.Some? ==> forall i :: 0 <= i < |es| ==> Inserted(r.value.subs[|db.subs| + i], es[i])
    ensures r.Some? ==> r.value.(subs := db.subs, nextSubId := db.nextSubId) == db
  {
    if |es| == 0 then None else Some(AppendSubs(db, es))
  }

  // ----- update and delete -----

  /** The fields `update` accepts; `None` means "not given". */
  datatype SubUpdate = SubUpdate(
    acctCode: Option<string>,
    acctDescription: Option<string>,
    subCode: Option<string>,
    subDescription: Option<string>,
    amount: Option<int>)
  {
    predicate IsEmpty() {
      acctCode.None? && acctDescription.None? && subCode.None? && subDescription.None? && amount.None?
    }
  }

  /** `update`: an empty update is refused; number, type and date are never touched. */
  function Update(db: Db, id: nat, u: SubUpdate): (r: Option<Db>)
    ensures r.None? <==> u.IsEmpty()
    ensures r.Some? ==> |r.value.subs| == |db.subs|
    ensures r.Some? ==> forall i :: 0 <= i < |db.subs| ==>
      var before, after := db.subs[i], r.value.subs[i];
      if before.id != id then after == before
      else
        && after.id == before.id && after.kind == before.kind && after.number == before.number && after.date == before.date
        && after.acctCode == (if u.acctCode.Some? then u.acctCode.value else before.acctCode)
        && after.acctDescription == (if u.acctDescription.Some? then u.acctDescription.value else before.acctDescription)
        && after.subCode == (if u.subCode.Some? then u.subCode.value else before.subCode)
        && after.subDescription == (if u.subDescription.Some? then u.subDescription.value else before.subDescription)
        && after.amount == (if u.amount.Some? then u.amount.value else before.amount)
    ensures r.Some? ==> r.value.(subs := db.subs) == db
  {
    if u.IsEmpty() then None
    else
      Some(db.(subs := PatchWhere(db.subs, (s: SubLine) => s.id == id,
        (s: SubLine) => s.(acctCode := u.acctCode.GetOr(s.acctCode),
                           acctDescription := u.acctDescription.GetOr(s.acctDescription),
                           subCode := u.subCode.GetOr(s.subCode),
                           subDescription := u.subDescription.GetOr(s.subDescription),
                           amount := u.amount.GetOr(s.amount)))))
  }

  /** `delete_by_number`: the number's subsidiary lines go, every other row stays, in order. */
  function DeleteByNumber(db: Db, number: string): (r: Db)
    ensures forall s :: s in r.subs <==> s in db.subs && s.number != number
    ensures multiset(r.subs) <= multiset(db.subs)
    ensures r.(subs := db.subs) == db
  {
    db.(subs := Select(db.subs, OtherNumber(number)))
  }

  // ----- queries -----

  /** `ORDER BY acct_code, subsidiary_code`. */
  function CodeSubCodeKey(s: SubLine): Key {
    Pair(Str(s.acctCode), Str(s.subCode))
  }

  function HasNumber(number: string): SubLine -> bool {
    (s: SubLine) => s.number == number
  }

  function OtherNumber(number: string): SubLine -> bool {
    (s: SubLine) => s.number != number
  }

  function OfNumber(subs: seq<SubLine>, number: string): (r: seq<SubLine>)
    ensures forall s :: s in r <==> s in subs && s.number == number
    ensures CountsOf(r, subs, HasNumber(number))
  {
    SelectCounts(subs, HasNumber(number));
    Select(subs, HasNumber(number))
  }

  /** `get_by_number`: the number's subsidiary lines by account code, then subsidiary code. */
  function GetByNumber(db: Db, number: string): (r: seq<SubLine>)
    ensures forall s :: s in r <==> s in db.subs && s.number == number
    ensures CountsOf(r, db.subs, HasNumber(number))
    ensures Sorted(r, CodeSubCodeKey)
  {
    SortByMembers(OfNumber(db.subs, number), CodeSubCodeKey);
    SortBy(OfNumber(db.subs, number), CodeSubCodeKey)
  }

  /** Deleting one number empties its listing and leaves every other number's listing as it was. */
  lemma DeleteByNumberScope(db: Db, number: string, other: string)
    ensures GetByNumber(DeleteByNumber(db, number), number) == []
    ensures other != number ==> GetByNumber(DeleteByNumber(db, number), other) == GetByNumber(db, other)
  {
    var after := DeleteByNumber(db, number);
    SelectNone(after.subs, HasNumber(number));
    if other != number {
      SelectSelect(db.subs, OtherNumber(number), HasNumber(other));
    }
  }

  // ----- per-code totals -----

  /** One row of `get_subsidiary_totals`. */
  datatype SubTotal = SubTotal(subCode: string, subDescription: string, count: nat, total: int)

  /**
    * The `WHERE` of `get_subsidiary_totals`: an empty account code (Python
    * falsy) applies no account filter; the dates bound inclusively when given.
    */
  predicate InScope(s: SubLine, acctCode: string, start: Option<Date>, end: Option<Date>) {
    && (acctCode == "" || s.acctCode == acctCode)
    && (start.None? || DateLe(start.value, s.date))
    && (end.None? || DateLe(s.date, end.value))
  }

  function ScopeFilter(acctCode: string, start: Option<Date>, end: Option<Date>): SubLine -> bool {
    (s: SubLine) => InScope(s, acctCode, start, end)
  }

  function Scoped(db: Db, acctCode: string, start: Option<Date>, end: Option<Date>): (r: seq<SubLine>)
    ensures forall s :: s in r <==> s in db.subs && InScope(s, acctCode, start, end)
    ensures CountsOf(r, db.subs, ScopeFilter(acctCode, start, end))
  {
    SelectCounts(db.subs, ScopeFilter(acctCode, start, end));
    Select(db.subs, ScopeFilter(acctCode, start, end))
  }

  function SubCodeAndDescription(s: SubLine): (string, string) {
    (s.subCode, s.subDescription)
  }

  function SubAmount(s: SubLine): int {
    s.amount
  }

  function Once(s: SubLine): int {
    1
  }

  /** The (subsidiary code, description) group a totals row stands for. */
  function SubTotalKey(t: SubTotal): (string, string) {
    (t.subCode, t.subDescription)
  }

  function MakeSubTotal(k: (string, string), g: seq<SubLine>): SubTotal {
    SubTotal(k.0, k.1, |g|, SumOf(g, SubAmount))
  }

  function CountOf(t: SubTotal): int {
    t.count
  }

  function TotalOf(t: SubTotal): int {
    t.total
  }

  /** `ORDER BY total_amount DESC`. */
  function LargestFirst(t: SubTotal): Key {
    Desc(Num(t.total))
  }

  /** `t` is the count and sum of its (code, description) group among `ls`. */
  predicate Totals(t: SubTotal, ls: seq<SubLine>) {
    var g := Group(ls, SubCodeAndDescription, (t.subCode, t.subDescription));
    |g| > 0 && t.count == |g| && t.total == SumOf(g, SubAmount)
  }

  lemma SubGroupSound(ls: seq<SubLine>, k: (string, string))
    requires exists w :: 0 <= w < |ls| && SubCodeAndDescription(ls[w]) == k
    ensures Totals(MakeSubTotal(k, Group(ls, SubCodeAndDescription, k)), ls)
  {
    var w :| 0 <= w < |ls| && SubCodeAndDescription(ls[w]) == k;
    assert ls[w] in Group(ls, SubCodeAndDescription, k);
  }

  function SubGroups(ls: seq<SubLine>): (r: seq<SubTotal>)
    ensures forall t :: t in r ==> Totals(t, ls)
    ensures forall l :: l in ls ==> MakeSubTotal(SubCodeAndDescription(l), Group(ls, SubCodeAndDescription, SubCodeAndDescription(l))) in r
    ensures DistinctBy(r, SubTotalKey)
  {
    var ks := GroupKeys(ls, SubCodeAndDescription);
    var r := GroupRows(ks, ls, SubCodeAndDescription, MakeSubTotal);
    GroupRowsDistinct(ks, ls, SubCodeAndDescription, MakeSubTotal, SubTotalKey);
    forall i | 0 <= i < |r| ensures Totals(r[i], ls) {
      assert ks[i] in ks;
      SubGroupSound(ls, ks[i]);
    }
    forall l | l in ls
      ensures MakeSubTotal(SubCodeAndDescription(l), Group(ls, SubCodeAndDescription, SubCodeAndDescription(l))) in r
    {
      var i :| 0 <= i < |ks| && ks[i] == SubCodeAndDescription(l);
      assert r[i] in r;
    }
    r
  }

  /**
    * `get_subsidiary_totals(acct_code, start, end)`: per (subsidiary code,
    * description) the number of lines in scope and their sum, largest sum first.
    */
  function GetSubsidiaryTotals(db: Db, acctCode: string, start: Option<Date>, end: Option<Date>): (r: seq<SubTotal>)
    ensures forall t :: t in r ==> Totals(t, Scoped(db, acctCode, start, end))
    ensures forall l :: l in Scoped(db, acctCode, start, end) ==>
      MakeSubTotal(SubCodeAndDescription(l), Group(Scoped(db, acctCode, start, end), SubCodeAndDescription, SubCodeAndDescription(l))) in r
    ensures Sorted(r, LargestFirst)
    ensures DistinctBy(r, SubTotalKey)
  {
    var groups := SubGroups(Scoped(db, acctCode, start, end));
    SortByDistinct(groups, LargestFirst, SubTotalKey);
    SortByMembers(groups, LargestFirst);
    SortBy(groups, LargestFirst)
  }

  lemma {:induction false} CountIsLength(s: seq<SubLine>)
    ensures SumOf(s, Once) == |s|
    decreases |s|
  {
    if |s| > 0 {
      CountIsLength(s[..|s| - 1]);
    }
  }

  /** Partition: the rows count every line in scope once and add up to their total. */
  lemma SubsidiaryTotalsPartition(db: Db, acctCode: string, start: Option<Date>, end: Option<Date>)
    ensures SumOf(GetSubsidiaryTotals(db, acctCode, start, end), CountOf) == |Scoped(db, acctCode, start, end)|
    ensures SumOf(GetSubsidiaryTotals(db, acctCode, start, end), TotalOf) == SumOf(Scoped(db, acctCode, start, end), SubAmount)
  {
    var ls := Scoped(db, acctCode, start, end);
    var ks := GroupKeys(ls, SubCodeAndDescription);
    var groups := GroupRows(ks, ls, SubCodeAndDescription, MakeSubTotal);
    assert groups == SubGroups(ls);
    SortBySum(groups, LargestFirst, CountOf);
    SortBySum(groups, LargestFirst, TotalOf);
    forall i | 0 <= i < |ks|
      ensures CountOf(MakeSubTotal(ks[i], Group(ls, SubCodeAndDescription, ks[i]))) == SumOf(Group(ls, SubCodeAndDescription, ks[i]), Once)
    {
      CountIsLength(Group(ls, SubCodeAndDescription, ks[i]));
    }
    GroupRowsSum(ks, ls, SubCodeAndDescription, MakeSubTotal, CountOf, Once);
    GroupRowsSum(ks, ls, SubCodeAndDescription, MakeSubTotal, TotalOf, SubAmount);
    GroupSumsTotal(ks, ls, SubCodeAndDescription, Once);
    GroupSumsTotal(ks, ls, SubCodeAndDescription, SubAmount);
    CountIsLength(ls);
  }

  /**
    * `get_account_subsidiary_breakdown(code, start, end)`: the per-code totals
    * restricted to one account.
    */
  function GetAccountSubsidiaryBreakdown(db: Db, acctCode: string, start: Option<Date>, end: Option<Date>): (r: seq<SubTotal>)
    ensures forall t :: t in r ==> Totals(t, Scoped(db, acctCode, start, end))
    ensures acctCode != "" ==> forall t :: t in r ==>
      forall s :: s in Group(Scoped(db, acctCode, start, end), SubCodeAndDescription, (t.subCode, t.subDescription)) ==> s.acctCode == acctCode
    ensures Sorted(r, LargestFirst)
    ensures DistinctBy(r, SubTotalKey)
  {
    GetSubsidiaryTotals(db, acctCode, start, end)
  }

  // ----- the breakdown check -----

  /** The answer of `validate_subsidiary_total`. */
  datatype SubCheck = SubCheck(balanced: bool, creditDebitTotal: int, subsidiaryTotal: int, difference: int)

  /** `WHERE number = ? AND acct_code = ?` on account lines. */
  function LineOfPair(number: string, acctCode: string): EntryLine -> bool {
    (l: EntryLine) => l.number == number && l.acctCode == acctCode
  }

  /** The same filter on subsidiary lines. */
  function SubOfPair(number: string, acctCode: string): SubLine -> bool {
    (s: SubLine) => s.number == number && s.acctCode == acctCode
  }

  function LineAmount(l: EntryLine): int {
    l.amount
  }

  /** `SUM(amount)` of the account lines of (number, code), whatever their side; no rows reads as 0. */
  function LineTotal(db: Db, number: string, acctCode: string): int {
    SumOf(Select(db.lines, LineOfPair(number, acctCode)), LineAmount)
  }

  /** `SUM(amount)` of the subsidiary lines of (number, code); no rows reads as 0. */
  function SubTotalOf(db: Db, number: string, acctCode: string): int {
    SumOf(Select(db.subs, SubOfPair(number, acctCode)), SubAmount)
  }

  /**
    * `validate_subsidiary_total(number, code)`: the breakdown is balanced
    * when the float test `difference < 0.01` passes, as `close` reads it,
    * on the account lines and the subsidiary lines of the pair.
    */
  function ValidateSubsidiaryTotal(close: Tolerance, db: Db, number: string, acctCode: string): (r: SubCheck)
    ensures r.creditDebitTotal == LineTotal(db, number, acctCode)
    ensures r.subsidiaryTotal == SubTotalOf(db, number, acctCode)
    ensures r.difference == Abs(r.creditDebitTotal - r.subsidiaryTotal)
    ensures r.balanced == close(r.creditDebitTotal, r.subsidiaryTotal)
    ensures r.difference < FinePerCent ==> r.balanced
    ensures r.balanced ==> r.difference <= FinePerCent
    ensures WholeCents(r.creditDebitTotal) && WholeCents(r.subsidiaryTotal) ==>
      (r.creditDebitTotal == r.subsidiaryTotal ==> r.balanced) &&
      (r.balanced ==> r.creditDebitTotal == r.subsidiaryTotal || r.difference == FinePerCent)
  {
    var cd, sub := LineTotal(db, number, acctCode), SubTotalOf(db, number, acctCode);
    assert WholeCents(cd) && WholeCents(sub) ==>
      (cd == sub ==> close(cd, sub)) && (close(cd, sub) ==> cd == sub || Abs(cd - sub) == FinePerCent) by {
      if WholeCents(cd) && WholeCents(sub) {
        ToleranceOfWholeCents(close, cd, sub);
      }
    }
    SubCheck(close(cd, sub), cd, sub, Abs(cd - sub))
  }

  /**
    * The check is blind to sides: lines that differ only in debit/credit give
    * the same verdict, so a debit and a credit on the same account add up.
    */
  lemma SideBlind(close: Tolerance, db: Db, other: Db, number: string, acctCode: string)
    requires other.subs == db.subs && |other.lines| == |db.lines|
    requires forall i :: 0 <= i < |db.lines| ==> other.lines[i] == db.lines[i].(side := other.lines[i].side)
    ensures ValidateSubsidiaryTotal(close, other, number, acctCode) == ValidateSubsidiaryTotal(close, db, number, acctCode)
  {
    forall i | 0 <= i < |db.lines|
      ensures LineOfPair(number, acctCode)(db.lines[i]) == LineOfPair(number, acctCode)(other.lines[i])
      ensures LineAmount(db.lines[i]) == LineAmount(other.lines[i])
    {
      assert other.lines[i] == db.lines[i].(side := other.lines[i].side);
    }
    SelectSumAgree(db.lines, other.lines, LineOfPair(number, acctCode), LineAmount, LineOfPair(number, acctCode), LineAmount);
  }

  /** With neither account lines nor subsidiary lines for the pair, the check passes at 0 against 0. */
  lemma NothingReadsBalanced(close: Tolerance, db: Db, number: string, acctCode: string)
    requires forall l :: l in db.lines ==> l.number != number || l.acctCode != acctCode
    requires forall s :: s in db.subs ==> s.number != number || s.acctCode != acctCode
    ensures ValidateSubsidiaryTotal(close, db, number, acctCode) == SubCheck(true, 0, 0, 0)
  {
    SelectNone(db.lines, LineOfPair(number, acctCode));
    SelectNone(db.subs, SubOfPair(number, acctCode));
  }

  // ----- search -----

  /** A row of `search`: the subsidiary line with its header's payee and description. */
  datatype SubRow = SubRow(sub: SubLine, payee: string, ledgerDescription: Option<string>)

  /** The four `LIKE '%term%'` columns. */
  predicate MatchesTerm(s: SubLine, term: string) {
    Like(s.subCode, term) || Like(s.subDescription, term) || Like(s.acctCode, term) || Like(s.acctDescription, term)
  }

  predicate SameNumber(s: SubLine, h: Header) {
    s.number == h.number
  }

  function SubRowOf(s: SubLine, h: Header): SubRow {
    SubRow(s, h.payee, h.description)
  }

  function NewestFirst(r: SubRow): Key {
    Desc(DateKey(r.sub.date))
  }

  /**
    * `search(term)`: the subsidiary lines whose code, description, account
    * code or account description contains the term, joined with their
    * header, newest first.
    */
  function Search(db: Db, term: string): (r: seq<SubRow>)
    ensures forall x :: x in r ==> x.sub in db.subs && MatchesTerm(x.sub, term) && NumberTaken(db.headers, x.sub.number)
    ensures forall s, h :: s in db.subs && MatchesTerm(s, term) && h in db.headers && h.number == s.number ==> SubRowOf(s, h) in r
    ensures Sorted(r, NewestFirst)
  {
    var hits := Select(db.subs, TermFilter(term));
    var joined := JoinHeaders(hits, db.headers);
    SortByMembers(joined, NewestFirst);
    SortBy(joined, NewestFirst)
  }

  function TermFilter(term: string): SubLine -> bool {
    (s: SubLine) => MatchesTerm(s, term)
  }

  /** The inner join of some subsidiary lines with the headers of their numbers. */
  function JoinHeaders(ss: seq<SubLine>, headers: seq<Header>): (r: seq<SubRow>)
    ensures forall x :: x in r ==> x.sub in ss && NumberTaken(headers, x.sub.number)
    ensures forall s, h :: s in ss && h in headers && h.number == s.number ==> SubRowOf(s, h) in r
  {
    var joined := Join(ss, headers, SameNumber, SubRowOf);
    forall x | x in joined ensures x.sub in ss && NumberTaken(headers, x.sub.number) {
      var s, h :| s in ss && h in headers && SameNumber(s, h) && x == SubRowOf(s, h);
      var i :| 0 <= i < |headers| && headers[i] == h;
    }
    forall s, h | s in ss && h in headers && h.number == s.number
      ensures SubRowOf(s, h) in joined
    {
      assert SameNumber(s, h);
    }
    joined
  }
}

=== FILE: tables.dfy ===
/**
  * Query building blocks: a table is a sequence of rows in insertion order,
  * and every `SELECT` of the repository is a filter, a sum, a group-by or an
  * `ORDER BY` over such a sequence.
  */
module Tables {
  import opened Order

  /** `WHERE p(row)`: the rows satisfying `p`, in table order. */
  function Select<T(!new)>(s: seq<T>, p: T -> bool): (r: seq<T>)
    ensures |r| <= |s|
    ensures forall x :: x in r <==> x in s && p(x)
    ensures multiset(r) <= multiset(s)
    decreases |s|
  {
    if |s| == 0 then []
    else
      var rest := Select(s[..|s| - 1], p);
      assert s == s[..|s| - 1] + [s[|s| - 1]];
      if p(s[|s| - 1]) then rest + [s[|s| - 1]] else rest
  }

  /** `SUM(f(row))` over a table; the empty sum is 0 (SQL's NULL read through `or 0`). */
  function SumOf<T>(s: seq<T>, f: T -> int): int
    decreases |s|
  {
    if |s| == 0 then 0 else SumOf(s[..|s| - 1], f) + f(s[|s| - 1])
  }

  lemma {:induction false} SumOfAppend<T>(a: seq<T>, b: seq<T>, f: T -> int)
    ensures SumOf(a + b, f) == SumOf(a, f) + SumOf(b, f)
    decreases |b|
  {
    if |b| == 0 {
      assert a + b == a;
    } else {
      assert (a + b)[..|a + b| - 1] == a + b[..|b| - 1];
      SumOfAppend(a, b[..|b| - 1], f);
    }
  }

  lemma SumOfSingle<T>(x: T, f: T -> int)
    ensures SumOf([x], f) == f(x)
  {
    assert [x][..0] == [];
  }

  lemma SumOfThree<T>(x: T, y: T, z: T, f: T -> int)
    ensures SumOf([x, y, z], f) == f(x) + f(y) + f(z)
  {
    assert [x, y, z][..2] == [x, y] && [x, y][..1] == [x];
    SumOfSingle(x, f);
    assert SumOf([x, y], f) == f(x) + f(y);
  }

  /** A sum over rows that all contribute 0 is 0. */
  lemma {:induction false} SumOfZero<T>(s: seq<T>, f: T -> int)
    requires forall i :: 0 <= i < |s| ==> f(s[i]) == 0
    ensures SumOf(s, f) == 0
    decreases |s|
  {
    if |s| > 0 {
      SumOfZero(s[..|s| - 1], f);
    }
  }

  /** Sums that agree row by row agree in total. */
  lemma {:induction false} SumOfPointwise<T>(s: seq<T>, f: T -> int, g: T -> int)
    requires forall i :: 0 <= i < |s| ==> f(s[i]) == g(s[i])
    ensures SumOf(s, f) == SumOf(s, g)
    decreases |s|
  {
    if |s| > 0 {
      SumOfPointwise(s[..|s| - 1], f, g);
    }
  }

  /** `ORDER BY key(row)` with rows of equal key kept in table order. */
  predicate Sorted<T>(s: seq<T>, key: T -> Key) {
    forall i, j :: 0 <= i < j < |s| ==> Le(key(s[i]), key(s[j]))
  }

  function Insert<T>(x: T, s: seq<T>, key: T -> Key): (r: seq<T>)
    ensures multiset(r) == multiset(s) + multiset{x}
    ensures |r| == |s| + 1
    decreases |s|
  {
    if |s| == 0 then [x]
    else if Le(key(x), key(s[0])) then [x] + s
    else
      assert s == [s[0]] + s[1..];
      [s[0]] + Insert(x, s[1..], key)
  }

  lemma {:induction false} InsertSorted<T>(x: T, s: seq<T>, key: T -> Key)
    requires Sorted(s, key)
    ensures Sorted(Insert(x, s, key), key)
    decreases |s|
  {
    if |s| > 0 {
      var r := Insert(x, s, key);
      if Le(key(x), key(s[0])) {
        forall j | 1 <= j < |r|
          ensures Le(key(r[0]), key(r[j]))
        {
          if j > 1 {
            CmpTransitive(key(x), key(s[0]), key(s[j - 1]));
          }
        }
      } else {
        LeTotal(key(x), key(s[0]));
        InsertSorted(x, s[1..], key);
        var t := Insert(x, s[1..], key);
        assert r == [s[0]] + t;
        forall j | 0 <= j < |t|
          ensures Le(key(s[0]), key(t[j]))
        {
          assert t[j] in multiset(t);
          if t[j] != x {
            assert t[j] in multiset(s[1..]);
            var k :| 0 <= k < |s[1..]| && s[1..][k] == t[j];
            assert s[k + 1] == t[j];
          }
        }
      }
    }
  }

  /** Insertion sort; stable, since a row is placed before the rows that tie with it. */
  lemma MultisetHeadTail<T>(s: seq<T>)
    requires |s| > 0
    ensures multiset(s) == multiset(s[1..]) + multiset{s[0]}
  {
    assert s == [s[0]] + s[1..];
  }

  function SortBy<T>(s: seq<T>, key: T -> Key): (r: seq<T>)
    ensures Sorted(r, key)
    ensures multiset(r) == multiset(s)
    ensures |r| == |s|
    decreases |s|
  {
    if |s| == 0 then []
    else
      var t := SortBy(s[1..], key);
      InsertSorted(s[0], t, key);
      MultisetHeadTail(s);
      Insert(s[0], t, key)
  }

  lemma {:induction false} InsertSum<T>(x: T, s: seq<T>, key: T -> Key, f: T -> int)
    ensures SumOf(Insert(x, s, key), f) == SumOf(s, f) + f(x)
    decreases |s|
  {
    SumOfSingle(x, f);
    if |s| > 0 {
      SumOfSingle(s[0], f);
      assert s == [s[0]] + s[1..];
      SumOfAppend([s[0]], s[1..], f);
      if Le(key(x), key(s[0])) {
        SumOfAppend([x], s, f);
      } else {
        InsertSum(x, s[1..], key, f);
        SumOfAppend([s[0]], Insert(x, s[1..], key), f);
      }
    }
  }

  /** Reordering rows never changes a column total. */
  lemma {:induction false} SortBySum<T>(s: seq<T>, key: T -> Key, f: T -> int)
    ensures SumOf(SortBy(s, key), f) == SumOf(s, f)
    decreases |s|
  {
    if |s| > 0 {
      SortBySum(s[1..], key, f);
      InsertSum(s[0], SortBy(s[1..], key), key, f);
      SumOfSingle(s[0], f);
      assert s == [s[0]] + s[1..];
      SumOfAppend([s[0]], s[1..], f);
    }
  }

  /** `COALESCE(MAX(f(row)), default)`: the largest value, or `default` over no rows. */
  function MaxOf<T>(s: seq<T>, f: T -> int, default: int): (m: int)
    ensures |s| == 0 ==> m == default
    ensures forall i :: 0 <= i < |s| ==> f(s[i]) <= m
    ensures |s| > 0 ==> exists i :: 0 <= i < |s| && f(s[i]) == m
    decreases |s|
  {
    if |s| == 0 then default
    else if |s| == 1 then f(s[0])
    else
      var m := MaxOf(s[..|s| - 1], f, default);
      assert forall i :: 0 <= i < |s| - 1 ==> s[..|s| - 1][i] == s[i];
      if f(s[|s| - 1]) > m then f(s[|s| - 1]) else m
  }

  /** Over the rows that satisfy `p`: every value is at most the maximum, some row attains it, and no row gives the default. */
  lemma MaxOfSelect<T(!new)>(s: seq<T>, p: T -> bool, f: T -> int, default: int)
    ensures forall x :: x in s && p(x) ==> f(x) <= MaxOf(Select(s, p), f, default)
    ensures (exists x :: x in s && p(x)) ==> exists x :: x in s && p(x) && f(x) == MaxOf(Select(s, p), f, default)
    ensures (forall x :: x in s ==> !p(x)) ==> MaxOf(Select(s, p), f, default) == default
  {
    var c := Select(s, p);
    var m := MaxOf(c, f, default);
    forall x | x in s && p(x)
      ensures f(x) <= m
    {
      var i :| 0 <= i < |c| && c[i] == x;
    }
    if exists x :: x in s && p(x) {
      var g :| g in s && p(g);
      assert g in c;
      var i :| 0 <= i < |c| && f(c[i]) == m;
      assert c[i] in c;
    }
  }

  /**
    * `r` holds exactly the rows of `s` that satisfy `p`, each as many times
    * as `s` holds it: nothing dropped, nothing repeated.
    */
  ghost predicate CountsOf<T(!new)>(r: seq<T>, s: seq<T>, p: T -> bool) {
    forall x :: multiset(r)[x] == if p(x) then multiset(s)[x] else 0
  }

  lemma {:induction false} SelectCounts<T(!new)>(s: seq<T>, p: T -> bool)
    ensures CountsOf(Select(s, p), s, p)
    decreases |s|
  {
    if |s| > 0 {
      var init := s[..|s| - 1];
      SelectCounts(init, p);
      assert s == init + [s[|s| - 1]];
      assert multiset(s) == multiset(init) + multiset{s[|s| - 1]};
    }
  }

  /** SQL's `LIMIT n OFFSET m` on an already ordered result. */
  function Page<T>(s: seq<T>, limit: nat, offset: nat): (r: seq<T>)
    ensures |r| == if offset >= |s| then 0 else if limit < |s| - offset then limit else |s| - offset
    ensures forall i :: 0 <= i < |r| ==> r[i] == s[offset + i]
  {
    if offset >= |s| then [] else if offset + limit >= |s| then s[offset..] else s[offset..offset + limit]
  }

  /**
    * `LIMIT limit OFFSET offset` as SQLite reads a non-zero limit: a
    * negative limit is no limit and a negative offset counts as 0.
    */
  function Window<T>(s: seq<T>, limit: int, offset: int): (r: seq<T>)
    requires limit != 0
    ensures var start := if offset < 0 then 0 else offset;
      && |r| == (if start >= |s| then 0 else if 0 < limit < |s| - start then limit else |s| - start)
      && forall i :: 0 <= i < |r| ==> r[i] == s[start + i]
  {
    var start := if offset < 0 then 0 else offset;
    if limit < 0 then Page(s, |s|, start) else Page(s, limit, start)
  }

  /**
    * The `LIMIT`/`OFFSET` clauses a listing appends when the values are
    * non-zero (Python truthiness): none when both are 0, and a query that
    * fails (read as no rows) when an offset comes without a limit.
    */
  function LimitOffset<T>(s: seq<T>, limit: int, offset: int): (r: seq<T>)
    ensures limit == 0 && offset != 0 ==> r == []
    ensures limit == 0 && offset == 0 ==> r == s
    ensures limit != 0 ==> r == Window(s, limit, offset)
  {
    if limit == 0 && offset != 0 then [] else if limit == 0 then s else Window(s, limit, offset)
  }

  /** A window of a sorted result is sorted and holds only rows of the result. */
  lemma WindowSorted<T>(s: seq<T>, key: T -> Key, limit: int, offset: int)
    requires limit != 0
    requires Sorted(s, key)
    ensures Sorted(Window(s, limit, offset), key)
    ensures forall x :: x in Window(s, limit, offset) ==> x in s
  {
    PageSorted(s, key, if limit < 0 then |s| else limit, if offset < 0 then 0 else offset);
  }

  /**
    * The distinct values of `g` over the table, in order of first appearance:
    * the groups of `GROUP BY g(row)` (and the buckets of a Python dict filled
    * in table order).
    */
  function GroupKeys<T, K(==)>(s: seq<T>, g: T -> K): (ks: seq<K>)
    ensures forall i, j :: 0 <= i < j < |ks| ==> ks[i] != ks[j]
    ensures forall i :: 0 <= i < |s| ==> g(s[i]) in ks
    ensures forall k :: k in ks ==> exists i :: 0 <= i < |s| && g(s[i]) == k
    decreases |s|
  {
    if |s| == 0 then []
    else
      var ks := GroupKeys(s[..|s| - 1], g);
      assert forall i :: 0 <= i < |s| - 1 ==> s[..|s| - 1][i] == s[i];
      if g(s[|s| - 1]) in ks then ks else ks + [g(s[|s| - 1])]
  }

  /** The rows of one group, in table order. */
  function Group<T(!new), K(==)>(s: seq<T>, g: T -> K, k: K): (r: seq<T>)
    ensures forall x :: x in r <==> x in s && g(x) == k
    decreases |s|
  {
    if |s| == 0 then []
    else
      var rest := Group(s[..|s| - 1], g, k);
      assert s == s[..|s| - 1] + [s[|s| - 1]];
      if g(s[|s| - 1]) == k then rest + [s[|s| - 1]] else rest
  }

  /** The sum of one column over the groups listed in `ks`. */
  function GroupSums<T(!new), K(==)>(ks: seq<K>, s: seq<T>, g: T -> K, f: T -> int): int
    decreases |ks|
  {
    if |ks| == 0 then 0 else SumOf(Group(s, g, ks[0]), f) + GroupSums(ks[1..], s, g, f)
  }

  lemma {:induction false} GroupSumsSnoc<T(!new), K>(ks: seq<K>, s: seq<T>, x: T, g: T -> K, f: T -> int)
    requires forall i, j :: 0 <= i < j < |ks| ==> ks[i] != ks[j]
    ensures GroupSums(ks, s + [x], g, f) == GroupSums(ks, s, g, f) + (if g(x) in ks then f(x) else 0)
    decreases |ks|
  {
    if |ks| > 0 {
      var t := s + [x];
      assert t[..|t| - 1] == s;
      SumOfAppend(Group(s, g, ks[0]), [x], f);
      SumOfSingle(x, f);
      GroupSumsSnoc(ks[1..], s, x, g, f);
      assert g(x) in ks <==> g(x) == ks[0] || g(x) in ks[1..];
      assert g(x) == ks[0] ==> g(x) !in ks[1..];
    }
  }

  /**
    * Partition: when `ks` lists every group once, the per-group sums add up
    * to the column total.
    */
  lemma {:induction false} GroupSumsTotal<T(!new), K>(ks: seq<K>, s: seq<T>, g: T -> K, f: T -> int)
    requires forall i, j :: 0 <= i < j < |ks| ==> ks[i] != ks[j]
    requires forall i :: 0 <= i < |s| ==> g(s[i]) in ks
    ensures GroupSums(ks, s, g, f) == SumOf(s, f)
    decreases |s|
  {
    if |s| == 0 {
      GroupSumsEmpty(ks, s, g, f);
    } else {
      var p := s[..|s| - 1];
      assert s == p + [s[|s| - 1]];
      assert forall i :: 0 <= i < |p| ==> p[i] == s[i];
      GroupSumsTotal(ks, p, g, f);
      GroupSumsSnoc(ks, p, s[|s| - 1], g, f);
    }
  }

  lemma {:induction false} GroupSumsEmpty<T(!new), K>(ks: seq<K>, s: seq<T>, g: T -> K, f: T -> int)
    requires |s| == 0
    ensures GroupSums(ks, s, g, f) == 0
    decreases |ks|
  {
    if |ks| > 0 {
      GroupSumsEmpty(ks[1..], s, g, f);
    }
  }

  /** Sorting keeps exactly the rows it was given. */
  lemma SortByMembers<T>(s: seq<T>, key: T -> Key)
    ensures forall x :: x in SortBy(s, key) <==> x in s
  {
    var r := SortBy(s, key);
    forall x ensures x in r <==> x in s {
      assert x in r <==> x in multiset(r);
      assert x in s <==> x in multiset(s);
    }
  }

  /** No two rows share a `g`-key: one row per group. */
  predicate DistinctBy<T, K(==)>(s: seq<T>, g: T -> K) {
    forall i, j :: 0 <= i < j < |s| ==> g(s[i]) != g(s[j])
  }

  /** Inserting a row whose key no row has keeps the keys distinct. */
  lemma {:induction false} InsertDistinct<T, K>(x: T, s: seq<T>, key: T -> Key, g: T -> K)
    requires DistinctBy(s, g)
    requires forall y :: y in s ==> g(y) != g(x)
    ensures DistinctBy(Insert(x, s, key), g)
    decreases |s|
  {
    if |s| > 0 && !Le(key(x), key(s[0])) {
      var t := Insert(x, s[1..], key);
      InsertDistinct(x, s[1..], key, g);
      forall j | 0 <= j < |t| ensures g(s[0]) != g(t[j]) {
        assert t[j] in multiset(t);
        if t[j] != x {
          assert t[j] in multiset(s[1..]);
          var k :| 0 <= k < |s[1..]| && s[1..][k] == t[j];
          assert s[k + 1] == t[j];
        }
      }
      assert Insert(x, s, key) == [s[0]] + t;
    }
  }

  /** Sorting keeps the keys distinct. */
  lemma {:induction false} SortByDistinct<T, K>(s: seq<T>, key: T -> Key, g: T -> K)
    requires DistinctBy(s, g)
    ensures DistinctBy(SortBy(s, key), g)
    decreases |s|
  {
    if |s| > 0 {
      var t := SortBy(s[1..], key);
      SortByDistinct(s[1..], key, g);
      forall y | y in t ensures g(y) != g(s[0]) {
        assert y in multiset(t);
        assert y in multiset(s[1..]);
        var k :| 0 <= k < |s[1..]| && s[1..][k] == y;
        assert s[k + 1] == y;
      }
      InsertDistinct(s[0], t, key, g);
    }
  }

  /** A filter keeps the keys distinct. */
  lemma {:induction false} SelectDistinct<T(!new), K>(s: seq<T>, p: T -> bool, g: T -> K)
    requires DistinctBy(s, g)
    ensures DistinctBy(Select(s, p), g)
    decreases |s|
  {
    if |s| > 0 {
      var q := s[..|s| - 1];
      var x := s[|s| - 1];
      SelectDistinct(q, p, g);
      if p(x) {
        var r := Select(q, p);
        forall i | 0 <= i < |r| ensures g(r[i]) != g(x) {
          assert r[i] in q;
          var k :| 0 <= k < |q| && q[k] == r[i];
          assert s[k] == r[i];
        }
      }
    }
  }

  /** Rows built one per distinct group key, each carrying its key, have distinct keys. */
  lemma GroupRowsDistinct<T(!new), K, R>(ks: seq<K>, s: seq<T>, g: T -> K, mk: (K, seq<T>) -> R, rk: R -> K)
    requires forall i, j :: 0 <= i < j < |ks| ==> ks[i] != ks[j]
    requires forall i :: 0 <= i < |ks| ==> rk(mk(ks[i], Group(s, g, ks[i]))) == ks[i]
    ensures DistinctBy(GroupRows(ks, s, g, mk), rk)
  {
  }

  /** A page of a sorted result is sorted, and holds only rows of the result. */
  lemma PageSorted<T>(s: seq<T>, key: T -> Key, limit: nat, offset: nat)
    requires Sorted(s, key)
    ensures Sorted(Page(s, limit, offset), key)
    ensures forall x :: x in Page(s, limit, offset) ==> x in s
  {
    var r := Page(s, limit, offset);
    forall i, j | 0 <= i < j < |r| ensures Le(key(r[i]), key(r[j])) {
      assert r[i] == s[offset + i] && r[j] == s[offset + j];
    }
    forall x | x in r ensures x in s {
      var i :| 0 <= i < |r| && r[i] == x;
      assert s[offset + i] == x;
    }
  }

  /** Rows left out by a filter that all contribute 0 do not change a column total. */
  lemma {:induction false} SelectSum<T(!new)>(s: seq<T>, p: T -> bool, f: T -> int)
    requires forall i :: 0 <= i < |s| && !p(s[i]) ==> f(s[i]) == 0
    ensures SumOf(Select(s, p), f) == SumOf(s, f)
    decreases |s|
  {
    if |s| > 0 {
      var q, x := s[..|s| - 1], s[|s| - 1];
      assert forall i :: 0 <= i < |q| ==> q[i] == s[i];
      SelectSum(q, p, f);
      SelectLastSum(s, p, f);
    }
  }

  /** The filtered total grows by the last row's value exactly when the last row passes the filter. */
  lemma SelectLastSum<T(!new)>(s: seq<T>, p: T -> bool, f: T -> int)
    requires |s| > 0
    ensures var q, x := s[..|s| - 1], s[|s| - 1];
      SumOf(s, f) == SumOf(q, f) + f(x) &&
      SumOf(Select(s, p), f) == SumOf(Select(q, p), f) + (if p(x) then f(x) else 0)
  {
    var q, x := s[..|s| - 1], s[|s| - 1];
    var r := Select(q, p);
    if p(x) {
      assert Select(s, p) == r + [x];
      assert (r + [x])[..|r|] == r;
    }
  }

  /** One result row per listed group, built by `mk` from the group key and the group's rows. */
  function GroupRows<T(!new), K(==), R>(ks: seq<K>, s: seq<T>, g: T -> K, mk: (K, seq<T>) -> R): (r: seq<R>)
    ensures |r| == |ks|
    ensures forall i :: 0 <= i < |ks| ==> r[i] == mk(ks[i], Group(s, g, ks[i]))
    decreases |ks|
  {
    if |ks| == 0 then [] else [mk(ks[0], Group(s, g, ks[0]))] + GroupRows(ks[1..], s, g, mk)
  }

  /** When each result row carries its group's sum, the result rows add up to the per-group sums. */
  lemma {:induction false} GroupRowsSum<T(!new), K, R>(ks: seq<K>, s: seq<T>, g: T -> K, mk: (K, seq<T>) -> R, total: R -> int, f: T -> int)
    requires forall i :: 0 <= i < |ks| ==> total(mk(ks[i], Group(s, g, ks[i]))) == SumOf(Group(s, g, ks[i]), f)
    ensures SumOf(GroupRows(ks, s, g, mk), total) == GroupSums(ks, s, g, f)
    decreases |ks|
  {
    if |ks| > 0 {
      var head := mk(ks[0], Group(s, g, ks[0]));
      assert forall i :: 0 <= i < |ks[1..]| ==> ks[1..][i] == ks[i + 1];
      GroupRowsSum(ks[1..], s, g, mk, total, f);
      assert GroupRows(ks, s, g, mk) == [head] + GroupRows(ks[1..], s, g, mk);
      SumOfAppend([head], GroupRows(ks[1..], s, g, mk), total);
      SumOfSingle(head, total);
    }
  }

  /** The rows one left row yields in an inner join: one per matching right row, in right-table order. */
  function JoinOne<A, B, R>(x: A, ys: seq<B>, on: (A, B) -> bool, mk: (A, B) -> R): (r: seq<R>)
    ensures forall z :: z in r ==> exists y :: y in ys && on(x, y) && z == mk(x, y)
    ensures forall y :: y in ys && on(x, y) ==> mk(x, y) in r
    decreases |ys|
  {
    if |ys| == 0 then []
    else
      var rest := JoinOne(x, ys[1..], on, mk);
      assert forall y :: y in ys ==> y == ys[0] || y in ys[1..];
      if on(x, ys[0]) then [mk(x, ys[0])] + rest else rest
  }

  /** `FROM xs JOIN ys ON on(x, y)`: one row `mk(x, y)` per matching pair, and no other row. */
  function Join<A, B, R>(xs: seq<A>, ys: seq<B>, on: (A, B) -> bool, mk: (A, B) -> R): (r: seq<R>)
    ensures forall z :: z in r ==> exists x, y :: x in xs && y in ys && on(x, y) && z == mk(x, y)
    ensures forall x, y :: x in xs && y in ys && on(x, y) ==> mk(x, y) in r
    decreases |xs|
  {
    if |xs| == 0 then []
    else
      var first := JoinOne(xs[0], ys, on, mk);
      var rest := Join(xs[1..], ys, on, mk);
      assert forall x :: x in xs ==> x == xs[0] || x in xs[1..];
      first + rest
  }

  /** Filtering twice is filtering once when the second filter already implies the first. */
  lemma {:induction false} SelectSelect<T(!new)>(s: seq<T>, p: T -> bool, q: T -> bool)
    requires forall i :: 0 <= i < |s| && q(s[i]) ==> p(s[i])
    ensures Select(Select(s, p), q) == Select(s, q)
    decreases |s|
  {
    if |s| > 0 {
      var t, x := s[..|s| - 1], s[|s| - 1];
      assert forall i :: 0 <= i < |t| ==> t[i] == s[i];
      SelectSelect(t, p, q);
      if p(x) {
        var u := Select(t, p) + [x];
        assert u[..|u| - 1] == Select(t, p);
      }
    }
  }

  /** Rows that agree on the filter and the column give the same filtered total. */
  lemma {:induction false} SelectSumAgree<T(!new), U(!new)>(s: seq<T>, t: seq<U>, p: T -> bool, f: T -> int, q: U -> bool, g: U -> int)
    requires |s| == |t|
    requires forall i :: 0 <= i < |s| ==> p(s[i]) == q(t[i]) && f(s[i]) == g(t[i])
    ensures SumOf(Select(s, p), f) == SumOf(Select(t, q), g)
    decreases |s|
  {
    if |s| > 0 {
      var s', t' := s[..|s| - 1], t[..|t| - 1];
      var x, y := s[|s| - 1], t[|t| - 1];
      assert forall i :: 0 <= i < |s'| ==> s'[i] == s[i] && t'[i] == t[i];
      SelectSumAgree(s', t', p, f, q, g);
      SelectLastSum(s, p, f);
      SelectLastSum(t, q, g);
    }
  }

  /** A filter no row passes selects nothing. */
  lemma SelectNone<T(!new)>(s: seq<T>, p: T -> bool)
    requires forall x :: x in s ==> !p(x)
    ensures Select(s, p) == []
  {
  }

  /** A filter distributes over concatenation. */
  lemma {:induction false} SelectAppend<T(!new)>(a: seq<T>, b: seq<T>, p: T -> bool)
    ensures Select(a + b, p) == Select(a, p) + Select(b, p)
    decreases |b|
  {
    if |b| > 0 {
      var b' := b[..|b| - 1];
      assert (a + b)[..|a + b| - 1] == a + b';
      SelectAppend(a, b', p);
    } else {
      assert a + b == a;
    }
  }

  /** A filter every row passes keeps the table as it is. */
  lemma {:induction false} SelectAll<T(!new)>(s: seq<T>, p: T -> bool)
    requires forall i :: 0 <= i < |s| ==> p(s[i])
    ensures Select(s, p) == s
    decreases |s|
  {
    if |s| > 0 {
      SelectAll(s[..|s| - 1], p);
    }
  }
}

=== FILE: text.dfy ===
/**
  * String primitives the repository leans on: decimal formatting and parsing
  * (`f"{n:03d}"`, `int(...)`, SQLite's `CAST(... AS INTEGER)`), `str.split`,
  * suffix tests, byte-wise text ordering (SQLite's BINARY collation) and
  * Python's slice semantics with negative bounds.
  */
module Text {

  predicate IsDigit(c: char) {
    '0' <= c <= '9'
  }

  /** Every character is an ASCII decimal digit (the empty string qualifies). */
  predicate AllDigits(s: string) {
    forall i :: 0 <= i < |s| ==> IsDigit(s[i])
  }

  /** A non-empty run of ASCII digits: the strings `int(...)` accepts in this model. */
  predicate IsNumeral(s: string) {
    |s| > 0 && AllDigits(s)
  }

  function DigitValue(c: char): nat
    requires IsDigit(c)
  {
    c as int - '0' as int
  }

  function DigitChar(d: nat): (c: char)
    requires d < 10
    ensures IsDigit(c) && DigitValue(c) == d
  {
    ('0' as int + d) as char
  }

  /** The value of a digit string, most significant digit first; "" reads as 0. */
  function ParseDigits(s: string): nat
    requires AllDigits(s)
    decreases |s|
  {
    if |s| == 0 then 0 else ParseDigits(s[..|s| - 1]) * 10 + DigitValue(s[|s| - 1])
  }

  /** Python's `str(n)` for a non-negative integer: no sign, no leading zeros. */
  function NatToString(n: nat): (s: string)
    ensures IsNumeral(s)
    ensures n < 10 <==> |s| == 1
    decreases n
  {
    if n < 10 then [DigitChar(n)] else NatToString(n / 10) + [DigitChar(n % 10)]
  }

  lemma {:induction false} ParseNatToString(n: nat)
    ensures ParseDigits(NatToString(n)) == n
    decreases n
  {
    if n >= 10 {
      var s := NatToString(n);
      assert s[..|s| - 1] == NatToString(n / 10);
      ParseNatToString(n / 10);
    }
  }

  function Repeat<T>(x: T, k: nat): (r: seq<T>)
    ensures |r| == k
    ensures forall i :: 0 <= i < k ==> r[i] == x
  {
    if k == 0 then [] else [x] + Repeat(x, k - 1)
  }

  /** Left-pads with '0' up to `width` characters, like the `0w` format spec. */
  function ZeroPad(s: string, width: nat): (r: string)
    ensures |r| == if |s| >= width then |s| else width
    ensures AllDigits(s) ==> AllDigits(r)
  {
    if |s| >= width then s
    else
      var z := Repeat('0', width - |s|);
      assert forall i :: 0 <= i < |z + s| ==> (z + s)[i] == if i < |z| then '0' else s[i - |z|];
      z + s
  }

  lemma {:induction false} ParseZeroPrefix(s: string)
    requires AllDigits(s)
    ensures AllDigits(['0'] + s)
    ensures ParseDigits(['0'] + s) == ParseDigits(s)
    decreases |s|
  {
    if |s| > 0 {
      var t := ['0'] + s;
      assert t[..|t| - 1] == ['0'] + s[..|s| - 1];
      ParseZeroPrefix(s[..|s| - 1]);
    }
  }

  lemma {:induction false} ParseLeadingZeros(k: nat, s: string)
    requires AllDigits(s)
    ensures AllDigits(Repeat('0', k) + s)
    ensures ParseDigits(Repeat('0', k) + s) == ParseDigits(s)
    decreases k
  {
    if k == 0 {
      assert Repeat('0', k) + s == s;
    } else {
      ParseLeadingZeros(k - 1, s);
      assert Repeat('0', k) + s == ['0'] + (Repeat('0', k - 1) + s);
      ParseZeroPrefix(Repeat('0', k - 1) + s);
    }
  }

  function Pow10(k: nat): (p: nat)
    ensures p >= 1
  {
    if k == 0 then 1 else 10 * Pow10(k - 1)
  }

  /** A number below `10^k` has at most `k` digits. */
  lemma {:induction false} NumeralFits(n: nat, k: nat)
    requires 1 <= k && n < Pow10(k)
    ensures |NatToString(n)| <= k
    decreases k
  {
    if n >= 10 {
      assert k >= 2;
      assert n / 10 < Pow10(k - 1);
      NumeralFits(n / 10, k - 1);
    }
  }

  /** `f"{n:0wd}"` reads back as `n` and is exactly `w` digits when `n` has at most `w`. */
  lemma ParsePadded(n: nat, w: nat)
    requires |NatToString(n)| <= w
    ensures var s := ZeroPad(NatToString(n), w); |s| == w && AllDigits(s) && ParseDigits(s) == n
  {
    var s := NatToString(n);
    ParseNatToString(n);
    if |s| < w {
      ParseLeadingZeros(w - |s|, s);
    }
  }

  /** `f"{n:03d}"` for a non-negative integer. */
  function Pad3(n: nat): (s: string)
    ensures IsNumeral(s) && |s| >= 3
  {
    ZeroPad(NatToString(n), 3)
  }

  /** Zero padding is undone by parsing: the sequence number survives formatting. */
  lemma ParsePad3(n: nat)
    ensures ParseDigits(Pad3(n)) == n
  {
    var s := NatToString(n);
    ParseNatToString(n);
    if |s| < 3 {
      ParseLeadingZeros(3 - |s|, s);
    }
  }

  /** Length of the longest prefix made only of digits. */
  function DigitPrefixLength(s: string): (k: nat)
    ensures k <= |s| && AllDigits(s[..k])
    ensures k < |s| ==> !IsDigit(s[k])
    ensures AllDigits(s) ==> k == |s|
  {
    if |s| == 0 || !IsDigit(s[0]) then 0
    else
      var k := 1 + DigitPrefixLength(s[1..]);
      assert s[..k] == [s[0]] + s[1..][..k - 1];
      k
  }

  /**
    * SQLite's `CAST(text AS INTEGER)` on unsigned text: the value of the
    * leading run of digits, 0 when there is none.
    */
  function SqlInteger(s: string): nat {
    ParseDigits(s[..DigitPrefixLength(s)])
  }

  lemma SqlIntegerOfDigits(s: string)
    requires AllDigits(s)
    ensures SqlInteger(s) == ParseDigits(s)
  {
    assert s[..DigitPrefixLength(s)] == s;
  }

  /**
    * SQLite's `CAST(text AS INTEGER)` with an optional leading sign: `'-001'`
    * reads as -1. Leading blanks, which SQLite also skips, are not modelled.
    */
  function SqlCastInteger(s: string): (v: int)
    ensures |s| > 0 && s[0] == '-' ==> v == -(SqlInteger(s[1..]) as int)
    ensures AllDigits(s) ==> v == ParseDigits(s)
  {
    if |s| > 0 && s[0] == '-' then -(SqlInteger(s[1..]) as int)
    else if |s| > 0 && s[0] == '+' then SqlInteger(s[1..])
    else
      SqlIntegerOfDigitsCases(s);
      SqlInteger(s)
  }

  lemma SqlIntegerOfDigitsCases(s: string)
    ensures AllDigits(s) ==> SqlInteger(s) == ParseDigits(s)
  {
    if AllDigits(s) {
      SqlIntegerOfDigits(s);
    }
  }

  /** SQLite's `SUBSTR(s, k + 1)`: the text from 0-based position `k`, empty past the end. */
  function SubstrFrom(s: string, k: nat): string {
    if k <= |s| then s[k..] else ""
  }

  lemma SubstrAfterPrefix(prefix: string, rest: string)
    ensures SubstrFrom(prefix + rest, |prefix|) == rest
  {
    assert (prefix + rest)[|prefix|..] == rest;
  }

  /** `f"{n:03d}"` for any integer: a negative value keeps its sign inside the width of three. */
  function Pad3Signed(n: int): (s: string)
    ensures n >= 0 ==> s == Pad3(n)
  {
    if n >= 0 then Pad3(n) else "-" + ZeroPad(NatToString(-n), 2)
  }

  /** Python's `s.split(sep)` for a one-character separator. */
  function Split(s: string, sep: char): (parts: seq<string>)
    ensures |parts| >= 1
    decreases |s|
  {
    if |s| == 0 then [""]
    else
      var rest := Split(s[1..], sep);
      if s[0] == sep then [""] + rest else [[s[0]] + rest[0]] + rest[1..]
  }

  lemma {:induction false} SplitNoSeparator(a: string, sep: char)
    requires sep !in a
    ensures Split(a, sep) == [a]
    decreases |a|
  {
    if |a| > 0 {
      assert a[0] != sep;
      assert sep !in a[1..];
      SplitNoSeparator(a[1..], sep);
      assert [a[0]] + a[1..] == a;
    }
  }

  lemma {:induction false} SplitAtFirst(a: string, sep: char, rest: string)
    requires sep !in a
    ensures Split(a + [sep] + rest, sep) == [a] + Split(rest, sep)
    decreases |a|
  {
    var s := a + [sep] + rest;
    if |a| == 0 {
      assert s[1..] == rest;
    } else {
      assert s[0] == a[0] && a[0] != sep;
      assert s[1..] == a[1..] + [sep] + rest;
      assert sep !in a[1..];
      SplitAtFirst(a[1..], sep, rest);
      assert [a[0]] + a[1..] == a;
    }
  }

  /** Splitting text built from three separator-free parts gives back those parts. */
  lemma SplitThree(a: string, b: string, c: string, sep: char)
    requires sep !in a && sep !in b && sep !in c
    ensures Split(a + [sep] + b + [sep] + c, sep) == [a, b, c]
  {
    SplitNoSeparator(c, sep);
    SplitAtFirst(b, sep, c);
    assert a + [sep] + b + [sep] + c == a + [sep] + (b + [sep] + c);
    SplitAtFirst(a, sep, b + [sep] + c);
  }

  lemma NoSeparatorInDigits(s: string, sep: char)
    requires AllDigits(s) && !IsDigit(sep)
    ensures sep !in s
  {
    assert forall i :: 0 <= i < |s| ==> s[i] != sep;
  }

  predicate EndsWith(s: string, suffix: string) {
    |suffix| <= |s| && s[|s| - |suffix|..] == suffix
  }

  predicate StartsWith(s: string, prefix: string) {
    |prefix| <= |s| && s[..|prefix|] == prefix
  }

  lemma EndsWithAppended(a: string, suffix: string)
    ensures EndsWith(a + suffix, suffix)
  {
    assert (a + suffix)[|a|..] == suffix;
  }

  lemma StartsWithAppended(prefix: string, b: string)
    ensures StartsWith(prefix + b, prefix)
  {
    assert (prefix + b)[..|prefix|] == prefix;
  }

  /** A text built of three parts starts with the first and ends with the last non-empty one. */
  lemma ThreeParts(base: string, a: string, b: string)
    ensures StartsWith(base + a + b, base)
    ensures EndsWith(base + a + b, b)
    ensures b == "" ==> EndsWith(base + a + b, a)
    ensures a == "" && b == "" ==> base + a + b == base
  {
    assert base + a + b == base + (a + b);
    StartsWithAppended(base, a + b);
    EndsWithAppended(base + a, b);
    EndsWithAppended(base, a);
    assert b == "" ==> base + a + b == base + a;
  }

  /** Byte-wise lexicographic order (SQLite's BINARY collation, Python's `<=` on str). */
  predicate StrLe(a: string, b: string)
    decreases |a|
  {
    |a| == 0 || (|b| > 0 && (a[0] < b[0] || (a[0] == b[0] && StrLe(a[1..], b[1..]))))
  }

  predicate StrLt(a: string, b: string) {
    StrLe(a, b) && a != b
  }

  lemma {:induction false} StrLeTotal(a: string, b: string)
    ensures StrLe(a, b) || StrLe(b, a)
    decreases |a|
  {
    if |a| > 0 && |b| > 0 && a[0] == b[0] {
      StrLeTotal(a[1..], b[1..]);
    }
  }

  lemma {:induction false} StrLeTransitive(a: string, b: string, c: string)
    requires StrLe(a, b) && StrLe(b, c)
    ensures StrLe(a, c)
    decreases |a|
  {
    if |a| > 0 && a[0] == b[0] && b[0] == c[0] {
      StrLeTransitive(a[1..], b[1..], c[1..]);
    }
  }

  lemma {:induction false} StrLeAntisymmetric(a: string, b: string)
    requires StrLe(a, b) && StrLe(b, a)
    ensures a == b
    decreases |a|
  {
    if |a| > 0 {
      StrLeAntisymmetric(a[1..], b[1..]);
      assert a == [a[0]] + a[1..] && b == [b[0]] + b[1..];
    }
  }

  /** Two texts that agree up to a position are ordered by the first differing character. */
  lemma {:induction false} StrLtAtFirstDifference(p: string, x: char, y: char, a: string, b: string)
    requires x < y
    ensures StrLt(p + [x] + a, p + [y] + b)
    decreases |p|
  {
    var s, t := p + [x] + a, p + [y] + b;
    if |p| == 0 {
      assert s[0] == x && t[0] == y;
    } else {
      assert s[0] == t[0] == p[0];
      assert s[1..] == p[1..] + [x] + a && t[1..] == p[1..] + [y] + b;
      StrLtAtFirstDifference(p[1..], x, y, a, b);
    }
    assert s[|p|] != t[|p|];
  }

  /** Python's clamping of one slice bound against a sequence of length `n`. */
  function PyBound(i: int, n: nat): (r: nat)
    ensures r <= n
  {
    if i < 0 then (if i + n < 0 then 0 else i + n) else if i > n then n else i
  }

  /** Python's `s[start:end]`, including negative bounds counted from the end. */
  function PySlice<T>(s: seq<T>, start: int, end: int): seq<T> {
    var a, b := PyBound(start, |s|), PyBound(end, |s|);
    if a < b then s[a..b] else []
  }

  /** ASCII lower-casing, the case folding SQLite's `LIKE` applies. */
  function AsciiLower(c: char): char {
    if 'A' <= c <= 'Z' then (c as int + 32) as char else c
  }

  function Lower(s: string): (r: string)
    ensures |r| == |s|
    ensures forall i :: 0 <= i < |s| ==> r[i] == AsciiLower(s[i])
  {
    seq(|s|, i requires 0 <= i < |s| => AsciiLower(s[i]))
  }

  /** `t` occurs in `s` at position `i`. */
  predicate OccursAt(s: string, t: string, i: nat) {
    i + |t| <= |s| && s[i..i + |t|] == t
  }

  /** `t` occurs in `s`, ignoring ASCII case. */
  predicate Contains(s: string, t: string) {
    exists i: nat :: i <= |s| && OccursAt(Lower(s), Lower(t), i)
  }

  /** The two characters are equal up to ASCII case. */
  predicate SameLetter(a: char, b: char) {
    AsciiLower(a) == AsciiLower(b)
  }

  /**
    * SQLite's `s LIKE p` without an `ESCAPE` clause: `%` matches any run of
    * characters, `_` any one character, and every other character itself,
    * ignoring ASCII case.
    */
  predicate LikeMatch(s: string, p: string)
    decreases |s| + |p|
  {
    if p == [] then s == []
    else if p[0] == '%' then LikeMatch(s, p[1..]) || (s != [] && LikeMatch(s[1..], p))
    else s != [] && (p[0] == '_' || SameLetter(s[0], p[0])) && LikeMatch(s[1..], p[1..])
  }

  /** `s LIKE '%' || t || '%'`: the pattern the searches build from a term, wildcards in `t` included. */
  predicate Like(s: string, t: string) {
    LikeMatch(s, "%" + t + "%")
  }

  predicate NoWildcards(t: string) {
    forall k :: 0 <= k < |t| ==> t[k] != '%' && t[k] != '_'
  }

  /** A lone `%` matches every text. */
  lemma {:induction false} PercentMatchesAll(s: string)
    ensures LikeMatch(s, "%")
    decreases |s|
  {
    if s != [] {
      PercentMatchesAll(s[1..]);
    }
  }

  /** A leading `%` may skip any prefix of the text. */
  lemma {:induction false} PercentSkips(s: string, i: nat, q: string)
    requires i <= |s|
    requires LikeMatch(s[i..], q)
    ensures LikeMatch(s, "%" + q)
    decreases i
  {
    var p := "%" + q;
    assert p[1..] == q;
    if i > 0 {
      assert s[1..][i - 1..] == s[i..];
      PercentSkips(s[1..], i - 1, q);
    }
  }

  /** The pattern character `pc` can stand for the text character `c`. */
  predicate Fits(c: char, pc: char) {
    pc == '%' || pc == '_' || SameLetter(c, pc)
  }

  /**
    * A pattern matches a text that begins, character by character, with
    * something it fits (`%` and `_` then each take one character) when its
    * tail matches the rest.
    */
  lemma {:induction false} LiteralPrefixMatches(s: string, t: string, q: string)
    requires |t| <= |s|
    requires forall k :: 0 <= k < |t| ==> Fits(s[k], t[k])
    requires LikeMatch(s[|t|..], q)
    ensures LikeMatch(s, t + q)
    decreases |t|
  {
    if t == [] {
      assert t + q == q && s[|t|..] == s;
    } else {
      var p := t + q;
      assert p[0] == t[0] && p[1..] == t[1..] + q;
      assert s[1..][|t| - 1..] == s[|t|..];
      assert Fits(s[0], t[0]);
      LiteralPrefixMatches(s[1..], t[1..], q);
      if t[0] == '%' {
        assert LikeMatch(s[1..], p);
      }
    }
  }

  /** A pattern free of wildcards matches only texts that begin with it (up to case). */
  lemma {:induction false} LiteralPrefixOnly(s: string, t: string, q: string)
    requires NoWildcards(t)
    requires LikeMatch(s, t + q)
    ensures |t| <= |s|
    ensures forall k :: 0 <= k < |t| ==> SameLetter(s[k], t[k])
    ensures LikeMatch(s[|t|..], q)
    decreases |t|
  {
    if t == [] {
      assert t + q == q && s[|t|..] == s;
    } else {
      var p := t + q;
      assert p[0] == t[0] && p[1..] == t[1..] + q;
      assert t[0] != '%' && t[0] != '_';
      assert NoWildcards(t[1..]) by {
        forall k | 0 <= k < |t| - 1 ensures t[1..][k] != '%' && t[1..][k] != '_' {
          assert t[1..][k] == t[k + 1];
        }
      }
      LiteralPrefixOnly(s[1..], t[1..], q);
      assert s[1..][|t| - 1..] == s[|t|..];
      forall k | 0 <= k < |t| ensures SameLetter(s[k], t[k]) {
        if k > 0 {
          assert SameLetter(s[1..][k - 1], t[1..][k - 1]);
        }
      }
    }
  }

  /** A pattern starting with `%` matches only when its tail matches some suffix. */
  lemma {:induction false} PercentFindsSuffix(s: string, q: string) returns (i: nat)
    requires LikeMatch(s, "%" + q)
    ensures i <= |s| && LikeMatch(s[i..], q)
    decreases |s|
  {
    var p := "%" + q;
    assert p[1..] == q;
    if LikeMatch(s, q) {
      i := 0;
    } else {
      var j := PercentFindsSuffix(s[1..], q);
      assert s[1..][j..] == s[j + 1..];
      i := j + 1;
    }
  }

  /** An occurrence of the term is always a `LIKE` match, whatever wildcards the term holds. */
  lemma ContainsThenLike(s: string, t: string)
    requires Contains(s, t)
    ensures Like(s, t)
  {
    var i: nat :| i <= |s| && OccursAt(Lower(s), Lower(t), i);
    forall k | 0 <= k < |t| ensures Fits(s[i..][k], t[k]) {
      assert Lower(s)[i..i + |t|][k] == Lower(t)[k];
    }
    PercentMatchesAll(s[i..][|t|..]);
    LiteralPrefixMatches(s[i..], t, "%");
    PercentSkips(s, i, t + "%");
    assert "%" + (t + "%") == "%" + t + "%";
  }

  /**
    * For a term without `%` or `_`, `LIKE '%term%'` is exactly a
    * case-insensitive substring test.
    */
  lemma LikeIsContains(s: string, t: string)
    requires NoWildcards(t)
    ensures Like(s, t) <==> Contains(s, t)
  {
    if Like(s, t) {
      assert "%" + t + "%" == "%" + (t + "%");
      var i := PercentFindsSuffix(s, t + "%");
      LiteralPrefixOnly(s[i..], t, "%");
      assert Lower(s)[i..i + |t|] == Lower(t);
      assert OccursAt(Lower(s), Lower(t), i);
    }
    if Contains(s, t) {
      ContainsThenLike(s, t);
    }
  }

  /**
    * `_` in a term stands for any character: `1_001` finds `1-001-2025`,
    * where no `1_001` occurs.
    */
  lemma UnderscoreMatchesAnyCharacter()
    ensures Like("1-001-2025", "1_001")
    ensures !Contains("1-001-2025", "1_001")
  {
    var s := "1-001-2025";
    PercentMatchesAll(s[5..]);
    assert s[..5][5..] == [];
    LiteralPrefixMatches(s, "1_001", "%");
    PercentSkips(s, 0, "1_001" + "%");
    assert "%" + ("1_001" + "%") == "%" + "1_001" + "%";
    forall i: nat | i <= |s| ensures !OccursAt(Lower(s), Lower("1_001"), i) {
      if i + 5 <= |s| {
        assert Lower(s)[i..i + 5][1] == Lower(s)[i + 1];
        assert Lower("1_001")[1] == '_';
      }
    }
  }

  /** The empty term matches every text. */
  lemma LikeEmpty(s: string)
    ensures Like(s, "")
  {
    assert OccursAt(Lower(s), Lower(""), 0);
    ContainsThenLike(s, "");
  }

  /** A text matches itself, whatever its case and whatever wildcards it holds. */
  lemma LikeSelf(s: string)
    ensures Like(s, s)
  {
    assert Lower(s)[0..|s|] == Lower(s);
    assert OccursAt(Lower(s), Lower(s), 0);
    ContainsThenLike(s, s);
  }
}

=== FILE: users.dfy ===
/**
  * The `users` table and `UserService`: username and input validation,
  * account creation, login with the failed-attempt lockout, updates under
  * the admin/self permission rules, and soft deletion.
  *
  * Timestamps come in as parameters: `now` is the application's clock and
  * `lockUntil` is the database's `datetime('now', '+30 minutes')`. The
  * e-mail pattern is an opaque predicate and the password digest a function
  * parameter.
  */
module Users {
  import opened Wrappers
  import opened Text
  import opened Dates
  import opened Books
  import Security
  import Accounting

  /** AUTOINCREMENT ids start at 1, so a freshly issued id is never the falsy 0. */
  type Serial = n: nat | 1 <= n witness 1

  datatype User = User(
    id: nat,
    username: string,
    email: string,
    passwordHash: string,
    salt: string,
    role: string,
    companyId: Option<string>,
    active: bool,
    failedAttempts: nat,
    lockedUntil: Option<Instant>,
    lastLogin: Option<Instant>)

  /** The rows in id order and the next id AUTOINCREMENT hands out. */
  datatype UserTable = UserTable(rows: seq<User>, nextId: Serial)

  predicate IsRole(role: string) {
    role == "admin" || role == "user"
  }

  // ===== lookups (models/user.py) =====

  /** The position of the first row satisfying `p`. */
  function FirstIndex(rows: seq<User>, p: User -> bool): (k: Option<nat>)
    ensures k.Some? ==> k.value < |rows| && p(rows[k.value])
    ensures k.Some? ==> forall j :: 0 <= j < k.value ==> !p(rows[j])
    ensures k.None? <==> forall j :: 0 <= j < |rows| ==> !p(rows[j])
    decreases |rows|
  {
    if |rows| == 0 then None
    else if p(rows[0]) then Some(0)
    else
      match FirstIndex(rows[1..], p)
      case None => None
      case Some(k) => Some(k + 1)
  }

  /** The first match only depends on which rows match. */
  lemma FirstIndexSameMatches(a: seq<User>, p: User -> bool, b: seq<User>, q: User -> bool)
    requires |a| == |b|
    requires forall j :: 0 <= j < |a| ==> p(a[j]) == q(b[j])
    ensures FirstIndex(a, p) == FirstIndex(b, q)
  {
  }

  function ActiveWithId(id: nat): User -> bool {
    (u: User) => u.id == id && u.active
  }

  function WithUsername(username: string): User -> bool {
    (u: User) => u.username == username
  }

  /** `get_by_id`: the row with this id, only while it is active. */
  function GetById(t: UserTable, id: nat): (r: Option<User>)
    ensures r.Some? ==> r.value in t.rows && r.value.id == id && r.value.active
    ensures r.None? <==> forall u :: u in t.rows ==> !(u.id == id && u.active)
  {
    match FirstIndex(t.rows, ActiveWithId(id))
    case None =>
      assert forall u :: u in t.rows ==> !(u.id == id && u.active) by {
        forall u | u in t.rows ensures !(u.id == id && u.active) {
          var j :| 0 <= j < |t.rows| && t.rows[j] == u;
          assert !ActiveWithId(id)(t.rows[j]);
        }
      }
      None
    case Some(k) => Some(t.rows[k])
  }

  /** `get_by_username`: the row with this username, active or not (for authentication). */
  function GetByUsername(t: UserTable, username: string): (r: Option<User>)
    ensures r.Some? ==> r.value in t.rows && r.value.username == username
    ensures r.None? <==> forall u :: u in t.rows ==> u.username != username
  {
    match FirstIndex(t.rows, WithUsername(username))
    case None =>
      assert forall u :: u in t.rows ==> u.username != username by {
        forall u | u in t.rows ensures u.username != username {
          var j :| 0 <= j < |t.rows| && t.rows[j] == u;
          assert !WithUsername(username)(t.rows[j]);
        }
      }
      None
    case Some(k) => Some(t.rows[k])
  }

  /**
    * Some row, active or not, holds this username, not counting the row
    * `exclude`; an `exclude` of 0 is falsy in the source and excludes nothing.
    */
  predicate UsernameHeld(rows: seq<User>, username: string, exclude: nat) {
    exists i :: 0 <= i < |rows| && rows[i].username == username && !(exclude != 0 && rows[i].id == exclude)
  }

  predicate EmailHeld(rows: seq<User>, email: string, exclude: nat) {
    exists i :: 0 <= i < |rows| && rows[i].email == email && !(exclude != 0 && rows[i].id == exclude)
  }

  /** `is_username_available`: no row other than `exclude` has the username. */
  function IsUsernameAvailable(t: UserTable, username: string, exclude: nat): (r: bool)
    ensures r <==> !UsernameHeld(t.rows, username, exclude)
  {
    var p := (u: User) => u.username == username && !(exclude != 0 && u.id == exclude);
    var k := FirstIndex(t.rows, p);
    assert k.Some? ==> p(t.rows[k.value]);
    assert k.None? ==> forall i :: 0 <= i < |t.rows| ==> !p(t.rows[i]);
    k.None?
  }

  /** `is_email_available`: no row other than `exclude` has the e-mail address. */
  function IsEmailAvailable(t: UserTable, email: string, exclude: nat): (r: bool)
    ensures r <==> !EmailHeld(t.rows, email, exclude)
  {
    var p := (u: User) => u.email == email && !(exclude != 0 && u.id == exclude);
    var k := FirstIndex(t.rows, p);
    assert k.Some? ==> p(t.rows[k.value]);
    assert k.None? ==> forall i :: 0 <= i < |t.rows| ==> !p(t.rows[i]);
    k.None?
  }

  // ===== writes (models/user.py) =====

  function NewUser(id: nat, username: string, email: string, passwordHash: string, salt: string,
                   role: string, companyId: Option<string>): User {
    User(id, username, email, passwordHash, salt, role, companyId, true, 0, None, None)
  }

  /**
    * `create`: the INSERT; the UNIQUE constraints on username and e-mail,
    * which cover inactive rows too, make it fail (None) on a value in use.
    */
  function Create(t: UserTable, username: string, email: string, passwordHash: string, salt: string,
                  role: string, companyId: Option<string>): (r: Option<(UserTable, Serial)>)
    ensures r.Some? <==> IsUsernameAvailable(t, username, 0) && IsEmailAvailable(t, email, 0)
    ensures r.Some? ==> r.value.1 == t.nextId && r.value.0.nextId > t.nextId
    ensures r.Some? ==> r.value.0.rows == t.rows + [NewUser(t.nextId, username, email, passwordHash, salt, role, companyId)]
  {
    if UsernameHeld(t.rows, username, 0) || EmailHeld(t.rows, email, 0) then None
    else
      var row := NewUser(t.nextId, username, email, passwordHash, salt, role, companyId);
      Some((UserTable(t.rows + [row], t.nextId + 1), t.nextId))
  }

  function HasId(id: nat): User -> bool {
    (u: User) => u.id == id
  }

  /** `update_last_login`: stamp the login, reset the failure counter and lift the lock. */
  function UpdateLastLogin(t: UserTable, id: nat, now: Instant): (r: UserTable)
    ensures |r.rows| == |t.rows| && r.nextId == t.nextId
    ensures forall i :: 0 <= i < |t.rows| && t.rows[i].id == id ==>
      r.rows[i].failedAttempts == 0 && r.rows[i].lockedUntil.None? && r.rows[i].lastLogin == Some(now)
      && r.rows[i].(failedAttempts := t.rows[i].failedAttempts, lockedUntil := t.rows[i].lockedUntil,
                    lastLogin := t.rows[i].lastLogin) == t.rows[i]
    ensures forall i :: 0 <= i < |t.rows| && t.rows[i].id != id ==> r.rows[i] == t.rows[i]
  {
    t.(rows := PatchWhere(t.rows, HasId(id),
      (u: User) => u.(failedAttempts := 0, lockedUntil := None, lastLogin := Some(now))))
  }

  /** The lock is written on the failure that finds four earlier failures: the fifth. */
  const LockThreshold: nat := 4

  /**
    * `increment_failed_attempts`: one more failure; the CASE reads the
    * counter from before the increment, so the lock is set once it was
    * already at least 4.
    */
  function IncrementFailedAttempts(t: UserTable, id: nat, lockUntil: Instant): (r: UserTable)
    ensures |r.rows| == |t.rows| && r.nextId == t.nextId
    ensures forall i :: 0 <= i < |t.rows| && t.rows[i].id == id ==>
      r.rows[i].failedAttempts == t.rows[i].failedAttempts + 1
      && (t.rows[i].failedAttempts >= LockThreshold ==> r.rows[i].lockedUntil == Some(lockUntil))
      && (t.rows[i].failedAttempts < LockThreshold ==> r.rows[i].lockedUntil == t.rows[i].lockedUntil)
      && r.rows[i].(failedAttempts := t.rows[i].failedAttempts, lockedUntil := t.rows[i].lockedUntil) == t.rows[i]
    ensures forall i :: 0 <= i < |t.rows| && t.rows[i].id != id ==> r.rows[i] == t.rows[i]
  {
    t.(rows := PatchWhere(t.rows, HasId(id),
      (u: User) => u.(failedAttempts := u.failedAttempts + 1,
                      lockedUntil := if u.failedAttempts >= LockThreshold then Some(lockUntil) else u.lockedUntil)))
  }

  /** `k` failed logins in a row, all stamped with the same lock time. */
  function Failures(t: UserTable, id: nat, lockUntil: Instant, k: nat): UserTable
    decreases k
  {
    if k == 0 then t else IncrementFailedAttempts(Failures(t, id, lockUntil, k - 1), id, lockUntil)
  }

  /**
    * From a clean counter, `k` failures leave the counter at `k`, and the
    * lock is set exactly when there were at least five of them.
    */
  lemma {:induction false} FailuresLockOnFifth(t: UserTable, id: nat, lockUntil: Instant, k: nat, i: nat)
    requires i < |t.rows| && t.rows[i].id == id
    requires t.rows[i].failedAttempts == 0 && t.rows[i].lockedUntil.None?
    ensures var after := Failures(t, id, lockUntil, k);
      i < |after.rows| && after.rows[i].id == id && after.rows[i].failedAttempts == k
      && (after.rows[i].lockedUntil.Some? <==> k >= LockThreshold + 1)
      && (k >= LockThreshold + 1 ==> after.rows[i].lockedUntil == Some(lockUntil))
    decreases k
  {
    if k > 0 {
      FailuresLockOnFifth(t, id, lockUntil, k - 1, i);
    }
  }

  /** A successful login in between starts the count again: four more failures do not lock. */
  lemma LoginResetsCount(t: UserTable, id: nat, now: Instant, lockUntil: Instant, i: nat)
    requires i < |t.rows| && t.rows[i].id == id
    ensures var after := Failures(UpdateLastLogin(t, id, now), id, lockUntil, LockThreshold);
      i < |after.rows| && after.rows[i].failedAttempts == LockThreshold && after.rows[i].lockedUntil.None?
  {
    FailuresLockOnFifth(UpdateLastLogin(t, id, now), id, lockUntil, LockThreshold, i);
  }

  /**
    * The keyword arguments of `update` that survive its allow-list; any
    * other keyword (password hash, salt, counters) is dropped before this
    * point, so a call with only such keywords is the empty patch.
    */
  datatype UserPatch = UserPatch(
    username: Option<string>,
    email: Option<string>,
    role: Option<string>,
    companyId: Option<string>,
    active: Option<bool>)
  {
    predicate IsEmpty() {
      username.None? && email.None? && role.None? && companyId.None? && active.None?
    }

    function Apply(u: User): User {
      u.(username := username.GetOr(u.username), email := email.GetOr(u.email), role := role.GetOr(u.role),
         companyId := if companyId.Some? then companyId else u.companyId, active := active.GetOr(u.active))
    }
  }

  /** Another row already has the value the patch writes into row `id`: the UNIQUE constraint fails. */
  predicate Collides(rows: seq<User>, id: nat, p: UserPatch) {
    (exists i :: 0 <= i < |rows| && rows[i].id == id)
    && ((p.username.Some? && exists j :: 0 <= j < |rows| && rows[j].id != id && rows[j].username == p.username.value)
        || (p.email.Some? && exists j :: 0 <= j < |rows| && rows[j].id != id && rows[j].email == p.email.value))
  }

  /**
    * `update`: only username, e-mail, role, company and the active flag can
    * change; an empty patch is refused, and an UPDATE that breaks a UNIQUE
    * constraint fails.
    */
  function Update(t: UserTable, id: nat, p: UserPatch): (r: Option<UserTable>)
    ensures r.None? <==> p.IsEmpty() || Collides(t.rows, id, p)
    ensures r.Some? ==> |r.value.rows| == |t.rows| && r.value.nextId == t.nextId
    ensures r.Some? ==> forall i :: 0 <= i < |t.rows| ==>
      var (a, b) := (t.rows[i], r.value.rows[i]);
      b.id == a.id && b.passwordHash == a.passwordHash && b.salt == a.salt
      && b.failedAttempts == a.failedAttempts && b.lockedUntil == a.lockedUntil && b.lastLogin == a.lastLogin
    ensures r.Some? ==> forall i :: 0 <= i < |t.rows| && t.rows[i].id == id ==>
      var (a, b) := (t.rows[i], r.value.rows[i]);
      (p.username.Some? ==> b.username == p.username.value) && (p.username.None? ==> b.username == a.username)
      && (p.email.Some? ==> b.email == p.email.value) && (p.email.None? ==> b.email == a.email)
      && (p.role.Some? ==> b.role == p.role.value) && (p.role.None? ==> b.role == a.role)
      && (p.companyId.Some? ==> b.companyId == p.companyId) && (p.companyId.None? ==> b.companyId == a.companyId)
      && (p.active.Some? ==> b.active == p.active.value) && (p.active.None? ==> b.active == a.active)
    ensures r.Some? ==> forall i :: 0 <= i < |t.rows| && t.rows[i].id != id ==> r.value.rows[i] == t.rows[i]
  {
    if p.IsEmpty() || Collides(t.rows, id, p) then None
    else Some(t.(rows := PatchWhere(t.rows, HasId(id), p.Apply)))
  }

  /** `soft_delete`: clear the active flag of row `id`. */
  function SoftDelete(t: UserTable, id: nat): (r: UserTable)
    ensures |r.rows| == |t.rows| && r.nextId == t.nextId
    ensures forall i :: 0 <= i < |t.rows| && t.rows[i].id == id ==>
      !r.rows[i].active && r.rows[i].(active := t.rows[i].active) == t.rows[i]
    ensures forall i :: 0 <= i < |t.rows| && t.rows[i].id != id ==> r.rows[i] == t.rows[i]
  {
    t.(rows := PatchWhere(t.rows, HasId(id), (u: User) => u.(active := false)))
  }

  /** After a soft delete the row is gone for `get_by_id`, and no other id's lookup changes. */
  lemma SoftDeleteHides(t: UserTable, id: nat, other: nat)
    requires other != id
    ensures GetById(SoftDelete(t, id), id).None?
    ensures GetById(SoftDelete(t, id), other) == GetById(t, other)
  {
    var after := SoftDelete(t, id);
    forall u | u in after.rows ensures !(u.id == id && u.active) {
      var i :| 0 <= i < |after.rows| && after.rows[i] == u;
    }
    FirstIndexSameMatches(t.rows, ActiveWithId(other), after.rows, ActiveWithId(other));
  }

  /** Soft deletion keeps the username and e-mail reserved: the UNIQUE constraints still see the row. */
  lemma SoftDeleteKeepsNamesTaken(t: UserTable, id: nat, i: nat)
    requires i < |t.rows| && t.rows[i].id == id
    ensures !IsUsernameAvailable(SoftDelete(t, id), t.rows[i].username, 0)
    ensures !IsEmailAvailable(SoftDelete(t, id), t.rows[i].email, 0)
    ensures Create(SoftDelete(t, id), t.rows[i].username, "", "", "", "user", None).None?
  {
    var after := SoftDelete(t, id);
    assert after.rows[i].username == t.rows[i].username && after.rows[i].email == t.rows[i].email;
  }

  // ===== validation (services/user_service.py) =====

  predicate IsWordChar(c: char) {
    ('a' <= c <= 'z') || ('A' <= c <= 'Z') || ('0' <= c <= '9') || c == '_'
  }

  predicate WordChars(s: string) {
    |s| > 0 && forall i :: 0 <= i < |s| ==> IsWordChar(s[i])
  }

  /**
    * `re.match(r'^[a-zA-Z0-9_]+$', s)`: `$` matches at the very end and also
    * just before one final newline.
    */
  function UsernamePattern(s: string): (ok: bool)
    ensures ok <==> WordChars(s) || (|s| > 1 && s[|s| - 1] == '\n' && WordChars(s[..|s| - 1]))
  {
    var body := if |s| > 0 && s[|s| - 1] == '\n' then s[..|s| - 1] else s;
    |body| > 0 && forall i :: 0 <= i < |body| ==> IsWordChar(body[i])
  }

  /** `_validate_username`: 3 to 50 characters matching the pattern. */
  function ValidateUsername(username: string): (ok: bool)
    ensures ok <==> 3 <= |username| <= 50 && UsernamePattern(username)
  {
    if username == "" || |username| < 3 || |username| > 50 then false
    else UsernamePattern(username)
  }

  /** Without a newline in it, a username is valid iff it has 3 to 50 letters, digits or underscores. */
  lemma UsernameRule(username: string)
    requires '\n' !in username
    ensures ValidateUsername(username) <==>
      3 <= |username| <= 50 && forall i :: 0 <= i < |username| ==> IsWordChar(username[i])
  {
    if |username| > 0 {
      assert username[|username| - 1] in username;
    }
  }

  /**
    * The trailing-newline case: the pattern's `$` lets `"abc\n"` through,
    * and a two-character name passes the length check once a newline is added.
    */
  lemma TrailingNewlineAccepted()
    ensures ValidateUsername("abc\n")
    ensures ValidateUsername("ab\n") && !ValidateUsername("ab")
  {
    assert "abc\n"[..3] == "abc";
    assert "ab\n"[..2] == "ab";
  }

  /** `"; ".join(parts)`. */
  function JoinWith(parts: seq<string>, sep: string): (r: string)
    ensures |parts| == 1 ==> r == parts[0]
    ensures |parts| > 0 ==> StartsWith(r, parts[0])
    decreases |parts|
  {
    if |parts| == 0 then ""
    else if |parts| == 1 then parts[0]
    else
      var r := parts[0] + sep + JoinWith(parts[1..], sep);
      assert r == parts[0] + (sep + JoinWith(parts[1..], sep));
      StartsWithAppended(parts[0], sep + JoinWith(parts[1..], sep));
      r
  }

  const UsernameRuleMessage := "Username must be 3-50 characters, alphanumeric and underscores only"

  /**
    * `_validate_user_input`: username, then e-mail, then password strength,
    * then role; the first failing check's message is returned.
    */
  function ValidateUserInput(username: string, email: string, password: string, role: string,
                             emailOk: string -> bool): (r: Verdict)
    ensures r.ok <==> ValidateUsername(username) && emailOk(email)
                      && Security.ValidatePasswordStrength(password).0 && IsRole(role)
    ensures r.ok ==> r.message == "Valid"
    ensures !ValidateUsername(username) ==> r.message == UsernameRuleMessage
    ensures ValidateUsername(username) && !emailOk(email) ==> r.message == "Invalid email format"
    ensures ValidateUsername(username) && emailOk(email) && !Security.ValidatePasswordStrength(password).0 ==>
      r.message == JoinWith(Security.ValidatePasswordStrength(password).1, "; ")
      && StartsWith(r.message, Security.RuleMessage(Security.FailedRules(password)[0]))
    ensures (ValidateUsername(username) && emailOk(email) && Security.ValidatePasswordStrength(password).0
             && !IsRole(role)) ==> r.message == "Invalid role"
  {
    var (strong, errors) := Security.ValidatePasswordStrength(password);
    if !ValidateUsername(username) then Verdict(false, UsernameRuleMessage)
    else if !emailOk(email) then Verdict(false, "Invalid email format")
    else if !strong then Verdict(false, JoinWith(errors, "; "))
    else if !IsRole(role) then Verdict(false, "Invalid role")
    else Verdict(true, "Valid")
  }

  // ===== create_user =====

  datatype UserCreated = UserCreated(users: UserTable, id: Serial, audit: Accounting.AuditEvent)

  /**
    * `create_user`: validate, then refuse a username in use, then an e-mail
    * in use, all before anything is stored; then hash the password with a
    * fresh salt (`randomSalt`) and insert.
    */
  function CreateUser(t: UserTable, username: string, email: string, password: string, role: string,
                      companyId: Option<string>, createdBy: Option<nat>, emailOk: string -> bool,
                      digest: string -> string, randomSalt: string): (r: Result<UserCreated, string>)
    ensures var v := ValidateUserInput(username, email, password, role, emailOk);
      !v.ok ==> r == Err(v.message)
    ensures var v := ValidateUserInput(username, email, password, role, emailOk);
      v.ok && UsernameHeld(t.rows, username, 0) ==> r == Err("Username already exists")
    ensures var v := ValidateUserInput(username, email, password, role, emailOk);
      v.ok && !UsernameHeld(t.rows, username, 0) && EmailHeld(t.rows, email, 0) ==> r == Err("Email already exists")
    ensures r.Ok? <==> ValidateUserInput(username, email, password, role, emailOk).ok
                       && !UsernameHeld(t.rows, username, 0) && !EmailHeld(t.rows, email, 0)
    ensures r.Ok? ==> (r.value.id == t.nextId && |r.value.users.rows| == |t.rows| + 1
                       && r.value.users.rows[..|t.rows|] == t.rows)
    ensures r.Ok? ==> var u := r.value.users.rows[|t.rows|];
      u.id == r.value.id && u.username == username && u.email == email && u.role == role
      && u.companyId == companyId && u.active && u.failedAttempts == 0 && u.lockedUntil.None?
      && u.salt == randomSalt && Security.VerifyPassword(password, u.passwordHash, u.salt, digest)
    ensures r.Ok? ==> r.value.audit == Accounting.AuditEvent(createdBy, "CREATE_USER", NatToString(t.nextId))
  {
    var v := ValidateUserInput(username, email, password, role, emailOk);
    if !v.ok then Err(v.message)
    else if !IsUsernameAvailable(t, username, 0) then Err("Username already exists")
    else if !IsEmailAvailable(t, email, 0) then Err("Email already exists")
    else
      var (hash, salt) := Security.HashPassword(password, None, digest, randomSalt);
      match Create(t, username, email, hash, salt, role, companyId)
      case None => Err("Failed to create user")
      case Some((users, id)) =>
        assert users.rows[..|t.rows|] == t.rows;
        Ok(UserCreated(users, id, Accounting.AuditEvent(createdBy, "CREATE_USER", NatToString(id))))
  }

  // ===== authenticate_user =====

  /**
    * Whether the stored lock still holds at `now`. As written the stored
    * SQLite text `YYYY-MM-DD HH:MM:SS` is compared, as a string, with
    * `now.isoformat()`, `YYYY-MM-DDTHH:MM:SS[.ffffff]`; corrected, the two
    * instants are compared.
    */
  predicate Locked(policy: Accounting.Policy, lockedUntil: Option<Instant>, now: Instant) {
    lockedUntil.Some?
    && match policy
       case AsWritten => StrLt(IsoText(now), SqliteText(lockedUntil.value))
       case Corrected => InstantLt(now, lockedUntil.value)
  }

  datatype LoginFailure = InvalidCredentials | AccountDisabled | AccountLocked

  function LoginMessage(f: LoginFailure): string {
    match f
    case InvalidCredentials => "Invalid username or password"
    case AccountDisabled => "Account is disabled"
    case AccountLocked => "Account is temporarily locked due to failed login attempts"
  }

  /** The row fields handed back on success; the password hash and salt are left out. */
  datatype UserData = UserData(id: nat, username: string, email: string, role: string, companyId: Option<string>)

  /** What a login attempt returns, the table afterwards, and the audit record it writes. */
  datatype Login = Login(result: Result<UserData, LoginFailure>, users: UserTable, audit: Option<Accounting.AuditEvent>)

  /**
    * `authenticate_user`: an unknown username, a disabled account and a
    * locked account are refused before the password is looked at; a wrong
    * password counts a failure, a right one resets the counter.
    */
  function Authenticate(policy: Accounting.Policy, t: UserTable, username: string, password: string,
                        now: Instant, lockUntil: Instant, digest: string -> string): (r: Login)
    ensures GetByUsername(t, username).None? ==>
      r.result == Err(InvalidCredentials) && r.users == t && r.audit.None?
    ensures GetByUsername(t, username).Some? && !GetByUsername(t, username).value.active ==>
      r.result == Err(AccountDisabled) && r.users == t && r.audit.None?
    ensures GetByUsername(t, username).Some? && GetByUsername(t, username).value.active
            && Locked(policy, GetByUsername(t, username).value.lockedUntil, now) ==>
      r.result == Err(AccountLocked) && r.users == t && r.audit.None?
    ensures r.result.Ok? <==>
      GetByUsername(t, username).Some? && GetByUsername(t, username).value.active
      && !Locked(policy, GetByUsername(t, username).value.lockedUntil, now)
      && Security.VerifyPassword(password, GetByUsername(t, username).value.passwordHash,
                                 GetByUsername(t, username).value.salt, digest)
    ensures r.result == Err(InvalidCredentials) && GetByUsername(t, username).Some? ==>
      var u := GetByUsername(t, username).value;
      r.users == IncrementFailedAttempts(t, u.id, lockUntil)
      && r.audit == Some(Accounting.AuditEvent(Some(u.id), "LOGIN_FAILED", ""))
    ensures r.result.Ok? ==> var u := GetByUsername(t, username).value;
      r.result.value == UserData(u.id, u.username, u.email, u.role, u.companyId)
      && r.users == UpdateLastLogin(t, u.id, now)
      && r.audit == Some(Accounting.AuditEvent(Some(u.id), "LOGIN_SUCCESS", ""))
  {
    match GetByUsername(t, username)
    case None => Login(Err(InvalidCredentials), t, None)
    case Some(u) =>
      if !u.active then Login(Err(AccountDisabled), t, None)
      else if Locked(policy, u.lockedUntil, now) then Login(Err(AccountLocked), t, None)
      else if !Security.VerifyPassword(password, u.passwordHash, u.salt, digest) then
        Login(Err(InvalidCredentials), IncrementFailedAttempts(t, u.id, lockUntil),
              Some(Accounting.AuditEvent(Some(u.id), "LOGIN_FAILED", "")))
      else
        Login(Ok(UserData(u.id, u.username, u.email, u.role, u.companyId)), UpdateLastLogin(t, u.id, now),
              Some(Accounting.AuditEvent(Some(u.id), "LOGIN_SUCCESS", "")))
  }

  /** An unknown username and a wrong password cannot be told apart by the message. */
  lemma UnknownAndWrongPasswordAlike(policy: Accounting.Policy, t: UserTable, unknown: string, known: string,
                                     wrong: string, now: Instant, lockUntil: Instant, digest: string -> string)
    requires GetByUsername(t, unknown).None?
    requires GetByUsername(t, known).Some? && GetByUsername(t, known).value.active
    requires !Locked(policy, GetByUsername(t, known).value.lockedUntil, now)
    requires !Security.VerifyPassword(wrong, GetByUsername(t, known).value.passwordHash,
                                      GetByUsername(t, known).value.salt, digest)
    ensures var a := Authenticate(policy, t, unknown, wrong, now, lockUntil, digest).result;
            var b := Authenticate(policy, t, known, wrong, now, lockUntil, digest).result;
      a.Err? && b.Err? && LoginMessage(a.error) == LoginMessage(b.error) == "Invalid username or password"
  {
  }

  /** The lookup by username still finds the same row after a change that keeps every username. */
  lemma GetByUsernameAfterPatch(t: UserTable, after: UserTable, username: string, k: nat)
    requires |after.rows| == |t.rows|
    requires forall i :: 0 <= i < |t.rows| ==> after.rows[i].username == t.rows[i].username
    requires FirstIndex(t.rows, WithUsername(username)) == Some(k)
    ensures FirstIndex(after.rows, WithUsername(username)) == Some(k)
    ensures GetByUsername(after, username) == Some(after.rows[k])
  {
    FirstIndexSameMatches(t.rows, WithUsername(username), after.rows, WithUsername(username));
  }

  /** A texts-only fact: on one day the SQLite text sorts before the ISO text, whatever the times. */
  lemma SqliteBeforeIsoSameDay(now: Instant, lock: Instant)
    requires now.date == lock.date
    ensures !StrLt(IsoText(now), SqliteText(lock))
  {
    var d := DateText(now.date);
    var micro := if now.micro == 0 then "" else "." + ZeroPad(NatToString(now.micro), 6);
    assert SqliteText(lock) == d + [' '] + ClockText(lock);
    assert IsoText(now) == d + ['T'] + (ClockText(now) + micro);
    StrLtAtFirstDifference(d, ' ', 'T', ClockText(lock), ClockText(now) + micro);
    if StrLt(IsoText(now), SqliteText(lock)) {
      StrLeAntisymmetric(IsoText(now), SqliteText(lock));
    }
  }

  /**
    * The fifth wrong password stamps a lock until later that day; as
    * written, the right password at any moment of that day before the lock
    * ends is still let in.
    */
  lemma SameDayLockIgnored(t: UserTable, username: string, password: string, wrong: string,
                           failedAt: Instant, lockUntil: Instant, retryAt: Instant, digest: string -> string)
    requires GetByUsername(t, username).Some?
    requires var u := GetByUsername(t, username).value;
      u.active && u.failedAttempts == LockThreshold && u.lockedUntil.None?
      && Security.VerifyPassword(password, u.passwordHash, u.salt, digest)
      && !Security.VerifyPassword(wrong, u.passwordHash, u.salt, digest)
    requires retryAt.date == lockUntil.date && InstantLt(retryAt, lockUntil)
    ensures var first := Authenticate(Accounting.AsWritten, t, username, wrong, failedAt, lockUntil, digest);
      first.result == Err(InvalidCredentials)
      && GetByUsername(first.users, username).value.lockedUntil == Some(lockUntil)
      && Authenticate(Accounting.AsWritten, first.users, username, password, retryAt, lockUntil, digest).result.Ok?
  {
    var u := GetByUsername(t, username).value;
    var k := FirstIndex(t.rows, WithUsername(username)).value;
    var after := IncrementFailedAttempts(t, u.id, lockUntil);
    GetByUsernameAfterPatch(t, after, username, k);
    SqliteBeforeIsoSameDay(retryAt, lockUntil);
  }

  /** Corrected, the same retry is refused as locked, right password or not. */
  lemma FifthFailureLocksOut(t: UserTable, username: string, password: string, wrong: string,
                             failedAt: Instant, lockUntil: Instant, retryAt: Instant, digest: string -> string)
    requires GetByUsername(t, username).Some?
    requires var u := GetByUsername(t, username).value;
      u.active && u.failedAttempts == LockThreshold && !Locked(Accounting.Corrected, u.lockedUntil, failedAt)
      && !Security.VerifyPassword(wrong, u.passwordHash, u.salt, digest)
    requires InstantLt(retryAt, lockUntil)
    ensures var first := Authenticate(Accounting.Corrected, t, username, wrong, failedAt, lockUntil, digest);
      first.result == Err(InvalidCredentials)
      && Authenticate(Accounting.Corrected, first.users, username, password, retryAt, lockUntil, digest).result
         == Err(AccountLocked)
  {
    var u := GetByUsername(t, username).value;
    var k := FirstIndex(t.rows, WithUsername(username)).value;
    var after := IncrementFailedAttempts(t, u.id, lockUntil);
    GetByUsernameAfterPatch(t, after, username, k);
  }

  // ===== update_user / delete_user =====

  datatype UpdateRequest = UpdateRequest(
    username: Option<string>,
    email: Option<string>,
    role: Option<string>,
    companyId: Option<string>,
    active: Option<bool>)

  function PatchOf(q: UpdateRequest): UserPatch {
    UserPatch(q.username, q.email, q.role, q.companyId, q.active)
  }

  /** `requester_role == 'admin'`; a missing role is any other text. */
  predicate IsAdmin(requesterRole: string) {
    requesterRole == "admin"
  }

  /** Every field given passes its check: format, not in use by another user, admin-only fields by an admin. */
  predicate FieldsAllowed(t: UserTable, userId: nat, q: UpdateRequest, requesterRole: string, emailOk: string -> bool) {
    (q.username.Some? ==> ValidateUsername(q.username.value) && !UsernameHeld(t.rows, q.username.value, userId))
    && (q.email.Some? ==> emailOk(q.email.value) && !EmailHeld(t.rows, q.email.value, userId))
    && (q.role.Some? ==> IsAdmin(requesterRole) && IsRole(q.role.value))
    && (q.active.Some? ==> IsAdmin(requesterRole))
  }

  /** The checks `update_user` runs on the fields given, in order; the first failure's message. */
  function UpdateFieldsCheck(t: UserTable, userId: nat, q: UpdateRequest, requesterRole: string,
                             emailOk: string -> bool): (r: Option<string>)
    ensures r.None? <==> FieldsAllowed(t, userId, q, requesterRole, emailOk)
    ensures r.Some? ==> r.value != "Failed to update user"
  {
    if q.username.Some? && !ValidateUsername(q.username.value) then Some("Invalid username format")
    else if q.username.Some? && !IsUsernameAvailable(t, q.username.value, userId) then Some("Username already exists")
    else if q.email.Some? && !emailOk(q.email.value) then Some("Invalid email format")
    else if q.email.Some? && !IsEmailAvailable(t, q.email.value, userId) then Some("Email already exists")
    else if q.role.Some? && !IsAdmin(requesterRole) then Some("Only admins can change user roles")
    else if q.role.Some? && !IsRole(q.role.value) then Some("Invalid role")
    else if q.active.Some? && !IsAdmin(requesterRole) then Some("Only admins can activate/deactivate users")
    else None
  }

  datatype UserChanged = UserChanged(users: UserTable, audit: Accounting.AuditEvent)

  /**
    * `update_user`: the target must be an active user; a non-admin may only
    * change their own record, and never the role or the active flag.
    */
  function UpdateUser(t: UserTable, userId: nat, q: UpdateRequest, updatedBy: Option<nat>, requesterRole: string,
                      emailOk: string -> bool): (r: Result<UserChanged, string>)
    ensures GetById(t, userId).None? ==> r == Err("User not found")
    ensures GetById(t, userId).Some? && !IsAdmin(requesterRole) && updatedBy != Some(userId) ==>
      r == Err("Permission denied")
    ensures r.Ok? ==> GetById(t, userId).Some? && (IsAdmin(requesterRole) || updatedBy == Some(userId))
    ensures (q.role.Some? || q.active.Some?) && !IsAdmin(requesterRole) ==> r.Err?
    ensures r.Ok? && q.role.Some? ==> IsRole(q.role.value)
    ensures (GetById(t, userId).Some? && (IsAdmin(requesterRole) || updatedBy == Some(userId))
             && PatchOf(q).IsEmpty()) ==> r == Err("No valid updates provided")
    ensures r != Err("Failed to update user")
    ensures r.Ok? <==> (GetById(t, userId).Some? && (IsAdmin(requesterRole) || updatedBy == Some(userId))
                        && FieldsAllowed(t, userId, q, requesterRole, emailOk) && !PatchOf(q).IsEmpty())
    ensures r.Ok? ==> (Update(t, userId, PatchOf(q)) == Some(r.value.users)
                       && r.value.audit == Accounting.AuditEvent(updatedBy, "UPDATE_USER", NatToString(userId)))
  {
    if GetById(t, userId).None? then Err("User not found")
    else if !IsAdmin(requesterRole) && updatedBy != Some(userId) then Err("Permission denied")
    else
      match UpdateFieldsCheck(t, userId, q, requesterRole, emailOk)
      case Some(message) => Err(message)
      case None =>
        var p := PatchOf(q);
        if p.IsEmpty() then Err("No valid updates provided")
        else
          assert !Collides(t.rows, userId, p) by {
            if p.username.Some? {
              assert !UsernameHeld(t.rows, p.username.value, userId);
            }
            if p.email.Some? {
              assert !EmailHeld(t.rows, p.email.value, userId);
            }
          }
          match Update(t, userId, p)
          case None => Err("Failed to update user")
          case Some(users) => Ok(UserChanged(users, Accounting.AuditEvent(updatedBy, "UPDATE_USER", NatToString(userId))))
  }

  /**
    * `delete_user`: admins only, an active target, never oneself; the row
    * is only marked inactive.
    */
  function DeleteUser(t: UserTable, userId: nat, deletedBy: Option<nat>, requesterRole: string): (r: Result<UserChanged, string>)
    ensures !IsAdmin(requesterRole) ==> r == Err("Only admins can delete users")
    ensures IsAdmin(requesterRole) && GetById(t, userId).None? ==> r == Err("User not found")
    ensures IsAdmin(requesterRole) && GetById(t, userId).Some? && deletedBy == Some(userId) ==>
      r == Err("Cannot delete your own account")
    ensures r.Ok? <==> IsAdmin(requesterRole) && GetById(t, userId).Some? && deletedBy != Some(userId)
    ensures r.Ok? ==> (r.value.users == SoftDelete(t, userId) && GetById(r.value.users, userId).None?
                       && r.value.audit == Accounting.AuditEvent(deletedBy, "DELETE_USER", NatToString(userId)))
  {
    if !IsAdmin(requesterRole) then Err("Only admins can delete users")
    else if GetById(t, userId).None? then Err("User not found")
    else if Some(userId) == deletedBy then Err("Cannot delete your own account")
    else
      var users := SoftDelete(t, userId);
      SoftDeleteHides(t, userId, userId + 1);
      Ok(UserChanged(users, Accounting.AuditEvent(deletedBy, "DELETE_USER", NatToString(userId))))
  }
}

=== FILE: vouchers.dfy ===
/**
  * The voucher service (`VoucherService`): a second way of creating a
  * Voucher Payable or a Check Voucher over the same four tables, with its
  * own `{type}-{year}-{seq:03d}` numbering. It is the only code that settles
  * a VP: a CV written against a VP number sets that header's status to
  * `paid`.
  *
  * Unlike the accounting service it checks no account, rounds nothing, and
  * writes each voucher on one connection, so a failed insert leaves nothing
  * behind. The current date is a parameter (`today`); the number's year is
  * `today.year`.
  *
  * The generator reads the text-largest number of the year, which repeats a
  * number once the sequence passes 999 (see `Numbering.TextOrderRepeatsNumber`);
  * `Corrected` draws the numeric maximum instead.
  */
module Vouchers {
  import opened Wrappers
  import opened Tables
  import opened Dates
  import opened Books
  import opened Numbering
  import LedgerHeaders
  import EntryLines
  import SubLines
  import Accounting

  /** Why a call failed. */
  datatype Failure =
    | FieldsRequired
    | LineItemRequired
    | ItemsTotalMismatch(itemsTotal: int, total: int)
    | PayableNotFound(vpNumber: string)
    | VoucherStoreFailed
    | CheckStoreFailed

  /** The SQLite error text of a second row with a stored number. */
  const UniqueNumberViolation := "UNIQUE constraint failed: ledger.number"

  /** The message returned for a failure; `decimal` renders an amount the way `str(Decimal)` does. */
  function Message(f: Failure, decimal: int -> string): string {
    match f
    case FieldsRequired => "Payee code, payee name, and amount are required"
    case LineItemRequired => "At least one line item is required"
    case ItemsTotalMismatch(items, total) =>
      "Line items total (" + decimal(items) + ") must equal voucher total (" + decimal(total) + ")"
    case PayableNotFound(vp) => "Voucher Payable " + vp + " not found"
    case VoucherStoreFailed => "Error creating voucher: " + UniqueNumberViolation
    case CheckStoreFailed => "Error creating check voucher: " + UniqueNumberViolation
  }

  /** What a successful creation returns; only a VP emits an audit event. */
  datatype Created = Created(db: Db, number: string, message: string, audit: Option<Accounting.AuditEvent>)

  // ----- numbers -----

  /** The number a new voucher is given: the generator as written, or the corrected numeric maximum. */
  function NextVoucherNumber(policy: Accounting.Policy, headers: seq<Header>, kind: Kind, year: nat): (n: string)
    ensures n != ""
    ensures policy == Accounting.AsWritten ==> n == VoucherGenerate(headers, kind, year)
    ensures policy == Accounting.Corrected ==> !NumberTaken(headers, n)
  {
    match policy
    case AsWritten => VoucherGenerate(headers, kind, year)
    case Corrected =>
      CorrectedVoucherNumberFresh(headers, kind, year);
      assert forall i :: 0 <= i < |headers| ==> headers[i] in headers;
      CorrectedVoucherNumber(headers, kind, year)
  }

  // ----- Voucher Payable -----

  datatype SubItem = SubItem(code: string, description: string, amount: int)

  /** One line item: an expense account debited with `amount`, and its optional subsidiary breakdown. */
  datatype LineItem = LineItem(acctCode: string, acctDescription: string, amount: int, subcodes: seq<SubItem>)

  /**
    * The arguments of `create_voucher_payable`. An empty code or name, and a
    * zero total, are ones that were not given (Python falsy).
    */
  datatype PayableRequest = PayableRequest(
    payeeCode: string,
    payee: string,
    total: int,
    description: Option<string>,
    dueDate: Option<Date>,
    items: seq<LineItem>,
    createdBy: Option<nat>)

  function ItemAmount(i: LineItem): int {
    i.amount
  }

  /** The exact sum of the item amounts: no rounding and no tolerance. */
  function ItemsTotal(items: seq<LineItem>): int {
    SumOf(items, ItemAmount)
  }

  predicate PayableFieldsMissing(q: PayableRequest) {
    q.payeeCode == "" || q.payee == "" || q.total == 0
  }

  function PayableDraft(q: PayableRequest, date: Date): LedgerHeaders.Draft {
    LedgerHeaders.Draft(VP, date, q.payeeCode, q.payee, q.total, q.description, q.dueDate, q.createdBy)
  }

  /** One debit line per item, in item order. */
  function DebitInputs(number: string, date: Date, items: seq<LineItem>): (r: seq<EntryLines.LineInput>)
    ensures |r| == |items|
    ensures forall i :: 0 <= i < |items| ==>
      r[i] == EntryLines.LineInput(VP, number, date, items[i].acctCode, items[i].acctDescription, items[i].amount, "D")
  {
    seq(|items|, i requires 0 <= i < |items| =>
      EntryLines.LineInput(VP, number, date, items[i].acctCode, items[i].acctDescription, items[i].amount, "D"))
  }

  /** The credit line on the payee for the total, then the item debits. */
  function PayableEntries(q: PayableRequest, number: string, date: Date): seq<EntryLines.LineInput> {
    [EntryLines.LineInput(VP, number, date, q.payeeCode, q.payee, q.total, "C")] + DebitInputs(number, date, q.items)
  }

  function SubsOfItem(number: string, date: Date, item: LineItem): (r: seq<SubLines.SubInput>)
    ensures |r| == |item.subcodes|
    ensures forall k :: 0 <= k < |r| ==> r[k].acctCode == item.acctCode && r[k].amount == item.subcodes[k].amount
  {
    seq(|item.subcodes|, k requires 0 <= k < |item.subcodes| =>
      SubLines.SubInput(VP, number, date, item.acctCode, item.acctDescription,
                        item.subcodes[k].code, item.subcodes[k].description, item.subcodes[k].amount))
  }

  /** The subsidiary lines of every item, item by item. */
  function ItemSubs(number: string, date: Date, items: seq<LineItem>): (r: seq<SubLines.SubInput>)
    ensures forall s :: s in r ==> s.kind == VP && s.number == number && s.date == date
    ensures forall s :: s in r ==> exists i :: 0 <= i < |items| && s.acctCode == items[i].acctCode
    decreases |items|
  {
    if |items| == 0 then []
    else
      var n := |items| - 1;
      var front := ItemSubs(number, date, items[..n]);
      var last := SubsOfItem(number, date, items[n]);
      assert forall s :: s in front ==> exists i :: 0 <= i < |items| && s.acctCode == items[i].acctCode by {
        forall s | s in front
          ensures exists i :: 0 <= i < |items| && s.acctCode == items[i].acctCode
        {
          var i :| 0 <= i < n && s.acctCode == items[..n][i].acctCode;
          assert items[..n][i] == items[i];
        }
      }
      front + last
  }

  /** The item debits net against the payee credit: the signed sum is the item total less the voucher total. */
  lemma PayableEntriesNet(q: PayableRequest, number: string, date: Date)
    ensures SumOf(PayableEntries(q, number, date), EntryLines.InputSigned) == ItemsTotal(q.items) - q.total
    ensures forall i :: 0 <= i < |PayableEntries(q, number, date)| ==>
      PayableEntries(q, number, date)[i].date == date && EntryLines.ValidSide(PayableEntries(q, number, date)[i])
  {
    var credit := EntryLines.LineInput(VP, number, date, q.payeeCode, q.payee, q.total, "C");
    SumOfAppend([credit], DebitInputs(number, date, q.items), EntryLines.InputSigned);
    SumOfSingle(credit, EntryLines.InputSigned);
    DebitInputsSigned(number, date, q.items);
  }

  lemma {:induction false} DebitInputsSigned(number: string, date: Date, items: seq<LineItem>)
    ensures SumOf(DebitInputs(number, date, items), EntryLines.InputSigned) == ItemsTotal(items)
    decreases |items|
  {
    if |items| > 0 {
      var n := |items| - 1;
      assert DebitInputs(number, date, items)[..n] == DebitInputs(number, date, items[..n]);
      DebitInputsSigned(number, date, items[..n]);
    }
  }

  /** The storing half of `create_voucher_payable`: header, credit, debits and subsidiary lines, or nothing. */
  function PostPayable(db: Db, q: PayableRequest, number: string, date: Date): (r: Result<Created, Failure>)
    requires number != ""
    ensures r.Ok? <==> !NumberTaken(db.headers, number)
    ensures r.Err? ==> r.error == VoucherStoreFailed
    ensures r.Ok? ==> r.value.number == number
    ensures r.Ok? ==> r.value.db.headers == db.headers + [LedgerHeaders.HeaderOf(db.nextHeaderId, PayableDraft(q, date), number)]
    ensures r.Ok? ==> Accounting.LinesAppended(db.lines, r.value.db.lines, PayableEntries(q, number, date))
    ensures r.Ok? ==> Accounting.SubsAppended(db.subs, r.value.db.subs, ItemSubs(number, date, q.items))
    ensures r.Ok? ==> r.value.db.accounts == db.accounts
  {
    PayableEntriesNet(q, number, date);
    match Accounting.Post(db, PayableDraft(q, date), number, PayableEntries(q, number, date), false, ItemSubs(number, date, q.items))
    case Err(_) => Err(VoucherStoreFailed)
    case Ok(after) =>
      Ok(Created(after, number, "Voucher Payable created successfully",
                 Some(Accounting.AuditEvent(q.createdBy, "CREATE_VOUCHER_PAYABLE", number))))
  }

  /**
    * `create_voucher_payable`: code, name and total are required, at least
    * one item is required, and the items must sum exactly to the total; then
    * the voucher is written under the generated number, dated `today`.
    */
  function CreateVoucherPayable(policy: Accounting.Policy, db: Db, q: PayableRequest, today: Date): (r: Result<Created, Failure>)
    ensures r == Err(FieldsRequired) <==> PayableFieldsMissing(q)
    ensures r == Err(LineItemRequired) <==> !PayableFieldsMissing(q) && |q.items| == 0
    ensures r == Err(ItemsTotalMismatch(ItemsTotal(q.items), q.total)) <==>
      !PayableFieldsMissing(q) && |q.items| > 0 && ItemsTotal(q.items) != q.total
    ensures r == Err(VoucherStoreFailed) <==>
      && !PayableFieldsMissing(q) && |q.items| > 0 && ItemsTotal(q.items) == q.total
      && NumberTaken(db.headers, NextVoucherNumber(policy, db.headers, VP, today.year))
    ensures policy == Accounting.Corrected ==> r != Err(VoucherStoreFailed)
    ensures r.Ok? ==> && r.value.number == NextVoucherNumber(policy, db.headers, VP, today.year)
                      && r.value.message == "Voucher Payable created successfully"
                      && r.value.audit == Some(Accounting.AuditEvent(q.createdBy, "CREATE_VOUCHER_PAYABLE", r.value.number))
  {
    var number := NextVoucherNumber(policy, db.headers, VP, today.year);
    if PayableFieldsMissing(q) then Err(FieldsRequired)
    else if |q.items| == 0 then Err(LineItemRequired)
    else if ItemsTotal(q.items) != q.total then Err(ItemsTotalMismatch(ItemsTotal(q.items), q.total))
    else PostPayable(db, q, number, today)
  }

  /** Past the checks, creation is the storing half under the generated number and today's date. */
  lemma PayableIsPost(policy: Accounting.Policy, db: Db, q: PayableRequest, today: Date)
    requires CreateVoucherPayable(policy, db, q, today).Ok?
    ensures CreateVoucherPayable(policy, db, q, today) == PostPayable(db, q, NextVoucherNumber(policy, db.headers, VP, today.year), today)
  {
  }

  /**
    * What a successful VP stores: an `active` VP header dated today for the
    * total, one credit on the payee for the total and one debit per item,
    * the items' subsidiary lines, and no change to the accounts.
    */
  lemma PayableStored(policy: Accounting.Policy, db: Db, q: PayableRequest, today: Date)
    requires CreateVoucherPayable(policy, db, q, today).Ok?
    ensures var r := CreateVoucherPayable(policy, db, q, today).value;
      && r.db.headers == db.headers + [LedgerHeaders.HeaderOf(db.nextHeaderId, PayableDraft(q, today), r.number)]
      && Accounting.LinesAppended(db.lines, r.db.lines, PayableEntries(q, r.number, today))
      && Accounting.SubsAppended(db.subs, r.db.subs, ItemSubs(r.number, today, q.items))
      && r.db.accounts == db.accounts
  {
    PayableIsPost(policy, db, q, today);
  }

  /**
    * `after` is `before` followed by a credit on the payee for the total and
    * then one debit per item, with the item's account and amount.
    */
  predicate PayableLinesShape(before: seq<EntryLine>, after: seq<EntryLine>, q: PayableRequest) {
    && |after| == |before| + 1 + |q.items| && after[..|before|] == before
    && after[|before|].side == Credit && after[|before|].acctCode == q.payeeCode && after[|before|].amount == q.total
    && forall i :: 0 <= i < |q.items| ==> ItemDebited(after[|before| + 1 + i], q.items[i])
  }

  predicate ItemDebited(l: EntryLine, item: LineItem) {
    l.side == Debit && l.acctCode == item.acctCode && l.acctDescription == item.acctDescription && l.amount == item.amount
  }

  /** The stored lines of a new VP: the payee credit for the total, then one debit per item. */
  lemma PayableLines(policy: Accounting.Policy, db: Db, q: PayableRequest, today: Date)
    requires CreateVoucherPayable(policy, db, q, today).Ok?
    ensures PayableLinesShape(db.lines, CreateVoucherPayable(policy, db, q, today).value.db.lines, q)
  {
    var r := CreateVoucherPayable(policy, db, q, today).value;
    PayableStored(policy, db, q, today);
    AppendedPayableLines(db.lines, r.db.lines, q, r.number, today);
  }

  lemma AppendedPayableLines(before: seq<EntryLine>, after: seq<EntryLine>, q: PayableRequest, number: string, date: Date)
    requires Accounting.LinesAppended(before, after, PayableEntries(q, number, date))
    ensures PayableLinesShape(before, after, q)
  {
    var entries := PayableEntries(q, number, date);
    assert EntryLines.Inserted(after[|before| + 0], entries[0]);
    forall i | 0 <= i < |q.items|
      ensures ItemDebited(after[|before| + 1 + i], q.items[i])
    {
      var j := 1 + i;
      assert entries[j] == DebitInputs(number, date, q.items)[i];
      assert EntryLines.Inserted(after[|before| + j], entries[j]);
    }
  }

  /** Creating a VP keeps balanced books balanced: the exact item sum makes its lines net to zero. */
  lemma PayableKeepsBalanced(policy: Accounting.Policy, db: Db, q: PayableRequest, today: Date)
    requires Accounting.Balanced(db) && CreateVoucherPayable(policy, db, q, today).Ok?
    ensures Accounting.Balanced(CreateVoucherPayable(policy, db, q, today).value.db)
  {
    var r := CreateVoucherPayable(policy, db, q, today).value;
    PayableStored(policy, db, q, today);
    PayableEntriesNet(q, r.number, today);
    Accounting.PostKeepsBalanced(db, r.db, PayableEntries(q, r.number, today), today);
  }

  /** A valid one-item VP for 1.0000 to `VEND001`. */
  function OneItemRequest(): (q: PayableRequest)
    ensures !PayableFieldsMissing(q) && |q.items| == 1
  {
    PayableRequest("VEND001", "Office Supply Co.", 10000, None, None, [LineItem("5000", "General Expense", 10000, [])], None)
  }

  /**
    * As written, once `VP-2025-999` and `VP-2025-1000` are stored, a perfectly
    * valid VP in 2025 is refused: the generator proposes `VP-2025-1000` again.
    */
  lemma PayableRefusedAfterNumber999(db: Db)
    requires db.headers == [SampleVoucher(1, VoucherNumber(VP, 2025, 999)), SampleVoucher(2, VoucherNumber(VP, 2025, 1000))]
    ensures CreateVoucherPayable(Accounting.AsWritten, db, OneItemRequest(), Date(2025, 6, 1)) == Err(VoucherStoreFailed)
  {
    var q := OneItemRequest();
    assert ItemsTotal(q.items) == q.total by {
      SumOfSingle(q.items[0], ItemAmount);
    }
    TextOrderRepeatsNumber();
    assert db.headers[1].number == NextVoucherNumber(Accounting.AsWritten, db.headers, VP, 2025);
  }

  // ----- Check Voucher -----

  /**
    * The arguments of `create_check_voucher`. An empty string and a zero
    * amount are ones that were not given; `checkNumber` is `None` when not
    * given, and `checkDate` is accepted but never used.
    */
  datatype CheckRequest = CheckRequest(
    vpNumber: string,
    payeeCode: string,
    payee: string,
    amount: int,
    checkNumber: Option<string>,
    bankAccount: string,
    checkDate: Option<Date>,
    createdBy: Option<nat>)

  /** Who is paid and how much, once the VP reference has been resolved. */
  datatype Party = Party(payeeCode: string, payee: string, amount: int)

  /**
    * With a VP number, the payee comes from the header of that number (of any
    * type and status) and a missing amount defaults to its total; without
    * one, the arguments are used as given.
    */
  function ResolveParty(db: Db, q: CheckRequest): (r: Result<Party, Failure>)
    ensures r.Err? <==> q.vpNumber != "" && !NumberTaken(db.headers, q.vpNumber)
    ensures r.Err? ==> r.error == PayableNotFound(q.vpNumber)
    ensures r.Ok? && q.vpNumber == "" ==> r.value == Party(q.payeeCode, q.payee, q.amount)
    ensures r.Ok? && q.vpNumber != "" ==>
      exists h :: h in db.headers && h.number == q.vpNumber
        && r.value == Party(h.payeeCode, h.payee, if q.amount != 0 then q.amount else h.total)
  {
    if q.vpNumber == "" then Ok(Party(q.payeeCode, q.payee, q.amount))
    else match LedgerHeaders.GetByNumber(db, q.vpNumber)
      case None => Err(PayableNotFound(q.vpNumber))
      case Some(h) => Ok(Party(h.payeeCode, h.payee, if q.amount != 0 then q.amount else h.total))
  }

  predicate PartyMissing(p: Party) {
    p.payeeCode == "" || p.payee == "" || p.amount == 0
  }

  /** `str(check_number)`: a missing check number prints as `None`. */
  function CheckNumberText(c: Option<string>): string {
    match c
    case None => "None"
    case Some(s) => s
  }

  function CheckDraft(p: Party, date: Date, createdBy: Option<nat>): LedgerHeaders.Draft {
    LedgerHeaders.Draft(CV, date, p.payeeCode, p.payee, p.amount, Some("Check payment to " + p.payee), None, createdBy)
  }

  /** Debit the payee, credit the bank (`1010` unless given), both for the paid amount. */
  function CheckEntries(p: Party, q: CheckRequest, number: string, date: Date): seq<EntryLines.LineInput> {
    [ EntryLines.LineInput(CV, number, date, p.payeeCode, p.payee, p.amount, "D"),
      EntryLines.LineInput(CV, number, date, Accounting.BankCode(q.bankAccount),
                           "Bank Payment - Check #" + CheckNumberText(q.checkNumber), p.amount, "C") ]
  }

  lemma CheckEntriesNet(p: Party, q: CheckRequest, number: string, date: Date)
    ensures SumOf(CheckEntries(p, q, number, date), EntryLines.InputSigned) == 0
    ensures forall i :: 0 <= i < |CheckEntries(p, q, number, date)| ==>
      CheckEntries(p, q, number, date)[i].date == date && EntryLines.ValidSide(CheckEntries(p, q, number, date)[i])
  {
    var c := CheckEntries(p, q, number, date);
    assert c == [c[0]] + [c[1]];
    SumOfAppend([c[0]], [c[1]], EntryLines.InputSigned);
    SumOfSingle(c[0], EntryLines.InputSigned);
    SumOfSingle(c[1], EntryLines.InputSigned);
  }

  /** `UPDATE ledger SET status = 'paid' WHERE number = ?`: every header of that number, whatever its type or status. */
  function Settle(headers: seq<Header>, vpNumber: string): (r: seq<Header>)
    ensures |r| == |headers|
    ensures forall i :: 0 <= i < |headers| ==>
      r[i] == if headers[i].number == vpNumber then headers[i].(status := Paid) else headers[i]
  {
    PatchWhere(headers, (h: Header) => h.number == vpNumber, (h: Header) => h.(status := Paid))
  }

  /** The storing half of `create_check_voucher`: header and the two lines, then the settlement of the VP. */
  function PostCheck(db: Db, p: Party, q: CheckRequest, number: string, date: Date): (r: Result<Created, Failure>)
    requires number != ""
    ensures r.Ok? <==> !NumberTaken(db.headers, number)
    ensures r.Err? ==> r.error == CheckStoreFailed
    ensures r.Ok? ==> r.value.number == number
    ensures r.Ok? ==>
      (var added := db.headers + [LedgerHeaders.HeaderOf(db.nextHeaderId, CheckDraft(p, date, q.createdBy), number)];
       r.value.db.headers == if q.vpNumber != "" then Settle(added, q.vpNumber) else added)
    ensures r.Ok? ==> Accounting.LinesAppended(db.lines, r.value.db.lines, CheckEntries(p, q, number, date))
    ensures r.Ok? ==> r.value.db.subs == db.subs && r.value.db.accounts == db.accounts
  {
    CheckEntriesNet(p, q, number, date);
    match Accounting.Post(db, CheckDraft(p, date, q.createdBy), number, CheckEntries(p, q, number, date), false, [])
    case Err(_) => Err(CheckStoreFailed)
    case Ok(after) =>
      assert after.subs == db.subs;
      var settled := if q.vpNumber != "" then after.(headers := Settle(after.headers, q.vpNumber)) else after;
      Ok(Created(settled, number, "Check Voucher created successfully", None))
  }

  /**
    * `create_check_voucher`: a VP number, when given, must be stored; the
    * resolved code, name and amount are required; then the CV is written
    * under the generated number, dated `today`, and the VP is settled.
    */
  function CreateCheckVoucher(policy: Accounting.Policy, db: Db, q: CheckRequest, today: Date): (r: Result<Created, Failure>)
    ensures r == Err(PayableNotFound(q.vpNumber)) <==> q.vpNumber != "" && !NumberTaken(db.headers, q.vpNumber)
    ensures r == Err(FieldsRequired) <==> ResolveParty(db, q).Ok? && PartyMissing(ResolveParty(db, q).value)
    ensures r == Err(CheckStoreFailed) <==>
      && ResolveParty(db, q).Ok? && !PartyMissing(ResolveParty(db, q).value)
      && NumberTaken(db.headers, NextVoucherNumber(policy, db.headers, CV, today.year))
    ensures policy == Accounting.Corrected ==> r != Err(CheckStoreFailed)
    ensures r.Ok? ==> && r.value.number == NextVoucherNumber(policy, db.headers, CV, today.year)
                      && r.value.message == "Check Voucher created successfully"
                      && r.value.audit.None?
  {
    var number := NextVoucherNumber(policy, db.headers, CV, today.year);
    match ResolveParty(db, q)
    case Err(f) => Err(f)
    case Ok(p) =>
      if PartyMissing(p) then Err(FieldsRequired)
      else PostCheck(db, p, q, number, today)
  }

  lemma CheckIsPost(policy: Accounting.Policy, db: Db, q: CheckRequest, today: Date)
    requires CreateCheckVoucher(policy, db, q, today).Ok?
    ensures ResolveParty(db, q).Ok?
    ensures CreateCheckVoucher(policy, db, q, today)
      == PostCheck(db, ResolveParty(db, q).value, q, NextVoucherNumber(policy, db.headers, CV, today.year), today)
  {
  }

  /**
    * The headers after a successful CV: each stored header keeps its place,
    * and the one named by the VP number becomes `paid` whatever its type,
    * status or total (a `void` VP is revived, a partial payment settles in
    * full); the new `active` CV header comes last.
    */
  lemma CheckSettles(policy: Accounting.Policy, db: Db, q: CheckRequest, today: Date)
    requires CreateCheckVoucher(policy, db, q, today).Ok?
    ensures var r := CreateCheckVoucher(policy, db, q, today).value;
      && |r.db.headers| == |db.headers| + 1
      && (forall i :: 0 <= i < |db.headers| ==>
            r.db.headers[i] == if q.vpNumber != "" && db.headers[i].number == q.vpNumber
                               then db.headers[i].(status := Paid) else db.headers[i])
      && r.db.headers[|db.headers|].number == r.number
      && r.db.headers[|db.headers|].kind == CV
      && r.db.headers[|db.headers|].status == Active
  {
    CheckIsPost(policy, db, q, today);
    PostCheckSettles(db, ResolveParty(db, q).value, q, NextVoucherNumber(policy, db.headers, CV, today.year), today);
  }

  lemma PostCheckSettles(db: Db, p: Party, q: CheckRequest, number: string, date: Date)
    requires number != "" && PostCheck(db, p, q, number, date).Ok?
    requires q.vpNumber != "" ==> NumberTaken(db.headers, q.vpNumber)
    ensures var r := PostCheck(db, p, q, number, date).value;
      && |r.db.headers| == |db.headers| + 1
      && (forall i :: 0 <= i < |db.headers| ==>
            r.db.headers[i] == if q.vpNumber != "" && db.headers[i].number == q.vpNumber
                               then db.headers[i].(status := Paid) else db.headers[i])
      && r.db.headers[|db.headers|].number == r.number
      && r.db.headers[|db.headers|].kind == CV
      && r.db.headers[|db.headers|].status == Active
  {
    var h := LedgerHeaders.HeaderOf(db.nextHeaderId, CheckDraft(p, date, q.createdBy), number);
    SettleAppended(db.headers, h, q.vpNumber);
  }

  /**
    * Settling a stored VP number after appending a header under another
    * number leaves the appended header alone.
    */
  lemma SettleAppended(headers: seq<Header>, h: Header, vpNumber: string)
    requires vpNumber != "" ==> NumberTaken(headers, vpNumber) && !NumberTaken(headers, h.number)
    ensures var r := if vpNumber != "" then Settle(headers + [h], vpNumber) else headers + [h];
      && |r| == |headers| + 1 && r[|headers|] == h
      && forall i :: 0 <= i < |headers| ==>
           r[i] == if vpNumber != "" && headers[i].number == vpNumber then headers[i].(status := Paid) else headers[i]
  {
    var added := headers + [h];
    if vpNumber != "" {
      var j :| 0 <= j < |headers| && headers[j].number == vpNumber;
      assert h.number != vpNumber;
      assert added[|headers|] == h;
      assert forall i :: 0 <= i < |headers| ==> added[i] == headers[i];
    }
  }

  /** The lines of a new CV: a debit on the payee and a credit on the bank for the same amount. */
  lemma CheckLines(policy: Accounting.Policy, db: Db, q: CheckRequest, today: Date)
    requires CreateCheckVoucher(policy, db, q, today).Ok?
    ensures var r := CreateCheckVoucher(policy, db, q, today).value;
      var p := ResolveParty(db, q).value;
      && |r.db.lines| == |db.lines| + 2 && r.db.lines[..|db.lines|] == db.lines
      && r.db.lines[|db.lines|].side == Debit && r.db.lines[|db.lines|].acctCode == p.payeeCode
      && r.db.lines[|db.lines| + 1].side == Credit && r.db.lines[|db.lines| + 1].acctCode == Accounting.BankCode(q.bankAccount)
      && r.db.lines[|db.lines| + 1].acctDescription == "Bank Payment - Check #" + CheckNumberText(q.checkNumber)
      && r.db.lines[|db.lines|].amount == r.db.lines[|db.lines| + 1].amount == p.amount
      && r.db.subs == db.subs
  {
    var r := CreateCheckVoucher(policy, db, q, today).value;
    CheckIsPost(policy, db, q, today);
    var entries := CheckEntries(ResolveParty(db, q).value, q, r.number, today);
    assert EntryLines.Inserted(r.db.lines[|db.lines| + 0], entries[0]);
    assert EntryLines.Inserted(r.db.lines[|db.lines| + 1], entries[1]);
  }

  /** Creating a CV keeps balanced books balanced; the status change touches no line. */
  lemma CheckKeepsBalanced(policy: Accounting.Policy, db: Db, q: CheckRequest, today: Date)
    requires Accounting.Balanced(db) && CreateCheckVoucher(policy, db, q, today).Ok?
    ensures Accounting.Balanced(CreateCheckVoucher(policy, db, q, today).value.db)
  {
    var r := CreateCheckVoucher(policy, db, q, today).value;
    CheckIsPost(policy, db, q, today);
    var p := ResolveParty(db, q).value;
    CheckEntriesNet(p, q, r.number, today);
    Accounting.PostKeepsBalanced(db, r.db, CheckEntries(p, q, r.number, today), today);
  }

  /** The check date argument changes nothing: the CV is always dated `today`. */
  lemma CheckDateIgnored(policy: Accounting.Policy, db: Db, q: CheckRequest, today: Date, d: Option<Date>)
    ensures CreateCheckVoucher(policy, db, q.(checkDate := d), today) == CreateCheckVoucher(policy, db, q, today)
  {
    var q' := q.(checkDate := d);
    assert ResolveParty(db, q') == ResolveParty(db, q);
    if ResolveParty(db, q).Ok? {
      PostCheckIgnoresDate(db, ResolveParty(db, q).value, q, NextVoucherNumber(policy, db.headers, CV, today.year), today, d);
    }
  }

  lemma PostCheckIgnoresDate(db: Db, p: Party, q: CheckRequest, number: string, date: Date, d: Option<Date>)
    requires number != ""
    ensures PostCheck(db, p, q.(checkDate := d), number, date) == PostCheck(db, p, q, number, date)
  {
    assert CheckEntries(p, q.(checkDate := d), number, date) == CheckEntries(p, q, number, date);
  }
}

=== FILE: wrappers.dfy ===
/** Failure-compatible Option and Result types used throughout the model. */
module Wrappers {

  datatype Option<+T> = None | Some(value: T) {
    function GetOr(default: T): T {
      match this
      case Some(v) => v
      case None => default
    }
  }

  /** The outcome of an operation that can fail with a typed error instead of raising. */
  datatype Result<+T, +E> = Ok(value: T) | Err(error: E) {
    predicate IsFailure() {
      Err?
    }

    function PropagateFailure<U>(): Result<U, E>
      requires Err?
    {
      Err(error)
    }

    function Extract(): T
      requires Ok?
    {
      value
    }
  }

  /** A validator's answer: whether the input passed and the message shown to the user. */
  datatype Verdict = Verdict(ok: bool, message: string)
}
